=== FILE: README.md ===
# kb-django business rules, in Dafny

kb-django is a Django CRM for a real-estate developer: projects split into
phases, towers and land sectors; properties priced from a base price and
weighting factors (ponderadores); sales teams with a commission hierarchy;
WhatsApp conversations that turn into leads; events with QR invitations;
and a browser widget for picking or creating a user. This project models
the rules at the centre of that system and proves what they promise.

One Dafny module per area, one file each:

- `lead_distribution.dfy` (`LeadDistribution`): the cumulative-counter
  assignment of leads to sales units, the eligibility filter and the
  distribution simulation.
- `commissions.dfy` (`Commissions`): the commission split along the
  position hierarchy, the supervision-chain walk and circular-reporting
  detection.
- `pricing.dfy` (`Pricing`): the computed property price, the ponderador
  rules (validity, activation, versioning), sold percentage and the
  development commission.
- `project_structure.dfy` (`ProjectStructure`): apartment and land codes,
  the structure builders, the property counts, the update of unsold phases
  and the paged user search.
- `structure_form.dfy` (`StructureForm`): the parser that turns the
  project form's keys into a phase structure, and the phase, ponderador and
  simple-ponderador form cleans.
- `events.dfy` (`Events`): the Ecuadorian cédula check digit, the event
  form cleans, invitation usability, the visit counter and the statistics.
- `messaging.dfy` (`Messaging`): the lead classifier of both message
  services, their MIME tables and the 24-hour reply window.
- `comm_utils.dfy` (`CommUtils`): pagination, date-range starts, phone
  and upload validation, message previews.
- `communications_models.dfy` (`CommunicationsModels`): the sales-process
  money rules, distribution-config limits and assignment deactivation.
- `security.dfy` (`Security`): the two brute-force login lockouts, as
  classes over a cache map.
- `registration.dfy` (`PublicRegistration`): username generation and the
  validation of the public sign-up form.
- `accounts.dfy` (`Accounts`): role and category deletability, age,
  coordinates, navigation order, user edit/delete permissions and the
  role derived from the sales hierarchy.
- `sales_team.dfy` (`SalesTeam`): team-name rules, team deletability and
  sales-commission totals.
- `widget.dfy` (`UserSearchWidget`): the search widget's selection state,
  username suggestion, error box and manual coordinate entry.
- `common.dfy` (`Common`): Python's string and number primitives as the
  code above uses them (`strip`, `lower`, `split`, `int()`, `float()`,
  substring search, sums and products).

The clock, the cache, the database and network replies are parameters or
fields; money and percentages are exact reals.

The widget lowercases a suggested username and then deletes every
character outside `[a-z0-9._]`, so first name "Juan" and surname "Pérez"
give "juan.prez": the accent is dropped with its letter
(`UserSearchWidget.AcentoEliminado`).

## Model

| member | source | states |
|---|---|---|
| Accounts.RoleDelete | apps/accounts/models.py:82-107 | deletion is refused exactly for a system role (that error) or a role with users (the other error); a deletable role is editable |
| Accounts.CategoryDelete | apps/accounts/models.py:31-42 | a category can be deleted exactly when it has no modules |
| Accounts.GroupDelete | apps/accounts/models.py:111-123 | a module can be deleted exactly when no role uses it |
| Accounts.GetEdad | apps/accounts/models.py:305-311 | no age without a birth date; otherwise the age-th birthday is on or before today and the next one after |
| Accounts.AgeMonotone | apps/accounts/models.py:305-311 | age never decreases as time passes |
| Accounts.GetCoordenadas | apps/accounts/models.py:290-294 | as written, a pair exactly when both coordinates are truthy (non-zero) |
| Accounts.CoordenadasEnEcuador | apps/accounts/models.py:290-303 | a user at latitude 0 has coordinates, yet get_coordenadas returns None; the corrected version returns them |
| Accounts.GetCoordenadasCorregida | apps/accounts/models.py:290-303 | a pair exactly when has_coordenadas holds, agreeing with the as-written version wherever that one answers |
| Accounts.Insert | apps/accounts/models.py:265 | inserting keeps every element and adds one |
| Accounts.SortByKey | apps/accounts/models.py:265 | sorting is a permutation |
| Accounts.InsertSorted | apps/accounts/models.py:265 | inserting into a sorted list keeps it sorted by (category order, order) |
| Accounts.InsertStable | apps/accounts/models.py:265 | inserting keeps the relative order of items with equal keys |
| Accounts.SortByKeyCorrect | apps/accounts/models.py:265 | the sort is ordered by (category order, order) and stable |
| Accounts.NavigationItems | apps/accounts/models.py:250-265 | no role gives no items; otherwise the active navigation items of the role's modules, sorted by (category order, order), stably |
| Accounts.CanEditUser | apps/accounts/views.py:52-59 | a superuser is never editable; otherwise exactly superusers may edit |
| Accounts.CanDeleteUser | apps/accounts/views.py:62-73 | deletable exactly when editable and not oneself |
| Accounts.RoleForLevel | apps/accounts/signals.py:73-85 | levels 1 and 2 map to 'Gerente de Equipo', 3 to 'Team Leader', 4 to 'Ventas', others to none |
| Accounts.MinLevel | apps/accounts/signals.py:67-71 | the least level among the active memberships, none when no membership is active |
| Accounts.HighestRoleNewSystem | apps/accounts/signals.py:58-89 | the role of a current membership of least level, none without one; whichever current membership holds that least level, the role is the one its level maps to |
| Accounts.HighestRoleLegacy | apps/accounts/signals.py:11-55 | none exactly when no position is held; otherwise the mapped role of the highest-ranked position held |
| Accounts.NuevoRol | apps/accounts/signals.py:106-124 | the derived role when an active role of that name exists, the old one when none does, and no role when nothing is derived |
| Accounts.UserAccount.constructor | apps/accounts/models.py:131-196 | a user with the given name, superuser flag and role |
| Accounts.UserAccount.UpdateRoleNewSystem | apps/accounts/signals.py:92-124 | a system role or a superuser's Super Admin role is kept; otherwise the role becomes the new role of the derivation |
| Accounts.UserAccount.MembershipSaved | apps/accounts/signals.py:136-140 | only an active membership triggers the update |
| Accounts.RolePermisos | apps/accounts/models.py:82-93 | a system role can be neither edited nor deleted; a deletable role is editable; an editable role is deletable exactly when no user holds it |
| Accounts.AdminSinPermisos | apps/accounts/views.py:47-73 | only an administrator can edit or delete a user, but a staff member who is not a superuser can do neither: is_admin is not enough |
| Accounts.RoleMappingCubreNiveles | apps/accounts/signals.py:11-18 | every role the hierarchy level gives is one the model mapping uses too; the level never gives 'Gerente de Proyecto', which only the GerenteProyecto model maps to |
| Accounts.RoleCanBeEdited | apps/accounts/models.py:82-85 | a role can be edited exactly when it is not a system role, which is exactly when it could be deleted if it had no users; a role that cannot be edited can never be deleted |
| Accounts.RoleCanBeDeleted | apps/accounts/models.py:87-94 | a system role is never deletable, a role with users is never deletable, and any other role is |
| Accounts.HasCoordenadas | apps/accounts/models.py:301-303 | true exactly when both latitude and longitude are present (not None), zero included |
| Accounts.IsAdmin | apps/accounts/views.py:47-49 | a superuser or a staff user is an administrator; nobody else is |
| Accounts.RoleMapping | apps/accounts/signals.py:11-18 | Vendedor maps to 'Ventas', TeamLeader to 'Team Leader', GerenteProyecto to 'Gerente de Proyecto', and exactly JefeVenta, GerenteEquipo and JefeProyecto map to 'Gerente de Equipo' |
| CommUtils.FloorDiv | apps/communications/utils/filters.py:197 | Python's `//`: the quotient is the floor of a / b for either sign of b |
| CommUtils.Tope | apps/communications/utils/filters.py:180 | the page size is per_page, capped at 100 |
| CommUtils.Calcular | apps/communications/utils/filters.py:180-198 | per_page is capped at 100; start = (page-1)*per_page and end - start = per_page; has_next exactly when end < total and has_previous exactly when page > 1; total_pages is the ceiling of total / per_page; slicing fails exactly when a positive page size meets a page below 1 or a negative one a page of 1 or more, and a zero page size fails on the division |
| CommUtils.Paginate | apps/communications/utils/filters.py:172-203 | only a per_page that parses to 0 escapes as an error (the division by zero is not caught); every page returned has 1..100 or a negative per_page capped at 100, never 0 |
| CommUtils.DefaultPage | apps/communications/utils/filters.py:201-203 | a parameter that does not parse gives page 1 of 20 items |
| CommUtils.TotalPagesCeiling | apps/communications/utils/filters.py:197 | total_pages pages of per_page items hold every item, and the last page is not empty |
| CommUtils.CeilingPageIff | apps/communications/utils/filters.py:188-197 | page · per_page falls short of the total exactly when the page number is below the ceiling page count |
| CommUtils.HasNextIffBeforeLastPage | apps/communications/utils/filters.py:188-197 | for page >= 1 and per_page in 1..100 there is a next page exactly when page < total_pages |
| CommUtils.DiaSemana | apps/communications/utils/filters.py:140 | weekday() lies in 0..6 |
| CommUtils.TimeRangeStart | apps/communications/utils/filters.py:131-150 | exactly the five known names give a start; a quarter starts on the 1st of month 1, 4, 7 or 10 of this year at most 2 months back; a week starts on the Monday of the last 7 days |
| CommUtils.ValidatePhoneNumber | apps/communications/utils/formatters.py:216-231 | fails exactly for a missing number or one whose digit count is outside 10..15; on success returns its digits alone |
| CommUtils.PhoneNumberIdempotent | apps/communications/utils/formatters.py:224-231 | a cleaned number validates to itself |
| CommUtils.FormatMessagePreview | apps/communications/utils/formatters.py:168-181 | '' without a message or content; the content itself up to 50 characters; otherwise its first 50 characters followed by '...'; never over 53 characters |
| CommUtils.MappedMimeIdempotent | apps/communications/utils/formatters.py:246-257 | the MIME mapping is idempotent |
| CommUtils.FileError | apps/communications/utils/formatters.py:238-276 | a file passes exactly when present, at most 16 MB and of a mapped type WhatsApp accepts |
| CommUtils.RevalidationStable | apps/communications/utils/formatters.py:274-279 | a file that passed still passes with its rewritten content type, and is not rewritten again |
| CommUtils.ValidateFileUpload | apps/communications/utils/formatters.py:233-281 | the verdict is FileError's; name and size are untouched; the content type is replaced by the mapped one exactly when the file passes |
| CommUtils.MappedMime | apps/communications/utils/formatters.py:246-256 | a MIME type in the mapping is replaced by an allowed WhatsApp type; any other is kept; the result is never a key of the mapping itself |
| Commissions.Amount | apps/sales_team_management/utils.py:49 | amount = sale * pct / 100: the whole sale at 100 %, nothing at 0 % |
| Commissions.PositionsAtOrBelow | apps/sales_team_management/utils.py:74-79 | the codes returned are exactly those of the positions whose level is at or below the given one |
| Commissions.SkippedLevels | apps/sales_team_management/utils.py:157-161 | the codes returned are exactly those of the positions strictly between the supervisor's and the seller's level |
| Commissions.SumRatesAppend | apps/sales_team_management/utils.py:67-70 | the summed commission of two code lists is the sum of their sums |
| Commissions.SumRatesNonNegative | apps/sales_team_management/utils.py:67-70 | non-negative commissions sum to a non-negative total |
| Commissions.CoveredSplits | apps/sales_team_management/utils.py:59-79 | the seller commission at level S is the positions at S, plus the skipped levels between S and T, plus the seller commission at T |
| Commissions.DirectSupervisionClosesGap | apps/sales_team_management/utils.py:144-170 | when the supervisor's position is alone at its level, a direct supervisor and the seller together earn exactly what a seller at the supervisor's level would: nothing between them is lost or paid twice |
| Commissions.SellerCommissionMonotone | apps/sales_team_management/utils.py:59-72 | with non-negative commissions a seller higher in the hierarchy earns at least as much as one below it |
| Commissions.ChainStep | apps/sales_team_management/utils.py:126-138 | one turn of the walk keeps the chain linked, drawn from the first relations and free of repeated memberships |
| Commissions.ChainEnd | apps/sales_team_management/utils.py:124-140 | when the walk stops it holds at most one relation per membership, and it ends at a membership without a relation or one already visited |
| Commissions.SupervisionChain | apps/sales_team_management/utils.py:118-142 | the chain is exactly the supervision walk: it starts at the seller, follows each membership's first active relation, links each supervisor to the next subordinate, never revisits a membership (so it has at most one step per membership), and stops only where no relation exists or a membership recurs |
| Commissions.SupervisorCommissions | apps/sales_team_management/utils.py:81-116 | a user gets an entry exactly when some relation of the chain pays them a positive commission; when several do, the entry is the share of the last such relation (dict assignment overwrites), with amount = sale * pct / 100 |
| Commissions.CalculateDistribution | apps/sales_team_management/utils.py:28-57 | the keys are the seller and exactly the users some relation of the supervision walk pays a positive commission; each paid supervisor holds the share of the last relation paying them; every amount is sale * pct / 100; when the seller supervises nobody in the chain, their entry is the seller commission of their level |
| Commissions.MergedShares | apps/sales_team_management/utils.py:54-55 | dict.update: the merged keys are the seller and exactly the paid supervisors; each paid supervisor keeps the share of the last relation paying them, even when that user is the seller; an unpaid seller keeps their own entry; every amount stays sale * pct / 100 |
| Commissions.HasCircularIffWitness | apps/sales_team_management/utils.py:300-319 | the recursive search answers True exactly when some supervisor walk from the membership reaches a membership already visited |
| Commissions.SupervisionWalkFacts | apps/sales_team_management/utils.py:118-142 | the walk starts at the seller, takes each membership's first relation, links each supervisor to the next subordinate, visits each membership once, and ends where no relation exists or a membership recurs |
| Commissions.WalkingStart | apps/sales_team_management/utils.py:120-124 | the walk invariant holds before the first step |
| Commissions.WalkingStep | apps/sales_team_management/utils.py:124-138 | one step of the walk keeps its invariant |
| Commissions.WalkFrom | apps/sales_team_management/utils.py:118-142 | from any state the walk invariant describes, the completed walk has the properties SupervisionWalkFacts lists |
| Commissions.Commissions | apps/sales_team_management/utils.py:89-103 | one commission per chain relation, each the commission that relation pays |
| Commissions.PayingStep | apps/sales_team_management/utils.py:105-113 | a relation with a positive commission makes its supervisor an earner whose entry is now that relation's share, and every other entry stays right |
| Commissions.SilentStep | apps/sales_team_management/utils.py:105 | a relation without a positive commission leaves the earners and their entries right |
| Commissions.EarnsExtends | apps/sales_team_management/utils.py:105-106 | a relation that does not pay a user does not change whether that user earns |
| Commissions.SellerNotPaid | apps/sales_team_management/utils.py:28-57 | when no relation names the seller as supervisor, no relation of the walk pays the seller |
| Commissions.NoSupervisorIsSeller | apps/sales_team_management/utils.py:133-137 | a chain of relations taken from the relation map names the seller as supervisor only if the map does |
| Commissions.SellerCommission | apps/sales_team_management/utils.py:59-72 | when every position in the hierarchy is above the seller's level, the seller commission is zero |
| Commissions.DirectSupervisionCommission | apps/sales_team_management/utils.py:144-170 | when no position lies strictly between the supervisor's and the seller's level, the supervisor earns exactly their own position's commission |
| Commissions.HasCircular | apps/sales_team_management/utils.py:300-319 | a membership already visited is circular; an unvisited membership with no supervisors is not |
| Common.WordCountZeroIffBlank | apps/communications/services/message_service.py:587 | `len(s.split())` is zero exactly when the text is all whitespace |
| Common.JoinSplit | apps/real_estate_projects/forms.py:279 | `str.split` on one separator loses nothing: joining the pieces with it gives the string back |
| Common.ParseIntToString | apps/real_estate_projects/forms.py:281-282 | `int()` reads back the decimal text of every integer, negative ones included |
| Common.IntTextIsFloatText | apps/real_estate_projects/forms.py:218 | every text `int()` accepts `float()` accepts too, with the same value |
| Common.SignedDigitsIsFloatText | apps/real_estate_projects/forms.py:218 | a signed run of digits, as `int()` reads it after stripping, is read by `float()` at the same value |
| Common.PlainDecimalIsFloat | apps/real_estate_projects/forms.py:218-219 | `float()` reads every plain decimal literal, signed or not, at its exact value |
| Common.ExponentScales | apps/real_estate_projects/forms.py:218-219 | `float()` reads a mantissa with an exponent as the mantissa times ten to that exponent, and rejects it when the mantissa is malformed |
| Common.ParseDigits | apps/real_estate_projects/forms.py:281-282 | `int()` of a run of ASCII digits is its decimal value |
| Common.ParseOneChar | apps/real_estate_projects/forms.py:281-282 | `int()` of one character succeeds exactly on an ASCII digit, with its value |
| CommunicationsModels.CleanProceso | apps/communications/models.py:753-759 | a negotiated value above property value plus discount is rejected first; otherwise a closing date before the start date is rejected; an accepted process never closes before it starts |
| CommunicationsModels.ValorFinal | apps/communications/models.py:773-778 | a set negotiated value is the final value; otherwise value minus discount; for a process clean accepts, with a non-negative discount, the final value never exceeds value plus discount |
| CommunicationsModels.PorcentajeDescuento | apps/communications/models.py:780-785 | 0 for a non-positive property value; otherwise pct * value = discount * 100 |
| CommunicationsModels.PorcentajeDescuentoRange | apps/communications/models.py:780-785 | a discount between 0 and the property value gives a percentage between 0 and 100 |
| CommunicationsModels.CanReceiveMoreLeads | apps/communications/models.py:1576-1589 | true exactly for an active config below every limit that is set, an empty or zero limit meaning none |
| CommunicationsModels.OtherActivePercentages | apps/communications/models.py:1527-1536 | at most one percentage per row: the active rows other than the one being edited |
| CommunicationsModels.CleanConfig | apps/communications/models.py:1518-1546 | a percentage over 100 is rejected first; accepted exactly when the percentage is at most 100 and, for an active config, the other active percentages plus its own are at most 100 |
| CommunicationsModels.OtherActiveAppend | apps/communications/models.py:1533-1540 | the active percentages of rows plus one more are those of the rows plus its own when active |
| CommunicationsModels.CleanKeepsActiveTotal | apps/communications/models.py:1518-1546 | creating a config that clean accepts keeps the total of the active percentages at or below 100; an inactive one leaves it unchanged |
| CommunicationsModels.AssignmentTable.constructor | apps/communications/models.py:1697-1720 | the table starts empty with every key below the next one |
| CommunicationsModels.AssignmentTable.Save | apps/communications/models.py:1697-1720 | a new active assignment first deactivates every active assignment of its lead, so afterwards it is the lead's only active one; a row with a key is written in place; rows of other leads are untouched |
| CommunicationsModels.Deactivated | apps/communications/models.py:1699-1703 | the bulk update keeps every key, lead and unit; afterwards no row of the lead is active; rows of other leads are unchanged |
| Events.Ajustado | apps/events/forms.py:158-160 | a product of a digit and 1 or 2, reduced by 9 above 9, is a single digit |
| Events.CheckDigitIff | apps/events/forms.py:163-164 | the check digit (10 - s mod 10) mod 10 is exactly the digit that completes s to a multiple of ten |
| Events.ProvinciaTexto | apps/events/forms.py:149 | int() of the first two digits is the province number |
| Events.IntDeCaracter | apps/events/forms.py:159 | the method's answer is `int()` of the one character: its value for an ASCII digit, a failure otherwise |
| Events.IntDePrefijo | apps/events/forms.py:150 | the method's answer is `int()` of the first two characters (the whole text when it is shorter), and that is the province number when both are digits |
| Events.Verificador | apps/events/forms.py:165 | the computed check digit is always a single digit 0..9 |
| Events.VerificadorDecide | apps/events/forms.py:165-166 | once ten digits and a province 1..24 are in place, comparing the computed check digit with the tenth digit decides validity exactly |
| Events.ValidarCedula | apps/events/forms.py:146-169 | the method answers true exactly for a valid cédula: ten leading digits, province 1..24, and a tenth digit that brings the adjusted sum to a multiple of ten; a failed int() or a short text answers false |
| Events.SumaPonderada | apps/events/forms.py:153-161 | the loop fails exactly when one of the first nine characters is missing or not a digit, and otherwise returns the sum of the adjusted products |
| Events.AjustadoInjective | apps/events/forms.py:158-160 | the adjusted product is one-to-one on digits for coefficient 1 and 2 |
| Events.SumaDiffers | apps/events/forms.py:155-161 | two texts differing in one of the first nine digits have sums differing only by that digit's product |
| Events.SingleDigitErrorDetected | apps/events/forms.py:146-169 | changing any one of the ten digits of a valid cédula makes it invalid |
| Events.LeadingDigitError | apps/events/forms.py:155-166 | a change in one of the first nine digits breaks the check-digit equation |
| Events.SumaUnchanged | apps/events/forms.py:155-161 | texts agreeing on their first k digits have the same partial sum |
| Events.CedulaLimpia | apps/events/forms.py:119-130 | an empty value is returned as it came; otherwise a digit count other than 10 gives the length error, and a ten-digit value is accepted as its digits exactly when those form a valid cédula, the check-digit error otherwise |
| Events.CleanCedulaCliente | apps/events/forms.py:119-130 | the clean, run with the check-digit loop, answers what CedulaLimpia states |
| Events.CedulaLimpiaIdempotent | apps/events/forms.py:119-130 | a cleaned cédula passes the clean again unchanged |
| Events.TelefonoLimpio | apps/events/forms.py:132-142 | a phone is refused exactly when given with fewer than 7 digits, and is otherwise kept as typed |
| Events.CleanEvento | apps/events/forms.py:58-71 | with both dates, an end not after the start is rejected first, then a new event starting in the past |
| Events.CleanExpiracion | apps/events/forms.py:198-204 | an expiry in the past is refused, any other value kept as typed |
| Events.EventoAceptadoActivo | apps/events/models.py:46-50 | an event switched on and accepted by the form is active over its whole period and at no other time |
| Events.InvitacionQR.constructor | apps/events/models.py:138-151 | a new invitation is active and unused |
| Events.NuevaInvitacionUsable | apps/events/models.py:142-151 | a new invitation allowing a use, whose expiry the form accepted, can be used at that time |
| Events.VisitaEvento.constructor | apps/events/models.py:212-221 | a new visit has no key yet |
| Events.VisitaEvento.Save | apps/events/models.py:212-221 | the first save takes a key and adds exactly one use to the invitation; a stored visit leaves the counter alone; nothing else of the invitation changes; a visit saved while uses were left never takes the count past the maximum |
| Events.DistintasBound | apps/events/models.py:246-248 | the distinct cédulas are never more than the visits |
| Events.StatsDe | apps/events/models.py:256-265 | each seller entry records one invitation and no more distinct clients than visits |
| Events.VendedoresKeys | apps/events/models.py:254-265 | the dictionary has one entry per seller with an invitation, each recording a single invitation |
| Events.VendedoresEntry | apps/events/models.py:254-265 | a seller's entry comes from their last invitation |
| Events.EstadisticaEvento.constructor | apps/events/models.py:229-231 | the statistics start at zero and empty |
| Events.EstadisticaEvento.ActualizarEstadisticas | apps/events/models.py:241-268 | the totals are the invitation count, the visit count and the distinct cédulas (at most the visits); the per-seller dictionary is the one the loop builds |
| Events.PuedeUsarAntes | apps/events/models.py:142-151 | an invitation usable at some time was usable at every earlier time, and one whose uses reached the maximum is usable at no time |
| Events.CedulaValida | apps/events/forms.py:146-169 | a valid cédula has ten leading digits and a province from 1 to 24; given those, it is valid exactly when the check digit computed from the first nine digits equals the tenth |
| Events.EstaActivo | apps/events/models.py:46-50 | an inactive event, or a time outside [start, end], is never active; an active event within its period is |
| Events.InvitacionQR.PuedeUsar | apps/events/models.py:142-151 | an inactive invitation, one whose uses reached the maximum, or one past its expiry cannot be used; any other can |
| LeadDistribution.FirstMaxUnique | apps/communications/lead_distribution_service.py:71-73 | the choice is deterministic: at most one index is the first strict maximum |
| LeadDistribution.PickFirstMax | apps/communications/lead_distribution_service.py:45-73 | nothing is chosen exactly when no deficit beats -999999; otherwise the choice is the first index of the maximum deficit, so a tie goes to the earliest unit; the scan agrees with the recursive reference FirstMax |
| LeadDistribution.FirstMaxUpToSpec | apps/communications/lead_distribution_service.py:202-219 | the reference scan over the first n deficits finds nothing exactly when none of them beats -999999, and otherwise the first index of their strict maximum |
| LeadDistribution.FirstMaxSpec | apps/communications/lead_distribution_service.py:202-219 | the reference scan over all deficits finds nothing exactly when none beats -999999, and otherwise the first index of the strict maximum |
| LeadDistribution.Eligible | apps/communications/lead_distribution_service.py:89-113 | the eligible configs are exactly the given ones that can receive more leads |
| LeadDistribution.EligibleAppend | apps/communications/lead_distribution_service.py:98-103 | the filter keeps the name order: filtering a concatenation concatenates the filtered parts |
| LeadDistribution.GetEligibleConfigs | apps/communications/lead_distribution_service.py:89-113 | the loop returns the eligible configs, in name order |
| LeadDistribution.Deficits | apps/communications/lead_distribution_service.py:51-61 | one deficit per eligible config, pct/100 * (today + 1) - current |
| LeadDistribution.CurrentDeficit | apps/communications/lead_distribution_service.py:158-168 | the note's deficit is the selection deficit less the unit's share of the one new lead |
| LeadDistribution.GetNextSalesForce | apps/communications/lead_distribution_service.py:18-87 | no eligible config gives None; None exactly when no deficit beats the sentinel; otherwise the eligible unit at the first maximum deficit, which is active and under its limits |
| LeadDistribution.Insert | apps/communications/lead_distribution_service.py:189-196 | writing a key of the results dict adds its name, keeps names distinct and holds the new entry |
| LeadDistribution.NamesCons | apps/communications/lead_distribution_service.py:189-196 | the names of a dict with one more entry in front are that name plus the rest |
| LeadDistribution.DistinctCons | apps/communications/lead_distribution_service.py:189-196 | a dict with an entry in front has distinct names exactly when the rest does and lacks that name |
| LeadDistribution.ActiveConfigs | apps/communications/lead_distribution_service.py:180-183 | exactly the configs active for leads |
| LeadDistribution.Counts | apps/communications/lead_distribution_service.py:236 | one assigned count per unit result |
| LeadDistribution.BuildTable | apps/communications/lead_distribution_service.py:188-196 | the loop builds exactly the dict obtained by writing each active config's unit name and percentage in turn (so each unit keeps the position of its first config and the percentage of its last); it has one entry per distinct active unit name and is non-empty when some config is active |
| LeadDistribution.SimDeficits | apps/communications/lead_distribution_service.py:205-215 | one deficit per dict entry, expected/100 * lead_num - assigned_count |
| LeadDistribution.SimStepEffect | apps/communications/lead_distribution_service.py:200-227 | after one lead, an entry's count grows by one exactly when its deficit is the first maximum, beats -999999 and its name is non-empty (a falsy name is never assigned); every other count stays |
| LeadDistribution.AssignLeads | apps/communications/lead_distribution_service.py:199-227 | the counts are exactly those of the lead-by-lead simulation SimCounts, one per entry; never more leads are assigned than simulated; with sane percentages and names and fewer than 999999 leads, every lead is assigned to exactly one unit |
| LeadDistribution.AssignOne | apps/communications/lead_distribution_service.py:201-227 | one pass of the lead loop (deficits, selection scan, increment of the winner) yields exactly the next simulation step |
| LeadDistribution.SimCountsSum | apps/communications/lead_distribution_service.py:199-227 | after n simulated leads at most n are assigned, and exactly n for a non-empty sane table with at most 999999 leads |
| LeadDistribution.SimStepAssigns | apps/communications/lead_distribution_service.py:222-227 | a lead that goes to a named winner adds one to the total assigned |
| LeadDistribution.SimStepIdle | apps/communications/lead_distribution_service.py:222 | a lead with no winner, or a winner with an empty name, changes no count |
| LeadDistribution.SanePicks | apps/communications/lead_distribution_service.py:203-222 | while the leads so far are all assigned and fewer than 999999, a sane table always assigns the next lead |
| LeadDistribution.SimStepPicks | apps/communications/lead_distribution_service.py:202-227 | the step increments exactly the index the selection scan picks when it names a unit, and otherwise leaves the counts |
| LeadDistribution.FirstEntryBeatsSentinel | apps/communications/lead_distribution_service.py:203-219 | while fewer than 999999 leads are assigned, the first unit's deficit beats the sentinel, so some unit is chosen |
| LeadDistribution.SimulateDistribution | apps/communications/lead_distribution_service.py:170-241 | no active config gives the error; zero leads divide by zero; otherwise the results follow the simulation dict built from the active configs in order (names, order and expected percentages), each unit's assigned count is the one the lead-by-lead simulation gives it, total_assigned is the sum of the counts and at most num_leads (equal to it for sane configs), and each final percentage is assigned/num_leads*100 |
| LeadDistribution.InsertNew | apps/communications/lead_distribution_service.py:189-196 | writing a key the results dict does not hold appends it as the last entry |
| LeadDistribution.InsertExisting | apps/communications/lead_distribution_service.py:189-196 | writing a key the dict already holds keeps every entry in place and replaces only that key's value |
| LeadDistribution.TableSpecFacts | apps/communications/lead_distribution_service.py:188-196 | the dict built by writing each active config in turn has each active unit name once, sane entries for sane configs, and an entry when some config is active |
| LeadDistribution.TableSpecLastWins | apps/communications/lead_distribution_service.py:188-196 | each unit's entry holds the percentage of the last active config naming it |
| Messaging.ShouldCreateLead | apps/communications/services/message_service.py:557-591 | without text a lead is opened exactly for a non-text message; a keyword anywhere in the lowercased, stripped text opens one; otherwise one opens exactly when the text has at least 3 words and 10 characters |
| Messaging.ServicesImpliesMessageService | apps/communications/services.py:715-748 | whatever opens a lead under the shorter keyword list of services.py opens one under MessageService's list |
| Messaging.BlankTextNoLead | apps/communications/services/message_service.py:564-591 | a message of only whitespace never opens a lead, whatever its type |
| Messaging.GreetingOnlyInMessageService | apps/communications/services.py:729-736 | the text 'hola' opens a lead in MessageService but not in services.py, whose list has no greetings |
| Messaging.OneWord | apps/communications/services/message_service.py:587 | a text without whitespace counts as a single word for `split()` |
| Messaging.ExtensionFromMime | apps/communications/services/message_service.py:664-696 | a known MIME type gets its extension and exactly the unknown ones get '.bin'; every extension starts with a point |
| Messaging.ServicesExtensionFromMime | apps/communications/services.py:274-291 | a known MIME type gets its extension and exactly the unknown ones get '.dat'; every extension starts with a point |
| Messaging.ExtensionTablesAgree | apps/communications/services.py:274-291 | every type the smaller table knows maps to the same extension in the larger one; a type neither knows gets '.bin' in one and '.dat' in the other |
| Messaging.UltimoEntrante | apps/communications/services.py:783-785 | the newest incoming message is missing exactly when there is none, and is one of them and no older than any |
| Messaging.VentanaRespuesta | apps/communications/services.py:781-806 | without a conversation nothing is checked; with no incoming message the answer is SIN_MENSAJE_INICIAL; an expired window reports time_limit = now - 24 h |
| Messaging.VentanaAbiertaIff | apps/communications/services.py:787-798 | sending is allowed exactly when some incoming message is at most 24 hours old |
| Messaging.VentanaCerradaPersiste | apps/communications/services.py:787-798 | once closed, the window stays closed at every later time until a new message arrives |
| Messaging.Normalizado | apps/communications/services/message_service.py:568 | the lower-cased, stripped content is no longer than the original, has no blank at either end and no upper-case ASCII letter |
| Pricing.Round2 | apps/real_estate_projects/models.py:830 | round(x, 2) lands on a whole number of cents within half a cent of x, strictly nearer than half a cent off a tie, and on the even cent at a tie |
| Pricing.Round2Cents | apps/real_estate_projects/models.py:830 | rounding an amount already in whole cents leaves it unchanged |
| Pricing.Round2Monotone | apps/real_estate_projects/models.py:830 | rounding to cents preserves order |
| Pricing.Ponderador.constructor | apps/real_estate_projects/models.py:423-560 | a new ponderador holds exactly the given fields, activated by its creator and never deactivated |
| Pricing.Ponderador.Clean | apps/real_estate_projects/models.py:582-602 | each error is reported exactly when its rule is the first to fail, in the order both-values, no-value, phase required at level 'fase', phase of another project, activation date missing, activation not before deactivation; when every rule passes the object is accepted |
| Pricing.Ponderador.FactorMultiplicador | apps/real_estate_projects/models.py:605-609 | the factor is 1 without a percentage and otherwise exceeds 1 by percentage/100; non-negative for percentages of at least -100 |
| Pricing.Ponderador.EstaVigente | apps/real_estate_projects/models.py:621-635 | in force exactly when active, activated no later than now and not yet deactivated; fails exactly for an active ponderador without activation date |
| Pricing.Ponderador.Activar | apps/real_estate_projects/models.py:637-644 | active, activated by the user, activation date kept or set to now, every other field unchanged; in force now when newly activated and not deactivated |
| Pricing.Ponderador.Desactivar | apps/real_estate_projects/models.py:646-652 | inactive, deactivated by the user from the given date or now, other fields unchanged, and never in force afterwards |
| Pricing.Ponderador.CrearNuevaVersion | apps/real_estate_projects/models.py:654-680 | the old version is deactivated now and otherwise unchanged; the new one is fresh, active, never deactivated, version+1, child of the old, same project and phase; its type, description and every other field are taken from the new data or kept, dates only from the new data |
| Pricing.AppliesAtMatchesVigente | apps/real_estate_projects/models.py:793-817 | the pricing filter and esta_vigente agree except at the exact instant of deactivation |
| Pricing.InForce | apps/real_estate_projects/models.py:793-817 | keeps exactly the ponderadores of the level that the filter accepts |
| Pricing.MontosFactoresAppend | apps/real_estate_projects/models.py:820-826 | amounts and factors of a concatenation are the concatenations |
| Pricing.MontoAdicionalAppend | apps/real_estate_projects/models.py:821-823 | the fixed amounts of two groups add up |
| Pricing.FactorTotalAppend | apps/real_estate_projects/models.py:824-826 | the factors of two groups multiply |
| Pricing.PonderadorStep | apps/real_estate_projects/models.py:820-826 | one more ponderador adds its truthy fixed amount or multiplies in its factor, never both |
| Pricing.SingleOne | apps/real_estate_projects/models.py:821-826 | a single ponderador contributes its amount or its factor |
| Pricing.ChainOrderIrrelevant | apps/real_estate_projects/models.py:820 | the order in which levels are chained does not change the amount or the factor |
| Pricing.PrefixStep | apps/real_estate_projects/models.py:820-826 | one more ponderador adds its truthy fixed amount to the sum, or else multiplies its factor into the product |
| Pricing.AplicarPonderadores | apps/real_estate_projects/models.py:788-826 | the loop yields the sum of the truthy fixed amounts and the product of the other ponderadores' factors |
| Pricing.PrecioConPonderadores | apps/real_estate_projects/models.py:829-830 | (base + amounts) x factors, rounded to cents |
| Pricing.PrecioCalculado | apps/real_estate_projects/models.py:777-832 | a truthy manual price wins; no area or no price per m2 gives 0; otherwise the weighted price of area x price per m2 x factor with the project, phase and property ponderadores in force |
| Pricing.NeutralPonderadores | apps/real_estate_projects/models.py:605-609 | ponderadores of 0% and no fixed amount leave amount 0 and factor 1 |
| Pricing.ProyectoCanBeDeleted | apps/real_estate_projects/models.py:146-152 | deletable exactly when every phase has no properties |
| Pricing.CanBeDeletedIffEmpty | apps/real_estate_projects/models.py:114-119 | deletable exactly when the project's property total is 0 |
| Pricing.PorcentajeVendido | apps/real_estate_projects/models.py:138-143 | 0 for an empty project, otherwise within half a cent of the sold share in percent |
| Pricing.PorcentajeVendidoRange | apps/real_estate_projects/models.py:138-143 | with no more sold than existing, the percentage lies in 0..100 |
| Pricing.CleanComisionDesarrollo | apps/real_estate_projects/models.py:918-925 | accepted exactly when the two shares total at most 100 |
| Pricing.OnePonderador | apps/real_estate_projects/models.py:820-826 | a single ponderador in force adds its fixed amount to the price when that amount is truthy and leaves the factor at 1; otherwise it adds nothing and the factor is its multiplier |
| Pricing.TotalPorcentaje | apps/real_estate_projects/models.py:918-920 | the total minus either share is the other share, and with non-negative shares each share is at most the total |
| ProjectStructure.Pad2Int | apps/real_estate_projects/views.py:1291 | the `:02d` format gives two digits for 0..99 and starts with a minus sign for negatives |
| ProjectStructure.Pad2Injective | apps/real_estate_projects/views.py:1291 | two-digit padding tells apart any two numbers below 100 |
| ProjectStructure.CodigoDepartamentoInjective | apps/real_estate_projects/views.py:1291 | below 100, an apartment code has 9 characters and equal codes mean equal tower, floor and apartment |
| ProjectStructure.CodigoTerrenoInjective | apps/real_estate_projects/views.py:1393 | below 100, equal lot codes mean equal sector, block and lot, and no lot code equals an apartment code |
| ProjectStructure.UniformPisos | apps/real_estate_projects/views.py:1257-1262 | the default floor map has one entry per floor of the range, in order, each with the same apartment count |
| ProjectStructure.DeptoUnitsCodes | apps/real_estate_projects/views.py:1290-1303 | a floor with k apartments receives apartments 1..k in order |
| ProjectStructure.TorresUnitsFacts | apps/real_estate_projects/views.py:1247-1303 | the apartments created for a set of towers number their summed floor counts, all with the phase's commercialisation flag |
| ProjectStructure.PisosUnitsFacts | apps/real_estate_projects/views.py:1278-1303 | the apartments of a tower number the sum of its floors' counts, all with the phase's flag |
| ProjectStructure.CreateFloor | apps/real_estate_projects/views.py:1290-1304 | the loop creates exactly apartments 1..n of the floor |
| ProjectStructure.CreateTower | apps/real_estate_projects/views.py:1256-1304 | one tower creates its floors' apartments in order, with the floor map from the form or the default range, and records its number of floors |
| ProjectStructure.CreateDynamicApartments | apps/real_estate_projects/views.py:1240-1309 | every tower is recorded with its number and floor count, and the apartments created are exactly the units `TorresUnits` lists, tower by tower |
| ProjectStructure.TerrenoUnitsCodes | apps/real_estate_projects/views.py:1392-1407 | a block with k lots receives lots 1..k in order |
| ProjectStructure.ManzanasUnitsFacts | apps/real_estate_projects/views.py:1379-1408 | the blocks of a range create blocks x lots-per-block lots, all with the same flag |
| ProjectStructure.SectorUnitsFacts | apps/real_estate_projects/views.py:1328-1408 | a sector creates no lot when skipped, otherwise blocks x lots; each lot is commercialisable when the phase or the sector is |
| ProjectStructure.SectoresUnitsFacts | apps/real_estate_projects/views.py:1318-1408 | the lots created number the sum of the sector totals; a commercialisable phase makes every lot commercialisable |
| ProjectStructure.CreateBlock | apps/real_estate_projects/views.py:1392-1408 | the loop creates exactly lots 1..n of the block |
| ProjectStructure.CreateBlocks | apps/real_estate_projects/views.py:1379-1408 | blocks lo..hi are created in order with their lots |
| ProjectStructure.CreateSector | apps/real_estate_projects/views.py:1328-1408 | an empty block range or a non-positive lot count creates nothing; otherwise the sector's blocks |
| ProjectStructure.CreateDynamicLand | apps/real_estate_projects/views.py:1312-1421 | skipped sectors create nothing and every other sector its blocks and lots, sector by sector |
| ProjectStructure.AddPerRange | apps/real_estate_projects/views.py:1444-1446 | adding n once per number of lo..hi gives the range length times n, 0 for an empty range |
| ProjectStructure.CountTotalProperties | apps/real_estate_projects/views.py:1424-1468 | the reported total is, per tower, floor range times apartments per floor and, per sector, block range times lots per block, with the form's defaults |
| ProjectStructure.CountMismatch | apps/real_estate_projects/views.py:1436-1448 | a tower with 4 apartments on floor 1 and 2 on floor 3 is reported as 12 apartments while 6 are created |
| ProjectStructure.CountCreatedProperties | apps/real_estate_projects/views.py:842-895 | the corrected count equals the number of property records the project receives |
| ProjectStructure.CountFase | apps/real_estate_projects/views.py:884-895 | one phase's count equals the records it receives: towers in an apartment project, sectors in a land project |
| ProjectStructure.CountTowers | apps/real_estate_projects/views.py:1247-1304 | the count over towers equals the summed floor counts the builder creates |
| ProjectStructure.CountSectors | apps/real_estate_projects/views.py:1318-1408 | the count over sectors equals the summed sector totals, skipping what the builder skips |
| ProjectStructure.CountTower | apps/real_estate_projects/views.py:1256-1304 | one tower's count is the sum of its floors' apartment counts |
| ProjectStructure.UniformTowersCountAgrees | apps/real_estate_projects/views.py:1436-1448 | when every tower's floors are the uniform range the summary keys describe, the reported count is right |
| ProjectStructure.UniformPisosTotal | apps/real_estate_projects/views.py:1259-1262 | a uniform floor range holds range length times apartments per floor |
| ProjectStructure.DeleteUnsoldPhases | apps/real_estate_projects/views.py:1475-1487 | with new phases, the kept phases are exactly those with sales, in their original order (ConVentas), and the project's sold count is unchanged; without, nothing is deleted |
| ProjectStructure.ConVentas | apps/real_estate_projects/views.py:1481-1487 | the phases that survive the deletion pass: a phase is kept exactly when it has sales, never more phases than before |
| ProjectStructure.VendidosConVentas | apps/real_estate_projects/views.py:1481-1487 | deleting the phases with no sales leaves the project's sold count unchanged |
| ProjectStructure.VendidosLast | apps/real_estate_projects/models.py:129-135 | the sold count of a project is that of all phases but the last plus the last one's |
| ProjectStructure.VendidosAppend | apps/real_estate_projects/models.py:129-135 | the sold count of a project adds over its phases |
| ProjectStructure.SearchUsersPage | apps/real_estate_projects/views.py:723-764 | page p covers users 20(p-1) up to 20p; more pages exist exactly when users remain past 20p; a page below 1 fails |
| ProjectStructure.HasMoreIffNextPageNonEmpty | apps/real_estate_projects/views.py:763-764 | 'more' is set exactly when the next page shows somebody |
| ProjectStructure.PagesCoverUsers | apps/real_estate_projects/views.py:742-745 | the first k pages show min(total, 20k) users |
| ProjectStructure.SearchResultText | apps/real_estate_projects/views.py:750-755 | the text always contains the username; it is the username alone when the full name is blank, and otherwise exactly the stripped full name, a space and the username in parentheses |
| ProjectStructure.CodigoDepartamento | apps/real_estate_projects/views.py:1291 | the code starts with 'T'; for tower, floor and unit numbers from 0 to 99 it is exactly nine characters 'T..P..D..' whose digit pairs read back as the three numbers |
| ProjectStructure.CodigoTerreno | apps/real_estate_projects/views.py:1393 | the code starts with 'S'; for sector, block and plot numbers from 0 to 99 it is exactly nine characters 'S..M..T..' whose digit pairs read back as the three numbers |
| ProjectStructure.SectorSkipped | apps/real_estate_projects/views.py:1351-1357 | a sector is skipped exactly when its block range is empty (start after end) or it has no plots per block |
| PublicRegistration.PrimeraPalabra | apps/sales_team_management/views/public_registration.py:87 | `s.split()[0]`: missing exactly when the text is all whitespace; otherwise a non-empty, whitespace-free piece of the text that ends at whitespace or at the end of the text |
| PublicRegistration.UsernameBase | apps/sales_team_management/views/public_registration.py:83-93 | the base is empty only when both names are; it starts with the lowercased initial of the first name, ends with the lowercased first word of the surname, and its length is exactly those two parts' |
| PublicRegistration.CandidatosDistintos | apps/sales_team_management/views/public_registration.py:96-100 | different counters give different candidate names, so the loop never retries a name |
| PublicRegistration.GenerarUsername | apps/sales_team_management/views/public_registration.py:96-102 | the name returned is not taken, and it is the first of base, base1, base2, ... that is free |
| PublicRegistration.SiguienteProbado | apps/sales_team_management/views/public_registration.py:98-100 | each loop turn tries a name not tried before, which bounds the loop by the number of taken names |
| PublicRegistration.Reglas | apps/sales_team_management/views/public_registration.py:147-175 | each password rule is reported exactly when it fails (under 8 characters, no upper-case, no lower-case, no punctuation, contains a name), and none is reported exactly for a strong password |
| PublicRegistration.ReglasTalCual | apps/sales_team_management/views/public_registration.py:170-172 | as written: the name test raises exactly when the first name is not in the password and the surname has no word; otherwise the name rule is reported exactly when either name is contained |
| PublicRegistration.ErrorNacimiento | apps/sales_team_management/views/public_registration.py:193-216 | no error exactly for a parsed date that is not in the future, at most 120 calendar years back and at least 18 years before today; otherwise the first failing check in that order names the error (required, bad format, future, too old, minor), and a minor is reported with their age |
| PublicRegistration.ErroresCoordenadas | apps/sales_team_management/views/public_registration.py:221-235 | nothing is checked unless both fields are given; a failed float() on either reports 'coordenadas' alone; otherwise each coordinate outside its range, NaN and infinities included, reports its own field |
| PublicRegistration.ErrorDeFoto | apps/sales_team_management/views/public_registration.py:237-246 | no error exactly for a missing photo or an image of at most 5 MB; a size error is kept only when the type is allowed |
| PublicRegistration.ErroresCon | apps/sales_team_management/views/public_registration.py:125-246 | the errors dict holds exactly the fields whose check fails, each with its message |
| PublicRegistration.ErroresVaciosIff | apps/sales_team_management/views/public_registration.py:248-252 | the dict is empty exactly when every field passes |
| PublicRegistration.Clave | apps/sales_team_management/views/public_registration.py:129-246 | every key of the errors dict is a non-empty field name |
| PublicRegistration.Errores | apps/sales_team_management/views/public_registration.py:125-252 | corrected validation: the dict is empty exactly for a valid registration; the password is reported exactly when missing or weak; the surname exactly when missing |
| PublicRegistration.ErroresTalCual | apps/sales_team_management/views/public_registration.py:147-175 | as written: the validation ends in the generic exception exactly when a non-empty password hits the unguarded `split()[0]` |
| PublicRegistration.NoJuan | apps/sales_team_management/views/public_registration.py:171 | the password 'Segura#2024' does not contain the name 'Juan', so the view goes on to the surname |
| PublicRegistration.ApellidoVacioOcultaErrores | apps/sales_team_management/views/public_registration.py:131-132 | an empty surname with a password not containing the first name makes the view fail with a generic error, while the corrected validation reports the missing surname |
| PublicRegistration.NombreVacioSiempreContenido | apps/sales_team_management/views/public_registration.py:171 | with an empty first name every otherwise strong password is rejected as containing the name; the guarded rules accept it |
| PublicRegistration.PrimeraPalabraEsPrimera | apps/sales_team_management/views/public_registration.py:87 | the first word is the text's first run of non-whitespace: only whitespace comes before it and whitespace or the end comes after it |
| PublicRegistration.PasswordFuerte | apps/sales_team_management/views/public_registration.py:147-175 | a password shorter than 8, lacking an upper-case letter, a lower-case letter or a punctuation symbol, or containing the first name or first surname (case-insensitively) is rejected; one meeting every rule is accepted |
| PublicRegistration.TelefonoValido | apps/sales_team_management/views/public_registration.py:188-191 | a phone is valid exactly when it is eight digits starting with 6 or 7 |
| SalesTeam.ValidarNombre | apps/sales_team_management/models.py:34-46 | an empty trimmed name is refused; a non-empty one is refused exactly when another team's name equals it ignoring case |
| SalesTeam.StripIdempotent | apps/sales_team_management/models.py:30-52 | trimming in save and again in clean trims nothing more |
| SalesTeam.GuardarConservaUnicos | apps/sales_team_management/models.py:38-46 | a name accepted for a team keeps all stored names distinct ignoring case |
| SalesTeam.MismoEquipoOtroCaso | apps/sales_team_management/models.py:39-41 | a team may be renamed to its own name in another case, because its own row is excluded |
| SalesTeam.EquipoVenta.constructor | apps/sales_team_management/models.py:10-19 | a team with the given key and name |
| SalesTeam.EquipoVenta.Clean | apps/sales_team_management/models.py:26-46 | the name is trimmed and then validated against the other teams |
| SalesTeam.EquipoVenta.Save | apps/sales_team_management/models.py:48-57 | the name is trimmed and validated; an accepted name is non-empty and has no surrounding whitespace |
| SalesTeam.SinActivosIffCero | apps/sales_team_management/models.py:77-103 | no active record at any level is the same as an active count of zero |
| SalesTeam.VendedoresCero | apps/sales_team_management/models.py:100 | no active seller exactly when the count of active sellers is zero |
| SalesTeam.TLsCero | apps/sales_team_management/models.py:95-101 | every team leader free exactly when the count below them is zero |
| SalesTeam.JefesCero | apps/sales_team_management/models.py:90-101 | every sales head free exactly when the count below them is zero |
| SalesTeam.GerentesCero | apps/sales_team_management/models.py:84-101 | every manager free exactly when the count below them is zero |
| SalesTeam.TieneVendedorActivo | apps/sales_team_management/models.py:99-101 | true exactly when the team leader has an active seller |
| SalesTeam.JefeBloquea | apps/sales_team_management/models.py:94-101 | a sales head blocks deletion exactly when some team leader below is active or has an active seller |
| SalesTeam.GerenteBloquea | apps/sales_team_management/models.py:89-101 | a manager's subtree blocks deletion exactly when some record below is active |
| SalesTeam.CanBeDeleted | apps/sales_team_management/models.py:77-103 | deletable exactly when the team has no project and no active record at any level, under active and inactive parents alike |
| SalesTeam.ComisionValida | apps/sales_team_management/models.py:250-260 | accepted exactly when the four percentages total at most 100 |
| SalesTeam.RepartoNoExcede | apps/sales_team_management/models.py:250-260 | with non-negative accepted percentages, the four shares of a sale never exceed the sale |
| SalesTeam.TotalPorcentaje | apps/sales_team_management/models.py:250-255 | for any sale amount, the four shares of the split add up to the amount times the total percentage over 100 |
| Security.RemainingSeconds | apps/security/fixed_middleware.py:148-154 | the seconds left are never negative, are the whole part of the time left, and are 0 once less than a second remains |
| Security.ClientIp | apps/security/fixed_middleware.py:58-65 | with X-Forwarded-For the IP is its first comma-separated entry, stripped, and holds no comma; otherwise REMOTE_ADDR, else 'unknown' |
| Security.ClientIpSinStrip | apps/security/middleware.py:53-60 | with X-Forwarded-For the IP is the header's text up to its first comma (unstripped, the whole header when it has no comma); otherwise REMOTE_ADDR, possibly missing |
| Security.EffectiveBruteForce.constructor | apps/security/fixed_middleware.py:18-23 | MAX_ATTEMPTS defaults to 5 and LOCKOUT_TIME to 900 s; the cache starts empty and the no-IP-at-the-limit invariant holds |
| Security.EffectiveBruteForce.RemainingTime | apps/security/fixed_middleware.py:148-154 | for a blocked IP, the whole seconds left: at most the time until blocked_until and less than one second short of it; 0 for an IP that is not blocked |
| Security.EffectiveBruteForce.RegisterAttempt | apps/security/fixed_middleware.py:74-83 | the counter becomes the live count plus one, kept for 900 s; blocks are untouched |
| Security.EffectiveBruteForce.BlockIp | apps/security/fixed_middleware.py:90-98 | blocked_until becomes now + LOCKOUT_TIME, so the IP is blocked exactly at the times before that, and the IP's counter is deleted |
| Security.EffectiveBruteForce.ClearAttempts | apps/security/fixed_middleware.py:100-103 | both the counter and the block of the IP are deleted: the IP is blocked at no time |
| Security.EffectiveBruteForce.RecordFailure | apps/security/fixed_middleware.py:47-53 | a failed login raises the live count by one; reaching MAX_ATTEMPTS instead deletes the counter and blocks the IP for LOCKOUT_TIME; other IPs' counters and blocks are untouched; the no-counter-at-the-limit invariant is kept |
| Security.EffectiveBruteForce.Call | apps/security/fixed_middleware.py:25-56 | a blocked IP posting to the login page gets the 429 answer with the seconds left and changes nothing; other paths and unanswered requests change nothing; a redirect deletes exactly that IP's counter and block; a failure page adds one attempt and, on reaching MAX_ATTEMPTS, blocks the IP and deletes its counter; no IP is ever left holding MAX_ATTEMPTS failures |
| Security.Recent | apps/security/middleware.py:76 | keeps exactly the failures younger than the window, never more than it was given |
| Security.BruteForceProtection.constructor | apps/security/middleware.py:18-24 | MAX_ATTEMPTS defaults to 5, LOCKOUT_TIME and ATTEMPT_WINDOW to 300 s; the cache starts empty |
| Security.BruteForceProtection.RegisterFailedAttempt | apps/security/middleware.py:69-92 | the stored list is the recent failures followed by now, kept for one window, and the IP is blocked for LOCKOUT_TIME, at exactly the times before now + LOCKOUT_TIME, when that list reaches MAX_ATTEMPTS |
| Security.BruteForceProtection.ClearFailedAttempts | apps/security/middleware.py:94-96 | the failure list is deleted and whether the IP is blocked, at any time, is unchanged |
| Security.BruteForceProtection.RemainingTime | apps/security/middleware.py:129-135 | for a blocked IP, the whole seconds left: at most the time until blocked_until and less than one second short of it; 0 for an IP that is not blocked |
| Security.BruteForceProtection.Call | apps/security/middleware.py:26-66 | the IP is the first X-Forwarded-For piece or REMOTE_ADDR, and a missing one keys the cache as "None"; a blocked IP posting to the login page gets the 429 answer and changes nothing; other paths change nothing; a redirect deletes exactly that IP's failures but keeps the block; a failure page stores the windowed list for that IP alone and blocks at MAX_ATTEMPTS |
| Security.RecentLater | apps/security/middleware.py:76-82 | filtering at one time and again at a later time equals filtering once at the later time: the window only forgets |
| Security.IpKey | apps/security/middleware.py:62-71 | the cache key part of an IP is the IP itself, and "None" when no IP was found |
| Security.IndicadoresComunes | apps/security/fixed_middleware.py:105-119 | every page the effective middleware counts as a failed login the windowed middleware counts too; the converse holds for every page without "fail" in it |
| Security.FrasesIncorrect | apps/security/fixed_middleware.py:112-113 | both Spanish error phrases contain "incorrect" |
| Security.RecentAppend | apps/security/middleware.py:76 | the window filter works element by element: filtering a concatenation concatenates the filtered parts |
| Security.RecentSingle | apps/security/middleware.py:76 | one failure is kept exactly when it is younger than the window |
| Security.IsFailedLoginResponse | apps/security/fixed_middleware.py:105-122 | a response is a failed login exactly when its lower-cased content contains one of the indicators; with no indicators nothing is a failed login |
| Security.EffectiveBruteForce.IsBlocked | apps/security/fixed_middleware.py:67-72 | an IP with no (or a zero) block time is not blocked, one whose block time has passed is not blocked, and one still before a non-zero block time is |
| Security.BruteForceProtection.IsBlocked | apps/security/middleware.py:62-67 | an IP with no (or a zero) block time is not blocked, one whose block time has passed is not blocked, and one still before a non-zero block time is |
| StructureForm.Lookup | apps/real_estate_projects/forms.py:211-215 | self.data.get gives the default for an absent key and otherwise the last value submitted under it, as a QueryDict does |
| StructureForm.PutFacts | apps/real_estate_projects/forms.py:368 | after d[k] = v, k holds v, other keys are unchanged, existing keys keep their order and a new key goes last |
| StructureForm.MinKey | apps/real_estate_projects/forms.py:417 | min of the keys is a key and at most every key |
| StructureForm.MaxKey | apps/real_estate_projects/forms.py:418 | max of the keys is a key and at least every key |
| StructureForm.SplitAfterPrefix | apps/real_estate_projects/forms.py:207 | a key starting with `word_` splits into word followed by the pieces of the rest |
| StructureForm.KeyParts | apps/real_estate_projects/forms.py:207 | a key with such a prefix has at least two pieces, so piece 1 exists |
| StructureForm.NoUnderscoreInNumber | apps/real_estate_projects/forms.py:286 | a number written in decimal contains no '_' |
| StructureForm.ValoresPonderador | apps/real_estate_projects/forms.py:217-222 | an unparsable percentage or fixed amount makes both fall back to (0, None); otherwise an empty percentage is 0, an empty fixed amount None and the others their parsed value |
| StructureForm.PonderadorNumOf | apps/real_estate_projects/forms.py:206-207 | the number in a `ponderador_N_nombre` field name is the one read back |
| StructureForm.NuevoPonderador | apps/real_estate_projects/forms.py:205-233 | a new factor is collected exactly for a `ponderador_..._nombre` key with a non-blank value, named with the stripped value |
| StructureForm.ExistenteDe | apps/real_estate_projects/forms.py:239-268 | other keys yield nothing; an existing factor carries the id its value parses to; int() raises exactly for a non-blank id that is not a number |
| StructureForm.PonderadorFaseDe | apps/real_estate_projects/forms.py:276-309 | a phase factor is named with its non-blank stripped value and belongs to the phase in piece 1 of its key |
| StructureForm.StripIdempotent | apps/real_estate_projects/forms.py:241 | stripping twice is stripping once |
| StructureForm.DepartamentosKeyParsed | apps/real_estate_projects/forms.py:339-347 | the floor field name of phase f, tower t, floor p is seen by the apartments loop and parses back to (f, t, p) |
| StructureForm.SetPisoFacts | apps/real_estate_projects/forms.py:350-368 | setting a floor makes it hold the count and leaves every other floor, tower, phase, the phase flag and the sectors unchanged |
| StructureForm.DepartamentoRecorded | apps/real_estate_projects/forms.py:338-368 | a floor field with a number sets exactly that floor |
| StructureForm.PutKeepsFilled | apps/real_estate_projects/forms.py:359-368 | storing a non-empty entry keeps every entry non-empty |
| StructureForm.PoblatedFase | apps/real_estate_projects/forms.py:351-357 | a phase read from a filled structure, or a new one, has every tower and sector filled |
| StructureForm.PutKeepsPoblada | apps/real_estate_projects/forms.py:351-368 | storing a filled phase keeps the whole structure filled |
| StructureForm.SetPisoKeepsPoblada | apps/real_estate_projects/forms.py:359-368 | a tower is only created together with its first floor |
| StructureForm.SetManzanaKeepsPoblada | apps/real_estate_projects/forms.py:395-404 | a sector is only created together with its first block |
| StructureForm.ComercializableKeepsPoblada | apps/real_estate_projects/forms.py:316-332 | the commercialisation loop keeps every tower and sector filled |
| StructureForm.DepartamentosKeepsPoblada | apps/real_estate_projects/forms.py:338-368 | the apartments loop keeps every tower and sector filled |
| StructureForm.TerrenosKeepsPoblada | apps/real_estate_projects/forms.py:374-404 | the lots loop keeps every tower and sector filled |
| StructureForm.FoldStops | apps/real_estate_projects/forms.py:316-404 | once an item raises, the loop's outcome is that exception |
| StructureForm.FoldKeeps | apps/real_estate_projects/forms.py:316-404 | what every step keeps holds of the loop's result |
| StructureForm.ForEachItem | apps/real_estate_projects/forms.py:205-404 | the loop over the form items computes the fold of its step, stopping at the first exception |
| StructureForm.TorreInfoDe | apps/real_estate_projects/forms.py:413-420 | a tower with floors gets pisos_inicio and pisos_fin as the least and greatest floor entered and deptos_piso from the first floor entered; one without gets none |
| StructureForm.SectorInfoDe | apps/real_estate_projects/forms.py:427-434 | a sector with blocks gets manzanas_inicio and manzanas_fin bounding every block and terrenos_manzana from the first block; it is never commercialisable by itself |
| StructureForm.TorresDe | apps/real_estate_projects/forms.py:413-420 | every tower of a phase is converted, in order |
| StructureForm.SectoresDe | apps/real_estate_projects/forms.py:427-434 | every sector of a phase is converted, in order |
| StructureForm.Convertidas | apps/real_estate_projects/forms.py:411-434 | every phase is converted, in order |
| StructureForm.FaseResumida | apps/real_estate_projects/forms.py:411-434 | a filled phase converts to towers and sectors that all carry their summary keys, with start no greater than end |
| StructureForm.ConvertidasSummaries | apps/real_estate_projects/forms.py:411-434 | in a filled structure every converted phase carries its summary keys |
| StructureForm.ConvertirFases | apps/real_estate_projects/forms.py:411-434 | the two conversion loops compute the conversion of every phase |
| StructureForm.Numeros | apps/real_estate_projects/forms.py:411 | the phase numbers, in insertion order |
| StructureForm.NuevosNeverFail | apps/real_estate_projects/forms.py:205-233 | the new-factor loop never raises |
| StructureForm.ParseFaseLoops | apps/real_estate_projects/forms.py:316-404 | the three phase loops compute the structure `ParseFases` defines or the first exception |
| StructureForm.ParseDynamicStructure | apps/real_estate_projects/forms.py:191-441 | the whole parse computes the structure, factor lists and conversion `ParseStructure` defines, or the first exception |
| StructureForm.ParseFasesPoblada | apps/real_estate_projects/forms.py:316-404 | every tower and sector the loops build has at least one floor or block |
| StructureForm.ParsedSummaries | apps/real_estate_projects/forms.py:191-441 | every tower and sector of a successful parse carries its three summary keys, so the builders never use their defaults for them |
| StructureForm.NuevosNamed | apps/real_estate_projects/forms.py:205-233 | every new factor has a non-blank name without surrounding whitespace |
| StructureForm.FaseNamed | apps/real_estate_projects/forms.py:276-309 | every phase factor has a non-blank name without surrounding whitespace |
| StructureForm.ParsedNamesStripped | apps/real_estate_projects/forms.py:191-441 | every factor of a successful parse has a non-blank, stripped name |
| StructureForm.CleanFase | apps/real_estate_projects/forms.py:924-932 | rejected exactly when both dates are given and the start is after the delivery |
| StructureForm.CleanPonderador | apps/real_estate_projects/forms.py:1160-1184 | rejected exactly for a percentage type without percentage, a fixed-amount type without amount, or phase level without phase; on success the other value is cleared and the phase kept only at phase level |
| StructureForm.PorcentajeSimple | apps/real_estate_projects/forms.py:1246-1248 | 0 when the extra amount is missing or zero or the base price is zero |
| StructureForm.PorcentajeSimpleInverse | apps/real_estate_projects/forms.py:1246-1257 | the derived percentage of the base price gives back the extra amount |
| UserSearchWidget.DisplayName | static/js/user-search-widget.js:184 | a user is shown by full name, or by username when the full name is empty |
| UserSearchWidget.Mostrar | static/js/user-search-widget.js:144-180 | an empty list shows the no-results message; any other list shows exactly those users |
| UserSearchWidget.ValorOculto | static/js/user-search-widget.js:185-252 | the hidden input is empty exactly when no user is selected |
| UserSearchWidget.Widget.GetValue | static/js/user-search-widget.js:235-237 | the selected user's id, none without a selection; in a consistent widget it matches the hidden input |
| UserSearchWidget.Widget.constructor | static/js/user-search-widget.js:6-25 | a new widget has no selection, no users, a closed list, empty inputs and no pending search |
| UserSearchWidget.Widget.HandleSearch | static/js/user-search-widget.js:97-108 | a query shorter than the minimum shows the loaded users and cancels any pending search; a longer one becomes the pending search; nothing else changes |
| UserSearchWidget.Widget.SearchUsers | static/js/user-search-widget.js:110-128 | success lists the returned users; a refusal shows its message or the default; a network failure shows the connection message; selection and inputs are untouched |
| UserSearchWidget.Widget.LoadInitialUsers | static/js/user-search-widget.js:130-142 | success stores and lists the users; any failure changes nothing |
| UserSearchWidget.Widget.SelectUser | static/js/user-search-widget.js:182-192 | the user becomes the selection, the input shows its display name, the hidden input its id, and the list closes |
| UserSearchWidget.Widget.SetValue | static/js/user-search-widget.js:243-247 | the hidden input holds the id, the input the name, and the selection is a user with that id and name |
| UserSearchWidget.Widget.Clear | static/js/user-search-widget.js:249-254 | no selection, both inputs empty, the list closed |
| UserSearchWidget.Widget.ShowDropdown | static/js/user-search-widget.js:194-197 | the list is open and nothing else changes |
| UserSearchWidget.Widget.OnUserCreated | static/js/user-search-widget.js:223-232 | the created user goes first in the users, is selected, the list shows all users and the pending search text is kept |
| UserSearchWidget.KeepChar | static/js/user-search-widget.js:452 | a character of [a-z0-9._] is kept, any other removed |
| UserSearchWidget.KeepUsernameChars | static/js/user-search-widget.js:452 | the result only has characters of [a-z0-9._], is no longer than the input, and equals an input made of them |
| UserSearchWidget.KeepConcat | static/js/user-search-widget.js:452 | filtering distributes over concatenation |
| UserSearchWidget.KeepOne | static/js/user-search-widget.js:452 | an allowed character survives |
| UserSearchWidget.KeepAroundDot | static/js/user-search-widget.js:452 | the dot survives and separates the filtered first and last names |
| UserSearchWidget.KeepIdempotent | static/js/user-search-widget.js:452 | filtering twice is filtering once |
| UserSearchWidget.DerivedUsername | static/js/user-search-widget.js:449-454 | a suggestion exactly when both trimmed names are non-empty: the filtered lowercase first name, a dot, the filtered lowercase last name |
| UserSearchWidget.AcentoEliminado | static/js/user-search-widget.js:449-452 | "Juan" and "Pérez" suggest "juan.prez": an accented letter is dropped, not transliterated |
| UserSearchWidget.KeepUsernameCharsAll | static/js/user-search-widget.js:452 | a text of allowed characters is unchanged |
| UserSearchWidget.UsernameField.constructor | static/js/user-search-widget.js:444 | an empty field that is not a suggestion |
| UserSearchWidget.UsernameField.OnNameInput | static/js/user-search-widget.js:446-457 | a hand-typed username is never overwritten; an empty or suggested one becomes the new suggestion when both names are given |
| UserSearchWidget.UsernameField.OnUsernameInput | static/js/user-search-widget.js:459-461 | typing keeps the text and it stops being a suggestion |
| UserSearchWidget.Flat | static/js/user-search-widget.js:549 | the messages are exactly the single values and the members of the list values |
| UserSearchWidget.JoinBrContains | static/js/user-search-widget.js:549 | every message joined with `<br>` appears in the joined text |
| UserSearchWidget.JoinBrPosition | static/js/user-search-widget.js:549 | each joined message occurs at a position of the joined text |
| UserSearchWidget.JoinBrLength | static/js/user-search-widget.js:549 | the joined text is as long as the messages plus one separator between each two |
| UserSearchWidget.ErrorHtml | static/js/user-search-widget.js:543-554 | a string is shown as is; an errors object shows all its messages, in order, joined by line breaks |
| UserSearchWidget.ErrorHtmlShowsAll | static/js/user-search-widget.js:543-554 | each single message and each member of each list is in the error box |
| UserSearchWidget.ErrorDeCreacion | static/js/user-search-widget.js:514-516 | an errors object wins, then a non-empty message, then the default text |
| UserSearchWidget.LeadingDigits | static/js/user-search-widget.js:785-786 | the longest run of digits at the front |
| UserSearchWidget.LeadingDigitsConcat | static/js/user-search-widget.js:785-786 | digits followed by a non-digit read back as those digits |
| UserSearchWidget.PrefixInteger | static/js/user-search-widget.js:785-786 | parseFloat of digits followed by a non-number is their value |
| UserSearchWidget.PrefixFraction | static/js/user-search-widget.js:785-786 | parseFloat of a decimal followed by a non-number is its value |
| UserSearchWidget.UnsignedAgrees | static/js/user-search-widget.js:785-786 | parseFloat and Python's float agree on an unsigned decimal followed by a non-number |
| UserSearchWidget.SignedAgrees | static/js/user-search-widget.js:785-786 | the same for a signed decimal |
| UserSearchWidget.ParseFloatPrefixAgrees | static/js/user-search-widget.js:785-786 | wherever the server accepts a decimal text, the browser's parseFloat reads the same number |
| UserSearchWidget.LocationSelector.constructor | static/js/user-search-widget.js:589-600 | no coordinates, confirm disabled, coordinates box hidden |
| UserSearchWidget.ManualPair | static/js/user-search-widget.js:785-797 | the two manual fields give coordinates exactly when both read as numbers, and then they are those numbers |
| UserSearchWidget.LocationSelector.OnManualInput | static/js/user-search-widget.js:783-799 | the held coordinates become those the two fields give, or none, and confirm is enabled exactly when coordinates are held |
| UserSearchWidget.LocationSelector.SetLocation | static/js/user-search-widget.js:735-753 | a clicked point is held and confirm enabled |
| UserSearchWidget.LocationSelector.Confirm | static/js/user-search-widget.js:669-674 | the held coordinates are handed over exactly when confirm is enabled |
| UserSearchWidget.FlatAppend | static/js/user-search-widget.js:549 | listing the messages of a concatenation concatenates the messages of the parts |
| UserSearchWidget.FlatSingle | static/js/user-search-widget.js:549 | a single string yields itself and a list yields its members |

## Left out

- Database queries, HTTP requests and responses, redirects and templates: their results (existing usernames, team names, member lists, config rows, incoming-message timestamps) are parameters, and the views around the rules are not modelled.
- The cache timeouts of both lockout middlewares: entries are kept in a map with their expiry times, and expiry is taken from the clock parameter; the blocked-response page is not modelled.
- Logging, debug prints and the `messages` framework: no effect on the rules.
- Floating point: prices, percentages and money are exact reals; `round(x, 2)` is round-half-even on the exact value, so binary-float representation error is not captured. Overflow of `float()` to infinity for very large literals and underflow to zero for very small ones are not modelled: every finite literal is read at its exact value.
- Unicode: whitespace is the set Python's `str.isspace()` accepts. Every digit test reads ASCII `0`-`9` only: `int()`/`float()`, `str.isdigit` (the cédula and phone filters of apps/events/forms.py:122 and :138 and the phone formatter of apps/communications/utils/formatters.py:224) and the regex `\d` of the registration phone check (apps/sales_team_management/views/public_registration.py:190), so a cédula written in other scripts' digits, such as Arabic-Indic, is refused by the model where Python would keep its digits. `str.isupper`/`str.islower` and `lower()` cover ASCII and Latin-1 only; `str.title()` and the NFD accent removal of username generation are not modelled (the username counter loop is). The widget's JavaScript `trim()` is modelled with the same whitespace set as Python's `strip()`, although the two differ on U+FEFF (JavaScript only) and U+001C-U+001F and U+0085 (Python only).
- JavaScript `parseFloat` is modelled for optional leading whitespace, an optional sign, digits and one decimal point followed by anything; exponents, `Infinity` and hexadecimal prefixes are not, so the agreement with Python's `float()` is stated for plain decimal texts only.
- Django field validators (max_length, choices, EmailField format) and `validate_email`: only the `clean()` rules are modelled; email validity is a parameter.
- `datetime.strptime`: dates arrive already parsed, and a malformed date is the error branch.
- The widget's debounce timer, `fetch`, DOM rendering, loading spinner, `CustomEvent` dispatch, form reset, Leaflet map and browser geolocation: timers, I/O and a foreign library. Network replies are method arguments.
- `process_ponderadores_only` and `process_comercializacion_only` in the project views: they only copy already-parsed form data into ORM rows.
- `total_vendedores`, `get_navigation_by_categories`, `get_deletion_blockers`, `set_coordenadas` and `valor_display` in the accounts and sales-team models: ORM aggregation or display formatting.
- QR image generation, WhatsApp API calls, media handling and WebSocket consumers: foreign libraries, network and concurrency.
- The structure form's parsing loops visit every submitted key-value pair in order, whereas `QueryDict.items()` yields each key once with its last value; the two agree when no key is submitted twice, and `StructureForm.Lookup` gives the last value as `QueryDict.get` does.
- The commission hierarchy of apps/sales_team_management/utils.py:20-26 is a dict from position code to level, so its codes are unique; `Commissions` takes it as a sequence of positions (the dict's items in order) and does not require distinct codes. Every commission lemma holds for any sequence, so it holds in particular for the dict's item lists; a sequence with a repeated code is an input the source cannot produce, on which the model simply pays that code's rate once per occurrence.
- Concurrency: two requests updating the same cache entry or counter at once are not modelled; every operation runs alone.

## Findings

| source | as written | input that shows it | evidently intended | confidence | as-written member | corrected member |
|---|---|---|---|---|---|---|
| apps/real_estate_projects/views.py:1436-1448 | `count_total_properties` counts `(pisos_fin − pisos_inicio + 1) · deptos_piso` per tower and ignores the per-floor apartment numbers and the skip rules the builders follow | one tower with 4 apartments on floor 1 and 2 on floor 3: counted 12, built 6 | the count equals the number of properties the structure builders create | not executed | ProjectStructure.CountMismatch | ProjectStructure.CountCreatedProperties |
| apps/sales_team_management/views/public_registration.py:170-172 | `last_name.split()[0]` raises IndexError for an empty surname once the password is non-empty, and the generic handler replaces every field error | first name "Juan", surname "", password "Segura#2024" | the surname is reported as required, with the other field errors | not executed | PublicRegistration.ApellidoVacioOcultaErrores | PublicRegistration.Errores |
| apps/sales_team_management/views/public_registration.py:171 | an empty first name lowercases to `''`, and `'' in password` is always true | first name "", password "Segura#2024": rejected for containing the name | the name test applies only to a non-empty name | not executed | PublicRegistration.NombreVacioSiempreContenido | PublicRegistration.Reglas |
| apps/accounts/models.py:290-294 | `get_coordenadas` tests the coordinates for truthiness, so a latitude or longitude of 0 counts as missing | latitude 0.0, longitude −78.5 (on the equator): `has_coordenadas` is true, `get_coordenadas` gives None | a pair whenever both coordinates are set | not executed | Accounts.CoordenadasEnEcuador | Accounts.GetCoordenadasCorregida |

=== FILE: accounts.dfy ===
/** The accounts app: which roles, menu categories and modules may be
    edited or deleted, the user's age and coordinates, the ordering of the
    navigation menu, who may edit or delete a user, and the signal that
    derives a user's role from their team memberships. Database lookups
    are given as arguments. */
module Accounts {
  import opened Common

  // ---------------------------------------------------------------------
  // Roles, categories and modules (models.py)
  // ---------------------------------------------------------------------

  datatype Role = Role(name: string, isSystem: bool, isActive: bool)

  /** The ValidationError raised by the delete overrides. */
  datatype DeleteError = RolDelSistema | RolConUsuarios | CategoriaConModulos | ModuloEnRoles

  /** Role.can_be_deleted: a system role never, any other role exactly
      while it has no users. */
  function RoleCanBeDeleted(r: Role, hasUsers: bool): (b: bool)
    ensures r.isSystem ==> !b
    ensures hasUsers ==> !b
    ensures !r.isSystem && !hasUsers ==> b
  {
    !r.isSystem && !hasUsers
  }

  /** Role.can_be_edited: system roles are not editable. A role is
      editable exactly when, left without users, it could be deleted. */
  function RoleCanBeEdited(r: Role): (b: bool)
    ensures b <==> RoleCanBeDeleted(r, false)
    ensures !b ==> !RoleCanBeDeleted(r, true)
  {
    !r.isSystem
  }

  /** Role.delete: refuses a system role first, then a role with users. */
  function RoleDelete(r: Role, hasUsers: bool): (e: Option<DeleteError>)
    ensures e.None? <==> RoleCanBeDeleted(r, hasUsers)
    ensures e == Some(RolDelSistema) <==> r.isSystem
    ensures e == Some(RolConUsuarios) <==> !r.isSystem && hasUsers
    ensures e.None? ==> RoleCanBeEdited(r)
  {
    if RoleCanBeDeleted(r, hasUsers) then None
    else if r.isSystem then Some(RolDelSistema)
    else Some(RolConUsuarios)
  }

  /** A role that can be deleted can be edited; a system role can be
      neither; any other role can be deleted exactly while it has no users. */
  lemma RolePermisos(r: Role, hasUsers: bool)
    ensures RoleCanBeDeleted(r, hasUsers) ==> RoleCanBeEdited(r)
    ensures r.isSystem ==> !RoleCanBeEdited(r) && !RoleCanBeDeleted(r, hasUsers)
    ensures RoleCanBeEdited(r) ==> (RoleCanBeDeleted(r, hasUsers) <==> !hasUsers)
  {
  }

  /** MenuCategory.delete: refused while any module belongs to it. */
  function CategoryDelete(moduleCount: nat): (e: Option<DeleteError>)
    ensures e.None? <==> moduleCount == 0
    ensures e.Some? ==> e.value == CategoriaConModulos
  {
    if moduleCount == 0 then None else Some(CategoriaConModulos)
  }

  /** Group.delete as patched in: refused while any role holds the module. */
  function GroupDelete(roleCount: nat): (e: Option<DeleteError>)
    ensures e.None? <==> roleCount == 0
    ensures e.Some? ==> e.value == ModuloEnRoles
  {
    if roleCount == 0 then None else Some(ModuloEnRoles)
  }

  // ---------------------------------------------------------------------
  // Age and coordinates (User)
  // ---------------------------------------------------------------------

  /** User.get_edad: None without a birth date; otherwise the number of
      birthdays passed, so the r-th birthday is not after today and the
      next one is. */
  function GetEdad(fechaNacimiento: Option<Date>, today: Date): (r: Option<int>)
    ensures r.None? <==> fechaNacimiento.None?
    ensures r.Some? ==> var b := fechaNacimiento.value;
      !DateBefore(today, Date(b.year + r.value, b.month, b.day))
      && DateBefore(today, Date(b.year + r.value + 1, b.month, b.day))
  {
    match fechaNacimiento
    case None => None
    case Some(b) =>
      var edad := AgeOn(today, b);
      AgeBirthday(today, b, edad);
      AgeBirthday(today, b, edad + 1);
      Some(edad)
  }

  /** Age never decreases as the days go by. */
  lemma AgeMonotone(birth: Date, earlier: Date, later: Date)
    requires !DateBefore(later, earlier)
    ensures AgeOn(earlier, birth) <= AgeOn(later, birth)
  {
  }

  /** User.has_coordenadas: both fields set, zero included; in
      particular every pair of truthy coordinates counts. */
  function HasCoordenadas(latitud: Option<real>, longitud: Option<real>): (b: bool)
    ensures latitud.None? || longitud.None? ==> !b
    ensures latitud.Some? && longitud.Some? ==> b
    ensures Truthy(latitud) && Truthy(longitud) ==> b
  {
    latitud.Some? && longitud.Some?
  }

  /** User.get_coordenadas as written: both fields must be truthy, so a
      zero coordinate counts as missing. */
  function GetCoordenadas(latitud: Option<real>, longitud: Option<real>): (r: Option<(real, real)>)
    ensures r.Some? <==> Truthy(latitud) && Truthy(longitud)
    ensures r.Some? ==> r.value == (latitud.value, longitud.value)
    ensures r.Some? ==> HasCoordenadas(latitud, longitud)
  {
    if Truthy(latitud) && Truthy(longitud) then Some((latitud.value, longitud.value)) else None
  }

  /** A house on the equator has coordinates, yet get_coordenadas says it
      has none. */
  lemma CoordenadasEnEcuador()
    ensures HasCoordenadas(Some(0.0), Some(-78.5))
    ensures GetCoordenadas(Some(0.0), Some(-78.5)).None?
    ensures GetCoordenadasCorregida(Some(0.0), Some(-78.5)) == Some((0.0, -78.5))
  {
  }

  /** get_coordenadas with `is not None` tests: the pair exists exactly
      when has_coordenadas holds, and agrees with the truthy version
      wherever that one answers. */
  function GetCoordenadasCorregida(latitud: Option<real>, longitud: Option<real>): (r: Option<(real, real)>)
    ensures r.Some? <==> HasCoordenadas(latitud, longitud)
    ensures r.Some? ==> r.value == (latitud.value, longitud.value)
    ensures GetCoordenadas(latitud, longitud).Some? ==> r == GetCoordenadas(latitud, longitud)
  {
    if HasCoordenadas(latitud, longitud) then Some((latitud.value, longitud.value)) else None
  }

  // ---------------------------------------------------------------------
  // Navigation menu (User.get_navigation_items)
  // ---------------------------------------------------------------------

  /** A module's navigation entry, with the order of its category. */
  datatype NavItem = NavItem(name: string, categoryOrder: int, order: int, isActive: bool)

  /** The sort key (category.order, order) compared as a tuple. */
  predicate KeyLe(a: NavItem, b: NavItem)
  {
    a.categoryOrder < b.categoryOrder || (a.categoryOrder == b.categoryOrder && a.order <= b.order)
  }

  predicate SameKey(a: NavItem, b: NavItem)
  {
    a.categoryOrder == b.categoryOrder && a.order == b.order
  }

  predicate SortedByKey(xs: seq<NavItem>)
  {
    forall i, j :: 0 <= i < j < |xs| ==> KeyLe(xs[i], xs[j])
  }

  /** The active entries of the role's modules, in the order of the
      modules; a module without navigation is skipped. */
  function Activos(groups: seq<Option<NavItem>>): seq<NavItem>
  {
    if groups == [] then []
    else
      var g := groups[|groups| - 1];
      Activos(groups[..|groups| - 1]) + (if g.Some? && g.value.isActive then [g.value] else [])
  }

  /** The entries sharing the key of k, in order. */
  function WithKeyOf(xs: seq<NavItem>, k: NavItem): seq<NavItem>
  {
    if xs == [] then []
    else (if SameKey(xs[0], k) then [xs[0]] else []) + WithKeyOf(xs[1..], k)
  }

  /** x placed before the first entry whose key is not below its own. */
  function Insert(x: NavItem, s: seq<NavItem>): (r: seq<NavItem>)
    ensures multiset(r) == multiset(s) + multiset{x}
    ensures |r| == |s| + 1
  {
    if s == [] || KeyLe(x, s[0]) then [x] + s
    else
      assert s == [s[0]] + s[1..];
      [s[0]] + Insert(x, s[1..])
  }

  /** Python's sorted() with the key: a stable insertion sort. */
  function SortByKey(xs: seq<NavItem>): (r: seq<NavItem>)
    ensures multiset(r) == multiset(xs)
  {
    if xs == [] then []
    else
      assert xs == [xs[0]] + xs[1..];
      Insert(xs[0], SortByKey(xs[1..]))
  }

  lemma {:induction false} InsertSorted(x: NavItem, s: seq<NavItem>)
    requires SortedByKey(s)
    ensures SortedByKey(Insert(x, s))
  {
    if s != [] && !KeyLe(x, s[0]) {
      InsertSorted(x, s[1..]);
      var r := Insert(x, s[1..]);
      assert forall i :: 0 <= i < |r| ==> r[i] in multiset(s[1..]) + multiset{x};
      assert forall i :: 0 <= i < |r| ==> KeyLe(s[0], r[i]) by {
        forall i | 0 <= i < |r| ensures KeyLe(s[0], r[i]) {
          assert r[i] in multiset(s[1..]) + multiset{x};
          if r[i] != x {
            assert r[i] in s[1..];
          }
        }
      }
    }
  }

  /** Inserting x adds x to the entries of its key, in front of them, and
      leaves the entries of every other key as they were. */
  lemma {:induction false} InsertStable(x: NavItem, s: seq<NavItem>, k: NavItem)
    ensures WithKeyOf(Insert(x, s), k) == (if SameKey(x, k) then [x] else []) + WithKeyOf(s, k)
  {
    if s == [] || KeyLe(x, s[0]) {
      assert ([x] + s)[1..] == s;
    } else {
      var r := Insert(x, s[1..]);
      InsertStable(x, s[1..], k);
      assert ([s[0]] + r)[1..] == r;
      assert WithKeyOf(Insert(x, s), k) == (if SameKey(s[0], k) then [s[0]] else []) + WithKeyOf(r, k);
      assert !(SameKey(s[0], k) && SameKey(x, k));
    }
  }

  /** The sort orders by key, keeps every entry, and keeps entries with
      equal keys in their original order. */
  lemma {:induction false} SortByKeyCorrect(xs: seq<NavItem>)
    ensures SortedByKey(SortByKey(xs))
    ensures forall k :: WithKeyOf(SortByKey(xs), k) == WithKeyOf(xs, k)
  {
    if xs != [] {
      SortByKeyCorrect(xs[1..]);
      InsertSorted(xs[0], SortByKey(xs[1..]));
      forall k ensures WithKeyOf(SortByKey(xs), k) == WithKeyOf(xs, k) {
        InsertStable(xs[0], SortByKey(xs[1..]), k);
      }
    }
  }

  /** get_navigation_items: no role, no menu; otherwise the active entries
      of the role's modules sorted by (category order, order), entries
      with equal keys keeping the modules' order. */
  method NavigationItems(role: Option<seq<Option<NavItem>>>) returns (items: seq<NavItem>)
    ensures role.None? ==> items == []
    ensures role.Some? ==> SortedByKey(items) && multiset(items) == multiset(Activos(role.value))
    ensures role.Some? ==> forall k :: WithKeyOf(items, k) == WithKeyOf(Activos(role.value), k)
  {
    if role.None? {
      return [];
    }
    var groups := role.value;
    var acc: seq<NavItem> := [];
    var i := 0;
    while i < |groups|
      invariant 0 <= i <= |groups|
      invariant acc == Activos(groups[..i])
    {
      assert groups[..i + 1][..i] == groups[..i];
      if groups[i].Some? && groups[i].value.isActive {
        acc := acc + [groups[i].value];
      }
      i := i + 1;
    }
    assert groups[..i] == groups;
    items := SortByKey(acc);
    SortByKeyCorrect(acc);
  }

  // ---------------------------------------------------------------------
  // Who may edit or delete a user (views.py)
  // ---------------------------------------------------------------------

  /** Users compare by primary key. */
  datatype Usuario = Usuario(id: nat, isSuperuser: bool, isStaff: bool)

  /** is_admin: a superuser or a staff member, and nobody else. */
  function IsAdmin(u: Usuario): (b: bool)
    ensures u.isSuperuser ==> b
    ensures u.isStaff ==> b
    ensures !u.isSuperuser && !u.isStaff ==> !b
  {
    u.isSuperuser || u.isStaff
  }

  /** can_edit_user: nobody edits a superuser, not even themself; anyone
      else is edited only by a superuser. */
  function CanEditUser(target: Usuario, current: Usuario): (b: bool)
    ensures target.isSuperuser ==> !b
    ensures b <==> !target.isSuperuser && current.isSuperuser
    ensures b ==> IsAdmin(current)
  {
    if target.isSuperuser then false else current.isSuperuser
  }

  /** can_delete_user: never a superuser, never oneself, and only by a
      superuser; whoever may delete a user may edit them. */
  function CanDeleteUser(target: Usuario, current: Usuario): (b: bool)
    ensures target.isSuperuser || target.id == current.id ==> !b
    ensures b <==> CanEditUser(target, current) && target.id != current.id
  {
    if target.isSuperuser then false
    else if target.id == current.id then false
    else current.isSuperuser
  }

  /** is_admin lets staff in, but only a superuser edits or deletes users:
      whoever may edit or delete is an admin, and a staff member who is not
      a superuser is an admin who may do neither. */
  lemma AdminSinPermisos(target: Usuario, current: Usuario)
    ensures CanEditUser(target, current) || CanDeleteUser(target, current) ==> IsAdmin(current)
    ensures current.isStaff && !current.isSuperuser ==>
              IsAdmin(current) && !CanEditUser(target, current) && !CanDeleteUser(target, current)
  {
  }

  // ---------------------------------------------------------------------
  // Role derived from positions (signals.py)
  // ---------------------------------------------------------------------

  /** Hierarchy level to role name, as update_user_role_new_system maps it. */
  function RoleForLevel(level: int): (r: Option<string>)
    ensures r.Some? <==> 1 <= level <= 4
    ensures level == 1 || level == 2 ==> r == Some("Gerente de Equipo")
    ensures level == 3 ==> r == Some("Team Leader")
    ensures level == 4 ==> r == Some("Ventas")
  {
    if level == 1 then Some("Gerente de Equipo")
    else if level == 2 then Some("Gerente de Equipo")
    else if level == 3 then Some("Team Leader")
    else if level == 4 then Some("Ventas")
    else None
  }

  /** A team membership of the user, with its position's level. */
  datatype Membership = Membership(isActive: bool, status: string, level: int)

  predicate Vigente(m: Membership)
  {
    m.isActive && m.status == "ACTIVE"
  }

  /** The least level among the current memberships, if any. */
  function MinLevel(ms: seq<Membership>): (r: Option<int>)
    ensures r.None? <==> forall i :: 0 <= i < |ms| ==> !Vigente(ms[i])
    ensures r.Some? ==> (exists i :: 0 <= i < |ms| && Vigente(ms[i]) && ms[i].level == r.value)
    ensures r.Some? ==> forall i :: 0 <= i < |ms| && Vigente(ms[i]) ==> r.value <= ms[i].level
  {
    if ms == [] then None
    else
      var rest := MinLevel(ms[1..]);
      ShiftIndex(ms);
      if !Vigente(ms[0]) then rest
      else if rest.None? || ms[0].level <= rest.value then Some(ms[0].level)
      else rest
  }

  lemma ShiftIndex(ms: seq<Membership>)
    requires ms != []
    ensures forall i :: 1 <= i < |ms| ==> ms[i] == ms[1..][i - 1]
  {
  }

  /** get_user_highest_role_new_system: the role of the current membership
      with the least level (the highest in the hierarchy); None when there
      is none or its level has no role, even if another membership's has. */
  function HighestRoleNewSystem(ms: seq<Membership>): (r: Option<string>)
    ensures (forall i :: 0 <= i < |ms| ==> !Vigente(ms[i])) ==> r.None?
    ensures r.Some? ==> exists i :: (0 <= i < |ms| && Vigente(ms[i]) && RoleForLevel(ms[i].level) == r
      && forall j :: 0 <= j < |ms| && Vigente(ms[j]) ==> ms[i].level <= ms[j].level)
    ensures forall i :: 0 <= i < |ms| && Vigente(ms[i])
                        && (forall j :: 0 <= j < |ms| && Vigente(ms[j]) ==> ms[i].level <= ms[j].level) ==>
                        r == RoleForLevel(ms[i].level)
  {
    match MinLevel(ms)
    case None => None
    case Some(level) => RoleForLevel(level)
  }

  /** The positions of the legacy models. */
  datatype Puesto = GerenteProyecto | GerenteEquipo | JefeProyecto | JefeVenta | TeamLeader | Vendedor

  /** ROLE_MAPPING: each of the four roles and the positions that map to
      it. */
  function RoleMapping(p: Puesto): (r: string)
    ensures r == "Ventas" <==> p == Vendedor
    ensures r == "Team Leader" <==> p == TeamLeader
    ensures r == "Gerente de Proyecto" <==> p == GerenteProyecto
    ensures r == "Gerente de Equipo" <==> p == JefeVenta || p == GerenteEquipo || p == JefeProyecto
  {
    match p
    case Vendedor => "Ventas"
    case TeamLeader => "Team Leader"
    case JefeVenta => "Gerente de Equipo"
    case GerenteEquipo => "Gerente de Equipo"
    case GerenteProyecto => "Gerente de Proyecto"
    case JefeProyecto => "Gerente de Equipo"
  }

  /** Every role the level table of the new system hands out is one that
      ROLE_MAPPING also gives, and neither gives 'Gerente de Proyecto'
      except for the GerenteProyecto position. */
  lemma RoleMappingCubreNiveles(level: int, p: Puesto)
    ensures RoleForLevel(level).Some? ==> exists q :: RoleMapping(q) == RoleForLevel(level).value
    ensures RoleForLevel(level) != Some("Gerente de Proyecto")
    ensures RoleMapping(p) == "Gerente de Proyecto" <==> p == GerenteProyecto
  {
    if level == 1 || level == 2 {
      assert RoleMapping(GerenteEquipo) == RoleForLevel(level).value;
    } else if level == 3 {
      assert RoleMapping(TeamLeader) == RoleForLevel(level).value;
    } else if level == 4 {
      assert RoleMapping(Vendedor) == RoleForLevel(level).value;
    }
  }

  /** The order get_user_highest_role checks the positions in. */
  function Rank(p: Puesto): nat
  {
    match p
    case GerenteProyecto => 0
    case GerenteEquipo => 1
    case JefeProyecto => 2
    case JefeVenta => 3
    case TeamLeader => 4
    case Vendedor => 5
  }

  /** get_user_highest_role: the first position in precedence order for
      which the user has an active record. It names the ROLE_MAPPING role
      of the highest-ranked position held, and nothing without one. */
  function HighestRoleLegacy(held: set<Puesto>): (r: Option<string>)
    ensures r.None? <==> held == {}
    ensures r.Some? ==> exists p :: (p in held && r.value == RoleMapping(p)
      && forall q :: q in held ==> Rank(p) <= Rank(q))
  {
    if GerenteProyecto in held then Some("Gerente de Proyecto")
    else if GerenteEquipo in held then Some("Gerente de Equipo")
    else if JefeProyecto in held then Some("Gerente de Equipo")
    else if JefeVenta in held then Some("Gerente de Equipo")
    else if TeamLeader in held then Some("Team Leader")
    else if Vendedor in held then Some("Ventas")
    else
      NingunPuesto(held);
      None
  }

  /** Helper for the last branch of HighestRoleLegacy: the six positions
      are all there are. */
  lemma NingunPuesto(held: set<Puesto>)
    requires GerenteProyecto !in held && GerenteEquipo !in held && JefeProyecto !in held
    requires JefeVenta !in held && TeamLeader !in held && Vendedor !in held
    ensures held == {}
  {
    forall p | p in held ensures p.GerenteProyecto? || p.GerenteEquipo? || p.JefeProyecto?
      || p.JefeVenta? || p.TeamLeader? || p.Vendedor? {
    }
  }

  /** The role table: active roles by their unique name. */
  predicate RoleTable(roles: map<string, Role>)
  {
    forall n :: n in roles ==> roles[n].name == n
  }

  /** The role a non-preserved user ends with: the derived role when an
      active role of that name exists, the old role when none does, and no
      role when nothing is derived. */
  function NuevoRol(anterior: Option<Role>, derivado: Option<string>, roles: map<string, Role>): (r: Option<Role>)
    ensures derivado.None? ==> r.None?
    ensures derivado.Some? && derivado.value in roles && roles[derivado.value].isActive ==>
      r == Some(roles[derivado.value])
    ensures derivado.Some? && !(derivado.value in roles && roles[derivado.value].isActive) ==> r == anterior
  {
    match derivado
    case None => None
    case Some(n) => if n in roles && roles[n].isActive then Some(roles[n]) else anterior
  }

  /** A user whose role the signal may change. */
  class UserAccount {
    const username: string
    const isSuperuser: bool
    var role: Option<Role>

    constructor (username: string, isSuperuser: bool, role: Option<Role>)
      ensures this.username == username && this.isSuperuser == isSuperuser && this.role == role
    {
      this.username := username;
      this.isSuperuser := isSuperuser;
      this.role := role;
    }

    /** The user's role is kept by update_user_role_new_system. */
    predicate Preservado()
      reads this
    {
      (role.Some? && role.value.isSystem)
      || (isSuperuser && role.Some? && role.value.name == "Super Admin")
    }

    /** update_user_role_new_system: a system role, or the Super Admin role
        of a superuser, is kept; otherwise the role becomes the derived
        one, is kept when the derived name has no active role, and is
        removed when nothing is derived. */
    method UpdateRoleNewSystem(ms: seq<Membership>, roles: map<string, Role>)
      requires RoleTable(roles)
      modifies this
      ensures old(Preservado()) ==> role == old(role)
      ensures !old(Preservado()) ==> role == NuevoRol(old(role), HighestRoleNewSystem(ms), roles)
      ensures !old(Preservado()) && role.Some? ==> Some(role.value.name) == HighestRoleNewSystem(ms) || role == old(role)
    {
      if role.Some? && role.value.isSystem {
        return;
      }
      if isSuperuser && role.Some? && role.value.name == "Super Admin" {
        return;
      }
      var derivado := HighestRoleNewSystem(ms);
      if derivado.Some? {
        var n := derivado.value;
        if n in roles && roles[n].isActive {
          if role != Some(roles[n]) {
            role := Some(roles[n]);
          }
        }
      } else if role.None? || !role.value.isSystem {
        if role.Some? {
          role := None;
        }
      }
    }

    /** The post_save receiver of TeamMembership: only an active
        membership triggers the update. */
    method MembershipSaved(instanceActive: bool, ms: seq<Membership>, roles: map<string, Role>)
      requires RoleTable(roles)
      modifies this
      ensures !instanceActive || old(Preservado()) ==> role == old(role)
      ensures instanceActive && !old(Preservado()) ==> role == NuevoRol(old(role), HighestRoleNewSystem(ms), roles)
    {
      if instanceActive {
        UpdateRoleNewSystem(ms, roles);
      }
    }
  }
}

=== FILE: comm_utils.dfy ===
/** Helpers of the communications app: query pagination, the start of a
    reporting time range, and the validators and formatters used by the
    chat views (phone numbers, uploaded files, message previews). */
module CommUtils {
  import opened Common

  // ---------------------------------------------------------------------
  // Pagination
  // ---------------------------------------------------------------------

  /** Python's floor division a // b. */
  function FloorDiv(a: int, b: int): (q: int)
    requires b != 0
    ensures b > 0 ==> q * b <= a < q * b + b
    ensures b < 0 ==> q * b >= a > q * b + b
  {
    if b > 0 then a / b else (-a) / (-b)
  }

  datatype Pagina = Pagina(page: int, perPage: int, total: nat, start: int, end: int,
                           hasNext: bool, hasPrevious: bool, totalPages: int)

  /** What escapes the arithmetic: slicing a queryset with a negative bound
      raises ValueError, and total_pages divides by per_page. */
  datatype PaginaFallo = IndiceNegativo | DivisionPorCero

  /** min(per_page, 100). */
  function Tope(perPage: int): (pp: int)
    ensures pp <= 100 && pp <= perPage
    ensures pp == perPage || pp == 100
  {
    if perPage < 100 then perPage else 100
  }

  /** The body of paginate_queryset once page and per_page are integers.
      Slicing fails on a negative bound: with a positive page size that is
      a page below 1, with a negative one a page of 1 or more; a page size
      of 0 gives empty bounds and then divides by zero. */
  function Calcular(page: int, perPage: int, total: nat): (r: Result<Pagina, PaginaFallo>)
    ensures r == Err(IndiceNegativo) <==> (Tope(perPage) > 0 && page < 1) || (Tope(perPage) < 0 && page >= 1)
    ensures r == Err(DivisionPorCero) <==> Tope(perPage) == 0
    ensures r.Ok? ==> r.value.perPage == Tope(perPage) && r.value.start == (page - 1) * r.value.perPage
    ensures r.Ok? ==> r.value.perPage <= 100 && r.value.perPage != 0 && r.value.start >= 0 && r.value.end >= 0
    ensures r.Ok? ==> r.value.page == page && r.value.total == total
    ensures r.Ok? ==> r.value.end - r.value.start == r.value.perPage
    ensures r.Ok? ==> (r.value.hasNext <==> r.value.end < total) && (r.value.hasPrevious <==> page > 1)
    ensures r.Ok? && r.value.perPage > 0 ==>
              r.value.totalPages * r.value.perPage >= total
              && (total > 0 ==> (r.value.totalPages - 1) * r.value.perPage < total)
  {
    var pp := Tope(perPage);
    var start := (page - 1) * pp;
    var end := start + pp;
    SignoProducto(page - 1, pp);
    SignoProducto(page, pp);
    assert end == page * pp;
    if start < 0 || end < 0 then Err(IndiceNegativo)
    else if pp == 0 then Err(DivisionPorCero)
    else
      var pages := FloorDiv(total + pp - 1, pp);
      assert pp > 0 ==> pages * pp >= total && (total > 0 ==> (pages - 1) * pp < total) by {
        if pp > 0 { TotalPagesCeiling(total, pp); }
      }
      Ok(Pagina(page, pp, total, start, end, end < total, page > 1, pages))
  }

  /** The sign of a product follows the signs of its factors. */
  lemma SignoProducto(a: int, b: int)
    ensures a * b < 0 <==> (a < 0 && b > 0) || (a > 0 && b < 0)
    ensures a * b == 0 <==> a == 0 || b == 0
  {
    if a > 0 && b > 0 { NonNegProduct(a - 1, b); }
    if a < 0 && b < 0 { NonNegProduct(-a - 1, -b); assert a * b == (-a - 1) * (-b) + (-b); }
    if a > 0 && b < 0 { NonNegProduct(a - 1, -b); assert a * b == -((a - 1) * (-b) + (-b)); }
    if a < 0 && b > 0 { NonNegProduct(-a - 1, b); assert a * b == -((-a - 1) * b + b); }
  }

  /** paginate_queryset: page and per_page are read with int(); a parameter
      that does not parse, or a page whose bounds come out negative, falls
      back to page 1 with 20 per page. A per_page of 0 leaves the division
      by zero uncaught. */
  function Paginate(page: string, perPage: string, total: nat): (r: Result<Pagina, PaginaFallo>)
    ensures r.Err? <==> ParseInt(page).Some? && ParseInt(perPage).Some? && ParseInt(perPage).value == 0
    ensures r.Ok? ==> r.value.perPage <= 100 && r.value.perPage != 0
  {
    var p := ParseInt(page);
    var q := ParseInt(perPage);
    if p.None? || q.None? then Calcular(1, 20, total)
    else
      var r := Calcular(p.value, q.value, total);
      if r == Err(IndiceNegativo) then Calcular(1, 20, total) else r
  }

  /** The fallback page: the first twenty items. */
  lemma DefaultPage(page: string, perPage: string, total: nat)
    requires ParseInt(page).None? || ParseInt(perPage).None?
    ensures Paginate(page, perPage, total) ==
      Ok(Pagina(1, 20, total, 0, 20, 20 < total, false, FloorDiv(total + 19, 20)))
  {
  }

  /** For a page and a positive page size, total_pages is the ceiling of
      total / per_page: the pages hold all items and the last one is not
      empty. */
  lemma TotalPagesCeiling(total: nat, pp: int)
    requires pp > 0
    ensures FloorDiv(total + pp - 1, pp) * pp >= total
    ensures total > 0 ==> (FloorDiv(total + pp - 1, pp) - 1) * pp < total
    ensures FloorDiv(total + pp - 1, pp) >= 0
  {
    var q := FloorDiv(total + pp - 1, pp);
    assert q * pp <= total + pp - 1 < q * pp + pp;
    assert (q - 1) * pp == q * pp - pp;
  }

  /** For page >= 1 and a positive page size, there is a next page exactly
      when the page number is below total_pages. */
  lemma HasNextIffBeforeLastPage(page: int, pp: int, total: nat)
    requires page >= 1 && 0 < pp <= 100
    ensures Calcular(page, pp, total).Ok?
    ensures Calcular(page, pp, total).value.hasNext <==> page < Calcular(page, pp, total).value.totalPages
  {
    NonNegProduct(page - 1, pp);
    assert (page - 1) * pp + pp == page * pp;
    CeilingPageIff(page, pp, total);
  }

  /** page * pp items fall short of the total exactly when page is below
      the number of pages. */
  lemma CeilingPageIff(page: int, pp: int, total: nat)
    requires page >= 1 && pp > 0
    ensures page * pp < total <==> page < FloorDiv(total + pp - 1, pp)
  {
    var q := FloorDiv(total + pp - 1, pp);
    TotalPagesCeiling(total, pp);
    if page < q {
      MulMonotone(page, q - 1, pp);
    } else {
      MulMonotone(q, page, pp);
    }
  }

  lemma NonNegProduct(a: int, b: int)
    requires a >= 0 && b >= 0
    ensures a * b >= 0
  {
  }

  lemma MulMonotone(a: int, b: int, c: int)
    requires a <= b && c > 0
    ensures a * c <= b * c
  {
    assert b * c - a * c == (b - a) * c;
    NonNegProduct(b - a, c);
  }

  // ---------------------------------------------------------------------
  // Time ranges
  // ---------------------------------------------------------------------

  type Mes = m: int | 1 <= m <= 12 witness 1

  /** A calendar date, together with its proleptic Gregorian ordinal (day 1
      is Monday 1 January of year 1), as date.toordinal() gives it. */
  datatype Fecha = Fecha(ordinal: int, year: int, month: Mes, day: int)

  /** date.weekday(): Monday is 0. */
  function DiaSemana(ordinal: int): (w: int)
    ensures 0 <= w < 7
  {
    (ordinal + 6) % 7
  }

  /** The start of a range: a date given by its ordinal (the week case,
      computed with a timedelta) or by year, month and day. */
  datatype Inicio = Ordinal(ordinal: int) | Calendario(year: int, month: Mes, day: int)

  /** get_time_range_filter: today, the Monday of this week, the first of
      the month, of the quarter or of the year; any other name gives None. */
  function TimeRangeStart(timeRange: string, hoy: Fecha): (r: Option<Inicio>)
    ensures r.None? <==> timeRange !in {"today", "week", "month", "quarter", "year"}
    ensures timeRange == "quarter" ==>
      r.value.Calendario? && r.value.day == 1 && r.value.year == hoy.year
      && r.value.month in {1, 4, 7, 10} && r.value.month <= hoy.month < r.value.month + 3
    ensures timeRange == "week" ==>
      r.value.Ordinal? && DiaSemana(r.value.ordinal) == 0 && hoy.ordinal - 7 < r.value.ordinal <= hoy.ordinal
  {
    if timeRange == "today" then Some(Calendario(hoy.year, hoy.month, hoy.day))
    else if timeRange == "week" then Some(Ordinal(hoy.ordinal - DiaSemana(hoy.ordinal)))
    else if timeRange == "month" then Some(Calendario(hoy.year, hoy.month, 1))
    else if timeRange == "quarter" then Some(Calendario(hoy.year, ((hoy.month - 1) / 3) * 3 + 1, 1))
    else if timeRange == "year" then Some(Calendario(hoy.year, 1, 1))
    else None
  }

  // ---------------------------------------------------------------------
  // Validators and formatters
  // ---------------------------------------------------------------------

  /** validate_phone_number: a phone is required, and its digits must number
      from 10 to 15; the digits alone are returned. */
  function ValidatePhoneNumber(phone: Option<string>): (r: Result<string, string>)
    ensures r.Ok? ==> phone.Some? && AllDigits(r.value) && 10 <= |r.value| <= 15 && r.value == DigitsOnly(phone.value)
    ensures r.Err? <==> phone.None? || phone.value == [] || !(10 <= CountDigits(phone.value) <= 15)
  {
    if phone.None? || phone.value == [] then Err("Número de teléfono requerido")
    else
      var clean := DigitsOnly(phone.value);
      if |clean| < 10 || |clean| > 15 then Err("Número de teléfono debe tener entre 10 y 15 dígitos")
      else Ok(clean)
  }

  /** A cleaned number validates to itself. */
  lemma PhoneNumberIdempotent(phone: Option<string>)
    requires ValidatePhoneNumber(phone).Ok?
    ensures ValidatePhoneNumber(Some(ValidatePhoneNumber(phone).value)) == ValidatePhoneNumber(phone)
  {
  }

  datatype Mensaje = Mensaje(contenido: Option<string>)

  /** format_message_preview: '' without a message, its text (or '') when
      at most 50 characters, else the first 50 followed by '...'. */
  function FormatMessagePreview(message: Option<Mensaje>): (r: string)
    ensures |r| <= 53
    ensures message.Some? && message.value.contenido.Some? && |message.value.contenido.value| <= 50 ==>
      r == message.value.contenido.value
    ensures message.Some? && message.value.contenido.Some? && |message.value.contenido.value| > 50 ==>
      |r| == 53 && r[..50] == message.value.contenido.value[..50] && r[50..] == "..."
    ensures message.None? || message.value.contenido.None? ==> r == ""
  {
    if message.None? then ""
    else
      var content := if message.value.contenido.Some? then message.value.contenido.value else "";
      if |content| > 50 then content[..50] + "..." else content
  }

  /** 16 MB. */
  const MaxUploadSize: nat := 16 * 1024 * 1024

  /** Common MIME names mapped to the ones WhatsApp accepts. */
  const MimeMapping: map<string, string> := map[
    "audio/x-m4a" := "audio/mp4",
    "audio/m4a" := "audio/mp4",
    "audio/mp3" := "audio/mpeg",
    "image/jpg" := "image/jpeg",
    "video/3g" := "video/3gpp"
  ]

  const AllowedTypes: seq<string> := [
    "audio/aac", "audio/mp4", "audio/mpeg", "audio/amr", "audio/ogg", "audio/opus",
    "application/vnd.ms-powerpoint", "application/msword",
    "application/vnd.openxmlformats-officedocument.wordprocessingml.document",
    "application/vnd.openxmlformats-officedocument.presentationml.presentation",
    "application/vnd.openxmlformats-officedocument.spreadsheetml.sheet",
    "application/pdf", "text/plain", "application/vnd.ms-excel",
    "image/jpeg", "image/png", "image/webp",
    "video/mp4", "video/3gpp"
  ]

  /** mime_mapping.get(original_mime, original_mime): a known alias
      becomes the accepted type it stands for, any other type is kept,
      and the result is never an alias itself. */
  function MappedMime(mime: string): (m: string)
    ensures mime in MimeMapping ==> m in AllowedTypes
    ensures mime !in MimeMapping ==> m == mime
    ensures m !in MimeMapping
  {
    if mime in MimeMapping then MimeMapping[mime] else mime
  }

  /** Mapping is idempotent: no mapped name is mapped again. */
  lemma MappedMimeIdempotent(mime: string)
    ensures MappedMime(MappedMime(mime)) == MappedMime(mime)
  {
  }

  /** The verdict of validate_file_upload on a file given by its presence
      (an upload with a name), size and declared content type. */
  function FileError(present: bool, size: nat, mime: string): (e: Option<string>)
    ensures e.None? <==> present && size <= MaxUploadSize && MappedMime(mime) in AllowedTypes
  {
    if !present then Some("Archivo requerido")
    else if size > MaxUploadSize then Some("Archivo demasiado grande (máximo 16MB)")
    else if MappedMime(mime) !in AllowedTypes then Some("Tipo de archivo no soportado por WhatsApp: " + mime)
    else None
  }

  /** A file that passed keeps passing once its content type has been
      rewritten, and is not rewritten again. */
  lemma RevalidationStable(size: nat, mime: string)
    requires FileError(true, size, mime).None?
    ensures FileError(true, size, MappedMime(mime)).None?
    ensures MappedMime(MappedMime(mime)) == MappedMime(mime)
  {
    MappedMimeIdempotent(mime);
  }

  class UploadedFile {
    var name: string
    var size: nat
    var contentType: string

    constructor (name: string, size: nat, contentType: string)
      ensures this.name == name && this.size == size && this.contentType == contentType
    {
      this.name := name;
      this.size := size;
      this.contentType := contentType;
    }
  }

  /** validate_file_upload: a missing or nameless file, one over 16 MB, or
      one whose mapped type WhatsApp does not accept is refused; a file that
      passes has its content type replaced by the mapped one when the
      mapping changed it. */
  method ValidateFileUpload(file: UploadedFile?) returns (ok: bool, error: Option<string>)
    modifies file
    ensures file == null ==> error == Some("Archivo requerido")
    ensures file != null ==> error == FileError(old(file.name) != "", old(file.size), old(file.contentType))
    ensures ok <==> error.None?
    ensures file != null ==> file.name == old(file.name) && file.size == old(file.size)
    ensures file != null ==>
      file.contentType == if ok then MappedMime(old(file.contentType)) else old(file.contentType)
  {
    if file == null || file.name == "" {
      return false, Some("Archivo requerido");
    }
    if file.size > MaxUploadSize {
      return false, Some("Archivo demasiado grande (máximo 16MB)");
    }
    var original := file.contentType;
    var mapped := if original in MimeMapping then MimeMapping[original] else original;
    if mapped !in AllowedTypes {
      return false, Some("Tipo de archivo no soportado por WhatsApp: " + original);
    }
    if mapped != original {
      file.contentType := mapped;
    }
    ok, error := true, None;
  }
}

=== FILE: commissions.dfy ===
/** Commission distribution over the sales hierarchy. Hierarchy levels
    grow downwards (level 1 is the top). The seller earns the commission of
    its own position and of every position below it; each supervisor up the
    supervision chain earns its own position's commission, and a DIRECT
    supervisor also earns the positions it skips. */
module Commissions {
  import opened Common

  /** A PositionType as the position_hierarchy dict sees it. */
  datatype Position = Position(code: string, level: int)

  /** A TeamMembership reduced to what the calculator reads. */
  datatype Membership = Membership(id: nat, userId: nat, positionCode: string, level: int)

  /** An active HierarchyRelation. */
  datatype Relation = Relation(subordinate: Membership, supervisor: Membership, relationType: string)

  /** A line of the distribution dict: percentage and amount of one user. */
  datatype Share = Share(percentage: real, amount: real)

  /** calculate_distribution's amount: sale * (pct / 100). */
  function Amount(sale: real, pct: real): (a: real)
    ensures pct == 100.0 ==> a == sale
    ensures pct == 0.0 ==> a == 0.0
  {
    sale * (pct / 100.0)
  }

  // ------------------------------------------------------- covered positions

  /** _get_positions_at_or_below: the codes whose level is at or below L. */
  function PositionsAtOrBelow(h: seq<Position>, level: int): (codes: seq<string>)
    ensures |codes| <= |h|
    ensures forall p :: p in h && p.level >= level ==> p.code in codes
    ensures forall c :: c in codes ==> exists p :: p in h && p.code == c && p.level >= level
  {
    if h == [] then []
    else (if h[0].level >= level then [h[0].code] else []) + PositionsAtOrBelow(h[1..], level)
  }

  /** The codes at exactly one level. */
  function PositionsAt(h: seq<Position>, level: int): seq<string>
  {
    if h == [] then []
    else (if h[0].level == level then [h[0].code] else []) + PositionsAt(h[1..], level)
  }

  /** The skipped levels of _calculate_direct_supervision_commission: the
      codes strictly between the supervisor's and the seller's level. */
  function SkippedLevels(h: seq<Position>, supervisorLevel: int, sellerLevel: int): (codes: seq<string>)
    ensures forall p :: p in h && supervisorLevel < p.level < sellerLevel ==> p.code in codes
    ensures forall c :: c in codes ==> exists p :: p in h && p.code == c && supervisorLevel < p.level < sellerLevel
  {
    if h == [] then []
    else
      (if supervisorLevel < h[0].level < sellerLevel then [h[0].code] else [])
      + SkippedLevels(h[1..], supervisorLevel, sellerLevel)
  }

  /** Sum of the commissions of a list of position codes. */
  function SumRates(codes: seq<string>, rate: string -> real): real
  {
    if codes == [] then 0.0 else rate(codes[0]) + SumRates(codes[1..], rate)
  }

  lemma {:induction false} SumRatesAppend(a: seq<string>, b: seq<string>, rate: string -> real)
    ensures SumRates(a + b, rate) == SumRates(a, rate) + SumRates(b, rate)
  {
    if a == [] {
      assert a + b == b;
    } else {
      assert (a + b)[1..] == a[1..] + b;
      SumRatesAppend(a[1..], b, rate);
    }
  }

  lemma {:induction false} SumRatesNonNegative(codes: seq<string>, rate: string -> real)
    requires forall c :: rate(c) >= 0.0
    ensures SumRates(codes, rate) >= 0.0
  {
    if codes != [] {
      SumRatesNonNegative(codes[1..], rate);
    }
  }

  /** _calculate_seller_commission: the commissions of every position at or
      below the seller's level. `rate` is the commission structure's
      get_commission_for_position. */
  function SellerCommission(h: seq<Position>, rate: string -> real, sellerLevel: int): (c: real)
    ensures (forall p :: p in h ==> p.level < sellerLevel) ==> c == 0.0
  {
    var codes := PositionsAtOrBelow(h, sellerLevel);
    assert codes != [] ==> codes[0] in codes;
    SumRates(codes, rate)
  }

  /** _calculate_direct_supervision_commission: the supervisor's own
      commission plus those of the levels it skips; with no level in
      between, just its own. */
  function DirectSupervisionCommission(
    h: seq<Position>, rate: string -> real, supervisor: Membership, sellerLevel: int): (c: real)
    ensures (forall p :: p in h ==> !(supervisor.level < p.level < sellerLevel)) ==> c == rate(supervisor.positionCode)
  {
    var skipped := SkippedLevels(h, supervisor.level, sellerLevel);
    assert skipped != [] ==> skipped[0] in skipped;
    rate(supervisor.positionCode) + SumRates(skipped, rate)
  }

  /** The positions at or below S split into those at S, those strictly
      between S and T, and those at or below T. */
  lemma {:induction false} CoveredSplits(h: seq<Position>, rate: string -> real, s: int, t: int)
    requires s < t
    ensures SellerCommission(h, rate, s)
            == SumRates(PositionsAt(h, s), rate) + SumRates(SkippedLevels(h, s, t), rate)
               + SellerCommission(h, rate, t)
  {
    if h != [] {
      CoveredSplits(h[1..], rate, s, t);
      var p := h[0];
      SumRatesAppend(if p.level >= s then [p.code] else [], PositionsAtOrBelow(h[1..], s), rate);
      SumRatesAppend(if p.level == s then [p.code] else [], PositionsAt(h[1..], s), rate);
      SumRatesAppend(if s < p.level < t then [p.code] else [], SkippedLevels(h[1..], s, t), rate);
      SumRatesAppend(if p.level >= t then [p.code] else [], PositionsAtOrBelow(h[1..], t), rate);
    }
  }

  /** When the supervisor's position is the only one at its level, a direct
      supervisor and the seller together are paid exactly what a seller at
      the supervisor's level would be: nothing between them is lost or paid
      twice. */
  lemma DirectSupervisionClosesGap(h: seq<Position>, rate: string -> real, supervisor: Membership, sellerLevel: int)
    requires supervisor.level < sellerLevel
    requires PositionsAt(h, supervisor.level) == [supervisor.positionCode]
    ensures DirectSupervisionCommission(h, rate, supervisor, sellerLevel) + SellerCommission(h, rate, sellerLevel)
            == SellerCommission(h, rate, supervisor.level)
  {
    CoveredSplits(h, rate, supervisor.level, sellerLevel);
    assert SumRates([supervisor.positionCode], rate) == rate(supervisor.positionCode);
  }

  /** With non-negative commissions, a seller higher in the hierarchy
      (smaller level) earns at least as much as one below it. */
  lemma SellerCommissionMonotone(h: seq<Position>, rate: string -> real, s: int, t: int)
    requires s < t
    requires forall c :: rate(c) >= 0.0
    ensures SellerCommission(h, rate, s) >= SellerCommission(h, rate, t)
  {
    CoveredSplits(h, rate, s, t);
    SumRatesNonNegative(PositionsAt(h, s), rate);
    SumRatesNonNegative(SkippedLevels(h, s, t), rate);
  }

  // ------------------------------------------------------- supervision chain

  /** The state of the supervision walk: `chain` starts at `start`, each
      relation is the one `first` gives for its subordinate, consecutive
      relations are linked, `visited` holds exactly the subordinates, none
      twice, and `current` is where the walk stands. */
  predicate ChainState(start: Membership, first: map<nat, Relation>, chain: seq<Relation>,
                       visited: set<nat>, current: Membership)
  {
    && |chain| == |visited|
    && visited <= first.Keys
    && visited == SubordinateIds(chain)
    && (forall i :: 0 <= i < |chain| ==> chain[i].subordinate.id in first && chain[i] == first[chain[i].subordinate.id])
    && (chain == [] ==> current.id == start.id)
    && (chain != [] ==> chain[0].subordinate.id == start.id && current.id == chain[|chain| - 1].supervisor.id)
    && (forall i :: 0 <= i < |chain| - 1 ==> chain[i + 1].subordinate.id == chain[i].supervisor.id)
    && (forall i, j :: 0 <= i < j < |chain| ==> chain[i].subordinate.id != chain[j].subordinate.id)
  }

  /** The subordinates of a chain, as the walk's visited set. */
  function SubordinateIds(chain: seq<Relation>): set<nat>
  {
    if chain == [] then {}
    else SubordinateIds(chain[..|chain| - 1]) + {chain[|chain| - 1].subordinate.id}
  }

  lemma {:induction false} SubordinateIdsMember(chain: seq<Relation>, x: nat)
    ensures x in SubordinateIds(chain) <==> exists i :: 0 <= i < |chain| && chain[i].subordinate.id == x
  {
    if chain != [] {
      var init := chain[..|chain| - 1];
      SubordinateIdsMember(init, x);
      if x in SubordinateIds(init) {
        var i :| 0 <= i < |init| && init[i].subordinate.id == x;
        assert chain[i] == init[i];
      }
      if exists i :: 0 <= i < |chain| && chain[i].subordinate.id == x {
        var i :| 0 <= i < |chain| && chain[i].subordinate.id == x;
        if i < |init| {
          assert init[i] == chain[i];
        }
      }
    }
  }

  /** The supervision walk from membership `id`, never re-entering a
      membership of `visited`: the relation `first` gives for `id`, then the
      walk from its supervisor. */
  function Walk(first: map<nat, Relation>, id: nat, visited: set<nat>): seq<Relation>
    decreases |first.Keys - visited|
  {
    if id in visited || id !in first then []
    else
      RemovalShrinks(first.Keys, visited, id);
      [first[id]] + Walk(first, first[id].supervisor.id, visited + {id})
  }

  /** The whole supervision chain of a membership. */
  function SupervisionWalk(first: map<nat, Relation>, start: Membership): seq<Relation>
  {
    Walk(first, start.id, {})
  }

  /** The walk's state, and the part still to walk completes the chain. */
  predicate Walking(start: Membership, first: map<nat, Relation>, chain: seq<Relation>,
                    visited: set<nat>, current: Membership)
  {
    ChainState(start, first, chain, visited, current)
    && chain + Walk(first, current.id, visited) == SupervisionWalk(first, start)
  }

  lemma WalkingStart(start: Membership, first: map<nat, Relation>)
    ensures Walking(start, first, [], {}, start)
  {
    assert [] + Walk(first, start.id, {}) == SupervisionWalk(first, start);
  }

  lemma WalkingStep(start: Membership, first: map<nat, Relation>, chain: seq<Relation>,
                    visited: set<nat>, current: Membership)
    requires forall id :: id in first ==> first[id].subordinate.id == id
    requires Walking(start, first, chain, visited, current)
    requires current.id in first && current.id !in visited
    ensures Walking(start, first, chain + [first[current.id]], visited + {current.id},
                    first[current.id].supervisor)
  {
    ChainStep(start, first, chain, visited, current);
    var r := first[current.id];
    assert Walk(first, current.id, visited) == [r] + Walk(first, r.supervisor.id, visited + {current.id});
    assert chain + [r] + Walk(first, r.supervisor.id, visited + {current.id})
        == chain + ([r] + Walk(first, r.supervisor.id, visited + {current.id}));
  }

  lemma ChainStep(start: Membership, first: map<nat, Relation>, chain: seq<Relation>,
                  visited: set<nat>, current: Membership)
    requires forall id :: id in first ==> first[id].subordinate.id == id
    requires ChainState(start, first, chain, visited, current)
    requires current.id in first && current.id !in visited
    ensures ChainState(start, first, chain + [first[current.id]], visited + {current.id},
                       first[current.id].supervisor)
  {
    var r := first[current.id];
    var c := chain + [r];
    assert c[..|c| - 1] == chain;
    forall i | 0 <= i < |chain| ensures chain[i].subordinate.id != current.id {
      SubordinateIdsMember(chain, chain[i].subordinate.id);
    }
  }

  /** _get_supervision_chain. `first` maps a membership id to the first
      active relation in which it is the subordinate, ordered by relation
      type (DIRECT before NORMAL); an id without one is absent. The walk
      never visits a membership twice, so it stops after at most one step
      per membership. */
  method SupervisionChain(start: Membership, first: map<nat, Relation>) returns (chain: seq<Relation>)
    requires forall id :: id in first ==> first[id].subordinate.id == id
    ensures chain == SupervisionWalk(first, start)
  {
    chain := [];
    var current := start;
    var visited: set<nat> := {};
    WalkingStart(start, first);
    while current.id !in visited
      invariant Walking(start, first, chain, visited, current)
      decreases |first.Keys - visited|
    {
      if current.id !in first {
        break;
      }
      WalkingStep(start, first, chain, visited, current);
      RemovalShrinks(first.Keys, visited, current.id);
      var relation := first[current.id];
      visited := visited + {current.id};
      chain := chain + [relation];
      current := relation.supervisor;
    }
    ChainEnd(start, first, chain, visited, current);
  }

  /** What the walk gives: a chain from `start` of linked relations drawn
      from `first`, at most one per membership, ending at a membership
      without a relation or at one already on the chain. */
  lemma SupervisionWalkFacts(first: map<nat, Relation>, start: Membership)
    requires forall id :: id in first ==> first[id].subordinate.id == id
    ensures var chain := SupervisionWalk(first, start);
      && (chain != [] ==> chain[0].subordinate.id == start.id)
      && (forall i :: 0 <= i < |chain| ==> chain[i].subordinate.id in first && chain[i] == first[chain[i].subordinate.id])
      && (forall i :: 0 <= i < |chain| - 1 ==> chain[i + 1].subordinate.id == chain[i].supervisor.id)
      && (forall i, j :: 0 <= i < j < |chain| ==> chain[i].subordinate.id != chain[j].subordinate.id)
      && |chain| <= |first.Keys|
      && (chain == [] ==> start.id !in first)
      && (chain != [] ==>
            var last := chain[|chain| - 1].supervisor.id;
            last !in first || exists i :: 0 <= i < |chain| && chain[i].subordinate.id == last)
  {
    WalkingStart(start, first);
    WalkFrom(start, first, [], {}, start);
  }

  /** The rest of the walk from any state of it, by induction on the
      memberships not yet visited. */
  lemma {:induction false} WalkFrom(start: Membership, first: map<nat, Relation>, chain: seq<Relation>,
                                    visited: set<nat>, current: Membership)
    requires forall id :: id in first ==> first[id].subordinate.id == id
    requires Walking(start, first, chain, visited, current)
    ensures var chain := SupervisionWalk(first, start);
      && (chain != [] ==> chain[0].subordinate.id == start.id)
      && (forall i :: 0 <= i < |chain| ==> chain[i].subordinate.id in first && chain[i] == first[chain[i].subordinate.id])
      && (forall i :: 0 <= i < |chain| - 1 ==> chain[i + 1].subordinate.id == chain[i].supervisor.id)
      && (forall i, j :: 0 <= i < j < |chain| ==> chain[i].subordinate.id != chain[j].subordinate.id)
      && |chain| <= |first.Keys|
      && (chain == [] ==> start.id !in first)
      && (chain != [] ==>
            var last := chain[|chain| - 1].supervisor.id;
            last !in first || exists i :: 0 <= i < |chain| && chain[i].subordinate.id == last)
    decreases |first.Keys - visited|
  {
    if current.id in visited || current.id !in first {
      ChainEnd(start, first, chain, visited, current);
    } else {
      WalkingStep(start, first, chain, visited, current);
      RemovalShrinks(first.Keys, visited, current.id);
      WalkFrom(start, first, chain + [first[current.id]], visited + {current.id}, first[current.id].supervisor);
    }
  }

  /** Where the walk stops: it has at most one relation per membership, and
      it ends at a membership without a relation or at one already visited. */
  lemma ChainEnd(start: Membership, first: map<nat, Relation>, chain: seq<Relation>,
                 visited: set<nat>, current: Membership)
    requires Walking(start, first, chain, visited, current)
    requires current.id in visited || current.id !in first
    ensures chain == SupervisionWalk(first, start)
    ensures chain != [] ==> chain[0].subordinate.id == start.id
    ensures forall i :: 0 <= i < |chain| ==> chain[i].subordinate.id in first && chain[i] == first[chain[i].subordinate.id]
    ensures forall i :: 0 <= i < |chain| - 1 ==> chain[i + 1].subordinate.id == chain[i].supervisor.id
    ensures forall i, j :: 0 <= i < j < |chain| ==> chain[i].subordinate.id != chain[j].subordinate.id
    ensures |chain| <= |first.Keys|
    ensures chain == [] ==> start.id !in first
    ensures chain != [] ==>
              var last := chain[|chain| - 1].supervisor.id;
              last !in first || exists i :: 0 <= i < |chain| && chain[i].subordinate.id == last
  {
    assert chain + [] == chain;
    CardSubset(visited, first.Keys);
    if chain != [] {
      SubordinateIdsMember(chain, current.id);
    }
  }

  lemma CardSubset(a: set<nat>, b: set<nat>)
    requires a <= b
    ensures |a| <= |b|
  {
    assert b == a + (b - a);
  }

  // --------------------------------------------------- supervisor commissions

  /** The commission a supervisor earns through one relation of the chain. */
  function RelationCommission(h: seq<Position>, rate: string -> real, seller: Membership, r: Relation): real
  {
    if r.relationType == "DIRECT" then DirectSupervisionCommission(h, rate, r.supervisor, seller.level)
    else rate(r.supervisor.positionCode)
  }

  /** The commission of every relation of the chain, in chain order. */
  function Commissions(h: seq<Position>, rate: string -> real, seller: Membership, chain: seq<Relation>): (cs: seq<real>)
    ensures |cs| == |chain|
    ensures forall i :: 0 <= i < |chain| ==> cs[i] == RelationCommission(h, rate, seller, chain[i])
  {
    if chain == [] then []
    else [RelationCommission(h, rate, seller, chain[0])] + Commissions(h, rate, seller, chain[1..])
  }

  /** Relation i pays its supervisor user u a positive commission. */
  predicate Pays(chain: seq<Relation>, cs: seq<real>, i: int, u: nat)
  {
    0 <= i < |chain| && i < |cs| && chain[i].supervisor.userId == u && cs[i] > 0.0
  }

  /** One of the first k relations pays u. */
  ghost predicate Earns(chain: seq<Relation>, cs: seq<real>, k: int, u: nat)
  {
    exists i :: 0 <= i < k && Pays(chain, cs, i, u)
  }

  /** Relation i is the last of the first k that pays u. */
  ghost predicate LastEarning(chain: seq<Relation>, cs: seq<real>, k: int, u: nat, i: int)
  {
    i < k && Pays(chain, cs, i, u) && forall j :: i < j < k ==> !Pays(chain, cs, j, u)
  }

  /** The supervisors' dict after the first k relations: exactly the users
      some relation pays, each with the share of the last one that pays it. */
  ghost predicate SupervisorsAfter(chain: seq<Relation>, cs: seq<real>, k: int, sale: real, d: map<nat, Share>)
  {
    && (forall u :: u in d <==> Earns(chain, cs, k, u))
    && (forall u :: u in d ==> exists i :: LastEarning(chain, cs, k, u, i) && d[u] == Share(cs[i], Amount(sale, cs[i])))
  }

  /** _calculate_supervisor_commissions: one entry per supervisor user whose
      commission is positive, keyed by user id; a later relation paying the
      same user overwrites an earlier one. */
  method SupervisorCommissions(
    h: seq<Position>, rate: string -> real, seller: Membership, chain: seq<Relation>, sale: real)
    returns (d: map<nat, Share>)
    ensures forall u :: u in d ==> d[u].percentage > 0.0 && d[u].amount == Amount(sale, d[u].percentage)
    ensures SupervisorsAfter(chain, Commissions(h, rate, seller, chain), |chain|, sale, d)
  {
    ghost var cs := Commissions(h, rate, seller, chain);
    d := map[];
    var k := 0;
    while k < |chain|
      invariant 0 <= k <= |chain|
      invariant forall u :: u in d ==> d[u].percentage > 0.0 && d[u].amount == Amount(sale, d[u].percentage)
      invariant SupervisorsAfter(chain, cs, k, sale, d)
    {
      var commission := RelationCommission(h, rate, seller, chain[k]);
      assert cs[k] == commission;
      if commission > 0.0 {
        PayingStep(chain, cs, k, sale, d);
        d := d[chain[k].supervisor.userId := Share(commission, Amount(sale, commission))];
      } else {
        SilentStep(chain, cs, k, sale, d);
      }
      k := k + 1;
    }
  }

  /** Relation k pays its supervisor: that user's entry becomes relation k's share. */
  lemma PayingStep(chain: seq<Relation>, cs: seq<real>, k: int, sale: real, d: map<nat, Share>)
    requires 0 <= k < |chain| == |cs|
    requires SupervisorsAfter(chain, cs, k, sale, d)
    requires cs[k] > 0.0
    ensures SupervisorsAfter(chain, cs, k + 1, sale, d[chain[k].supervisor.userId := Share(cs[k], Amount(sale, cs[k]))])
  {
    var v := chain[k].supervisor.userId;
    var d' := d[v := Share(cs[k], Amount(sale, cs[k]))];
    assert Pays(chain, cs, k, v);
    forall u ensures u in d' <==> Earns(chain, cs, k + 1, u) {
      if u != v {
        EarnsExtends(chain, cs, k, u);
      }
    }
    forall u | u in d' ensures exists i :: LastEarning(chain, cs, k + 1, u, i) && d'[u] == Share(cs[i], Amount(sale, cs[i])) {
      if u == v {
        assert LastEarning(chain, cs, k + 1, u, k);
      } else {
        var i :| LastEarning(chain, cs, k, u, i) && d[u] == Share(cs[i], Amount(sale, cs[i]));
        assert LastEarning(chain, cs, k + 1, u, i);
      }
    }
  }

  /** Relation k pays nobody: the dict is unchanged. */
  lemma SilentStep(chain: seq<Relation>, cs: seq<real>, k: int, sale: real, d: map<nat, Share>)
    requires 0 <= k < |chain| == |cs|
    requires SupervisorsAfter(chain, cs, k, sale, d)
    requires cs[k] <= 0.0
    ensures SupervisorsAfter(chain, cs, k + 1, sale, d)
  {
    forall u ensures u in d <==> Earns(chain, cs, k + 1, u) {
      EarnsExtends(chain, cs, k, u);
    }
    forall u | u in d ensures exists i :: LastEarning(chain, cs, k + 1, u, i) && d[u] == Share(cs[i], Amount(sale, cs[i])) {
      var i :| LastEarning(chain, cs, k, u, i) && d[u] == Share(cs[i], Amount(sale, cs[i]));
      assert LastEarning(chain, cs, k + 1, u, i);
    }
  }

  /** A user relation k does not pay is paid by the first k + 1 relations
      exactly when it is paid by the first k. */
  lemma EarnsExtends(chain: seq<Relation>, cs: seq<real>, k: int, u: nat)
    requires 0 <= k < |chain| == |cs|
    requires !Pays(chain, cs, k, u)
    ensures Earns(chain, cs, k + 1, u) <==> Earns(chain, cs, k, u)
  {
    if Earns(chain, cs, k + 1, u) {
      var i :| 0 <= i < k + 1 && Pays(chain, cs, i, u);
      assert i != k;
    }
  }

  /** calculate_distribution: the seller's share, then the supervisors'
      shares merged over it (dict.update). Along the seller's supervision
      walk, every user some relation pays holds the share of the last
      relation that pays it; the seller keeps its own commission unless a
      relation pays it as a supervisor. */
  method CalculateDistribution(
    h: seq<Position>, rate: string -> real, seller: Membership, first: map<nat, Relation>, sale: real)
    returns (d: map<nat, Share>)
    requires forall id :: id in first ==> first[id].subordinate.id == id
    ensures seller.userId in d
    ensures forall u :: u in d ==> d[u].amount == Amount(sale, d[u].percentage)
    ensures var w := SupervisionWalk(first, seller);
            var cs := Commissions(h, rate, seller, w);
            && (forall u :: u in d <==> u == seller.userId || Earns(w, cs, |w|, u))
            && (forall u :: u in d && Earns(w, cs, |w|, u) ==>
                  exists i :: LastEarning(w, cs, |w|, u, i) && d[u] == Share(cs[i], Amount(sale, cs[i])))
            && (!Earns(w, cs, |w|, seller.userId) ==>
                  d[seller.userId] == Share(SellerCommission(h, rate, seller.level),
                                            Amount(sale, SellerCommission(h, rate, seller.level))))
    ensures (forall id :: id in first ==> first[id].supervisor.userId != seller.userId) ==>
              d[seller.userId] == Share(SellerCommission(h, rate, seller.level),
                                        Amount(sale, SellerCommission(h, rate, seller.level)))
  {
    var own := SellerCommission(h, rate, seller.level);
    var chain := SupervisionChain(seller, first);
    var supervisors := SupervisorCommissions(h, rate, seller, chain, sale);
    d := map[seller.userId := Share(own, Amount(sale, own))] + supervisors;
    MergedShares(chain, Commissions(h, rate, seller, chain), seller.userId, Share(own, Amount(sale, own)), supervisors, sale);
    if forall id :: id in first ==> first[id].supervisor.userId != seller.userId {
      SellerNotPaid(h, rate, first, seller);
    }
  }

  /** dict.update of the seller's entry with the supervisors' entries. */
  lemma MergedShares(chain: seq<Relation>, cs: seq<real>, user: nat, own: Share, sup: map<nat, Share>, sale: real)
    requires own.amount == Amount(sale, own.percentage)
    requires forall u :: u in sup ==> sup[u].amount == Amount(sale, sup[u].percentage)
    requires SupervisorsAfter(chain, cs, |chain|, sale, sup)
    ensures var d := map[user := own] + sup;
            && user in d
            && (forall u :: u in d ==> d[u].amount == Amount(sale, d[u].percentage))
            && (forall u :: u in d <==> u == user || Earns(chain, cs, |chain|, u))
            && (forall u :: u in d && Earns(chain, cs, |chain|, u) ==>
                  exists i :: LastEarning(chain, cs, |chain|, u, i) && d[u] == Share(cs[i], Amount(sale, cs[i])))
            && (!Earns(chain, cs, |chain|, user) ==> d[user] == own)
  {
  }

  /** When no relation has the seller's user as supervisor, no relation of
      the walk pays it. */
  lemma SellerNotPaid(h: seq<Position>, rate: string -> real, first: map<nat, Relation>, seller: Membership)
    requires forall id :: id in first ==> first[id].subordinate.id == id
    requires forall id :: id in first ==> first[id].supervisor.userId != seller.userId
    ensures var w := SupervisionWalk(first, seller);
            !Earns(w, Commissions(h, rate, seller, w), |w|, seller.userId)
  {
    var w := SupervisionWalk(first, seller);
    SupervisionWalkFacts(first, seller);
    NoSupervisorIsSeller(first, w, seller.userId);
  }

  /** A chain drawn from `first` holds no supervisor that `first` lacks. */
  lemma NoSupervisorIsSeller(first: map<nat, Relation>, chain: seq<Relation>, user: nat)
    requires forall i :: 0 <= i < |chain| ==> chain[i].subordinate.id in first && chain[i] == first[chain[i].subordinate.id]
    requires forall id :: id in first ==> first[id].supervisor.userId != user
    ensures forall i :: 0 <= i < |chain| ==> chain[i].supervisor.userId != user
  {
  }

  // --------------------------------------------------- circular reporting

  lemma RemovalShrinks(u: set<nat>, v: set<nat>, m: nat)
    requires m in u && m !in v
    ensures |u - (v + {m})| < |u - v|
  {
    assert u - v == (u - (v + {m})) + {m};
  }

  /** HierarchyAnalyzer._has_circular_reporting: `g` maps a membership id
      to the ids of its active supervisors; `visited` is copied for every
      branch, so the search is a depth-first walk over all paths. */
  function HasCircular(g: map<nat, seq<nat>>, m: nat, visited: set<nat>): (r: bool)
    ensures m in visited ==> r
    ensures m !in visited && (m !in g || g[m] == []) ==> !r
    decreases |g.Keys - visited|
  {
    if m in visited then true
    else if m !in g then false
    else
      RemovalShrinks(g.Keys, visited, m);
      exists i :: 0 <= i < |g[m]| && HasCircular(g, g[m][i], visited + {m})
  }

  /** w follows supervisor edges of g. */
  predicate IsWalk(g: map<nat, seq<nat>>, w: seq<nat>)
  {
    |w| >= 1 && forall i :: 0 <= i < |w| - 1 ==> w[i] in g && w[i + 1] in g[w[i]]
  }

  /** A walk from m whose last membership was already visited, either
      before the search started (in v) or earlier on the walk itself. */
  predicate CircularWitness(g: map<nat, seq<nat>>, m: nat, v: set<nat>, w: seq<nat>)
  {
    IsWalk(g, w) && w[0] == m && (w[|w| - 1] in v || w[|w| - 1] in w[..|w| - 1])
  }

  /** The recursive search answers True exactly when some supervisor walk
      from m reaches a membership already visited. */
  lemma {:induction false} HasCircularIffWitness(g: map<nat, seq<nat>>, m: nat, v: set<nat>)
    ensures HasCircular(g, m, v) <==> exists w :: CircularWitness(g, m, v, w)
    decreases |g.Keys - v|
  {
    if m in v {
      assert CircularWitness(g, m, v, [m]);
    } else if m !in g {
    } else {
      RemovalShrinks(g.Keys, v, m);
      var v' := v + {m};
      if HasCircular(g, m, v) {
        var i :| 0 <= i < |g[m]| && HasCircular(g, g[m][i], v');
        HasCircularIffWitness(g, g[m][i], v');
        var w' :| CircularWitness(g, g[m][i], v', w');
        var w := [m] + w';
        assert w[1..] == w';
        assert w[..|w| - 1] == [m] + w'[..|w'| - 1];
        assert IsWalk(g, w) by {
          forall j | 0 <= j < |w| - 1 ensures w[j] in g && w[j + 1] in g[w[j]] {
            if j > 0 {
              assert w[j] == w'[j - 1] && w[j + 1] == w'[j];
            }
          }
        }
        assert CircularWitness(g, m, v, w);
      }
      if exists w :: CircularWitness(g, m, v, w) {
        var w :| CircularWitness(g, m, v, w);
        assert |w| >= 2;
        var s := w[1];
        assert s in g[m];
        var i :| 0 <= i < |g[m]| && g[m][i] == s;
        var w' := w[1..];
        assert IsWalk(g, w') by {
          forall j | 0 <= j < |w'| - 1 ensures w'[j] in g && w'[j + 1] in g[w'[j]] {
            assert w'[j] == w[j + 1] && w'[j + 1] == w[j + 2];
          }
        }
        var last := w[|w| - 1];
        assert last == w'[|w'| - 1];
        assert w[..|w| - 1] == [m] + w'[..|w'| - 1];
        assert last in v' || last in w'[..|w'| - 1];
        assert CircularWitness(g, s, v', w');
        HasCircularIffWitness(g, s, v');
        assert HasCircular(g, g[m][i], v');
      }
    }
  }
}

=== FILE: common.dfy ===
/** Shared vocabulary: optional values, results, and the few string
    operations of Python and JavaScript that the CRM relies on
    (str.isdigit, str.lower, str.strip, str.split, the `in` operator). */
module Common {

  datatype Option<T> = None | Some(value: T)

  datatype Result<T, E> = Ok(value: T) | Err(error: E)

  /** Python truthiness of a nullable Decimal field: None and 0 are false. */
  predicate Truthy(x: Option<real>)
  {
    x.Some? && x.value != 0.0
  }

  /** Truthiness of a nullable integer field (a PositiveIntegerField limit). */
  predicate TruthyNat(x: Option<nat>)
  {
    x.Some? && x.value != 0
  }

  predicate IsDigit(c: char)
  {
    '0' <= c <= '9'
  }

  function DigitValue(c: char): (d: nat)
    requires IsDigit(c)
    ensures d < 10
  {
    (c as int) - ('0' as int)
  }

  predicate AllDigits(s: string)
  {
    forall i :: 0 <= i < |s| ==> IsDigit(s[i])
  }

  /** Number of digit characters in s. */
  function CountDigits(s: string): nat
  {
    if s == [] then 0 else (if IsDigit(s[0]) then 1 else 0) + CountDigits(s[1..])
  }

  /** `''.join(filter(str.isdigit, s))` */
  function DigitsOnly(s: string): (r: string)
    ensures AllDigits(r)
    ensures |r| == CountDigits(s)
    ensures AllDigits(s) ==> r == s
  {
    if s == [] then []
    else if IsDigit(s[0]) then [s[0]] + DigitsOnly(s[1..])
    else DigitsOnly(s[1..])
  }

  /** Python's str.isspace for one character. */
  predicate IsSpace(c: char)
  {
    ('\U{9}' <= c <= '\U{D}') || ('\U{1C}' <= c <= '\U{20}') || c == '\U{85}' || c == '\U{A0}'
    || c == '\U{1680}' || ('\U{2000}' <= c <= '\U{200A}') || c == '\U{2028}' || c == '\U{2029}'
    || c == '\U{202F}' || c == '\U{205F}' || c == '\U{3000}'
  }

  /** Python's str.lower on the ASCII and Latin-1 letters. */
  function LowerChar(c: char): (r: char)
    ensures 'A' <= c <= 'Z' ==> 'a' <= r <= 'z'
    ensures !('A' <= c <= 'Z') && !('\U{C0}' <= c <= '\U{DE}') ==> r == c
  {
    if 'A' <= c <= 'Z' || ('\U{C0}' <= c <= '\U{DE}' && c != '\U{D7}') then
      ((c as int) + 32) as char
    else c
  }

  function Lower(s: string): (r: string)
    ensures |r| == |s|
    ensures forall i :: 0 <= i < |s| ==> r[i] == LowerChar(s[i])
  {
    if s == [] then [] else [LowerChar(s[0])] + Lower(s[1..])
  }

  function StripLeft(s: string): (r: string)
    ensures |r| <= |s| && r == s[|s| - |r|..]
    ensures r != [] ==> !IsSpace(r[0])
    ensures forall i :: 0 <= i < |s| - |r| ==> IsSpace(s[i])
  {
    if s != [] && IsSpace(s[0]) then
      var r := StripLeft(s[1..]);
      assert s[1..][|s| - 1 - |r|..] == s[|s| - |r|..];
      assert forall i :: 1 <= i < |s| - |r| ==> s[i] == s[1..][i - 1];
      r
    else s
  }

  function StripRight(s: string): (r: string)
    ensures |r| <= |s| && r == s[..|r|]
    ensures r != [] ==> !IsSpace(r[|r| - 1])
    ensures forall i :: |r| <= i < |s| ==> IsSpace(s[i])
  {
    if s != [] && IsSpace(s[|s| - 1]) then StripRight(s[..|s| - 1]) else s
  }

  /** sub occurs in s starting at index i. */
  predicate OccursAt(s: string, sub: string, i: int)
  {
    0 <= i <= |s| - |sub| && s[i..i + |sub|] == sub
  }

  /** Python's str.strip(): a slice of s without surrounding whitespace. */
  function Strip(s: string): (r: string)
    ensures exists k :: OccursAt(s, r, k)
    ensures r != [] ==> !IsSpace(r[0]) && !IsSpace(r[|r| - 1])
  {
    StripOccurs(s);
    StripRight(StripLeft(s))
  }

  lemma StripOccurs(s: string)
    ensures OccursAt(s, StripRight(StripLeft(s)), |s| - |StripLeft(s)|)
  {
    var l := StripLeft(s);
    var r := StripRight(l);
    var k := |s| - |l|;
    PrefixOfSuffix(s, k, |r|);
  }

  lemma PrefixOfSuffix(s: string, k: nat, n: nat)
    requires k + n <= |s|
    ensures s[k..][..n] == s[k..k + n]
  {
  }

  predicate AllSpace(s: string)
  {
    forall i :: 0 <= i < |s| ==> IsSpace(s[i])
  }

  /** Number of items of Python's str.split() with no separator: the
      maximal runs of non-whitespace characters. */
  function WordCount(s: string): nat
  {
    if s == [] then 0
    else if IsSpace(s[0]) then WordCount(s[1..])
    else 1 + WordCount(SkipWord(s))
  }

  /** Drops the leading run of non-whitespace characters. */
  function SkipWord(s: string): (r: string)
    ensures |r| <= |s| && r == s[|s| - |r|..]
    ensures s != [] && !IsSpace(s[0]) ==> |r| < |s|
    ensures r != [] ==> IsSpace(r[0])
  {
    if s != [] && !IsSpace(s[0]) then SkipWord(s[1..]) else s
  }

  lemma {:induction false} WordCountZeroIffBlank(s: string)
    ensures WordCount(s) == 0 <==> AllSpace(s)
    decreases |s|
  {
    if s != [] {
      if IsSpace(s[0]) {
        WordCountZeroIffBlank(s[1..]);
        assert AllSpace(s) <==> AllSpace(s[1..]) by {
          if AllSpace(s[1..]) {
            forall i | 0 <= i < |s| ensures IsSpace(s[i]) {
              if i > 0 { assert s[i] == s[1..][i - 1]; }
            }
          }
        }
      }
    }
  }

  /** Python's `sub in s` on strings. */
  function Contains(s: string, sub: string): (b: bool)
    ensures b <==> exists i :: OccursAt(s, sub, i)
    decreases |s|
  {
    if |sub| > |s| then false
    else if s[..|sub|] == sub then assert OccursAt(s, sub, 0); true
    else
      var rest := Contains(s[1..], sub);
      assert rest <==> exists i :: OccursAt(s, sub, i) by {
        if rest {
          var j :| OccursAt(s[1..], sub, j);
          assert s[j + 1..j + 1 + |sub|] == s[1..][j..j + |sub|];
          assert OccursAt(s, sub, j + 1);
        }
        if exists i :: OccursAt(s, sub, i) {
          var i :| OccursAt(s, sub, i);
          assert i != 0;
          assert s[1..][i - 1..i - 1 + |sub|] == s[i..i + |sub|];
          assert OccursAt(s[1..], sub, i - 1);
        }
      }
      rest
  }

  /** A key longer than s, or whose first character s lacks, does not
      occur in s. */
  lemma Misses(s: string, k: string)
    requires |k| > |s| || (k != [] && k[0] !in s)
    ensures !Contains(s, k)
  {
  }

  /** A calendar date, as Python's datetime.date. */
  datatype Date = Date(year: int, month: int, day: int)

  /** Date comparison a < b. */
  predicate DateBefore(a: Date, b: Date)
  {
    a.year < b.year || (a.year == b.year && (a.month < b.month || (a.month == b.month && a.day < b.day)))
  }

  /** `today.year - birth.year - ((today.month, today.day) < (birth.month, birth.day))`:
      the year difference, one less before this year's birthday. */
  function AgeOn(today: Date, birth: Date): int
  {
    today.year - birth.year - (if today.month < birth.month || (today.month == birth.month && today.day < birth.day) then 1 else 0)
  }

  /** Someone is at least n years old exactly when today is not before
      their n-th birthday. */
  lemma AgeBirthday(today: Date, birth: Date, n: int)
    ensures AgeOn(today, birth) >= n <==> !DateBefore(today, Date(birth.year + n, birth.month, birth.day))
  {
  }

  /** `any(k in s for k in keys)` */
  predicate ContainsAny(s: string, keys: seq<string>)
  {
    exists k :: k in keys && Contains(s, k)
  }

  /** Sum of a sequence of reals, as Python's sum(). */
  function SumReals(xs: seq<real>): real
  {
    if xs == [] then 0.0 else xs[0] + SumReals(xs[1..])
  }

  lemma {:induction false} SumRealsAppend(xs: seq<real>, x: real)
    ensures SumReals(xs + [x]) == SumReals(xs) + x
  {
    if xs == [] {
      assert xs + [x] == [x];
    } else {
      assert (xs + [x])[1..] == xs[1..] + [x];
      SumRealsAppend(xs[1..], x);
    }
  }

  /** Sum of a sequence of naturals. */
  function SumNats(xs: seq<nat>): nat
  {
    if xs == [] then 0 else xs[0] + SumNats(xs[1..])
  }

  lemma {:induction false} SumNatsBound(xs: seq<nat>, k: int)
    requires 0 <= k < |xs|
    ensures xs[k] <= SumNats(xs)
  {
    if k > 0 {
      SumNatsBound(xs[1..], k - 1);
    }
  }

  lemma {:induction false} SumNatsIncrement(xs: seq<nat>, k: int)
    requires 0 <= k < |xs|
    ensures SumNats(xs[k := xs[k] + 1]) == SumNats(xs) + 1
  {
    if k > 0 {
      assert xs[k := xs[k] + 1][1..] == xs[1..][k - 1 := xs[k] + 1];
      SumNatsIncrement(xs[1..], k - 1);
    }
  }

  /** Product of a sequence of reals. */
  function ProdReals(xs: seq<real>): real
  {
    if xs == [] then 1.0 else xs[0] * ProdReals(xs[1..])
  }

  lemma {:induction false} ProdRealsAppend(xs: seq<real>, x: real)
    ensures ProdReals(xs + [x]) == ProdReals(xs) * x
  {
    if xs == [] {
      assert xs + [x] == [x];
    } else {
      assert (xs + [x])[1..] == xs[1..] + [x];
      ProdRealsAppend(xs[1..], x);
    }
  }

  lemma {:induction false} SumRealsConcat(xs: seq<real>, ys: seq<real>)
    ensures SumReals(xs + ys) == SumReals(xs) + SumReals(ys)
  {
    if xs == [] {
      assert xs + ys == ys;
    } else {
      assert (xs + ys)[1..] == xs[1..] + ys;
      SumRealsConcat(xs[1..], ys);
    }
  }

  lemma {:induction false} ProdRealsConcat(xs: seq<real>, ys: seq<real>)
    ensures ProdReals(xs + ys) == ProdReals(xs) * ProdReals(ys)
  {
    if xs == [] {
      assert xs + ys == ys;
    } else {
      assert (xs + ys)[1..] == xs[1..] + ys;
      ProdRealsConcat(xs[1..], ys);
      var x, p, q := xs[0], ProdReals(xs[1..]), ProdReals(ys);
      assert ProdReals(xs + ys) == x * (p * q);
      assert x * (p * q) == (x * p) * q;
    }
  }

  /** Decimal representation of a natural number. */
  function NatToString(n: nat): (s: string)
    ensures |s| >= 1 && AllDigits(s)
    decreases n
  {
    if n < 10 then [DigitChar(n)] else NatToString(n / 10) + [DigitChar(n % 10)]
  }

  function DigitChar(d: nat): (c: char)
    requires d < 10
    ensures IsDigit(c) && DigitValue(c) == d
  {
    ((d + ('0' as int)) as char)
  }

  /** Python's `f"{n:02d}"` for a non-negative n: zero-padded to width 2. */
  function Pad2(n: nat): (s: string)
    ensures AllDigits(s)
    ensures n < 100 ==> |s| == 2
    ensures n >= 100 ==> s == NatToString(n)
  {
    if n < 100 then [DigitChar(n / 10), DigitChar(n % 10)] else NatToString(n)
  }

  predicate StartsWith(s: string, prefix: string)
  {
    |prefix| <= |s| && s[..|prefix|] == prefix
  }

  predicate EndsWith(s: string, suffix: string)
  {
    |suffix| <= |s| && s[|s| - |suffix|..] == suffix
  }

  /** Python's str.split(c) with an explicit separator: empty pieces are
      kept, so there is always one more piece than separators. */
  function Split(s: string, c: char): (parts: seq<string>)
    ensures |parts| >= 1
    ensures forall i :: 0 <= i < |parts| ==> c !in parts[i]
    decreases |s|
  {
    if s == [] then [[]]
    else if s[0] == c then [[]] + Split(s[1..], c)
    else
      var r := Split(s[1..], c);
      assert c !in [s[0]] + r[0];
      [[s[0]] + r[0]] + r[1..]
  }

  /** c.join(parts) */
  function Join(parts: seq<string>, c: char): string
    requires |parts| >= 1
  {
    if |parts| == 1 then parts[0] else parts[0] + [c] + Join(parts[1..], c)
  }

  /** Splitting loses nothing: joining the pieces gives the string back. */
  lemma {:induction false} JoinSplit(s: string, c: char)
    ensures Join(Split(s, c), c) == s
    decreases |s|
  {
    if s != [] {
      JoinSplit(s[1..], c);
      var r := Split(s[1..], c);
      if s[0] != c && |r| > 1 {
        assert ([[s[0]] + r[0]] + r[1..])[1..] == r[1..];
      }
    }
  }

  /** A piece without the separator, then the separator, then the rest. */
  lemma {:induction false} SplitCons(a: string, b: string, c: char)
    requires c !in a
    ensures Split(a + [c] + b, c) == [a] + Split(b, c)
    decreases |a|
  {
    if a == [] {
      assert a + [c] + b == [c] + b;
      assert ([c] + b)[1..] == b;
    } else {
      assert (a + [c] + b)[1..] == a[1..] + [c] + b;
      SplitCons(a[1..], b, c);
      assert [a[0]] + a[1..] == a;
    }
  }

  /** The rest, the separator, then a last piece without the separator. */
  lemma {:induction false} SplitSnoc(a: string, b: string, c: char)
    requires c !in b
    ensures Split(a + [c] + b, c) == Split(a, c) + [b]
    decreases |a|
  {
    if a == [] {
      assert a + [c] + b == [c] + b;
      assert ([c] + b)[1..] == b;
      SplitNoSeparator(b, c);
    } else {
      assert (a + [c] + b)[1..] == a[1..] + [c] + b;
      SplitSnoc(a[1..], b, c);
      assert [a[0]] + a[1..] == a;
    }
  }

  lemma {:induction false} SplitNoSeparator(a: string, c: char)
    requires c !in a
    ensures Split(a, c) == [a]
    decreases |a|
  {
    if a != [] {
      SplitNoSeparator(a[1..], c);
      assert [a[0]] + a[1..] == a;
    }
  }

  /** Value of the decimal digits of d, most significant first; any other
      character (the underscore of a grouped number) is skipped. */
  function DigitsValue(d: string): nat
  {
    if d == [] then 0
    else if IsDigit(d[|d| - 1]) then 10 * DigitsValue(d[..|d| - 1]) + DigitValue(d[|d| - 1])
    else DigitsValue(d[..|d| - 1])
  }

  lemma {:induction false} DigitsValueOfNat(n: nat)
    ensures DigitsValue(NatToString(n)) == n
    decreases n
  {
    var s := NatToString(n);
    if n >= 10 {
      DigitsValueOfNat(n / 10);
      assert s[..|s| - 1] == NatToString(n / 10);
    }
  }

  /** Decimal text of an integer, as Python's str(n) / f"{n}". */
  function IntToString(n: int): (s: string)
    ensures |s| >= 1
  {
    if n < 0 then "-" + NatToString(-n) else NatToString(n)
  }

  /** Python's int(s) on text: surrounding whitespace, an optional sign,
      and ASCII digits in which single underscores may separate two digits
      ("1_000"); any other text raises ValueError, here None. */
  function ParseInt(s: string): (r: Option<int>)
    ensures r.Some? ==> Strip(s) != []
  {
    SignedDigits(Strip(s))
  }

  /** An optional sign followed by a digit part. */
  function SignedDigits(t: string): (r: Option<int>)
    ensures r.Some? ==> t != []
  {
    if t != [] && (t[0] == '-' || t[0] == '+') then
      if |t| > 1 && DigitPart(t[1..]) then
        var v: int := DigitsValue(t[1..]);
        Some(if t[0] == '-' then -v else v)
      else None
    else if DigitPart(t) then Some(DigitsValue(t))
    else None
  }

  /** Digits in which an underscore may stand between two digits: the
      grouping of PEP 515, which int() and float() accept. */
  predicate DigitPart(s: string)
  {
    s != [] && IsDigit(s[0]) && IsDigit(s[|s| - 1]) && forall i :: 0 <= i < |s| ==> GroupedAt(s, i)
  }

  /** s[i] is a digit, or an underscore between two digits. */
  predicate GroupedAt(s: string, i: int)
    requires 0 <= i < |s|
  {
    IsDigit(s[i]) || (s[i] == '_' && 0 < i < |s| - 1 && IsDigit(s[i - 1]) && IsDigit(s[i + 1]))
  }

  lemma DigitPartChars(d: string)
    requires DigitPart(d)
    ensures NumeralChars(d)
    ensures '.' !in d && 'e' !in d
  {
    forall i | 0 <= i < |d| ensures IsDigit(d[i]) || d[i] == '_' {
      assert GroupedAt(d, i);
    }
  }

  /** A plain run of digits is a digit part. */
  lemma DigitsArePart(d: string)
    requires d != [] && AllDigits(d)
    ensures DigitPart(d)
  {
    assert forall i :: 0 <= i < |d| ==> GroupedAt(d, i);
  }

  lemma StripDigits(d: string)
    requires d != [] && AllDigits(d)
    ensures Strip(d) == d
  {
    StripKeeps(d);
  }

  lemma StripSigned(d: string)
    requires d != [] && AllDigits(d)
    ensures Strip("-" + d) == "-" + d
  {
    var t := "-" + d;
    assert t[|t| - 1] == d[|d| - 1];
    StripKeeps(t);
  }

  /** A text that neither starts nor ends with whitespace is its own strip. */
  lemma StripKeeps(t: string)
    requires t != [] && !IsSpace(t[0]) && !IsSpace(t[|t| - 1])
    ensures Strip(t) == t
  {
    assert StripLeft(t) == t;
    assert StripRight(t) == t;
  }

  /** int(str(n)) == n */
  lemma ParseIntToString(n: int)
    ensures ParseInt(IntToString(n)) == Some(n)
  {
    var s := IntToString(n);
    if n < 0 {
      var m: nat := -n;
      assert s == "-" + NatToString(m);
      ParseNegative(m);
      assert ParseInt(s) == Some(-(m as int));
    } else {
      assert s == NatToString(n);
      ParseNatural(n);
    }
  }

  /** int() of a plain run of digits is its decimal value. */
  lemma ParseDigits(d: string)
    requires d != [] && AllDigits(d)
    ensures ParseInt(d) == Some(DigitsValue(d) as int)
  {
    StripDigits(d);
    DigitsArePart(d);
    assert d[0] != '-' && d[0] != '+';
  }

  /** int() of a single character succeeds exactly on an ASCII digit. */
  lemma ParseOneChar(c: char)
    ensures ParseInt([c]) == if IsDigit(c) then Some(DigitValue(c) as int) else None
  {
    var s := [c];
    if IsDigit(c) {
      assert s[..0] == [];
      assert DigitsValue(s) == DigitValue(c);
      ParseDigits(s);
    } else if IsSpace(c) {
      assert StripLeft(s) == StripLeft(s[1..]);
      assert Strip(s) == [];
    } else {
      StripNonSpace(c);
      assert !DigitPart(s) && !DigitPart(s[1..]);
    }
  }

  /** A text without whitespace is its own strip. */
  lemma StripWord(s: string)
    requires s != [] && forall i :: 0 <= i < |s| ==> !IsSpace(s[i])
    ensures Strip(s) == s
  {
    assert StripLeft(s) == s;
  }

  lemma StripNonSpace(c: char)
    requires !IsSpace(c)
    ensures Strip([c]) == [c]
  {
    var s := [c];
    assert StripLeft(s) == s;
    assert StripRight(s) == s;
  }

  lemma ParseNatural(n: nat)
    ensures ParseInt(NatToString(n)) == Some(n)
  {
    var d := NatToString(n);
    DigitsValueOfNat(n);
    StripDigits(d);
    DigitsArePart(d);
    assert d[0] != '-' && d[0] != '+';
  }

  lemma ParseNegative(m: nat)
    requires m > 0
    ensures ParseInt("-" + NatToString(m)) == Some(-(m as int))
  {
    DigitsValueOfNat(m);
    ParseMinusDigits(NatToString(m), m);
  }

  lemma ParseMinusDigits(d: string, v: nat)
    requires d != [] && AllDigits(d) && DigitsValue(d) == v
    ensures ParseInt("-" + d) == Some(-(v as int))
  {
    StripSigned(d);
    SignedDigitsMinus(d, v);
  }

  lemma SignedDigitsMinus(d: string, v: nat)
    requires d != [] && AllDigits(d) && DigitsValue(d) == v
    ensures SignedDigits("-" + d) == Some(-(v as int))
  {
    assert ("-" + d)[1..] == d;
    DigitsArePart(d);
  }

  function Pow10(k: nat): (p: nat)
    ensures p >= 1
  {
    if k == 0 then 1 else 10 * Pow10(k - 1)
  }

  /** A plain decimal literal: digits with at most one point and at least
      one digit ("12", "12.5", ".5", "12."), without sign, exponent or
      underscores. */
  function ParseUnsignedDecimal(t: string): Option<real>
  {
    var parts := Split(t, '.');
    if |parts| == 1 then
      if t != [] && AllDigits(t) then Some(DigitsValue(t) as real) else None
    else if |parts| == 2 && (parts[0] != [] || parts[1] != []) && AllDigits(parts[0]) && AllDigits(parts[1]) then
      Some(DigitsValue(parts[0]) as real + (DigitsValue(parts[1]) as real) / (Pow10(|parts[1]|) as real))
    else None
  }

  /** An optional sign, then a plain decimal literal. */
  function SignedDecimal(t: string): (r: Option<real>)
    ensures r.Some? ==> t != []
  {
    if t != [] && (t[0] == '-' || t[0] == '+') then
      match ParseUnsignedDecimal(t[1..])
      case Some(v) => Some(if t[0] == '-' then -v else v)
      case None => None
    else ParseUnsignedDecimal(t)
  }

  /** A Python float: a finite value, an infinity, or NaN. Finite values
      are exact rationals; binary rounding is not modelled. */
  datatype PyFloat = Finite(v: real) | Infinite(negative: bool) | NotANumber

  /** Python's chained comparison `lo <= x <= hi` for finite bounds: false
      for NaN and for either infinity. */
  predicate Between(x: PyFloat, lo: real, hi: real)
  {
    x.Finite? && lo <= x.v <= hi
  }

  /** Python's float(s) on text: surrounding whitespace, an optional sign,
      then "inf", "infinity" or "nan" in any letter case, or a decimal
      literal with an optional exponent and PEP 515 underscores
      ("1_000.5e-3"); any other text raises ValueError, here None. */
  function ParseFloat(s: string): (r: Option<PyFloat>)
    ensures r.Some? ==> Strip(s) != []
  {
    FloatText(Strip(s))
  }

  /** An optional sign, then an unsigned float text. */
  function FloatText(t: string): (r: Option<PyFloat>)
    ensures r.Some? ==> t != []
  {
    if t != [] && (t[0] == '-' || t[0] == '+') then
      match UnsignedFloat(t[1..])
      case Some(x) => Some(if t[0] == '-' then Negated(x) else x)
      case None => None
    else UnsignedFloat(t)
  }

  /** Unary minus on a Python float. */
  function Negated(x: PyFloat): PyFloat
  {
    match x
    case Finite(v) => Finite(-v)
    case Infinite(n) => Infinite(!n)
    case NotANumber => NotANumber
  }

  /** An infinity, NaN, or a mantissa with an optional exponent. */
  function UnsignedFloat(u: string): (r: Option<PyFloat>)
  {
    var l := Lower(u);
    if l == "inf" || l == "infinity" then Some(Infinite(false))
    else if l == "nan" then Some(NotANumber)
    else
      var pieces := Split(l, 'e');
      if |pieces| == 1 then
        match Mantissa(l)
        case Some(m) => Some(Finite(m))
        case None => None
      else if |pieces| == 2 then
        match (Mantissa(pieces[0]), SignedDigits(pieces[1]))
        case (Some(m), Some(e)) => Some(Finite(Scaled(m, e)))
        case _ => None
      else None
  }

  /** The digits and point of a decimal literal ("12", "12.5", ".5" or
      "12."), each run of digits possibly grouped with underscores. */
  function Mantissa(m: string): Option<real>
  {
    var parts := Split(m, '.');
    if |parts| == 1 then
      if DigitPart(m) then Some(DigitsValue(m) as real) else None
    else if |parts| == 2 && (parts[0] != [] || parts[1] != [])
            && (parts[0] == [] || DigitPart(parts[0])) && (parts[1] == [] || DigitPart(parts[1])) then
      Some(DigitsValue(parts[0]) as real + (DigitsValue(parts[1]) as real) / (Pow10(CountDigits(parts[1])) as real))
    else None
  }

  /** m times ten to the power e. */
  function Scaled(m: real, e: int): real
  {
    if e >= 0 then m * (Pow10(e) as real) else m / (Pow10(-e) as real)
  }

  /** Characters lower() leaves alone and no float keyword starts with:
      digits, points, underscores and signs. */
  predicate NumeralChars(s: string)
  {
    forall i :: 0 <= i < |s| ==> IsDigit(s[i]) || s[i] == '.' || s[i] == '_' || s[i] == '-' || s[i] == '+'
  }

  lemma NumeralLower(s: string)
    requires NumeralChars(s)
    ensures Lower(s) == s
  {
    var l := Lower(s);
    assert forall i :: 0 <= i < |s| ==> l[i] == s[i];
  }

  /** Text made of digits, points and underscores, read by float() without
      an exponent, is read by its mantissa. */
  lemma NumeralIsMantissa(u: string)
    requires u != [] && NumeralChars(u)
    ensures UnsignedFloat(u) == match Mantissa(u) case Some(m) => Some(Finite(m)) case None => None
  {
    NumeralLower(u);
    assert 'e' !in u by {
      forall i | 0 <= i < |u| ensures u[i] != 'e' { }
    }
    SplitNoSeparator(u, 'e');
    assert u != "inf" && u != "infinity" && u != "nan" by {
      assert NumeralChars([u[0]]);
    }
  }

  /** A plain decimal literal is read by its mantissa with the same value. */
  lemma UnsignedDecimalIsMantissa(u: string)
    requires ParseUnsignedDecimal(u).Some?
    ensures u != [] && NumeralChars(u)
    ensures Mantissa(u) == ParseUnsignedDecimal(u)
  {
    var parts := Split(u, '.');
    if |parts| == 1 {
      DigitsArePart(u);
    } else {
      JoinSplit(u, '.');
      assert Join(parts[1..], '.') == parts[1];
      assert u == parts[0] + "." + parts[1];
      if parts[0] != [] { DigitsArePart(parts[0]); }
      if parts[1] != [] { DigitsArePart(parts[1]); }
      assert CountDigits(parts[1]) == |parts[1]| by {
        assert DigitsOnly(parts[1]) == parts[1];
      }
      forall i | 0 <= i < |u| ensures IsDigit(u[i]) || u[i] == '.' {
        if i < |parts[0]| {
          assert u[i] == parts[0][i];
        } else if i > |parts[0]| {
          assert u[i] == parts[1][i - |parts[0]| - 1];
        }
      }
    }
  }

  /** Every plain decimal literal, signed or not, is float() text with the
      same finite value. */
  lemma PlainDecimalIsFloat(t: string)
    requires SignedDecimal(t).Some?
    ensures FloatText(t) == Some(Finite(SignedDecimal(t).value))
  {
    if t[0] == '-' || t[0] == '+' {
      UnsignedDecimalIsMantissa(t[1..]);
      NumeralIsMantissa(t[1..]);
    } else {
      UnsignedDecimalIsMantissa(t);
      NumeralIsMantissa(t);
    }
  }

  /** A digit part holds neither a point nor an exponent letter. */
  lemma DigitPartIsMantissa(d: string)
    requires DigitPart(d)
    ensures UnsignedFloat(d) == Some(Finite(DigitsValue(d) as real))
  {
    DigitPartChars(d);
    SplitNoSeparator(d, '.');
    NumeralIsMantissa(d);
  }

  /** Every text int() accepts, float() accepts with the same value. */
  lemma IntTextIsFloatText(s: string)
    requires ParseInt(s).Some?
    ensures ParseFloat(s) == Some(Finite(ParseInt(s).value as real))
  {
    SignedDigitsIsFloatText(Strip(s));
  }

  /** The signed digit parts int() reads are float() text with the same
      value. */
  lemma SignedDigitsIsFloatText(t: string)
    requires SignedDigits(t).Some?
    ensures FloatText(t) == Some(Finite(SignedDigits(t).value as real))
  {
    if t[0] == '-' || t[0] == '+' {
      var d := t[1..];
      var v: int := DigitsValue(d);
      assert SignedDigits(t) == Some(if t[0] == '-' then -v else v);
      DigitPartIsMantissa(d);
      assert FloatText(t) == Some(if t[0] == '-' then Negated(Finite(v as real)) else Finite(v as real));
    } else {
      DigitPartIsMantissa(t);
    }
  }

  /** The text int() reads after stripping holds only signs, digits and
      underscores. */
  lemma SignedNumeral(x: string)
    requires SignedDigits(x).Some?
    ensures NumeralChars(x)
  {
    if x[0] == '-' || x[0] == '+' {
      var d := x[1..];
      DigitPartChars(d);
      forall i | 1 <= i < |x| ensures IsDigit(x[i]) || x[i] == '_' || x[i] == '-' || x[i] == '+' {
        assert x[i] == d[i - 1];
      }
    } else {
      DigitPartChars(x);
    }
  }

  /** A mantissa, an exponent letter and a signed digit part: float()
      scales the mantissa by that power of ten. */
  lemma ExponentScales(m: string, e: char, x: string)
    requires e == 'e' || e == 'E'
    requires m != [] && NumeralChars(m)
    requires SignedDigits(x).Some?
    ensures UnsignedFloat(m + [e] + x)
         == if Mantissa(m).Some? then Some(Finite(Scaled(Mantissa(m).value, SignedDigits(x).value))) else None
  {
    SignedNumeral(x);
    ExponentLower(m, e, x);
    ExponentNotKeyword(m, x);
    ExponentPieces(m, x);
  }

  /** lower() turns the exponent letter into 'e' and leaves the rest. */
  lemma ExponentLower(m: string, e: char, x: string)
    requires e == 'e' || e == 'E'
    requires NumeralChars(m) && NumeralChars(x)
    ensures Lower(m + [e] + x) == m + ['e'] + x
  {
    var u := m + [e] + x;
    var l := m + ['e'] + x;
    var lu := Lower(u);
    forall i | 0 <= i < |u| ensures lu[i] == l[i] {
      if i < |m| {
        assert u[i] == m[i] && l[i] == m[i];
      } else if i > |m| {
        assert u[i] == x[i - |m| - 1] && l[i] == x[i - |m| - 1];
      }
    }
  }

  /** A text that starts with a numeral character is no float keyword. */
  lemma ExponentNotKeyword(m: string, x: string)
    requires m != [] && NumeralChars(m)
    ensures var l := m + ['e'] + x; l != "inf" && l != "infinity" && l != "nan"
  {
    var l := m + ['e'] + x;
    assert l[0] == m[0];
    assert NumeralChars([m[0]]);
  }

  /** Split at 'e', a mantissa, 'e' and an exponent give exactly the two. */
  lemma ExponentPieces(m: string, x: string)
    requires NumeralChars(m) && NumeralChars(x)
    ensures Split(m + ['e'] + x, 'e') == [m, x]
  {
    NumeralNoE(m);
    NumeralNoE(x);
    SplitCons(m, x, 'e');
    SplitNoSeparator(x, 'e');
  }

  lemma NumeralNoE(s: string)
    requires NumeralChars(s)
    ensures 'e' !in s
  {
    forall i | 0 <= i < |s| ensures s[i] != 'e' { }
  }

}

=== FILE: communications_models.dfy ===
/** Business rules of the communications models: the money rules of a
    sale process (ProcesoVenta), the limits and percentage validation of a
    lead-distribution configuration, and the "one active assignment per
    lead" rule enforced when a LeadAssignment is saved. */
module CommunicationsModels {
  import opened Common

  // ---------------------------------------------------------------- ProcesoVenta

  /** Money and dates of a sale process. Dates are day ordinals. */
  datatype ProcesoVenta = ProcesoVenta(
    valorInmueble: real,
    valorNegociado: Option<real>,
    descuento: real,
    fechaInicio: int,
    fechaCierre: Option<int>)

  datatype ProcesoError = NegociadoExcedeValor | CierreAntesDeInicio

  /** ProcesoVenta.clean: the first failing rule, or None. */
  function CleanProceso(p: ProcesoVenta): (r: Option<ProcesoError>)
    ensures r == Some(NegociadoExcedeValor) <==>
              Truthy(p.valorNegociado) && p.valorNegociado.value > p.valorInmueble + p.descuento
    ensures r == Some(CierreAntesDeInicio) <==>
              !(Truthy(p.valorNegociado) && p.valorNegociado.value > p.valorInmueble + p.descuento)
              && p.fechaCierre.Some? && p.fechaCierre.value < p.fechaInicio
    ensures r.None? ==> (p.fechaCierre.Some? ==> p.fechaInicio <= p.fechaCierre.value)
  {
    if Truthy(p.valorNegociado) && p.valorNegociado.value > p.valorInmueble + p.descuento then
      Some(NegociadoExcedeValor)
    else if p.fechaCierre.Some? && p.fechaCierre.value < p.fechaInicio then
      Some(CierreAntesDeInicio)
    else
      None
  }

  /** ProcesoVenta.valor_final: the negotiated value when set (and non-zero),
      otherwise the property value minus the discount. */
  function ValorFinal(p: ProcesoVenta): (v: real)
    ensures Truthy(p.valorNegociado) ==> v == p.valorNegociado.value
    ensures !Truthy(p.valorNegociado) ==> v + p.descuento == p.valorInmueble
    // a process accepted by clean never ends above the property value plus the discount
    ensures CleanProceso(p).None? && p.descuento >= 0.0 ==> v <= p.valorInmueble + p.descuento
  {
    if Truthy(p.valorNegociado) then p.valorNegociado.value else p.valorInmueble - p.descuento
  }

  /** ProcesoVenta.porcentaje_descuento. */
  function PorcentajeDescuento(p: ProcesoVenta): (pct: real)
    ensures p.valorInmueble <= 0.0 ==> pct == 0.0
    ensures p.valorInmueble > 0.0 ==> pct * p.valorInmueble == p.descuento * 100.0
  {
    if p.valorInmueble > 0.0 then (p.descuento / p.valorInmueble) * 100.0 else 0.0
  }

  /** A discount between 0 and the property value is between 0% and 100%. */
  lemma PorcentajeDescuentoRange(p: ProcesoVenta)
    requires 0.0 <= p.descuento <= p.valorInmueble
    ensures 0.0 <= PorcentajeDescuento(p) <= 100.0
  {
    if p.valorInmueble > 0.0 {
      var pct := PorcentajeDescuento(p);
      assert pct * p.valorInmueble == p.descuento * 100.0;
      assert (100.0 - pct) * p.valorInmueble == (p.valorInmueble - p.descuento) * 100.0;
    }
  }

  // ---------------------------------------------------- LeadDistributionConfig

  /** A LeadDistributionConfig row. leadsToday and leadsThisWeek are the
      counts of active assignments of its unit today and since Monday, which
      the model receives instead of querying. */
  datatype DistributionConfig = DistributionConfig(
    pk: Option<nat>,
    unitName: string,
    percentage: real,
    activeForLeads: bool,
    maxLeadsPerDay: Option<nat>,
    maxLeadsPerWeek: Option<nat>,
    leadsToday: nat,
    leadsThisWeek: nat)

  /** LeadDistributionConfig.can_receive_more_leads: active, and below every
      limit that is set; an empty or zero limit means no limit. */
  function CanReceiveMoreLeads(c: DistributionConfig): (ok: bool)
    ensures ok <==> c.activeForLeads
                    && (TruthyNat(c.maxLeadsPerDay) ==> c.leadsToday < c.maxLeadsPerDay.value)
                    && (TruthyNat(c.maxLeadsPerWeek) ==> c.leadsThisWeek < c.maxLeadsPerWeek.value)
  {
    if !c.activeForLeads then false
    else if TruthyNat(c.maxLeadsPerDay) && c.leadsToday >= c.maxLeadsPerDay.value then false
    else if TruthyNat(c.maxLeadsPerWeek) && c.leadsThisWeek >= c.maxLeadsPerWeek.value then false
    else true
  }

  datatype ConfigError = PercentageOver100 | TotalOver100(total: real)

  /** Percentages of the other active configurations: every active row
      except the one being edited (when the edited row has a primary key). */
  function OtherActivePercentages(rows: seq<DistributionConfig>, selfPk: Option<nat>): (ps: seq<real>)
    ensures |ps| <= |rows|
  {
    if rows == [] then []
    else
      var keep := rows[0].activeForLeads && !(TruthyNat(selfPk) && rows[0].pk == selfPk);
      (if keep then [rows[0].percentage] else []) + OtherActivePercentages(rows[1..], selfPk)
  }

  /** Sum of the percentages of all active rows. */
  function ActiveTotal(rows: seq<DistributionConfig>): real
  {
    SumReals(OtherActivePercentages(rows, None))
  }

  /** LeadDistributionConfig.clean. */
  function CleanConfig(c: DistributionConfig, rows: seq<DistributionConfig>): (r: Option<ConfigError>)
    ensures r == Some(PercentageOver100) <==> c.percentage > 100.0
    ensures r.None? <==>
              c.percentage <= 100.0
              && (c.activeForLeads ==> SumReals(OtherActivePercentages(rows, c.pk)) + c.percentage <= 100.0)
  {
    if c.percentage > 100.0 then Some(PercentageOver100)
    else if c.activeForLeads then
      var total := SumReals(OtherActivePercentages(rows, c.pk)) + c.percentage;
      if total > 100.0 then Some(TotalOver100(total)) else None
    else None
  }

  lemma {:induction false} OtherActiveAppend(rows: seq<DistributionConfig>, c: DistributionConfig)
    ensures OtherActivePercentages(rows + [c], None)
            == OtherActivePercentages(rows, None) + (if c.activeForLeads then [c.percentage] else [])
  {
    if rows == [] {
      assert rows + [c] == [c];
    } else {
      assert (rows + [c])[1..] == rows[1..] + [c];
      OtherActiveAppend(rows[1..], c);
    }
  }

  /** Creating a configuration that clean accepts keeps the total of the
      active percentages at or below 100; an inactive one leaves it as is. */
  lemma CleanKeepsActiveTotal(rows: seq<DistributionConfig>, c: DistributionConfig)
    requires c.pk.None?
    requires CleanConfig(c, rows).None?
    ensures c.activeForLeads ==> ActiveTotal(rows + [c]) <= 100.0
    ensures !c.activeForLeads ==> ActiveTotal(rows + [c]) == ActiveTotal(rows)
  {
    OtherActiveAppend(rows, c);
    SumRealsAppend(OtherActivePercentages(rows, None), c.percentage);
    if !c.activeForLeads {
      assert OtherActivePercentages(rows, None) + [] == OtherActivePercentages(rows, None);
    }
  }

  // ------------------------------------------------------------ LeadAssignment

  /** A LeadAssignment row, reduced to what the save rule reads and writes. */
  datatype Assignment = Assignment(lead: nat, unitName: string, isActive: bool)

  /** The LeadAssignment table, keyed by primary key. */
  class AssignmentTable {
    var rows: map<nat, Assignment>
    var nextId: nat

    predicate Valid()
      reads this
    {
      forall id :: id in rows ==> id < nextId
    }

    constructor ()
      ensures Valid() && rows == map[] && nextId == 1
    {
      rows := map[];
      nextId := 1;
    }

    /** Ids of the active assignments of one lead. */
    function ActiveOf(lead: nat): set<nat>
      reads this
    {
      set id | id in rows && rows[id].lead == lead && rows[id].isActive
    }

    /** LeadAssignment.save. A new active assignment first deactivates every
        active assignment of the same lead (one bulk update), then is
        inserted under a fresh key; a row with a key is written in place. */
    method Save(a: Assignment, pk: Option<nat>) returns (id: nat)
      requires Valid()
      modifies this
      ensures Valid()
      ensures pk.Some? ==> id == pk.value && rows == old(rows)[id := a]
      ensures pk.None? ==> id == old(nextId) && id !in old(rows)
      ensures pk.None? && a.isActive ==>
                rows == Deactivated(old(rows), a.lead)[id := a] && ActiveOf(a.lead) == {id}
      ensures pk.None? && !a.isActive ==> rows == old(rows)[id := a]
      ensures forall k :: k in old(rows) && old(rows)[k].lead != a.lead && k != id ==> k in rows && rows[k] == old(rows)[k]
    {
      if pk.None? {
        if a.isActive {
          rows := Deactivated(rows, a.lead);
        }
        id := nextId;
        rows := rows[id := a];
        nextId := nextId + 1;
      } else {
        id := pk.value;
        rows := rows[id := a];
        if nextId <= id {
          nextId := id + 1;
        }
      }
    }
  }

  /** The bulk update `filter(lead=..., is_active=True).update(is_active=False)`. */
  function Deactivated(rows: map<nat, Assignment>, lead: nat): (r: map<nat, Assignment>)
    ensures r.Keys == rows.Keys
    ensures forall k :: k in r ==> r[k].lead == rows[k].lead && r[k].unitName == rows[k].unitName
    ensures forall k :: k in r && r[k].lead == lead ==> !r[k].isActive
    ensures forall k :: k in r && rows[k].lead != lead ==> r[k] == rows[k]
  {
    map k | k in rows :: if rows[k].lead == lead && rows[k].isActive then rows[k].(isActive := false) else rows[k]
  }
}

=== FILE: events.dfy ===
/** Commercial events: the Ecuadorian identity-card (cédula) check and the
    other cleans of the visit and event forms, when an event and a QR
    invitation are usable, the invitation's use counter kept by each saved
    visit, and the per-seller statistics of an event. */
module Events {
  import opened Common

  // ---------------------------------------------------------------------
  // The cédula check digit
  // ---------------------------------------------------------------------

  const Coeficientes: seq<nat> := [2, 1, 2, 1, 2, 1, 2, 1, 2]

  /** The first k characters of c exist and are ASCII digits. */
  predicate DigitosHasta(c: string, k: nat)
  {
    k <= |c| && forall i :: 0 <= i < k ==> IsDigit(c[i])
  }

  /** A product of a digit and its coefficient, reduced by 9 when it has
      two digits. */
  function Ajustado(p: nat): (q: nat)
    ensures p <= 18 ==> q <= 9
  {
    if p > 9 then p - 9 else p
  }

  function Producto(c: string, i: nat): (q: nat)
    requires i < 9 && DigitosHasta(c, i + 1)
    ensures q <= 9
  {
    Ajustado(DigitValue(c[i]) * Coeficientes[i])
  }

  /** Sum of the adjusted products of the first k digits. */
  function Suma(c: string, k: nat): nat
    requires k <= 9 && DigitosHasta(c, k)
  {
    if k == 0 then 0 else Suma(c, k - 1) + Producto(c, k - 1)
  }

  /** The two-digit province prefix. */
  function Provincia(c: string): nat
    requires DigitosHasta(c, 2)
  {
    10 * DigitValue(c[0]) + DigitValue(c[1])
  }

  /** Reference definition of a valid cédula: ten leading digits, a province
      from 1 to 24, and a tenth digit that brings the adjusted sum to a
      multiple of ten. */
  function CedulaValida(c: string): (b: bool)
    ensures b ==> DigitosHasta(c, 10) && 1 <= Provincia(c) <= 24
    ensures DigitosHasta(c, 10) && 1 <= Provincia(c) <= 24 ==>
              (b <==> Verificador(Suma(c, 9)) == DigitValue(c[9]))
  {
    DigitosHasta(c, 10)
    && 1 <= Provincia(c) <= 24
    && (CheckDigitIff(Suma(c, 9), DigitValue(c[9])); (Suma(c, 9) + DigitValue(c[9])) % 10 == 0)
  }

  /** digito_verificador: the digit that completes a sum to a multiple of
      ten. */
  function Verificador(suma: int): (d: int)
    ensures 0 <= d < 10
  {
    (10 - suma % 10) % 10
  }

  /** With ten leading digits and a province from 1 to 24, the computed
      check digit decides validity. */
  lemma VerificadorDecide(c: string)
    requires DigitosHasta(c, 10) && 1 <= Provincia(c) <= 24
    ensures (Verificador(Suma(c, 9)) == DigitValue(c[9])) == CedulaValida(c)
  {
    CheckDigitIff(Suma(c, 9), DigitValue(c[9]));
  }

  /** The check digit computed as (10 - s mod 10) mod 10 is the one digit that
      completes s to a multiple of ten. */
  lemma CheckDigitIff(s: nat, d: nat)
    requires d < 10
    ensures ((10 - s % 10) % 10 == d) <==> ((s + d) % 10 == 0)
  {
    var r := s % 10;
    assert s == 10 * (s / 10) + r;
    assert (s + d) % 10 == (r + d) % 10;
  }

  lemma ProvinciaTexto(c: string)
    requires DigitosHasta(c, 2)
    ensures ParseInt(c[..2]) == Some(Provincia(c) as int)
  {
    var p := c[..2];
    var q := p[..1];
    assert q == [c[0]] && q[..0] == [];
    assert DigitsValue(q) == DigitValue(c[0]);
    assert AllDigits(p) && p[1] == c[1];
    assert DigitsValue(p) == 10 * DigitsValue(q) + DigitValue(p[1]);
    ParseDigits(p);
  }

  /** int() applied to a one-character text. */
  method IntDeCaracter(ch: char) returns (r: Option<int>)
    ensures r == ParseInt([ch])
    ensures r == if IsDigit(ch) then Some(DigitValue(ch) as int) else None
  {
    ParseOneChar(ch);
    r := ParseInt([ch]);
  }

  /** int() applied to the first two characters, cedula[:2]. */
  method IntDePrefijo(c: string) returns (r: Option<int>)
    ensures r == ParseInt(if |c| < 2 then c else c[..2])
    ensures DigitosHasta(c, 2) ==> r == Some(Provincia(c) as int)
  {
    if DigitosHasta(c, 2) {
      ProvinciaTexto(c);
    }
    r := ParseInt(if |c| < 2 then c else c[..2]);
  }

  /** validar_cedula_ecuatoriana: the province prefix is read with int(),
      then the loop accumulates the adjusted products of the first nine
      digits; a non-numeric character or a short text makes int() or the
      indexing fail, which answers false. */
  method ValidarCedula(cedula: string) returns (ok: bool)
    ensures ok == CedulaValida(cedula)
  {
    var provincia := IntDePrefijo(cedula);
    if provincia.None? {
      assert !DigitosHasta(cedula, 10);
      assert !CedulaValida(cedula);
      return false;
    }
    if provincia.value < 1 || provincia.value > 24 {
      assert !DigitosHasta(cedula, 10) || !(1 <= Provincia(cedula) <= 24);
      assert !CedulaValida(cedula);
      return false;
    }
    var suma := SumaPonderada(cedula);
    if suma.None? {
      assert !DigitosHasta(cedula, 10);
      assert !CedulaValida(cedula);
      return false;
    }
    if |cedula| < 10 {
      assert !CedulaValida(cedula);
      return false;
    }
    var ultimo := IntDeCaracter(cedula[9]);
    if ultimo.None? {
      assert !DigitosHasta(cedula, 10);
      assert !CedulaValida(cedula);
      return false;
    }
    assert DigitosHasta(cedula, 10);
    VerificadorDecide(cedula);
    ok := Verificador(suma.value) == ultimo.value;
  }

  /** The loop of validar_cedula_ecuatoriana over the first nine characters:
      None when one is missing or not a digit (the IndexError or ValueError
      the source catches), else the sum of the adjusted products. */
  method SumaPonderada(cedula: string) returns (suma: Option<nat>)
    ensures suma.Some? <==> DigitosHasta(cedula, 9)
    ensures suma.Some? ==> suma.value == Suma(cedula, 9)
  {
    var acc := 0;
    var i := 0;
    while i < 9
      invariant 0 <= i <= 9
      invariant DigitosHasta(cedula, i)
      invariant acc == Suma(cedula, i)
    {
      if i >= |cedula| {
        return None;
      }
      var digito := IntDeCaracter(cedula[i]);
      if digito.None? {
        return None;
      }
      assert IsDigit(cedula[i]) && digito.value == DigitValue(cedula[i]);
      var producto := digito.value * Coeficientes[i];
      if producto > 9 {
        producto := producto - 9;
      }
      assert DigitosHasta(cedula, i + 1);
      assert producto == Producto(cedula, i);
      assert Suma(cedula, i + 1) == Suma(cedula, i) + Producto(cedula, i);
      acc := acc + producto;
      i := i + 1;
    }
    suma := Some(acc);
  }

  /** Doubling-and-reducing a digit is one-to-one, like keeping it. */
  lemma AjustadoInjective(d1: nat, d2: nat, k: nat)
    requires d1 < 10 && d2 < 10 && (k == 1 || k == 2)
    requires Ajustado(d1 * k) == Ajustado(d2 * k)
    ensures d1 == d2
  {
    if k == 2 {
      assert d1 * 2 == d1 + d1 && d2 * 2 == d2 + d2;
    }
  }

  lemma {:induction false} SumaDiffers(c: string, e: string, j: nat, k: nat)
    requires k <= 9 && j < 9 && DigitosHasta(c, 9) && DigitosHasta(e, 9)
    requires forall i :: 0 <= i < 9 && i != j ==> c[i] == e[i]
    ensures Suma(c, k) - Suma(e, k) == if j < k then Producto(c, j) - Producto(e, j) else 0
  {
    if k > 0 {
      SumaDiffers(c, e, j, k - 1);
    }
  }

  /** Changing any one of the ten digits of a valid cédula makes it invalid:
      the check digit detects every single-digit error. */
  lemma SingleDigitErrorDetected(c: string, e: string, j: nat)
    requires CedulaValida(c) && DigitosHasta(e, 10)
    requires j < 10 && |e| == |c|
    requires forall i :: 0 <= i < |c| && i != j ==> c[i] == e[i]
    requires c[j] != e[j]
    ensures !CedulaValida(e)
  {
    if j == 9 {
      SumaUnchanged(c, e, 9);
      assert DigitValue(c[9]) != DigitValue(e[9]);
    } else {
      LeadingDigitError(c, e, j);
    }
  }

  lemma LeadingDigitError(c: string, e: string, j: nat)
    requires CedulaValida(c) && DigitosHasta(e, 10)
    requires j < 9 && |e| == |c|
    requires forall i :: 0 <= i < |c| && i != j ==> c[i] == e[i]
    requires c[j] != e[j]
    ensures (Suma(e, 9) + DigitValue(e[9])) % 10 != 0
  {
    SumaDiffers(c, e, j, 9);
    if Producto(c, j) == Producto(e, j) {
      AjustadoInjective(DigitValue(c[j]), DigitValue(e[j]), Coeficientes[j]);
      assert false;
    }
    assert c[9] == e[9];
    var x := Suma(c, 9) + DigitValue(c[9]);
    var y := Suma(e, 9) + DigitValue(e[9]);
    assert x - y == Producto(c, j) - Producto(e, j);
    MultiplesOfTenApart(x, y);
  }

  lemma MultiplesOfTenApart(x: int, y: int)
    requires x % 10 == 0 && -10 < x - y < 10 && x != y
    ensures y % 10 != 0
  {
  }

  lemma {:induction false} SumaUnchanged(c: string, e: string, k: nat)
    requires k <= 9 && DigitosHasta(c, k) && DigitosHasta(e, k)
    requires forall i :: 0 <= i < k ==> c[i] == e[i]
    ensures Suma(c, k) == Suma(e, k)
  {
    if k > 0 {
      SumaUnchanged(c, e, k - 1);
    }
  }

  // ---------------------------------------------------------------------
  // Cleans of the visit form and the event forms
  // ---------------------------------------------------------------------

  datatype CedulaError = LongitudInvalida | CedulaNoValida

  /** clean_cedula_cliente: a non-empty value is reduced to its digits, which
      must be ten and form a valid cédula; an empty or missing value is
      returned as it came. */
  function CedulaLimpia(cedula: Option<string>): (r: Result<Option<string>, CedulaError>)
    ensures (cedula.None? || cedula.value == []) ==> r == Ok(cedula)
    ensures r.Ok? && r.value.Some? && r.value.value != [] ==>
      |r.value.value| == 10 && AllDigits(r.value.value) && CedulaValida(r.value.value)
    ensures r == Err(LongitudInvalida) <==> cedula.Some? && cedula.value != [] && CountDigits(cedula.value) != 10
    ensures cedula.Some? && cedula.value != [] && CountDigits(cedula.value) == 10 ==>
      r == if CedulaValida(DigitsOnly(cedula.value)) then Ok(Some(DigitsOnly(cedula.value))) else Err(CedulaNoValida)
  {
    if cedula.None? || cedula.value == [] then Ok(cedula)
    else
      var digitos := DigitsOnly(cedula.value);
      if |digitos| != 10 then Err(LongitudInvalida)
      else if !CedulaValida(digitos) then Err(CedulaNoValida)
      else Ok(Some(digitos))
  }

  method CleanCedulaCliente(cedula: Option<string>) returns (r: Result<Option<string>, CedulaError>)
    ensures r == CedulaLimpia(cedula)
  {
    if cedula.None? || cedula.value == [] {
      return Ok(cedula);
    }
    var digitos := DigitsOnly(cedula.value);
    if |digitos| != 10 {
      return Err(LongitudInvalida);
    }
    var valida := ValidarCedula(digitos);
    if !valida {
      return Err(CedulaNoValida);
    }
    r := Ok(Some(digitos));
  }

  /** A cleaned cédula passes the clean again unchanged. */
  lemma CedulaLimpiaIdempotent(cedula: Option<string>)
    requires CedulaLimpia(cedula).Ok?
    ensures CedulaLimpia(CedulaLimpia(cedula).value) == CedulaLimpia(cedula)
  {
  }

  /** clean_telefono_cliente: at least seven digits, and the value is kept
      as typed. */
  function TelefonoLimpio(telefono: Option<string>): (r: Result<Option<string>, string>)
    ensures r.Ok? ==> r.value == telefono
    ensures r.Err? <==> telefono.Some? && telefono.value != [] && |DigitsOnly(telefono.value)| < 7
  {
    if telefono.Some? && telefono.value != [] && CountDigits(telefono.value) < 7 then
      Err("Número de teléfono muy corto.")
    else Ok(telefono)
  }

  datatype EventoError = FinNoPosterior | InicioEnPasado

  /** EventoComercialForm.clean: with both dates given, the end must come
      after the start, and a new event must not start in the past. */
  function CleanEvento(inicio: Option<real>, fin: Option<real>, esNuevo: bool, now: real): (r: Option<EventoError>)
    ensures r == Some(FinNoPosterior) <==> inicio.Some? && fin.Some? && inicio.value >= fin.value
    ensures r == Some(InicioEnPasado) <==>
      inicio.Some? && fin.Some? && inicio.value < fin.value && esNuevo && inicio.value < now
  {
    if inicio.Some? && fin.Some? then
      if inicio.value >= fin.value then Some(FinNoPosterior)
      else if esNuevo && inicio.value < now then Some(InicioEnPasado)
      else None
    else None
  }

  /** InvitacionQRForm.clean_fecha_expiracion: an expiry in the past is
      refused. */
  function CleanExpiracion(expiracion: Option<real>, now: real): (r: Result<Option<real>, string>)
    ensures r.Ok? ==> r.value == expiracion
    ensures r.Err? <==> expiracion.Some? && expiracion.value < now
  {
    if expiracion.Some? && expiracion.value < now then
      Err("La fecha de expiración no puede ser en el pasado.")
    else Ok(expiracion)
  }

  // ---------------------------------------------------------------------
  // Events and invitations
  // ---------------------------------------------------------------------

  datatype Evento = Evento(activo: bool, fechaInicio: real, fechaFin: real)

  /** esta_activo: switched on and now within [inicio, fin]; a switched
      off event, or a time outside the period, is never active. */
  function EstaActivo(e: Evento, now: real): (b: bool)
    ensures !e.activo ==> !b
    ensures now < e.fechaInicio || e.fechaFin < now ==> !b
    ensures e.activo && e.fechaInicio <= now <= e.fechaFin ==> b
  {
    e.activo && e.fechaInicio <= now <= e.fechaFin
  }

  /** An event switched on and accepted by the form is active over its whole
      period and at no other time. */
  lemma EventoAceptadoActivo(e: Evento, esNuevo: bool, creado: real, now: real)
    requires e.activo
    requires CleanEvento(Some(e.fechaInicio), Some(e.fechaFin), esNuevo, creado).None?
    ensures EstaActivo(e, e.fechaInicio) && EstaActivo(e, e.fechaFin)
    ensures EstaActivo(e, now) <==> e.fechaInicio <= now <= e.fechaFin
  {
  }

  class InvitacionQR {
    var activa: bool
    var usosMaximos: nat
    var usosActuales: nat
    var fechaExpiracion: Option<real>

    /** A new invitation: active and unused. */
    constructor (usosMaximos: nat, fechaExpiracion: Option<real>)
      ensures this.activa && this.usosActuales == 0
      ensures this.usosMaximos == usosMaximos && this.fechaExpiracion == fechaExpiracion
    {
      this.activa := true;
      this.usosMaximos := usosMaximos;
      this.usosActuales := 0;
      this.fechaExpiracion := fechaExpiracion;
    }

    /** puede_usar: refused when inactive, when the uses reached the
        maximum, or past a set expiry; allowed otherwise. */
    function PuedeUsar(now: real): (b: bool)
      reads this
      ensures !activa ==> !b
      ensures usosActuales >= usosMaximos ==> !b
      ensures fechaExpiracion.Some? && now > fechaExpiracion.value ==> !b
      ensures activa && usosActuales < usosMaximos && (fechaExpiracion.None? || now <= fechaExpiracion.value) ==> b
    {
      activa && usosActuales < usosMaximos && !(fechaExpiracion.Some? && now > fechaExpiracion.value)
    }
  }

  /** An invitation usable at some time was usable at every earlier time:
      uses and the active flag aside, only expiry changes the answer. */
  lemma PuedeUsarAntes(inv: InvitacionQR, antes: real, despues: real)
    requires antes <= despues
    ensures inv.PuedeUsar(despues) ==> inv.PuedeUsar(antes)
    ensures inv.usosActuales >= inv.usosMaximos ==> !inv.PuedeUsar(antes)
  {
  }

  /** A new invitation whose expiry the form accepted at time now is usable
      at that time as soon as it allows one use. */
  lemma NuevaInvitacionUsable(inv: InvitacionQR, now: real)
    requires inv.activa && inv.usosActuales == 0 && inv.usosMaximos >= 1
    requires CleanExpiracion(inv.fechaExpiracion, now).Ok?
    ensures inv.PuedeUsar(now)
  {
  }

  class VisitaEvento {
    var pk: Option<nat>
    const invitacion: InvitacionQR

    constructor (invitacion: InvitacionQR)
      ensures this.pk.None? && this.invitacion == invitacion
    {
      this.pk := None;
      this.invitacion := invitacion;
    }

    /** save: the first save stores the visit (under the key the database
        hands out) and adds one use to its invitation; saving a stored visit
        again leaves the counter alone. A visit saved while the invitation
        had uses left never takes the counter past the maximum. */
    method Save(nuevoPk: nat)
      modifies this, invitacion
      ensures pk == if old(pk).None? then Some(nuevoPk) else old(pk)
      ensures invitacion.usosActuales == old(invitacion.usosActuales) + (if old(pk).None? then 1 else 0)
      ensures invitacion.activa == old(invitacion.activa)
      ensures invitacion.usosMaximos == old(invitacion.usosMaximos)
      ensures invitacion.fechaExpiracion == old(invitacion.fechaExpiracion)
      ensures old(invitacion.usosActuales < invitacion.usosMaximos) ==>
        invitacion.usosActuales <= invitacion.usosMaximos
      ensures old(pk).None? && old(invitacion.usosActuales) + 1 == invitacion.usosMaximos ==>
        forall t :: !invitacion.PuedeUsar(t)
    {
      var esNueva := pk.None?;
      if esNueva {
        pk := Some(nuevoPk);
        invitacion.usosActuales := invitacion.usosActuales + 1;
      }
    }
  }

  // ---------------------------------------------------------------------
  // Event statistics
  // ---------------------------------------------------------------------

  /** One invitation of the event: its seller and the cédulas of its visits. */
  datatype InvitacionDatos = InvitacionDatos(vendedorId: nat, nombreCompleto: string, username: string,
                                             cedulasVisitas: seq<string>)

  datatype VendedorStats = VendedorStats(nombre: string, invitaciones: nat, visitas: nat, clientesUnicos: nat)

  function Distintas(cs: seq<string>): set<string>
  {
    set c | c in cs
  }

  lemma {:induction false} DistintasBound(cs: seq<string>)
    ensures |Distintas(cs)| <= |cs|
  {
    if cs != [] {
      var init := cs[..|cs| - 1];
      DistintasBound(init);
      assert Distintas(cs) == Distintas(init) + {cs[|cs| - 1]} by {
        forall c ensures c in Distintas(cs) <==> c in Distintas(init) + {cs[|cs| - 1]} {
          if c in cs {
            var k :| 0 <= k < |cs| && cs[k] == c;
            if k < |cs| - 1 {
              assert init[k] == c;
            }
          }
        }
      }
    }
  }

  /** The entry written for one invitation: the full name or else the
      username, one invitation, its visits and its distinct clients. */
  function StatsDe(inv: InvitacionDatos): (s: VendedorStats)
    ensures s.invitaciones == 1 && s.clientesUnicos <= s.visitas
  {
    DistintasBound(inv.cedulasVisitas);
    VendedorStats(if inv.nombreCompleto != "" then inv.nombreCompleto else inv.username,
                  1, |inv.cedulasVisitas|, |Distintas(inv.cedulasVisitas)|)
  }

  /** The per-seller dictionary after the loop over the invitations: each
      invitation writes its seller's entry, a later one overwriting. */
  function Vendedores(invs: seq<InvitacionDatos>): map<nat, VendedorStats>
  {
    if invs == [] then map[]
    else Vendedores(invs[..|invs| - 1])[invs[|invs| - 1].vendedorId := StatsDe(invs[|invs| - 1])]
  }

  /** All visits of the event, invitation after invitation. */
  function Visitas(invs: seq<InvitacionDatos>): seq<string>
  {
    if invs == [] then [] else Visitas(invs[..|invs| - 1]) + invs[|invs| - 1].cedulasVisitas
  }

  /** The dictionary has one entry per seller with an invitation, each
      recording a single invitation. */
  lemma {:induction false} VendedoresKeys(invs: seq<InvitacionDatos>)
    ensures Vendedores(invs).Keys == set i | 0 <= i < |invs| :: invs[i].vendedorId
    ensures forall v :: v in Vendedores(invs) ==> Vendedores(invs)[v].invitaciones == 1
  {
    if invs != [] {
      var init := invs[..|invs| - 1];
      VendedoresKeys(init);
      var ids := set i | 0 <= i < |invs| :: invs[i].vendedorId;
      assert ids == (set i | 0 <= i < |init| :: init[i].vendedorId) + {invs[|invs| - 1].vendedorId} by {
        forall v | v in ids ensures v in (set i | 0 <= i < |init| :: init[i].vendedorId) + {invs[|invs| - 1].vendedorId} {
          var i :| 0 <= i < |invs| && invs[i].vendedorId == v;
          if i < |init| {
            assert init[i].vendedorId == v;
          }
        }
        forall i | 0 <= i < |init| ensures init[i].vendedorId in ids {
          assert init[i] == invs[i];
        }
      }
    }
  }

  /** A seller's entry comes from their last invitation; with one invitation
      per seller and event, from their only one. */
  lemma {:induction false} VendedoresEntry(invs: seq<InvitacionDatos>, i: nat)
    requires i < |invs|
    requires forall j :: i < j < |invs| ==> invs[j].vendedorId != invs[i].vendedorId
    ensures invs[i].vendedorId in Vendedores(invs)
    ensures Vendedores(invs)[invs[i].vendedorId] == StatsDe(invs[i])
  {
    if i < |invs| - 1 {
      var init := invs[..|invs| - 1];
      assert init[i] == invs[i];
      VendedoresEntry(init, i);
    }
  }

  class EstadisticaEvento {
    var totalInvitaciones: nat
    var totalVisitas: nat
    var totalClientesUnicos: nat
    var estadisticasVendedores: map<nat, VendedorStats>

    constructor ()
      ensures totalInvitaciones == 0 && totalVisitas == 0 && totalClientesUnicos == 0
      ensures estadisticasVendedores == map[]
    {
      totalInvitaciones := 0;
      totalVisitas := 0;
      totalClientesUnicos := 0;
      estadisticasVendedores := map[];
    }

    /** actualizar_estadisticas: the three totals, then the per-seller
        dictionary filled invitation by invitation. */
    method ActualizarEstadisticas(invs: seq<InvitacionDatos>)
      modifies this
      ensures totalInvitaciones == |invs|
      ensures totalVisitas == |Visitas(invs)|
      ensures totalClientesUnicos == |Distintas(Visitas(invs))| <= totalVisitas
      ensures estadisticasVendedores == Vendedores(invs)
    {
      totalInvitaciones := |invs|;
      var todas := Visitas(invs);
      totalVisitas := |todas|;
      DistintasBound(todas);
      totalClientesUnicos := |Distintas(todas)|;
      var stats: map<nat, VendedorStats> := map[];
      var i := 0;
      while i < |invs|
        invariant 0 <= i <= |invs|
        invariant stats == Vendedores(invs[..i])
      {
        assert invs[..i + 1][..i] == invs[..i];
        stats := stats[invs[i].vendedorId := StatsDe(invs[i])];
        i := i + 1;
      }
      assert invs[..i] == invs;
      estadisticasVendedores := stats;
    }
  }
}

=== FILE: lead_distribution.dfy ===
/** The "cumulative counter" lead distribution: every new lead goes to the
    eligible sales unit with the largest deficit, the deficit being the
    share of leads the unit should have after this one minus the leads it
    already has today. Also the what-if simulation of N leads. */
module LeadDistribution {
  import opened Common
  import opened CommunicationsModels

  /** Initial value of max_deficit in both selection loops. */
  const Sentinel: real := -999999.0

  /** ds[i] is the first occurrence of the maximum of ds and beats the
      sentinel: exactly what a left-to-right scan with a strict `>` picks. */
  predicate IsFirstMax(ds: seq<real>, i: int)
  {
    0 <= i < |ds| && ds[i] > Sentinel
    && (forall j :: 0 <= j < i ==> ds[j] < ds[i])
    && (forall j :: i < j < |ds| ==> ds[j] <= ds[i])
  }

  /** The choice is deterministic: at most one index is the first maximum. */
  lemma FirstMaxUnique(ds: seq<real>, i: int, k: int)
    requires IsFirstMax(ds, i) && IsFirstMax(ds, k)
    ensures i == k
  {
  }

  /** The selection loop shared by get_next_sales_force_for_lead and
      simulate_distribution: max_deficit starts at the sentinel and is only
      replaced by a strictly larger deficit. */
  method PickFirstMax(ds: seq<real>) returns (best: Option<nat>)
    ensures best.None? <==> forall j :: 0 <= j < |ds| ==> ds[j] <= Sentinel
    ensures best.Some? ==> IsFirstMax(ds, best.value)
    ensures best == FirstMax(ds)
  {
    best := None;
    var maxDeficit := Sentinel;
    var i := 0;
    while i < |ds|
      invariant 0 <= i <= |ds|
      invariant best.None? ==> maxDeficit == Sentinel && forall j :: 0 <= j < i ==> ds[j] <= Sentinel
      invariant best.Some? ==> best.value < i && maxDeficit == ds[best.value] && IsFirstMax(ds[..i], best.value)
    {
      if ds[i] > maxDeficit {
        maxDeficit := ds[i];
        best := Some(i);
      }
      i := i + 1;
    }
    assert ds[..i] == ds;
    FirstMaxSpec(ds);
    if best.Some? {
      FirstMaxUnique(ds, best.value, FirstMax(ds).value);
    }
  }

  /** The index the selection loop picks, as a value. */
  function FirstMax(ds: seq<real>): (r: Option<nat>)
    ensures r.Some? ==> r.value < |ds|
  {
    FirstMaxUpTo(ds, |ds|)
  }

  /** The pick after the scan has seen ds[..n]: the pick after ds[..n-1],
      replaced by n-1 when its deficit is strictly larger (or is the first
      to beat the sentinel). */
  function FirstMaxUpTo(ds: seq<real>, n: nat): (r: Option<nat>)
    requires n <= |ds|
    ensures r.Some? ==> r.value < n
  {
    if n == 0 then None
    else
      var r := FirstMaxUpTo(ds, n - 1);
      if (r.None? && ds[n - 1] > Sentinel) || (r.Some? && ds[n - 1] > ds[r.value]) then Some(n - 1)
      else r
  }

  /** The scan over ds[..n] finds nothing exactly when no deficit there
      beats the sentinel, and otherwise the first maximum of ds[..n]. */
  lemma {:induction false} FirstMaxUpToSpec(ds: seq<real>, n: nat)
    requires n <= |ds|
    ensures FirstMaxUpTo(ds, n).None? <==> forall j :: 0 <= j < n ==> ds[j] <= Sentinel
    ensures FirstMaxUpTo(ds, n).Some? ==>
              var i := FirstMaxUpTo(ds, n).value;
              ds[i] > Sentinel
              && (forall j :: 0 <= j < i ==> ds[j] < ds[i])
              && (forall j :: i < j < n ==> ds[j] <= ds[i])
  {
    if n > 0 {
      FirstMaxUpToSpec(ds, n - 1);
    }
  }

  /** The value the scan picks is the first maximum, and there is none
      exactly when no deficit beats the sentinel. */
  lemma FirstMaxSpec(ds: seq<real>)
    ensures FirstMax(ds).None? <==> forall j :: 0 <= j < |ds| ==> ds[j] <= Sentinel
    ensures FirstMax(ds).Some? ==> IsFirstMax(ds, FirstMax(ds).value)
  {
    FirstMaxUpToSpec(ds, |ds|);
  }

  // ------------------------------------------------------------- eligibility

  /** _get_eligible_configs as a value: the configurations (already in unit
      name order) that can receive more leads, in the same order. */
  function Eligible(configs: seq<DistributionConfig>): (r: seq<DistributionConfig>)
    ensures |r| <= |configs|
    ensures forall c :: c in r <==> c in configs && CanReceiveMoreLeads(c)
  {
    if configs == [] then []
    else (if CanReceiveMoreLeads(configs[0]) then [configs[0]] else []) + Eligible(configs[1..])
  }

  /** Filtering keeps the order: the eligible configs of a concatenation are
      the eligible configs of each part, one after the other. */
  lemma {:induction false} EligibleAppend(a: seq<DistributionConfig>, b: seq<DistributionConfig>)
    ensures Eligible(a + b) == Eligible(a) + Eligible(b)
  {
    if a == [] {
      assert a + b == b;
    } else {
      assert (a + b)[1..] == a[1..] + b;
      EligibleAppend(a[1..], b);
    }
  }

  /** The loop of _get_eligible_configs. */
  method GetEligibleConfigs(configs: seq<DistributionConfig>) returns (eligible: seq<DistributionConfig>)
    ensures eligible == Eligible(configs)
  {
    eligible := [];
    var i := 0;
    while i < |configs|
      invariant 0 <= i <= |configs|
      invariant eligible == Eligible(configs[..i])
    {
      EligibleAppend(configs[..i], [configs[i]]);
      assert configs[..i + 1] == configs[..i] + [configs[i]];
      assert [configs[i]][1..] == [];
      assert Eligible([configs[i]]) == if CanReceiveMoreLeads(configs[i]) then [configs[i]] else [];
      if CanReceiveMoreLeads(configs[i]) {
        eligible := eligible + [configs[i]];
      }
      i := i + 1;
    }
    assert configs[..i] == configs;
  }

  // --------------------------------------------------------------- deficits

  /** The deficit of a unit for the next lead: its share of today's leads
      including the new one, minus the leads it already has today. */
  function Deficit(c: DistributionConfig, totalToday: nat): real
  {
    (c.percentage / 100.0) * ((totalToday + 1) as real) - (c.leadsToday as real)
  }

  function Deficits(cs: seq<DistributionConfig>, totalToday: nat): (ds: seq<real>)
    ensures |ds| == |cs|
    ensures forall i :: 0 <= i < |cs| ==> ds[i] == Deficit(cs[i], totalToday)
  {
    seq(|cs|, i requires 0 <= i < |cs| => Deficit(cs[i], totalToday))
  }

  /** _calculate_deficit, used for the assignment notes: the same share
      without counting the lead being assigned. */
  function CurrentDeficit(c: DistributionConfig, totalToday: nat): (d: real)
    ensures d == Deficit(c, totalToday) - c.percentage / 100.0
  {
    (c.percentage / 100.0) * (totalToday as real) - (c.leadsToday as real)
  }

  /** get_next_sales_force_for_lead: None when no unit is eligible (or no
      deficit beats the sentinel); otherwise the eligible unit with the
      largest deficit, the earliest in name order on a tie. */
  method GetNextSalesForce(configs: seq<DistributionConfig>, totalToday: nat)
    returns (best: Option<DistributionConfig>)
    ensures Eligible(configs) == [] ==> best.None?
    ensures best.None? <==> forall c :: c in Eligible(configs) ==> Deficit(c, totalToday) <= Sentinel
    ensures best.Some? ==>
              exists i :: IsFirstMax(Deficits(Eligible(configs), totalToday), i)
                          && Eligible(configs)[i] == best.value
    ensures best.Some? ==> best.value in configs && CanReceiveMoreLeads(best.value)
  {
    var eligible := GetEligibleConfigs(configs);
    if eligible == [] {
      return None;
    }
    var ds := Deficits(eligible, totalToday);
    var idx := PickFirstMax(ds);
    if idx.None? {
      best := None;
      forall c | c in eligible ensures Deficit(c, totalToday) <= Sentinel {
        var j :| 0 <= j < |eligible| && eligible[j] == c;
        assert ds[j] <= Sentinel;
      }
    } else {
      best := Some(eligible[idx.value]);
      assert ds[idx.value] > Sentinel;
    }
  }

  // ------------------------------------------------------------- simulation

  /** One entry of the simulation dict: unit name and expected percentage. */
  datatype Entry = Entry(name: string, expected: real)

  predicate DistinctNames(t: seq<Entry>)
  {
    forall i, j :: 0 <= i < j < |t| ==> t[i].name != t[j].name
  }

  function Names(t: seq<Entry>): set<string>
  {
    set e | e in t :: e.name
  }

  /** `results[name] = ...` on an insertion-ordered dict: an existing key
      keeps its position and takes the new value; a new key goes last. */
  function Insert(t: seq<Entry>, e: Entry): (r: seq<Entry>)
    ensures Names(r) == Names(t) + {e.name}
    ensures DistinctNames(t) ==> DistinctNames(r)
    ensures e in r
    ensures forall x :: x in r ==> x in t || x == e
  {
    if t == [] then
      NamesCons(e, []);
      assert [e] == [e] + [];
      [e]
    else
      assert t == [t[0]] + t[1..];
      NamesCons(t[0], t[1..]);
      DistinctCons(t[0], t[1..]);
      if t[0].name == e.name then
        NamesCons(e, t[1..]);
        DistinctCons(e, t[1..]);
        [e] + t[1..]
      else
        var rest := Insert(t[1..], e);
        NamesCons(t[0], rest);
        DistinctCons(t[0], rest);
        [t[0]] + rest
  }

  /** Dict assignment order for a new key: it is appended. */
  lemma {:induction false} InsertNew(t: seq<Entry>, e: Entry)
    ensures e.name !in Names(t) ==> Insert(t, e) == t + [e]
  {
    if t != [] && e.name !in Names(t) {
      assert t == [t[0]] + t[1..];
      NamesCons(t[0], t[1..]);
      InsertNew(t[1..], e);
    }
  }

  /** Dict assignment order for an existing key of a dict with distinct
      keys: it keeps its position and only its value changes. */
  lemma {:induction false} InsertExisting(t: seq<Entry>, e: Entry)
    ensures DistinctNames(t) && e.name in Names(t) ==>
              var r := Insert(t, e);
              |r| == |t| && forall i :: 0 <= i < |t| ==> r[i] == if t[i].name == e.name then e else t[i]
  {
    if t != [] && DistinctNames(t) && e.name in Names(t) {
      assert t == [t[0]] + t[1..];
      NamesCons(t[0], t[1..]);
      DistinctCons(t[0], t[1..]);
      if t[0].name != e.name {
        InsertExisting(t[1..], e);
        var r := Insert(t, e);
        forall i | 0 <= i < |t|
          ensures r[i] == if t[i].name == e.name then e else t[i]
        {
          if i > 0 { assert r[i] == Insert(t[1..], e)[i - 1] && t[i] == t[1..][i - 1]; }
        }
      } else {
        var r := Insert(t, e);
        forall i | 0 <= i < |t|
          ensures r[i] == if t[i].name == e.name then e else t[i]
        {
          if i > 0 { assert t[i] == t[1..][i - 1] && t[i] in t[1..]; }
        }
      }
    }
  }

  lemma NamesCons(x: Entry, t: seq<Entry>)
    ensures Names([x] + t) == {x.name} + Names(t)
  {
    assert forall y :: y in [x] + t <==> y == x || y in t;
  }

  lemma DistinctCons(x: Entry, t: seq<Entry>)
    ensures DistinctNames([x] + t) <==> x.name !in Names(t) && DistinctNames(t)
  {
    var c := [x] + t;
    if DistinctNames(c) {
      forall i, j | 0 <= i < j < |t| ensures t[i].name != t[j].name {
        assert c[i + 1] == t[i] && c[j + 1] == t[j];
      }
      forall y | y in t ensures y.name != x.name {
        var j :| 0 <= j < |t| && t[j] == y;
        assert c[0] == x && c[j + 1] == y;
      }
    }
    if x.name !in Names(t) && DistinctNames(t) {
      forall i, j | 0 <= i < j < |c| ensures c[i].name != c[j].name {
        if i == 0 {
          assert c[j] == t[j - 1];
          assert c[j] in t;
        } else {
          assert c[i] == t[i - 1] && c[j] == t[j - 1];
        }
      }
    }
  }


  /** Units active for leads, in name order. */
  function ActiveConfigs(configs: seq<DistributionConfig>): (r: seq<DistributionConfig>)
    ensures forall c :: c in r <==> c in configs && c.activeForLeads
  {
    if configs == [] then []
    else (if configs[0].activeForLeads then [configs[0]] else []) + ActiveConfigs(configs[1..])
  }

  /** Expected percentages are non-negative and unit names non-empty. */
  predicate Sane(c: DistributionConfig)
  {
    c.percentage >= 0.0 && c.unitName != []
  }

  /** The result of one unit in the simulation. */
  datatype UnitResult = UnitResult(name: string, expectedPercentage: real, assignedCount: nat, finalPercentage: real)

  datatype Simulation =
    | NoActiveConfigs
    | ZeroDivision
    | Simulated(totalLeads: nat, results: seq<UnitResult>, totalAssigned: nat)

  /** The simulation table a result list was computed from. */
  function TableOf(rs: seq<UnitResult>): (t: seq<Entry>)
    ensures |t| == |rs|
    ensures forall i :: 0 <= i < |rs| ==> t[i] == Entry(rs[i].name, rs[i].expectedPercentage)
  {
    seq(|rs|, i requires 0 <= i < |rs| => Entry(rs[i].name, rs[i].expectedPercentage))
  }

  function Counts(rs: seq<UnitResult>): (cs: seq<nat>)
    ensures |cs| == |rs|
    ensures forall i :: 0 <= i < |rs| ==> cs[i] == rs[i].assignedCount
  {
    seq(|rs|, i requires 0 <= i < |rs| => rs[i].assignedCount)
  }

  /** The simulation dict after `results[c.unit.name] = ...` for each
      active configuration in turn. */
  function TableSpec(active: seq<DistributionConfig>): (t: seq<Entry>)
  {
    if active == [] then []
    else
      var last := active[|active| - 1];
      Insert(TableSpec(active[..|active| - 1]), Entry(last.unitName, last.percentage))
  }

  /** Each unit's entry holds the percentage of the last active
      configuration for that unit: a later write to the same key wins. */
  lemma {:induction false} TableSpecLastWins(active: seq<DistributionConfig>, j: nat)
    requires j < |active|
    requires forall k :: j < k < |active| ==> active[k].unitName != active[j].unitName
    ensures Entry(active[j].unitName, active[j].percentage) in TableSpec(active)
  {
    var init := active[..|active| - 1];
    var last := active[|active| - 1];
    if j < |active| - 1 {
      TableSpecLastWins(init, j);
      var e := Entry(active[j].unitName, active[j].percentage);
      var t := TableSpec(init);
      InsertKeeps(t, Entry(last.unitName, last.percentage), e);
    }
  }

  /** Writing one key keeps the entries of every other key. */
  lemma {:induction false} InsertKeeps(t: seq<Entry>, e: Entry, x: Entry)
    requires x in t && x.name != e.name
    ensures x in Insert(t, e)
  {
    if t[0] != x {
      assert x in t[1..];
      if t[0].name != e.name {
        InsertKeeps(t[1..], e, x);
      }
    }
  }

  /** The dict's keys are the active units, each once; sane configurations
      give a sane dict, and some configuration gives a non-empty one. */
  lemma {:induction false} TableSpecFacts(active: seq<DistributionConfig>)
    ensures DistinctNames(TableSpec(active))
    ensures Names(TableSpec(active)) == set c | c in active :: c.unitName
    ensures (forall c :: c in active ==> Sane(c)) ==> SaneTable(TableSpec(active))
    ensures active != [] ==> TableSpec(active) != []
  {
    if active != [] {
      var init := active[..|active| - 1];
      var last := active[|active| - 1];
      assert active == init + [last];
      TableSpecFacts(init);
      assert (set c | c in active :: c.unitName) == (set c | c in init :: c.unitName) + {last.unitName};
    }
  }

  /** Builds the simulation dict from the active configurations. */
  method BuildTable(active: seq<DistributionConfig>) returns (table: seq<Entry>)
    ensures table == TableSpec(active)
    ensures DistinctNames(table)
    ensures Names(table) == set c | c in active :: c.unitName
    ensures (forall c :: c in active ==> Sane(c)) ==> SaneTable(table)
    ensures active != [] ==> table != []
  {
    table := [];
    var i := 0;
    while i < |active|
      invariant 0 <= i <= |active|
      invariant table == TableSpec(active[..i])
    {
      assert active[..i + 1][..i] == active[..i];
      table := Insert(table, Entry(active[i].unitName, active[i].percentage));
      i := i + 1;
    }
    assert active[..i] == active;
    TableSpecFacts(active);
  }

  predicate SaneTable(table: seq<Entry>)
  {
    forall e :: e in table ==> e.expected >= 0.0 && e.name != []
  }

  /** The deficit of an entry for lead number leadNum: the share of leadNum
      leads it should have, minus what it already has. */
  function SimDeficit(e: Entry, count: nat, leadNum: nat): real
  {
    (e.expected / 100.0) * (leadNum as real) - (count as real)
  }

  function SimDeficits(table: seq<Entry>, counts: seq<nat>, leadNum: nat): (ds: seq<real>)
    requires |counts| == |table|
    ensures |ds| == |table|
    ensures forall j :: 0 <= j < |table| ==> ds[j] == SimDeficit(table[j], counts[j], leadNum)
  {
    seq(|table|, j requires 0 <= j < |table| => SimDeficit(table[j], counts[j], leadNum))
  }

  /** One lead of the simulation: the loop's pick gains the lead when it
      names a unit. */
  function SimStep(table: seq<Entry>, counts: seq<nat>, leadNum: nat): (r: seq<nat>)
    requires |counts| == |table|
    ensures |r| == |table|
  {
    var best := FirstMax(SimDeficits(table, counts, leadNum));
    if best.Some? && table[best.value].name != [] then counts[best.value := counts[best.value] + 1]
    else counts
  }

  /** One lead goes to the entry whose deficit is the first maximum and
      beats the sentinel, provided its name is non-empty; every other count
      stays. */
  lemma SimStepEffect(table: seq<Entry>, counts: seq<nat>, leadNum: nat, j: nat)
    requires |counts| == |table| && j < |table|
    ensures SimStep(table, counts, leadNum)[j]
            == counts[j] + (if IsFirstMax(SimDeficits(table, counts, leadNum), j) && table[j].name != [] then 1 else 0)
  {
    var ds := SimDeficits(table, counts, leadNum);
    var best := FirstMax(ds);
    FirstMaxSpec(ds);
    if IsFirstMax(ds, j) {
      FirstMaxUnique(ds, j, best.value);
    }
  }

  /** The counts after leads 1..n, starting from zero. */
  function SimCounts(table: seq<Entry>, n: nat): (cs: seq<nat>)
    ensures |cs| == |table|
  {
    if n == 0 then Zeros(|table|) else SimStep(table, SimCounts(table, n - 1), n)
  }

  /** The lead loop of simulate_distribution: lead 1..num_leads goes to the
      entry with the first maximal deficit expected/100*lead_num - assigned,
      provided one beats the sentinel and its name is non-empty. With
      non-negative percentages, non-empty names and fewer leads than the
      sentinel, every lead is assigned. */
  method AssignLeads(table: seq<Entry>, numLeads: nat) returns (counts: seq<nat>)
    ensures counts == SimCounts(table, numLeads)
    ensures |counts| == |table|
    ensures SumNats(counts) <= numLeads
    ensures table != [] && numLeads <= 999999 && SaneTable(table) ==> SumNats(counts) == numLeads
  {
    counts := Zeros(|table|);
    for k := 0 to numLeads
      invariant counts == SimCounts(table, k)
    {
      counts := AssignOne(table, counts, k + 1);
    }
    SimCountsSum(table, numLeads);
  }

  /** The body of the lead loop: the deficits of every entry for this lead,
      the selection scan, and one more lead for the winner when it names a
      unit. */
  method AssignOne(table: seq<Entry>, counts: seq<nat>, leadNum: nat) returns (next: seq<nat>)
    requires |counts| == |table|
    ensures next == SimStep(table, counts, leadNum)
  {
    var ds := SimDeficits(table, counts, leadNum);
    var best := PickFirstMax(ds);
    SimStepPicks(table, counts, leadNum, best);
    next := counts;
    if best.Some? && table[best.value].name != [] {
      next := counts[best.value := counts[best.value] + 1];
    }
  }

  /** After n leads at most n are assigned; with non-negative percentages,
      non-empty names and fewer leads than the sentinel, all n are. */
  lemma {:induction false} SimCountsSum(table: seq<Entry>, n: nat)
    ensures SumNats(SimCounts(table, n)) <= n
    ensures table != [] && n <= 999999 && SaneTable(table) ==> SumNats(SimCounts(table, n)) == n
  {
    if n == 0 {
      ZeroSum(|table|);
    } else {
      var prev := SimCounts(table, n - 1);
      assert SimCounts(table, n) == SimStep(table, prev, n);
      SimCountsSum(table, n - 1);
      if SimPicks(table, prev, n) {
        SimStepAssigns(table, prev, n);
      } else {
        SimStepIdle(table, prev, n);
        if table != [] && n <= 999999 && SaneTable(table) {
          SanePicks(table, prev, n);
        }
      }
    }
  }

  /** Whether a lead is assigned at all: some deficit beats the sentinel
      and the first maximal one belongs to a named unit. */
  predicate SimPicks(table: seq<Entry>, counts: seq<nat>, leadNum: nat)
    requires |counts| == |table|
  {
    var best := FirstMax(SimDeficits(table, counts, leadNum));
    best.Some? && table[best.value].name != []
  }

  /** An assigned lead adds one to the total. */
  lemma SimStepAssigns(table: seq<Entry>, counts: seq<nat>, leadNum: nat)
    requires |counts| == |table| && SimPicks(table, counts, leadNum)
    ensures SumNats(SimStep(table, counts, leadNum)) == SumNats(counts) + 1
  {
    var best := FirstMax(SimDeficits(table, counts, leadNum));
    SimStepPicks(table, counts, leadNum, best);
    SumOneMore(counts, SimStep(table, counts, leadNum), best.value);
  }

  /** A lead that is not assigned changes no count. */
  lemma SimStepIdle(table: seq<Entry>, counts: seq<nat>, leadNum: nat)
    requires |counts| == |table| && !SimPicks(table, counts, leadNum)
    ensures SimStep(table, counts, leadNum) == counts
  {
  }

  /** While fewer leads than the sentinel's worth are assigned, a sane table
      always takes the next lead. */
  lemma SanePicks(table: seq<Entry>, counts: seq<nat>, leadNum: nat)
    requires table != [] && SaneTable(table) && |counts| == |table|
    requires 1 <= leadNum <= 999999 && SumNats(counts) == leadNum - 1
    ensures SimPicks(table, counts, leadNum)
  {
    var ds := SimDeficits(table, counts, leadNum);
    FirstEntryBeatsSentinel(table, counts, leadNum);
    FirstMaxSpec(ds);
    var best := FirstMax(ds);
    assert best.Some?;
    assert table[best.value] in table;
  }

  /** Adding one lead to one entry adds one to the total. */
  lemma SumOneMore(counts: seq<nat>, next: seq<nat>, b: nat)
    requires b < |counts| && next == counts[b := counts[b] + 1]
    ensures SumNats(next) == SumNats(counts) + 1
  {
    SumNatsIncrement(counts, b);
  }

  /** SimStep adds the lead to the index the selection loop picks. */
  lemma SimStepPicks(table: seq<Entry>, counts: seq<nat>, leadNum: nat, best: Option<nat>)
    requires |counts| == |table| && best == FirstMax(SimDeficits(table, counts, leadNum))
    ensures best.Some? && table[best.value].name != [] ==>
              SimStep(table, counts, leadNum) == counts[best.value := counts[best.value] + 1]
    ensures best.None? || table[best.value].name == [] ==> SimStep(table, counts, leadNum) == counts
  {
  }

  /** While fewer than the sentinel's worth of leads are assigned, the first
      entry's deficit beats the sentinel, so some entry is chosen. */
  lemma FirstEntryBeatsSentinel(table: seq<Entry>, counts: seq<nat>, leadNum: nat)
    requires table != [] && SaneTable(table) && |counts| == |table|
    requires 1 <= leadNum <= 999999 && SumNats(counts) == leadNum - 1
    ensures SimDeficits(table, counts, leadNum)[0] > Sentinel
  {
    SumNatsBound(counts, 0);
    assert table[0] in table;
    NonNegShare(table[0].expected, leadNum);
  }

  lemma NonNegShare(pct: real, n: nat)
    requires pct >= 0.0
    ensures (pct / 100.0) * (n as real) >= 0.0
  {
  }

  /** simulate_distribution. */
  method SimulateDistribution(configs: seq<DistributionConfig>, numLeads: nat) returns (r: Simulation)
    ensures r.NoActiveConfigs? <==> ActiveConfigs(configs) == []
    ensures r.ZeroDivision? <==> ActiveConfigs(configs) != [] && numLeads == 0
    ensures r.Simulated? ==>
              && r.totalLeads == numLeads
              && TableOf(r.results) == TableSpec(ActiveConfigs(configs))
              && Counts(r.results) == SimCounts(TableOf(r.results), numLeads)
              && r.totalAssigned == SumNats(Counts(r.results))
              && r.totalAssigned <= numLeads
              && (set u | u in r.results :: u.name) == (set c | c in ActiveConfigs(configs) :: c.unitName)
              && (forall i :: 0 <= i < |r.results| ==>
                    r.results[i].finalPercentage
                    == (r.results[i].assignedCount as real) / (numLeads as real) * 100.0)
    ensures r.Simulated? && numLeads <= 999999 && (forall c :: c in configs && c.activeForLeads ==> Sane(c)) ==>
              r.totalAssigned == numLeads
  {
    var active := ActiveConfigs(configs);
    if active == [] {
      return NoActiveConfigs;
    }
    var table := BuildTable(active);
    var counts := AssignLeads(table, numLeads);
    if numLeads == 0 {
      return ZeroDivision;
    }
    var results := Results(table, counts, numLeads);
    r := Simulated(numLeads, results, SumNats(counts));
  }

  /** The result rows: one per dict entry, in dict order, with its count
      and its final percentage of the leads. */
  function Results(table: seq<Entry>, counts: seq<nat>, numLeads: nat): (rs: seq<UnitResult>)
    requires |counts| == |table| && numLeads > 0
    ensures TableOf(rs) == table && Counts(rs) == counts
    ensures (set u | u in rs :: u.name) == Names(table)
    ensures forall i :: 0 <= i < |rs| ==>
              rs[i].finalPercentage == (rs[i].assignedCount as real) / (numLeads as real) * 100.0
  {
    var rs := seq(|table|, j requires 0 <= j < |table| =>
      UnitResult(table[j].name, table[j].expected, counts[j], (counts[j] as real) / (numLeads as real) * 100.0));
    assert (set u | u in rs :: u.name) == Names(table) by {
      forall n | n in Names(table) ensures n in (set u | u in rs :: u.name) {
        var e :| e in table && e.name == n;
        var j :| 0 <= j < |table| && table[j] == e;
        assert rs[j] in rs;
      }
    }
    rs
  }

  /** n counters at zero. */
  function Zeros(n: nat): (z: seq<nat>)
    ensures |z| == n
  {
    if n == 0 then [] else [0] + Zeros(n - 1)
  }

  lemma {:induction false} ZeroSum(n: nat)
    ensures SumNats(Zeros(n)) == 0
  {
    if n > 0 {
      assert Zeros(n)[1..] == Zeros(n - 1);
      ZeroSum(n - 1);
    }
  }
}

=== FILE: messaging.dfy ===
/** The WhatsApp message services: the rule that decides whether an incoming
    message opens a lead, in its two versions, the MIME-type-to-extension
    tables of both, and the 24-hour reply window checked before a text is
    sent. */
module Messaging {
  import opened Common

  // ---------------------------------------------------------------------
  // Lead classifier
  // ---------------------------------------------------------------------

  /** The keyword list of the services module (services.py). */
  const ServicesKeywords: seq<string> := [
    "información", "info", "precio", "costa", "venta", "comprar",
    "interesado", "disponible", "departamento", "casa", "terreno",
    "inmueble", "propiedad", "inversión", "financiamiento", "crédito",
    "visita", "mostrar", "ver", "conocer", "detalles", "características",
    "ubicación", "metros", "m2", "habitaciones", "baños", "cochera",
    "proyecto", "planos", "entrega", "construcción"
  ]

  /** The keyword list of MessageService: the same words followed by
      greetings and requests for help. */
  const MessageServiceKeywords: seq<string> := ServicesKeywords + [
    "hola", "buenos", "tardes", "días", "buenas", "contacto", "consulta", "ayuda"
  ]

  /** content.lower().strip(): a piece of the lowercased text, with no
      surrounding whitespace and no ASCII capital left. */
  function Normalizado(content: string): (n: string)
    ensures |n| <= |content|
    ensures n != [] ==> !IsSpace(n[0]) && !IsSpace(n[|n| - 1])
    ensures forall i :: 0 <= i < |n| ==> !('A' <= n[i] <= 'Z')
  {
    var l := Lower(content);
    StripKeepsNoCapitals(l);
    Strip(l)
  }

  /** Stripping a text without ASCII capitals leaves a shorter text
      without them. */
  lemma StripKeepsNoCapitals(s: string)
    requires forall i :: 0 <= i < |s| ==> !('A' <= s[i] <= 'Z')
    ensures |Strip(s)| <= |s|
    ensures forall i :: 0 <= i < |Strip(s)| ==> !('A' <= Strip(s)[i] <= 'Z')
  {
    var r := Strip(s);
    var k := |s| - |StripLeft(s)|;
    StripOccurs(s);
    assert s[k..k + |r|] == r;
    forall i | 0 <= i < |r| ensures !('A' <= r[i] <= 'Z') {
      assert r[i] == s[k + i];
    }
  }

  /** _should_create_lead: a message without text opens a lead unless it is
      of type text; otherwise a keyword anywhere in the lowercased text
      opens one, fewer than three words never do, and the rest do when at
      least ten characters long. */
  function ShouldCreateLead(content: Option<string>, messageType: string, keywords: seq<string>): (b: bool)
    ensures (content.None? || content.value == []) ==> (b <==> messageType != "text")
    ensures content.Some? && content.value != [] && ContainsAny(Normalizado(content.value), keywords) ==> b
    ensures content.Some? && content.value != [] && !ContainsAny(Normalizado(content.value), keywords) ==>
      (b <==> WordCount(Normalizado(content.value)) >= 3 && |Normalizado(content.value)| >= 10)
  {
    if (content.None? || content.value == []) && messageType != "text" then true
    else if content.None? || content.value == [] then false
    else
      var c := Normalizado(content.value);
      if ContainsAny(c, keywords) then true
      else if WordCount(c) < 3 then false
      else |c| >= 10
  }

  /** Every keyword of the shorter list is in the longer one, so whatever
      opens a lead in services.py opens one in MessageService. */
  lemma ServicesImpliesMessageService(content: Option<string>, messageType: string)
    requires ShouldCreateLead(content, messageType, ServicesKeywords)
    ensures ShouldCreateLead(content, messageType, MessageServiceKeywords)
  {
    if content.Some? && content.value != [] {
      var c := Normalizado(content.value);
      if ContainsAny(c, ServicesKeywords) {
        var k :| k in ServicesKeywords && Contains(c, k);
        assert k in MessageServiceKeywords;
      }
    }
  }

  lemma StripBlank(s: string)
    requires AllSpace(s)
    ensures Strip(s) == []
  {
  }

  /** A message of only whitespace never opens a lead in either version,
      whatever its type. */
  lemma BlankTextNoLead(content: string, messageType: string, keywords: seq<string>)
    requires content != [] && AllSpace(Lower(content))
    requires forall k :: k in keywords ==> k != []
    ensures !ShouldCreateLead(Some(content), messageType, keywords)
  {
    StripBlank(Lower(content));
    assert Normalizado(content) == [];
  }

  /** A greeting alone opens a lead in MessageService but not in services.py. */
  lemma GreetingOnlyInMessageService()
    ensures ShouldCreateLead(Some("hola"), "text", MessageServiceKeywords)
    ensures !ShouldCreateLead(Some("hola"), "text", ServicesKeywords)
  {
    HolaNormalizado();
    assert Contains("hola", "hola");
    assert "hola" in MessageServiceKeywords;
    HolaMissesServices();
    OneWord("hola");
  }

  /** A text without whitespace is a single word. */
  lemma OneWord(s: string)
    requires s != [] && forall i :: 0 <= i < |s| ==> !IsSpace(s[i])
    ensures WordCount(s) == 1
  {
    NoSpaceSkipped(s);
  }

  lemma {:induction false} NoSpaceSkipped(s: string)
    requires forall i :: 0 <= i < |s| ==> !IsSpace(s[i])
    ensures SkipWord(s) == []
  {
    if s != [] {
      NoSpaceSkipped(s[1..]);
    }
  }

  lemma HolaNormalizado()
    ensures Normalizado("hola") == "hola"
  {
    assert Lower("hola") == "hola";
    StripWord("hola");
  }
  lemma HolaMissesServices()
    ensures !ContainsAny("hola", ServicesKeywords)
  {
    HolaMissesFrom(0, 16);
    HolaMissesFrom(16, |ServicesKeywords|);
  }

  lemma HolaMissesFrom(lo: nat, hi: nat)
    requires lo <= hi <= |ServicesKeywords| && (lo == 0 || lo == 16) && (hi == 16 || hi == |ServicesKeywords|)
    ensures forall i :: lo <= i < hi ==> !Contains("hola", ServicesKeywords[i])
  {
    forall i | lo <= i < hi ensures !Contains("hola", ServicesKeywords[i]) {
      Misses("hola", ServicesKeywords[i]);
    }
  }


  // ---------------------------------------------------------------------
  // MIME type to file extension
  // ---------------------------------------------------------------------

  /** MessageService._get_file_extension_from_mime's table. */
  const MessageServiceExtensions: map<string, string> := map[
    "image/jpeg" := ".jpg",
    "image/jpg" := ".jpg",
    "image/png" := ".png",
    "image/gif" := ".gif",
    "image/webp" := ".webp",
    "video/mp4" := ".mp4",
    "video/quicktime" := ".mov",
    "video/3gpp" := ".3gp",
    "audio/mpeg" := ".mp3",
    "audio/mp3" := ".mp3",
    "audio/mp4" := ".m4a",
    "audio/m4a" := ".m4a",
    "audio/x-m4a" := ".m4a",
    "audio/aac" := ".aac",
    "audio/x-aac" := ".aac",
    "audio/wav" := ".wav",
    "audio/ogg" := ".ogg",
    "application/pdf" := ".pdf",
    "application/vnd.openxmlformats-officedocument.wordprocessingml.document" := ".docx",
    "application/msword" := ".doc",
    "application/vnd.openxmlformats-officedocument.spreadsheetml.sheet" := ".xlsx",
    "application/vnd.ms-excel" := ".xls",
    "text/plain" := ".txt",
    "application/zip" := ".zip",
    "application/x-rar-compressed" := ".rar"
  ]

  /** The smaller table of services.py. */
  const ServicesExtensions: map<string, string> := map[
    "image/jpeg" := ".jpg",
    "image/png" := ".png",
    "image/webp" := ".webp",
    "image/gif" := ".gif",
    "audio/ogg" := ".ogg",
    "audio/mpeg" := ".mp3",
    "audio/wav" := ".wav",
    "video/mp4" := ".mp4",
    "video/3gpp" := ".3gp",
    "application/pdf" := ".pdf",
    "application/msword" := ".doc",
    "application/vnd.openxmlformats-officedocument.wordprocessingml.document" := ".docx",
    "text/plain" := ".txt"
  ]

  /** MessageService: a known type gets its extension, any other '.bin'. */
  function ExtensionFromMime(mime: string): (ext: string)
    ensures ext == ".bin" <==> mime !in MessageServiceExtensions
    ensures |ext| >= 2 && ext[0] == '.'
  {
    if mime in MessageServiceExtensions then MessageServiceExtensions[mime] else ".bin"
  }

  /** services.py: a known type gets its extension, any other '.dat'. */
  function ServicesExtensionFromMime(mime: string): (ext: string)
    ensures ext == ".dat" <==> mime !in ServicesExtensions
    ensures |ext| >= 2 && ext[0] == '.'
  {
    if mime in ServicesExtensions then ServicesExtensions[mime] else ".dat"
  }

  /** The two tables never disagree: every type the smaller one knows the
      larger one maps to the same extension, so the versions differ only in
      the fallback and in the types the smaller table lacks. */
  lemma ExtensionTablesAgree(mime: string)
    ensures mime in ServicesExtensions ==> ExtensionFromMime(mime) == ServicesExtensionFromMime(mime)
    ensures mime !in MessageServiceExtensions ==>
      ExtensionFromMime(mime) == ".bin" && ServicesExtensionFromMime(mime) == ".dat"
  {
  }

  // ---------------------------------------------------------------------
  // The 24-hour reply window
  // ---------------------------------------------------------------------

  /** 24 hours, in seconds. */
  const Ventana: real := 86400.0

  datatype SendError =
    | Ventana24hExpirada(lastMessageTime: real, timeLimit: real)
    | SinMensajeInicial

  /** The newest incoming message of the conversation (order by timestamp,
      descending, first). */
  function UltimoEntrante(ts: seq<real>): (r: Option<real>)
    ensures r.None? <==> ts == []
    ensures r.Some? ==> r.value in ts && forall t :: t in ts ==> t <= r.value
  {
    if ts == [] then None
    else
      var rest := UltimoEntrante(ts[1..]);
      assert forall t :: t in ts ==> t == ts[0] || t in ts[1..];
      if rest.None? || ts[0] >= rest.value then Some(ts[0]) else rest
  }

  /** The check at the top of send_message: with a conversation, a client
      who never wrote cannot be messaged, nor one whose newest message is
      older than 24 hours; without a conversation nothing is checked. */
  function VentanaRespuesta(entrantes: Option<seq<real>>, now: real): (r: Option<SendError>)
    ensures entrantes.None? ==> r.None?
    ensures entrantes.Some? && entrantes.value == [] ==> r == Some(SinMensajeInicial)
    ensures r.Some? && r.value.Ventana24hExpirada? ==> r.value.timeLimit == now - Ventana
  {
    if entrantes.None? then None
    else
      var ultimo := UltimoEntrante(entrantes.value);
      if ultimo.None? then Some(SinMensajeInicial)
      else if ultimo.value < now - Ventana then Some(Ventana24hExpirada(ultimo.value, now - Ventana))
      else None
  }

  /** Sending is allowed exactly when some incoming message of the
      conversation is at most 24 hours old. */
  lemma VentanaAbiertaIff(entrantes: seq<real>, now: real)
    ensures VentanaRespuesta(Some(entrantes), now).None? <==>
      exists t :: t in entrantes && t >= now - Ventana
  {
    var u := UltimoEntrante(entrantes);
    if u.Some? && u.value >= now - Ventana {
      assert u.value in entrantes;
    }
  }

  /** Once closed, the window stays closed as time goes on, until a new
      incoming message arrives. */
  lemma VentanaCerradaPersiste(entrantes: seq<real>, now: real, later: real)
    requires now <= later
    requires VentanaRespuesta(Some(entrantes), now).Some?
    ensures VentanaRespuesta(Some(entrantes), later).Some?
  {
    VentanaAbiertaIff(entrantes, now);
    VentanaAbiertaIff(entrantes, later);
  }
}

=== FILE: pricing.dfy ===
/** Property pricing. A manual price overrides everything; otherwise the
    price is the area times the phase's price per m2 times the property's
    factor, plus the fixed amounts of the weighting factors (ponderadores)
    in force, times the product of their percentage factors, rounded to
    cents. Ponderadores carry validation, validity, activation and
    versioning rules. Also the project-level counters (sold percentage,
    deletability) and the development commission. */
module Pricing {
  import opened Common

  // ------------------------------------------------------------- rounding

  /** Python's round(x, 2) on a Decimal: to the nearest cent, ties to the
      even cent. */
  function Round2(x: real): (r: real)
    ensures -0.005 <= r - x <= 0.005
    ensures (r * 100.0).Floor as real == r * 100.0
    ensures x * 100.0 - (x * 100.0).Floor as real != 0.5 ==> -0.005 < r - x < 0.005
    ensures x * 100.0 - (x * 100.0).Floor as real == 0.5 ==> (r * 100.0).Floor % 2 == 0
  {
    var n := (x * 100.0).Floor;
    var frac := x * 100.0 - n as real;
    var k := if frac > 0.5 then n + 1
             else if frac < 0.5 then n
             else if n % 2 == 0 then n else n + 1;
    (k as real) / 100.0
  }

  /** Rounding a whole number of cents changes nothing. */
  lemma Round2Cents(k: int)
    ensures Round2((k as real) / 100.0) == (k as real) / 100.0
  {
    assert ((k as real) / 100.0) * 100.0 == k as real;
  }

  // ------------------------------------------------------------ ponderador

  datatype Nivel = NivelProyecto | NivelFase | NivelInmueble

  /** The phase a ponderador points to, with the project that phase
      belongs to. */
  datatype FaseRef = FaseRef(id: nat, proyecto: nat)

  datatype PonderadorError =
    | AmbosValores        // both a percentage and a fixed amount
    | NingunValor         // neither
    | FaseRequerida       // level 'fase' without a phase
    | FaseDeOtroProyecto  // the phase belongs to another project
    | FechasInvalidas     // activation not before deactivation
    | FechaActivacionNula // the comparison of a missing activation date raises

  /** The new values handed to crear_nueva_version. Absent keys fall back
      to the old version's value; for the percentage and the fixed amount
      the key may be present with the value None. */
  datatype NuevosDatos = NuevosDatos(
    nombre: Option<string>,
    tipo: Option<string>,
    nivel: Option<Nivel>,
    porcentaje: Option<Option<real>>,
    montoFijo: Option<Option<real>>,
    fechaActivacion: Option<real>,
    fechaDesactivacion: Option<real>,
    descripcion: Option<string>,
    justificacion: Option<string>)

  /** A weighting factor. Times are seconds on the server clock. */
  class Ponderador {
    var proyecto: nat
    var fase: Option<FaseRef>
    var nombre: string
    var tipo: string
    var nivel: Nivel
    var porcentaje: Option<real>
    var montoFijo: Option<real>
    var fechaActivacion: Option<real>
    var fechaDesactivacion: Option<real>
    var activo: bool
    var version: nat
    var padre: Option<Ponderador>
    var descripcion: string
    var justificacion: string
    var createdBy: Option<nat>
    var activatedBy: Option<nat>
    var deactivatedBy: Option<nat>

    constructor (proyecto: nat, fase: Option<FaseRef>, nombre: string, tipo: string, nivel: Nivel,
                 porcentaje: Option<real>, montoFijo: Option<real>,
                 fechaActivacion: Option<real>, fechaDesactivacion: Option<real>,
                 descripcion: string, justificacion: string, createdBy: Option<nat>,
                 activo: bool, version: nat, padre: Option<Ponderador>)
      ensures this.proyecto == proyecto && this.fase == fase && this.nombre == nombre
      ensures this.tipo == tipo && this.nivel == nivel
      ensures this.porcentaje == porcentaje && this.montoFijo == montoFijo
      ensures this.fechaActivacion == fechaActivacion && this.fechaDesactivacion == fechaDesactivacion
      ensures this.descripcion == descripcion && this.justificacion == justificacion
      ensures this.createdBy == createdBy && this.activatedBy == createdBy && this.deactivatedBy == None
      ensures this.activo == activo && this.version == version && this.padre == padre
    {
      this.proyecto := proyecto;
      this.fase := fase;
      this.nombre := nombre;
      this.tipo := tipo;
      this.nivel := nivel;
      this.porcentaje := porcentaje;
      this.montoFijo := montoFijo;
      this.fechaActivacion := fechaActivacion;
      this.fechaDesactivacion := fechaDesactivacion;
      this.descripcion := descripcion;
      this.justificacion := justificacion;
      this.createdBy := createdBy;
      this.activatedBy := createdBy;
      this.deactivatedBy := None;
      this.activo := activo;
      this.version := version;
      this.padre := padre;
    }

    /** Ponderador.clean: the first rule broken, or None. */
    function Clean(): (r: Option<PonderadorError>)
      reads this
      ensures r.None? ==> (porcentaje.Some? <==> montoFijo.None?)
      ensures r.None? ==> (nivel == NivelFase ==> fase.Some?)
      ensures r.None? ==> (fase.Some? ==> fase.value.proyecto == proyecto)
      ensures r.None? ==> (fechaDesactivacion.Some? ==>
                             fechaActivacion.Some? && fechaActivacion.value < fechaDesactivacion.value)
      ensures r == Some(AmbosValores) <==> porcentaje.Some? && montoFijo.Some?
      ensures r == Some(NingunValor) <==> porcentaje.None? && montoFijo.None?
      ensures r == Some(FaseRequerida) <==>
                (porcentaje.Some? != montoFijo.Some?) && nivel == NivelFase && fase.None?
      ensures r == Some(FaseDeOtroProyecto) <==>
                (porcentaje.Some? != montoFijo.Some?) && fase.Some? && fase.value.proyecto != proyecto
      ensures r == Some(FechaActivacionNula) <==>
                (porcentaje.Some? != montoFijo.Some?) && (nivel == NivelFase ==> fase.Some?)
                && (fase.Some? ==> fase.value.proyecto == proyecto)
                && fechaDesactivacion.Some? && fechaActivacion.None?
      ensures r == Some(FechasInvalidas) <==>
                (porcentaje.Some? != montoFijo.Some?) && (nivel == NivelFase ==> fase.Some?)
                && (fase.Some? ==> fase.value.proyecto == proyecto)
                && fechaDesactivacion.Some? && fechaActivacion.Some?
                && fechaActivacion.value >= fechaDesactivacion.value
      ensures ((porcentaje.Some? != montoFijo.Some?) && (nivel == NivelFase ==> fase.Some?)
               && (fase.Some? ==> fase.value.proyecto == proyecto)
               && (fechaDesactivacion.Some? ==>
                     fechaActivacion.Some? && fechaActivacion.value < fechaDesactivacion.value)) ==> r.None?
    {
      if porcentaje.Some? && montoFijo.Some? then Some(AmbosValores)
      else if porcentaje.None? && montoFijo.None? then Some(NingunValor)
      else if nivel == NivelFase && fase.None? then Some(FaseRequerida)
      else if fase.Some? && fase.value.proyecto != proyecto then Some(FaseDeOtroProyecto)
      else if fechaDesactivacion.Some? then
        if fechaActivacion.None? then Some(FechaActivacionNula)
        else if fechaActivacion.value >= fechaDesactivacion.value then Some(FechasInvalidas)
        else None
      else None
    }

    /** factor_multiplicador: 1 + porcentaje/100, or 1 without a percentage. */
    function FactorMultiplicador(): (f: real)
      reads this
      ensures porcentaje.None? ==> f == 1.0
      ensures porcentaje.Some? ==> (f - 1.0) * 100.0 == porcentaje.value
      ensures porcentaje.Some? && porcentaje.value >= -100.0 ==> f >= 0.0
    {
      if porcentaje.Some? then 1.0 + porcentaje.value / 100.0 else 1.0
    }

    /** esta_vigente. None stands for the TypeError raised when an active
        ponderador has no activation date. */
    function EstaVigente(now: real): (r: Option<bool>)
      reads this
      ensures r.None? <==> activo && fechaActivacion.None?
      ensures r == Some(true) <==>
                activo && fechaActivacion.Some? && fechaActivacion.value <= now
                && (fechaDesactivacion.None? || now < fechaDesactivacion.value)
    {
      if !activo then Some(false)
      else if fechaActivacion.None? then None
      else if fechaActivacion.value > now then Some(false)
      else if fechaDesactivacion.Some? && fechaDesactivacion.value <= now then Some(false)
      else Some(true)
    }

    /** activar: active, activated by the user, and activation date set to
        now unless one was already set. Persisting is left to the caller. */
    method Activar(usuario: nat, now: real)
      modifies this
      ensures activo && activatedBy == Some(usuario)
      ensures old(fechaActivacion).None? ==> fechaActivacion == Some(now)
      ensures old(fechaActivacion).Some? ==> fechaActivacion == old(fechaActivacion)
      ensures fechaActivacion.Some?
      ensures fechaDesactivacion == old(fechaDesactivacion) && porcentaje == old(porcentaje)
      ensures montoFijo == old(montoFijo) && version == old(version) && padre == old(padre)
      ensures deactivatedBy == old(deactivatedBy) && nivel == old(nivel) && fase == old(fase)
      ensures nombre == old(nombre) && tipo == old(tipo) && proyecto == old(proyecto)
      ensures descripcion == old(descripcion) && justificacion == old(justificacion) && createdBy == old(createdBy)
      ensures old(fechaActivacion).None? && (fechaDesactivacion.None? || now < fechaDesactivacion.value) ==>
                EstaVigente(now) == Some(true)
    {
      activo := true;
      activatedBy := Some(usuario);
      if fechaActivacion.None? {
        fechaActivacion := Some(now);
      }
    }

    /** desactivar: inactive from the given date, or from now. */
    method Desactivar(usuario: nat, fecha: Option<real>, now: real)
      modifies this
      ensures !activo && deactivatedBy == Some(usuario)
      ensures fecha.Some? ==> fechaDesactivacion == fecha
      ensures fecha.None? ==> fechaDesactivacion == Some(now)
      ensures fechaActivacion == old(fechaActivacion) && porcentaje == old(porcentaje)
      ensures montoFijo == old(montoFijo) && version == old(version) && padre == old(padre)
      ensures activatedBy == old(activatedBy) && nivel == old(nivel) && fase == old(fase)
      ensures nombre == old(nombre) && tipo == old(tipo) && proyecto == old(proyecto)
      ensures descripcion == old(descripcion) && justificacion == old(justificacion) && createdBy == old(createdBy)
      ensures forall t :: EstaVigente(t) == Some(false)
    {
      activo := false;
      deactivatedBy := Some(usuario);
      fechaDesactivacion := if fecha.Some? then fecha else Some(now);
    }

    /** crear_nueva_version: deactivates this version and creates the next
        one, active, with version+1 and this one as its parent. */
    method CrearNuevaVersion(usuario: nat, now: real, datos: NuevosDatos) returns (nueva: Ponderador)
      modifies this
      ensures fresh(nueva)
      ensures !activo && deactivatedBy == Some(usuario) && fechaDesactivacion == Some(now)
      ensures nueva.version == old(version) + 1 && nueva.padre == Some(this) && nueva.activo
      ensures nueva.proyecto == proyecto && nueva.fase == fase
      ensures nueva.createdBy == Some(usuario) && nueva.activatedBy == Some(usuario)
      ensures nueva.nombre == (if datos.nombre.Some? then datos.nombre.value else old(nombre))
      ensures nueva.nivel == (if datos.nivel.Some? then datos.nivel.value else old(nivel))
      ensures nueva.porcentaje == (if datos.porcentaje.Some? then datos.porcentaje.value else old(porcentaje))
      ensures nueva.montoFijo == (if datos.montoFijo.Some? then datos.montoFijo.value else old(montoFijo))
      ensures nueva.fechaActivacion == datos.fechaActivacion
      ensures nueva.fechaDesactivacion == datos.fechaDesactivacion
      ensures nueva.tipo == (if datos.tipo.Some? then datos.tipo.value else old(tipo))
      ensures nueva.descripcion == (if datos.descripcion.Some? then datos.descripcion.value else old(descripcion))
      ensures nueva.justificacion == (if datos.justificacion.Some? then datos.justificacion.value else "")
      ensures nueva.deactivatedBy == None
      ensures fechaActivacion == old(fechaActivacion) && porcentaje == old(porcentaje)
      ensures montoFijo == old(montoFijo) && version == old(version) && padre == old(padre)
      ensures activatedBy == old(activatedBy) && nivel == old(nivel) && fase == old(fase)
      ensures nombre == old(nombre) && tipo == old(tipo) && proyecto == old(proyecto)
      ensures descripcion == old(descripcion) && justificacion == old(justificacion) && createdBy == old(createdBy)
    {
      Desactivar(usuario, None, now);
      nueva := new Ponderador(
        proyecto, fase,
        if datos.nombre.Some? then datos.nombre.value else nombre,
        if datos.tipo.Some? then datos.tipo.value else tipo,
        if datos.nivel.Some? then datos.nivel.value else nivel,
        if datos.porcentaje.Some? then datos.porcentaje.value else porcentaje,
        if datos.montoFijo.Some? then datos.montoFijo.value else montoFijo,
        datos.fechaActivacion, datos.fechaDesactivacion,
        if datos.descripcion.Some? then datos.descripcion.value else descripcion,
        if datos.justificacion.Some? then datos.justificacion.value else "",
        Some(usuario), true, version + 1, Some(this));
    }
  }

  // --------------------------------------------------------------- pricing

  /** The queryset filter of precio_calculado for one level: active, of
      that level, activated at or before now, and not deactivated before
      now. A missing activation date never matches. */
  predicate AppliesAt(p: Ponderador, nivel: Nivel, now: real)
    reads p
  {
    p.activo && p.nivel == nivel
    && p.fechaActivacion.Some? && p.fechaActivacion.value <= now
    && (p.fechaDesactivacion.None? || p.fechaDesactivacion.value >= now)
  }

  /** The pricing filter and esta_vigente agree except at the instant of
      deactivation, which the filter still counts and esta_vigente does not. */
  lemma AppliesAtMatchesVigente(p: Ponderador, nivel: Nivel, now: real)
    ensures AppliesAt(p, nivel, now) ==>
              p.EstaVigente(now) == Some(true) || p.fechaDesactivacion == Some(now)
    ensures p.EstaVigente(now) == Some(true) && p.nivel == nivel ==> AppliesAt(p, nivel, now)
  {
  }

  function InForce(ps: seq<Ponderador>, nivel: Nivel, now: real): (r: seq<Ponderador>)
    reads ps
    ensures forall i :: 0 <= i < |r| ==> r[i] in ps && AppliesAt(r[i], nivel, now)
    ensures forall i :: 0 <= i < |ps| && AppliesAt(ps[i], nivel, now) ==> ps[i] in r
  {
    if ps == [] then []
    else (if AppliesAt(ps[0], nivel, now) then [ps[0]] else []) + InForce(ps[1..], nivel, now)
  }

  /** The truthy fixed amounts, in order. */
  function Montos(ps: seq<Ponderador>): (ms: seq<real>)
    reads ps
    ensures |ms| <= |ps|
  {
    if ps == [] then []
    else (if Truthy(ps[0].montoFijo) then [ps[0].montoFijo.value] else []) + Montos(ps[1..])
  }

  /** The percentage factors of the ponderadores without a truthy fixed
      amount, in order. */
  function Factores(ps: seq<Ponderador>): (fs: seq<real>)
    reads ps
    ensures |fs| <= |ps|
  {
    if ps == [] then []
    else (if Truthy(ps[0].montoFijo) then [] else [ps[0].FactorMultiplicador()]) + Factores(ps[1..])
  }

  /** What one ponderador adds: its fixed amount when truthy. */
  function MontoDe(p: Ponderador): real
    reads p
  {
    if Truthy(p.montoFijo) then p.montoFijo.value else 0.0
  }

  /** What one ponderador multiplies by: its factor when it has no truthy
      fixed amount. */
  function FactorDe(p: Ponderador): real
    reads p
  {
    if Truthy(p.montoFijo) then 1.0 else p.FactorMultiplicador()
  }

  /** The sum of the truthy fixed amounts (OnePonderador gives a single
      one, MontoAdicionalAppend sums the groups). */
  function MontoAdicional(ps: seq<Ponderador>): (m: real)
    reads ps
  {
    SumReals(Montos(ps))
  }

  /** The product of the percentage factors (OnePonderador gives a single
      one, FactorTotalAppend multiplies the groups). */
  function FactorTotal(ps: seq<Ponderador>): (f: real)
    reads ps
  {
    ProdReals(Factores(ps))
  }

  /** A single ponderador adds its fixed amount when truthy and otherwise
      multiplies by its factor. */
  lemma OnePonderador(p: Ponderador)
    ensures MontoAdicional([p]) == MontoDe(p)
    ensures FactorTotal([p]) == FactorDe(p)
  {
    var ps := [p];
    SingleOne(p);
    if Truthy(p.montoFijo) {
      var v := p.montoFijo.value;
      assert [v][1..] == [];
      assert MontoAdicional(ps) == SumReals([v]) == v;
      assert FactorTotal(ps) == ProdReals([]);
    } else {
      var f := p.FactorMultiplicador();
      assert [f][1..] == [];
      assert FactorTotal(ps) == ProdReals([f]) == f;
      assert MontoAdicional(ps) == SumReals([]);
    }
  }

  lemma {:induction false} MontosFactoresAppend(a: seq<Ponderador>, b: seq<Ponderador>)
    ensures Montos(a + b) == Montos(a) + Montos(b)
    ensures Factores(a + b) == Factores(a) + Factores(b)
  {
    if a == [] {
      assert a + b == b;
    } else {
      assert (a + b)[1..] == a[1..] + b;
      MontosFactoresAppend(a[1..], b);
    }
  }

  lemma MontoAdicionalAppend(a: seq<Ponderador>, b: seq<Ponderador>)
    ensures MontoAdicional(a + b) == MontoAdicional(a) + MontoAdicional(b)
  {
    MontosFactoresAppend(a, b);
    SumRealsConcat(Montos(a), Montos(b));
  }

  lemma FactorTotalAppend(a: seq<Ponderador>, b: seq<Ponderador>)
    ensures FactorTotal(a + b) == FactorTotal(a) * FactorTotal(b)
  {
    MontosFactoresAppend(a, b);
    ProdRealsConcat(Factores(a), Factores(b));
  }

  /** Appending one ponderador adds its fixed amount or multiplies in its factor. */
  lemma PonderadorStep(qs: seq<Ponderador>, p: Ponderador)
    ensures Truthy(p.montoFijo) ==>
              MontoAdicional(qs + [p]) == MontoAdicional(qs) + p.montoFijo.value
              && FactorTotal(qs + [p]) == FactorTotal(qs)
    ensures !Truthy(p.montoFijo) ==>
              MontoAdicional(qs + [p]) == MontoAdicional(qs)
              && FactorTotal(qs + [p]) == FactorTotal(qs) * p.FactorMultiplicador()
  {
    MontosFactoresAppend(qs, [p]);
    SingleOne(p);
    var ms, fs := Montos(qs), Factores(qs);
    if Truthy(p.montoFijo) {
      var m := p.montoFijo.value;
      assert Montos(qs + [p]) == ms + [m];
      SumRealsAppend(ms, m);
      assert fs + [] == fs;
      assert Factores(qs + [p]) == fs;
    } else {
      var f := p.FactorMultiplicador();
      assert ms + [] == ms;
      assert Montos(qs + [p]) == ms;
      assert Factores(qs + [p]) == fs + [f];
      ProdRealsAppend(fs, f);
    }
  }

  lemma SingleOne(p: Ponderador)
    ensures Montos([p]) == if Truthy(p.montoFijo) then [p.montoFijo.value] else []
    ensures Factores([p]) == if Truthy(p.montoFijo) then [] else [p.FactorMultiplicador()]
  {
    assert [p][1..] == [];
  }

  /** The order in which the three levels are chained does not matter:
      swapping two groups of ponderadores gives the same amounts and factor. */
  lemma ChainOrderIrrelevant(a: seq<Ponderador>, b: seq<Ponderador>)
    ensures MontoAdicional(a + b) == MontoAdicional(b + a)
    ensures FactorTotal(a + b) == FactorTotal(b + a)
  {
    MontoAdicionalAppend(a, b);
    MontoAdicionalAppend(b, a);
    FactorTotalAppend(a, b);
    FactorTotalAppend(b, a);
  }

  /** What precio_calculado reads of the property and its phase. */
  datatype Inmueble = Inmueble(m2: real, factorPrecio: real, precioManual: Option<real>)

  /** The ponderadores applied to a property: the project's, then the
      phase's, then the property's own, each filtered to those in force. */
  function Applied(proyectoPs: seq<Ponderador>, fasePs: seq<Ponderador>, inmueblePs: seq<Ponderador>, now: real): seq<Ponderador>
    reads proyectoPs, fasePs, inmueblePs
  {
    InForce(proyectoPs, NivelProyecto, now) + InForce(fasePs, NivelFase, now)
    + InForce(inmueblePs, NivelInmueble, now)
  }

  /** The loop of precio_calculado: fixed amounts are added up, the other
      ponderadores multiply their factors together. */
  method AplicarPonderadores(ps: seq<Ponderador>) returns (monto: real, factor: real)
    ensures monto == MontoAdicional(ps) && factor == FactorTotal(ps)
  {
    monto, factor := 0.0, 1.0;
    var i := 0;
    while i < |ps|
      invariant 0 <= i <= |ps|
      invariant monto == MontoAdicional(ps[..i])
      invariant factor == FactorTotal(ps[..i])
    {
      var p := ps[i];
      PrefixStep(ps, i, monto, factor);
      if Truthy(p.montoFijo) {
        monto := monto + p.montoFijo.value;
      } else {
        factor := factor * p.FactorMultiplicador();
      }
      i := i + 1;
    }
    assert ps[..i] == ps;
  }

  /** One more ponderador of the list: its fixed amount is added, or its
      factor multiplied in. */
  lemma PrefixStep(ps: seq<Ponderador>, i: nat, monto: real, factor: real)
    requires i < |ps|
    requires monto == MontoAdicional(ps[..i]) && factor == FactorTotal(ps[..i])
    ensures Truthy(ps[i].montoFijo) ==>
              MontoAdicional(ps[..i + 1]) == monto + ps[i].montoFijo.value
              && FactorTotal(ps[..i + 1]) == factor
    ensures !Truthy(ps[i].montoFijo) ==>
              MontoAdicional(ps[..i + 1]) == monto
              && FactorTotal(ps[..i + 1]) == factor * ps[i].FactorMultiplicador()
  {
    assert ps[..i + 1] == ps[..i] + [ps[i]];
    PonderadorStep(ps[..i], ps[i]);
  }

  /** The price of a property with a base price and the ponderadores in
      force: the base plus the fixed amounts, times the factors, to cents. */
  function PrecioPonderado(base: real, ps: seq<Ponderador>): real
    reads ps
  {
    Round2((base + MontoAdicional(ps)) * FactorTotal(ps))
  }

  /** The tail of precio_calculado once the base price is known. */
  method PrecioConPonderadores(base: real, ps: seq<Ponderador>) returns (precio: real)
    ensures precio == PrecioPonderado(base, ps)
  {
    var monto, factor := AplicarPonderadores(ps);
    var bruto := (base + monto) * factor;
    assert bruto == (base + MontoAdicional(ps)) * FactorTotal(ps);
    precio := Round2(bruto);
  }

  /** Inmueble.precio_calculado. */
  method PrecioCalculado(inm: Inmueble, precioM2: Option<real>,
                         proyectoPs: seq<Ponderador>, fasePs: seq<Ponderador>, inmueblePs: seq<Ponderador>,
                         now: real)
    returns (precio: real)
    ensures Truthy(inm.precioManual) ==> precio == inm.precioManual.value
    ensures !Truthy(inm.precioManual) && (inm.m2 <= 0.0 || !Truthy(precioM2)) ==> precio == 0.0
    ensures !Truthy(inm.precioManual) && inm.m2 > 0.0 && Truthy(precioM2) ==>
              precio == PrecioPonderado(inm.m2 * precioM2.value * inm.factorPrecio, Applied(proyectoPs, fasePs, inmueblePs, now))
  {
    if Truthy(inm.precioManual) {
      precio := inm.precioManual.value;
    } else if inm.m2 > 0.0 && Truthy(precioM2) {
      var base := inm.m2 * precioM2.value * inm.factorPrecio;
      var ps := Applied(proyectoPs, fasePs, inmueblePs, now);
      precio := PrecioConPonderadores(base, ps);
    } else {
      precio := 0.0;
    }
  }

  /** A price made only of percentage factors of 0% equals the rounded base
      price: neutral ponderadores are neutral. */
  lemma {:induction false} NeutralPonderadores(ps: seq<Ponderador>)
    requires forall p :: p in ps ==> !Truthy(p.montoFijo) && (p.porcentaje.None? || p.porcentaje == Some(0.0))
    ensures MontoAdicional(ps) == 0.0 && FactorTotal(ps) == 1.0
  {
    if ps != [] {
      assert ps[0] in ps;
      NeutralPonderadores(ps[1..]);
      assert Montos(ps) == Montos(ps[1..]);
      assert Factores(ps) == [1.0] + Factores(ps[1..]);
    }
  }

  // -------------------------------------------------------- project counts

  datatype TipoProyecto = Departamentos | Terrenos

  /** A phase: the number of properties of each floor of each tower, of
      each block of each sector, and how many of its properties are sold. */
  datatype Fase = Fase(torres: seq<seq<nat>>, sectores: seq<seq<nat>>, vendidos: nat)

  function SumNested(xss: seq<seq<nat>>): nat
  {
    if xss == [] then 0 else SumNats(xss[0]) + SumNested(xss[1..])
  }

  /** Fase.total_inmuebles: towers for an apartment project, sectors otherwise. */
  function FaseTotal(tipo: TipoProyecto, f: Fase): nat
  {
    if tipo == Departamentos then SumNested(f.torres) else SumNested(f.sectores)
  }

  /** Proyecto.total_inmuebles. */
  function ProyectoTotal(tipo: TipoProyecto, fases: seq<Fase>): nat
  {
    if fases == [] then 0 else FaseTotal(tipo, fases[0]) + ProyectoTotal(tipo, fases[1..])
  }

  /** Proyecto.inmuebles_vendidos. */
  function ProyectoVendidos(fases: seq<Fase>): nat
  {
    if fases == [] then 0 else fases[0].vendidos + ProyectoVendidos(fases[1..])
  }

  /** Proyecto.can_be_deleted: no phase with properties. */
  function ProyectoCanBeDeleted(tipo: TipoProyecto, fases: seq<Fase>): (ok: bool)
    ensures ok <==> forall i :: 0 <= i < |fases| ==> FaseTotal(tipo, fases[i]) == 0
  {
    if fases == [] then true
    else if FaseTotal(tipo, fases[0]) > 0 then false
    else
      var rest := ProyectoCanBeDeleted(tipo, fases[1..]);
      assert forall i :: 1 <= i < |fases| ==> fases[i] == fases[1..][i - 1];
      rest
  }

  /** A project can be deleted exactly when it has no properties at all. */
  lemma {:induction false} CanBeDeletedIffEmpty(tipo: TipoProyecto, fases: seq<Fase>)
    ensures ProyectoCanBeDeleted(tipo, fases) <==> ProyectoTotal(tipo, fases) == 0
  {
    if fases != [] {
      CanBeDeletedIffEmpty(tipo, fases[1..]);
    }
  }

  /** Proyecto.porcentaje_vendido: 0 for an empty project, otherwise the sold
      share in percent rounded to 2 decimals. */
  function PorcentajeVendido(vendidos: nat, total: nat): (pct: real)
    ensures total == 0 ==> pct == 0.0
    ensures total > 0 ==> -0.005 <= pct - (vendidos as real) / (total as real) * 100.0 <= 0.005
  {
    if total == 0 then 0.0 else Round2((vendidos as real) / (total as real) * 100.0)
  }

  /** With no more sold than existing properties, the percentage is within
      0..100. */
  lemma PorcentajeVendidoRange(vendidos: nat, total: nat)
    requires vendidos <= total
    ensures 0.0 <= PorcentajeVendido(vendidos, total) <= 100.0
  {
    if total > 0 {
      var x := (vendidos as real) / (total as real) * 100.0;
      ShareBounds(vendidos, total);
      Round2Monotone(0.0, x);
      Round2Monotone(x, 100.0);
      Round2Cents(0);
      Round2Cents(10000);
      assert (10000 as real) / 100.0 == 100.0;
    }
  }

  /** A part of a positive whole is between 0% and 100% of it. */
  lemma ShareBounds(part: nat, whole: nat)
    requires 0 < whole && part <= whole
    ensures 0.0 <= (part as real) / (whole as real) * 100.0 <= 100.0
  {
    var q := (part as real) / (whole as real);
    assert q * (whole as real) == part as real;
    assert (1.0 - q) * (whole as real) == (whole - part) as real;
  }

  lemma Round2Monotone(x: real, y: real)
    requires x <= y
    ensures Round2(x) <= Round2(y)
  {
    var nx := (x * 100.0).Floor;
    var ny := (y * 100.0).Floor;
    assert nx <= ny;
  }

  // -------------------------------------------------- development commission

  datatype ComisionDesarrollo = ComisionDesarrollo(porcentajeGerente: real, porcentajeJefe: real)

  /** ComisionDesarrollo.total_porcentaje: what the two shares take
      together, so each share is the total less the other. */
  function TotalPorcentaje(c: ComisionDesarrollo): (t: real)
    ensures t - c.porcentajeJefe == c.porcentajeGerente && t - c.porcentajeGerente == c.porcentajeJefe
    ensures c.porcentajeGerente >= 0.0 && c.porcentajeJefe >= 0.0 ==> c.porcentajeGerente <= t && c.porcentajeJefe <= t
  {
    c.porcentajeGerente + c.porcentajeJefe
  }

  /** ComisionDesarrollo.clean accepts iff the total is at most 100; then
      each share is bounded by what the other leaves. */
  function CleanComisionDesarrollo(c: ComisionDesarrollo): (ok: bool)
    ensures ok <==> TotalPorcentaje(c) <= 100.0
    ensures ok ==> c.porcentajeGerente <= 100.0 - c.porcentajeJefe
  {
    !(TotalPorcentaje(c) > 100.0)
  }
}

=== FILE: project_structure.dfy ===
/** Project structure: the property codes and records that the dynamic
    structure builders create (towers, floors and apartments; sectors,
    blocks and lots), the property count reported after creating a
    project, the phase clean-up done before regenerating a structure, and
    the paging of the user search. */
module ProjectStructure {
  import opened Common
  import Pricing

  // --------------------------------------------------------------- codes

  /** Python's f"{n:02d}" for any integer: zero-padded to width 2, the
      minus sign counting towards the width. */
  function Pad2Int(n: int): (s: string)
    ensures 0 <= n < 100 ==> |s| == 2 && s == Pad2(n)
    ensures n < 0 ==> |s| >= 2 && s[0] == '-'
  {
    if n >= 0 then Pad2(n) else "-" + NatToString(-n)
  }

  /** Two-digit padding loses nothing below 100. */
  lemma Pad2Injective(m: nat, n: nat)
    requires m < 100 && n < 100
    requires Pad2(m) == Pad2(n)
    ensures m == n
  {
    assert Pad2(m)[0] == Pad2(n)[0] && Pad2(m)[1] == Pad2(n)[1];
    assert DigitValue(Pad2(m)[0]) == m / 10 && DigitValue(Pad2(m)[1]) == m % 10;
    assert DigitValue(Pad2(n)[0]) == n / 10 && DigitValue(Pad2(n)[1]) == n % 10;
  }

  /** The number two characters spell as decimal digits, if they are. */
  function PairValue(a: char, b: char): Option<int>
  {
    if IsDigit(a) && IsDigit(b) then Some(10 * DigitValue(a) + DigitValue(b)) else None
  }

  lemma Pad2IntReads(n: int)
    ensures 0 <= n < 100 ==> |Pad2Int(n)| == 2 && PairValue(Pad2Int(n)[0], Pad2Int(n)[1]) == Some(n)
  {
    if 0 <= n < 100 {
      assert DigitValue(Pad2(n)[0]) == n / 10 && DigitValue(Pad2(n)[1]) == n % 10;
    }
  }

  /** Apartment code T{torre:02d}P{piso:02d}D{depto:02d}. Below 100 it
      is nine characters with markers at 0, 3 and 6, and its digit pairs
      read back as tower, floor and apartment. */
  function CodigoDepartamento(torre: int, piso: int, depto: int): (c: string)
    ensures |c| >= 9 && c[0] == 'T'
    ensures 0 <= torre < 100 && 0 <= piso < 100 && 0 <= depto < 100 ==>
              |c| == 9 && c[3] == 'P' && c[6] == 'D'
              && PairValue(c[1], c[2]) == Some(torre)
              && PairValue(c[4], c[5]) == Some(piso)
              && PairValue(c[7], c[8]) == Some(depto)
  {
    Pad2IntReads(torre);
    Pad2IntReads(piso);
    Pad2IntReads(depto);
    "T" + Pad2Int(torre) + "P" + Pad2Int(piso) + "D" + Pad2Int(depto)
  }

  /** Lot code S{sector:02d}M{manzana:02d}T{terreno:02d}. Below 100 it
      is nine characters with markers at 0, 3 and 6, and its digit pairs
      read back as sector, block and lot. */
  function CodigoTerreno(sector: int, manzana: int, terreno: int): (c: string)
    ensures |c| >= 9 && c[0] == 'S'
    ensures 0 <= sector < 100 && 0 <= manzana < 100 && 0 <= terreno < 100 ==>
              |c| == 9 && c[3] == 'M' && c[6] == 'T'
              && PairValue(c[1], c[2]) == Some(sector)
              && PairValue(c[4], c[5]) == Some(manzana)
              && PairValue(c[7], c[8]) == Some(terreno)
  {
    Pad2IntReads(sector);
    Pad2IntReads(manzana);
    Pad2IntReads(terreno);
    "S" + Pad2Int(sector) + "M" + Pad2Int(manzana) + "T" + Pad2Int(terreno)
  }

  /** Below 100, an apartment code is nine characters long and names its
      tower, floor and apartment unambiguously. */
  lemma CodigoDepartamentoInjective(t1: nat, p1: nat, d1: nat, t2: nat, p2: nat, d2: nat)
    requires t1 < 100 && p1 < 100 && d1 < 100 && t2 < 100 && p2 < 100 && d2 < 100
    ensures |CodigoDepartamento(t1, p1, d1)| == 9
    ensures CodigoDepartamento(t1, p1, d1) == CodigoDepartamento(t2, p2, d2) <==>
              t1 == t2 && p1 == p2 && d1 == d2
  {
    var a, b := CodigoDepartamento(t1, p1, d1), CodigoDepartamento(t2, p2, d2);
    if a == b {
      assert a[1..3] == Pad2(t1) && b[1..3] == Pad2(t2);
      assert a[4..6] == Pad2(p1) && b[4..6] == Pad2(p2);
      assert a[7..9] == Pad2(d1) && b[7..9] == Pad2(d2);
      Pad2Injective(t1, t2);
      Pad2Injective(p1, p2);
      Pad2Injective(d1, d2);
    }
  }

  /** Below 100, a lot code names its sector, block and lot unambiguously,
      and never equals an apartment code. */
  lemma CodigoTerrenoInjective(s1: nat, m1: nat, l1: nat, s2: nat, m2: nat, l2: nat)
    requires s1 < 100 && m1 < 100 && l1 < 100 && s2 < 100 && m2 < 100 && l2 < 100
    ensures CodigoTerreno(s1, m1, l1) == CodigoTerreno(s2, m2, l2) <==>
              s1 == s2 && m1 == m2 && l1 == l2
    ensures CodigoTerreno(s1, m1, l1) != CodigoDepartamento(s2, m2, l2)
  {
    var a, b := CodigoTerreno(s1, m1, l1), CodigoTerreno(s2, m2, l2);
    if a == b {
      assert a[1..3] == Pad2(s1) && b[1..3] == Pad2(s2);
      assert a[4..6] == Pad2(m1) && b[4..6] == Pad2(m2);
      assert a[7..9] == Pad2(l1) && b[7..9] == Pad2(l2);
      Pad2Injective(s1, s2);
      Pad2Injective(m1, m2);
      Pad2Injective(l1, l2);
    }
    assert a[0] == 'S' && CodigoDepartamento(s2, m2, l2)[0] == 'T';
  }

  // ------------------------------------------------------ parsed structure

  /** A tower of the parsed form data: the floors read from the form (floor
      number to apartments, in insertion order) and the optional summary
      keys; an absent key is None. */
  datatype TorreInfo = TorreInfo(
    numero: int,
    pisos: seq<(int, int)>,
    pisosInicio: Option<int>,
    pisosFin: Option<int>,
    deptosPiso: Option<int>)

  /** A sector of the parsed form data. */
  datatype SectorInfo = SectorInfo(
    numero: int,
    manzanasInicio: Option<int>,
    manzanasFin: Option<int>,
    terrenosManzana: Option<int>,
    comercializable: bool)

  /** A phase of the parsed form data. */
  datatype FaseInfo = FaseInfo(torres: seq<TorreInfo>, sectores: seq<SectorInfo>, comercializable: bool)

  /** dict.get(key, default) */
  function Get(o: Option<int>, default: int): int
  {
    if o.Some? then o.value else default
  }

  /** len(range(lo, hi + 1)) */
  function RangeLen(lo: int, hi: int): nat
  {
    if hi >= lo then hi - lo + 1 else 0
  }

  /** Number of records `range(1, n + 1)` yields. */
  function Pos(n: int): nat
  {
    if n > 0 then n else 0
  }

  /** `{piso: n for piso in range(lo, hi + 1)}` */
  function UniformPisos(lo: int, hi: int, n: int): (r: seq<(int, int)>)
    ensures |r| == RangeLen(lo, hi)
    ensures forall k :: 0 <= k < |r| ==> r[k] == (lo + k, n)
    decreases hi - lo
  {
    if lo > hi then [] else [(lo, n)] + UniformPisos(lo + 1, hi, n)
  }

  /** The floors create_dynamic_apartments_structure builds for a tower:
      the floors read from the form, or, when there are none, a uniform
      range with defaults 1, 1 and 2. */
  function PisosData(t: TorreInfo): seq<(int, int)>
  {
    if t.pisos != [] then t.pisos
    else UniformPisos(Get(t.pisosInicio, 1), Get(t.pisosFin, 1), Get(t.deptosPiso, 2))
  }

  // ------------------------------------------------------- created records

  /** The numbers an Inmueble code is printed from. */
  datatype Codigo = Depto(torre: int, piso: int, depto: int) | Lote(sector: int, manzana: int, terreno: int)

  /** The code as stored. */
  function CodigoTexto(c: Codigo): string
  {
    match c
    case Depto(t, p, d) => CodigoDepartamento(t, p, d)
    case Lote(s, m, l) => CodigoTerreno(s, m, l)
  }

  /** An Inmueble record as the builders create it. */
  datatype Unidad = Unidad(codigo: Codigo, comercializable: bool)

  /** Apartments 1..k of one floor. */
  function DeptoUnits(t: int, p: int, k: int, com: bool): seq<Unidad>
    decreases k
  {
    if k <= 0 then [] else DeptoUnits(t, p, k - 1, com) + [Unidad(Depto(t, p, k), com)]
  }

  /** A floor with k apartments receives apartments 1..k, in order. */
  lemma {:induction false} DeptoUnitsCodes(t: int, p: int, k: int, com: bool)
    ensures |DeptoUnits(t, p, k, com)| == Pos(k)
    ensures forall i :: 0 <= i < Pos(k) ==> DeptoUnits(t, p, k, com)[i] == Unidad(Depto(t, p, i + 1), com)
    decreases k
  {
    if k > 0 {
      DeptoUnitsCodes(t, p, k - 1, com);
    }
  }

  /** The apartments of the given floors of one tower, floor by floor. */
  function PisosUnits(t: int, pisos: seq<(int, int)>, com: bool): seq<Unidad>
  {
    if pisos == [] then []
    else
      var last := pisos[|pisos| - 1];
      PisosUnits(t, pisos[..|pisos| - 1], com) + DeptoUnits(t, last.0, last.1, com)
  }

  /** The apartments of the given towers, tower by tower. */
  function TorresUnits(torres: seq<TorreInfo>, com: bool): seq<Unidad>
  {
    if torres == [] then []
    else
      var last := torres[|torres| - 1];
      TorresUnits(torres[..|torres| - 1], com) + PisosUnits(last.numero, PisosData(last), com)
  }

  /** Sum of the apartments per floor, with a non-positive count as none. */
  function PisosTotal(pisos: seq<(int, int)>): nat
  {
    if pisos == [] then 0 else PisosTotal(pisos[..|pisos| - 1]) + Pos(pisos[|pisos| - 1].1)
  }

  function TorresTotal(torres: seq<TorreInfo>): nat
  {
    if torres == [] then 0
    else TorresTotal(torres[..|torres| - 1]) + PisosTotal(PisosData(torres[|torres| - 1]))
  }

  /** Every created apartment carries the phase's commercialisation flag. */
  lemma {:induction false} TorresUnitsFacts(torres: seq<TorreInfo>, com: bool)
    ensures |TorresUnits(torres, com)| == TorresTotal(torres)
    ensures forall u :: u in TorresUnits(torres, com) ==> u.comercializable == com
  {
    if torres != [] {
      TorresUnitsFacts(torres[..|torres| - 1], com);
      var last := torres[|torres| - 1];
      PisosUnitsFacts(last.numero, PisosData(last), com);
    }
  }

  lemma {:induction false} PisosUnitsFacts(t: int, pisos: seq<(int, int)>, com: bool)
    ensures |PisosUnits(t, pisos, com)| == PisosTotal(pisos)
    ensures forall u :: u in PisosUnits(t, pisos, com) ==> u.comercializable == com
  {
    if pisos != [] {
      PisosUnitsFacts(t, pisos[..|pisos| - 1], com);
      var last := pisos[|pisos| - 1];
      DeptoUnitsCodes(t, last.0, last.1, com);
      var floor := DeptoUnits(t, last.0, last.1, com);
      assert forall i :: 0 <= i < |floor| ==> floor[i].comercializable == com;
    }
  }

  /** The apartments of one floor: `for depto_num in range(1, n + 1)`. */
  method CreateFloor(t: int, p: int, n: int, com: bool) returns (floor: seq<Unidad>)
    ensures floor == DeptoUnits(t, p, n, com)
  {
    floor := [];
    var d := 1;
    while d <= n
      invariant 1 <= d <= Pos(n) + 1
      invariant floor == DeptoUnits(t, p, d - 1, com)
    {
      floor := floor + [Unidad(Depto(t, p, d), com)];
      d := d + 1;
    }
  }

  /** The apartments of one tower, floor by floor. */
  method CreateTower(t: TorreInfo, com: bool) returns (units: seq<Unidad>, numPisos: nat)
    ensures units == PisosUnits(t.numero, PisosData(t), com)
    ensures numPisos == |PisosData(t)|
  {
    var pisos := PisosData(t);
    numPisos := |pisos|;
    units := [];
    var j := 0;
    while j < |pisos|
      invariant 0 <= j <= |pisos|
      invariant units == PisosUnits(t.numero, pisos[..j], com)
    {
      var floor := CreateFloor(t.numero, pisos[j].0, pisos[j].1, com);
      assert pisos[..j + 1][..j] == pisos[..j];
      units := units + floor;
      j := j + 1;
    }
    assert pisos[..j] == pisos;
  }

  /** create_dynamic_apartments_structure: for each tower, a Torre record
      (its number and number of floors), then for each floor its apartments
      numbered from 1. */
  method CreateDynamicApartments(torres: seq<TorreInfo>, com: bool)
    returns (units: seq<Unidad>, creadas: seq<(int, nat)>)
    ensures units == TorresUnits(torres, com)
    ensures |creadas| == |torres|
    ensures forall k :: 0 <= k < |torres| ==> creadas[k] == (torres[k].numero, |PisosData(torres[k])|)
  {
    units, creadas := [], [];
    var i := 0;
    while i < |torres|
      invariant 0 <= i <= |torres|
      invariant units == TorresUnits(torres[..i], com)
      invariant |creadas| == i
      invariant forall k :: 0 <= k < i ==> creadas[k] == (torres[k].numero, |PisosData(torres[k])|)
    {
      var tower, numPisos := CreateTower(torres[i], com);
      creadas := creadas + [(torres[i].numero, numPisos)];
      TorresUnitsStep(torres, i, com);
      units := units + tower;
      i := i + 1;
    }
    assert torres[..i] == torres;
  }

  lemma TorresUnitsStep(torres: seq<TorreInfo>, i: nat, com: bool)
    requires i < |torres|
    ensures TorresUnits(torres[..i + 1], com)
            == TorresUnits(torres[..i], com) + PisosUnits(torres[i].numero, PisosData(torres[i]), com)
  {
    assert torres[..i + 1][..i] == torres[..i];
  }

  /** A sector is skipped when its block range is empty or it has no lots
      per block (defaults 1, 10 and 8). */
  function SectorSkipped(s: SectorInfo): (b: bool)
    ensures b <==> RangeLen(Get(s.manzanasInicio, 1), Get(s.manzanasFin, 10)) * Pos(Get(s.terrenosManzana, 8)) == 0
  {
    Get(s.manzanasInicio, 1) > Get(s.manzanasFin, 10) || Get(s.terrenosManzana, 8) <= 0
  }

  /** Lots 1..k of one block. */
  function TerrenoUnits(s: int, m: int, k: int, com: bool): seq<Unidad>
    decreases k
  {
    if k <= 0 then [] else TerrenoUnits(s, m, k - 1, com) + [Unidad(Lote(s, m, k), com)]
  }

  /** A block with k lots receives lots 1..k, in order. */
  lemma {:induction false} TerrenoUnitsCodes(s: int, m: int, k: int, com: bool)
    ensures |TerrenoUnits(s, m, k, com)| == Pos(k)
    ensures forall i :: 0 <= i < Pos(k) ==> TerrenoUnits(s, m, k, com)[i] == Unidad(Lote(s, m, i + 1), com)
    decreases k
  {
    if k > 0 {
      TerrenoUnitsCodes(s, m, k - 1, com);
    }
  }

  /** The lots of blocks lo..m-1 of one sector, block by block. */
  function ManzanasUnits(s: int, lo: int, m: int, k: int, com: bool): seq<Unidad>
    decreases m - lo
  {
    if m <= lo then [] else ManzanasUnits(s, lo, m - 1, k, com) + TerrenoUnits(s, m - 1, k, com)
  }

  lemma {:induction false} ManzanasUnitsFacts(s: int, lo: int, m: int, k: int, com: bool)
    ensures |ManzanasUnits(s, lo, m, k, com)| == RangeLen(lo, m - 1) * Pos(k)
    ensures forall u :: u in ManzanasUnits(s, lo, m, k, com) ==> u.comercializable == com
    decreases m - lo
  {
    if m > lo {
      ManzanasUnitsFacts(s, lo, m - 1, k, com);
      TerrenoUnitsCodes(s, m - 1, k, com);
      var r := RangeLen(lo, m - 2);
      assert RangeLen(lo, m - 1) == r + 1;
      assert (r + 1) * Pos(k) == r * Pos(k) + Pos(k);
      var block := TerrenoUnits(s, m - 1, k, com);
      assert forall i :: 0 <= i < |block| ==> block[i].comercializable == com;
    }
  }

  /** The lots create_dynamic_land_structure creates for one sector; a lot
      is commercialisable when its phase or its sector is. */
  function SectorUnits(s: SectorInfo, faseCom: bool): seq<Unidad>
  {
    if SectorSkipped(s) then []
    else ManzanasUnits(s.numero, Get(s.manzanasInicio, 1), Get(s.manzanasFin, 10) + 1,
                       Get(s.terrenosManzana, 8), faseCom || s.comercializable)
  }

  function SectoresUnits(sectores: seq<SectorInfo>, faseCom: bool): seq<Unidad>
  {
    if sectores == [] then []
    else SectoresUnits(sectores[..|sectores| - 1], faseCom) + SectorUnits(sectores[|sectores| - 1], faseCom)
  }

  /** Lots a sector receives: none when skipped, otherwise blocks times
      lots per block. */
  function SectorTotal(s: SectorInfo): nat
  {
    if SectorSkipped(s) then 0
    else RangeLen(Get(s.manzanasInicio, 1), Get(s.manzanasFin, 10)) * Pos(Get(s.terrenosManzana, 8))
  }

  function SectoresTotal(sectores: seq<SectorInfo>): nat
  {
    if sectores == [] then 0
    else SectoresTotal(sectores[..|sectores| - 1]) + SectorTotal(sectores[|sectores| - 1])
  }

  lemma SectorUnitsFacts(s: SectorInfo, faseCom: bool)
    ensures |SectorUnits(s, faseCom)| == SectorTotal(s)
    ensures forall u :: u in SectorUnits(s, faseCom) ==> u.comercializable == (faseCom || s.comercializable)
  {
    if !SectorSkipped(s) {
      var lo, hi := Get(s.manzanasInicio, 1), Get(s.manzanasFin, 10);
      ManzanasUnitsFacts(s.numero, lo, hi + 1, Get(s.terrenosManzana, 8), faseCom || s.comercializable);
      assert RangeLen(lo, hi + 1 - 1) == RangeLen(lo, hi);
    }
  }

  /** The number of lots created is the sum of the sector totals, and a lot
      of a commercialisable phase is always commercialisable. */
  lemma {:induction false} SectoresUnitsFacts(sectores: seq<SectorInfo>, faseCom: bool)
    ensures |SectoresUnits(sectores, faseCom)| == SectoresTotal(sectores)
    ensures faseCom ==> forall u :: u in SectoresUnits(sectores, faseCom) ==> u.comercializable
  {
    if sectores != [] {
      SectoresUnitsFacts(sectores[..|sectores| - 1], faseCom);
      SectorUnitsFacts(sectores[|sectores| - 1], faseCom);
    }
  }

  /** The lots of one block: `for terreno_num in range(1, n + 1)`. */
  method CreateBlock(s: int, m: int, n: int, com: bool) returns (block: seq<Unidad>)
    ensures block == TerrenoUnits(s, m, n, com)
  {
    block := [];
    var l := 1;
    while l <= n
      invariant 1 <= l <= Pos(n) + 1
      invariant block == TerrenoUnits(s, m, l - 1, com)
    {
      block := block + [Unidad(Lote(s, m, l), com)];
      l := l + 1;
    }
  }

  /** Blocks lo..hi of one sector, each with its lots. */
  method CreateBlocks(numero: int, lo: int, hi: int, terrenos: int, com: bool) returns (units: seq<Unidad>)
    requires lo <= hi + 1
    ensures units == ManzanasUnits(numero, lo, hi + 1, terrenos, com)
  {
    units := [];
    var m := lo;
    while m <= hi
      invariant lo <= m <= hi + 1
      invariant units == ManzanasUnits(numero, lo, m, terrenos, com)
    {
      var block := CreateBlock(numero, m, terrenos, com);
      units := units + block;
      m := m + 1;
    }
  }

  /** One sector of create_dynamic_land_structure: nothing when it is
      skipped, otherwise its blocks in order. */
  method CreateSector(s: SectorInfo, faseCom: bool) returns (units: seq<Unidad>)
    ensures units == SectorUnits(s, faseCom)
  {
    var inicio, fin, terrenos := Get(s.manzanasInicio, 1), Get(s.manzanasFin, 10), Get(s.terrenosManzana, 8);
    if inicio > fin || terrenos <= 0 {
      units := [];
    } else {
      units := CreateBlocks(s.numero, inicio, fin, terrenos, faseCom || s.comercializable);
    }
  }

  /** create_dynamic_land_structure: skipped sectors create nothing; every
      other sector gets its blocks and, in each block, lots numbered from 1. */
  method CreateDynamicLand(sectores: seq<SectorInfo>, faseCom: bool) returns (units: seq<Unidad>)
    ensures units == SectoresUnits(sectores, faseCom)
  {
    units := [];
    var i := 0;
    while i < |sectores|
      invariant 0 <= i <= |sectores|
      invariant units == SectoresUnits(sectores[..i], faseCom)
    {
      var sector := CreateSector(sectores[i], faseCom);
      assert sectores[..i + 1][..i] == sectores[..i];
      assert SectoresUnits(sectores[..i + 1], faseCom) == SectoresUnits(sectores[..i], faseCom) + SectorUnits(sectores[i], faseCom);
      units := units + sector;
      i := i + 1;
    }
    assert sectores[..i] == sectores;
  }

  /** What create_project_structure creates for each phase: towers in an
      apartment project, sectors in a land project, nothing for a phase
      without them. */
  function FaseUnits(tipo: Pricing.TipoProyecto, f: FaseInfo): seq<Unidad>
  {
    if tipo == Pricing.Departamentos && f.torres != [] then TorresUnits(f.torres, f.comercializable)
    else if tipo == Pricing.Terrenos && f.sectores != [] then SectoresUnits(f.sectores, f.comercializable)
    else []
  }

  function ProjectUnits(tipo: Pricing.TipoProyecto, fases: seq<FaseInfo>): seq<Unidad>
  {
    if fases == [] then []
    else ProjectUnits(tipo, fases[..|fases| - 1]) + FaseUnits(tipo, fases[|fases| - 1])
  }

  // -------------------------------------------------------------- counting

  /** What count_total_properties adds for one phase: per tower the floor
      range (defaults 1 and 10) times the apartments per floor (default 4),
      per sector the block range (defaults 1 and 10) times the lots per
      block (default 8). */
  function FaseCountAsWritten(tipo: Pricing.TipoProyecto, f: FaseInfo): int
  {
    if tipo == Pricing.Departamentos && f.torres != [] then TorresCountAsWritten(f.torres)
    else if tipo == Pricing.Terrenos && f.sectores != [] then SectoresCountAsWritten(f.sectores)
    else 0
  }

  function TorresCountAsWritten(torres: seq<TorreInfo>): int
  {
    if torres == [] then 0
    else
      var t := torres[|torres| - 1];
      TorresCountAsWritten(torres[..|torres| - 1])
      + RangeLen(Get(t.pisosInicio, 1), Get(t.pisosFin, 10)) * Get(t.deptosPiso, 4)
  }

  function SectoresCountAsWritten(sectores: seq<SectorInfo>): int
  {
    if sectores == [] then 0
    else
      var s := sectores[|sectores| - 1];
      SectoresCountAsWritten(sectores[..|sectores| - 1])
      + RangeLen(Get(s.manzanasInicio, 1), Get(s.manzanasFin, 10)) * Get(s.terrenosManzana, 8)
  }

  function CountAsWritten(tipo: Pricing.TipoProyecto, fases: seq<FaseInfo>): int
  {
    if fases == [] then 0 else CountAsWritten(tipo, fases[..|fases| - 1]) + FaseCountAsWritten(tipo, fases[|fases| - 1])
  }

  /** `for _ in range(lo, hi + 1): acc += n` */
  method AddPerRange(lo: int, hi: int, n: int) returns (acc: int)
    ensures acc == RangeLen(lo, hi) * n
  {
    acc := 0;
    var k := lo;
    while k <= hi
      invariant k <= hi + 1 || (k == lo && hi < lo)
      invariant acc == (k - lo) * n
    {
      acc := acc + n;
      k := k + 1;
    }
    if hi < lo {
      assert acc == 0;
    }
  }

  /** count_total_properties, as written: it reads the summary keys of each
      tower (pisos_inicio, pisos_fin, deptos_piso) and each sector, never
      the floors themselves, and applies no skip rule. */
  method CountTotalProperties(tipo: Pricing.TipoProyecto, fases: seq<FaseInfo>) returns (total: int)
    ensures total == CountAsWritten(tipo, fases)
  {
    total := 0;
    var i := 0;
    while i < |fases|
      invariant 0 <= i <= |fases|
      invariant total == CountAsWritten(tipo, fases[..i])
    {
      var f := fases[i];
      assert fases[..i + 1][..i] == fases[..i];
      if tipo == Pricing.Departamentos && f.torres != [] {
        var j := 0;
        var sub := 0;
        while j < |f.torres|
          invariant 0 <= j <= |f.torres|
          invariant sub == TorresCountAsWritten(f.torres[..j])
        {
          var t := f.torres[j];
          var torre := AddPerRange(Get(t.pisosInicio, 1), Get(t.pisosFin, 10), Get(t.deptosPiso, 4));
          assert f.torres[..j + 1][..j] == f.torres[..j];
          sub := sub + torre;
          j := j + 1;
        }
        assert f.torres[..j] == f.torres;
        total := total + sub;
      } else if tipo == Pricing.Terrenos && f.sectores != [] {
        var j := 0;
        var sub := 0;
        while j < |f.sectores|
          invariant 0 <= j <= |f.sectores|
          invariant sub == SectoresCountAsWritten(f.sectores[..j])
        {
          var s := f.sectores[j];
          var sector := AddPerRange(Get(s.manzanasInicio, 1), Get(s.manzanasFin, 10), Get(s.terrenosManzana, 8));
          assert f.sectores[..j + 1][..j] == f.sectores[..j];
          sub := sub + sector;
          j := j + 1;
        }
        assert f.sectores[..j] == f.sectores;
        total := total + sub;
      }
      i := i + 1;
    }
    assert fases[..i] == fases;
  }

  /** The count reported after creating a project can disagree with what
      was created: a tower whose form gave 4 apartments on floor 1 and 2 on
      floor 3 (so pisos_inicio 1, pisos_fin 3, deptos_piso 4) is counted as
      12 apartments but 6 are created. */
  lemma CountMismatch()
    ensures var fases := [FaseInfo([TorreInfo(1, [(1, 4), (3, 2)], Some(1), Some(3), Some(4))], [], false)];
            CountAsWritten(Pricing.Departamentos, fases) == 12
            && |ProjectUnits(Pricing.Departamentos, fases)| == 6
  {
    var t := TorreInfo(1, [(1, 4), (3, 2)], Some(1), Some(3), Some(4));
    var fases := [FaseInfo([t], [], false)];
    assert fases[..0] == [];
    assert [t][..0] == [];
    TorresUnitsFacts([t], false);
    assert PisosData(t) == [(1, 4), (3, 2)];
    assert [(1, 4), (3, 2)][..1] == [(1, 4)];
    assert [(1, 4)][..0] == [];
    assert PisosTotal([(1, 4), (3, 2)]) == 6;
    assert TorresTotal([t]) == 6;
  }

  /** What each phase really receives: the floors of each tower as the
      builder reads them, and nothing for a skipped sector. */
  function FaseCreated(tipo: Pricing.TipoProyecto, f: FaseInfo): nat
  {
    if tipo == Pricing.Departamentos && f.torres != [] then TorresTotal(f.torres)
    else if tipo == Pricing.Terrenos && f.sectores != [] then SectoresTotal(f.sectores)
    else 0
  }

  /** The count computed the way the builders create ("the same logic as
      create_dynamic_*_structure"): it equals the number of records the
      project receives. */
  method CountCreatedProperties(tipo: Pricing.TipoProyecto, fases: seq<FaseInfo>) returns (total: nat)
    ensures total == |ProjectUnits(tipo, fases)|
  {
    total := 0;
    var i := 0;
    while i < |fases|
      invariant 0 <= i <= |fases|
      invariant total == |ProjectUnits(tipo, fases[..i])|
    {
      var sub := CountFase(tipo, fases[i]);
      assert fases[..i + 1][..i] == fases[..i];
      assert ProjectUnits(tipo, fases[..i + 1]) == ProjectUnits(tipo, fases[..i]) + FaseUnits(tipo, fases[i]);
      total := total + sub;
      i := i + 1;
    }
    assert fases[..i] == fases;
  }

  /** The records one phase receives. */
  method CountFase(tipo: Pricing.TipoProyecto, f: FaseInfo) returns (n: nat)
    ensures n == |FaseUnits(tipo, f)|
  {
    if tipo == Pricing.Departamentos && f.torres != [] {
      n := CountTowers(f.torres);
      TorresUnitsFacts(f.torres, f.comercializable);
    } else if tipo == Pricing.Terrenos && f.sectores != [] {
      n := CountSectors(f.sectores);
      SectoresUnitsFacts(f.sectores, f.comercializable);
    } else {
      n := 0;
    }
  }

  method CountTowers(torres: seq<TorreInfo>) returns (n: nat)
    ensures n == TorresTotal(torres)
  {
    n := 0;
    var j := 0;
    while j < |torres|
      invariant 0 <= j <= |torres|
      invariant n == TorresTotal(torres[..j])
    {
      var torre := CountTower(torres[j]);
      assert torres[..j + 1][..j] == torres[..j];
      n := n + torre;
      j := j + 1;
    }
    assert torres[..j] == torres;
  }

  method CountSectors(sectores: seq<SectorInfo>) returns (n: nat)
    ensures n == SectoresTotal(sectores)
  {
    n := 0;
    var j := 0;
    while j < |sectores|
      invariant 0 <= j <= |sectores|
      invariant n == SectoresTotal(sectores[..j])
    {
      assert sectores[..j + 1][..j] == sectores[..j];
      n := n + SectorTotal(sectores[j]);
      j := j + 1;
    }
    assert sectores[..j] == sectores;
  }

  /** The apartments one tower receives, floor by floor. */
  method CountTower(t: TorreInfo) returns (n: nat)
    ensures n == PisosTotal(PisosData(t))
  {
    var pisos := PisosData(t);
    n := 0;
    var k := 0;
    while k < |pisos|
      invariant 0 <= k <= |pisos|
      invariant n == PisosTotal(pisos[..k])
    {
      assert pisos[..k + 1][..k] == pisos[..k];
      n := n + Pos(pisos[k].1);
      k := k + 1;
    }
    assert pisos[..k] == pisos;
  }

  /** When every tower's floors form one uniform range that the summary
      keys describe, the count as written agrees with what is created. */
  lemma {:induction false} UniformTowersCountAgrees(torres: seq<TorreInfo>)
    requires forall k :: 0 <= k < |torres| ==>
               torres[k].pisos == UniformPisos(Get(torres[k].pisosInicio, 1), Get(torres[k].pisosFin, 10), Get(torres[k].deptosPiso, 4))
               && Get(torres[k].deptosPiso, 4) >= 0
               && Get(torres[k].pisosInicio, 1) <= Get(torres[k].pisosFin, 10)
    ensures TorresCountAsWritten(torres) == TorresTotal(torres)
  {
    if torres != [] {
      var init := torres[..|torres| - 1];
      assert forall k :: 0 <= k < |init| ==> init[k] == torres[k];
      UniformTowersCountAgrees(init);
      var t := torres[|torres| - 1];
      var lo, hi, n := Get(t.pisosInicio, 1), Get(t.pisosFin, 10), Get(t.deptosPiso, 4);
      assert PisosData(t) == UniformPisos(lo, hi, n);
      UniformPisosTotal(lo, hi, n);
    }
  }

  lemma {:induction false} UniformPisosTotal(lo: int, hi: int, n: int)
    requires n >= 0
    ensures PisosTotal(UniformPisos(lo, hi, n)) == RangeLen(lo, hi) * n
    decreases hi - lo
  {
    if lo <= hi {
      var r := UniformPisos(lo, hi, n);
      var init := r[..|r| - 1];
      assert init == UniformPisos(lo, hi - 1, n);
      UniformPisosTotal(lo, hi - 1, n);
      assert r[|r| - 1] == (hi, n);
    }
  }

  // ------------------------------------------------------- update structure

  /** The phases with sold properties, in their original order. */
  function ConVentas(fases: seq<Pricing.Fase>): (r: seq<Pricing.Fase>)
    ensures |r| <= |fases|
    ensures forall f :: f in r <==> f in fases && f.vendidos != 0
  {
    if fases == [] then []
    else
      var init := fases[..|fases| - 1];
      var last := fases[|fases| - 1];
      assert fases == init + [last];
      ConVentas(init) + (if last.vendidos != 0 then [last] else [])
  }

  /** update_project_structure, before regenerating: when the form brings
      phases, every existing phase without sold properties is deleted and
      the others are kept, in their order. */
  method DeleteUnsoldPhases(fases: seq<Pricing.Fase>, nuevasFases: bool) returns (kept: seq<Pricing.Fase>)
    ensures !nuevasFases ==> kept == fases
    ensures nuevasFases ==> kept == ConVentas(fases)
    ensures nuevasFases ==> forall f :: f in kept <==> f in fases && f.vendidos != 0
    ensures Pricing.ProyectoVendidos(kept) == Pricing.ProyectoVendidos(fases)
  {
    if !nuevasFases {
      return fases;
    }
    kept := [];
    var i := 0;
    while i < |fases|
      invariant 0 <= i <= |fases|
      invariant kept == ConVentas(fases[..i])
    {
      ConVentasStep(fases, i);
      if fases[i].vendidos != 0 {
        kept := kept + [fases[i]];
      }
      i := i + 1;
    }
    assert fases[..i] == fases;
    VendidosConVentas(fases);
  }

  lemma ConVentasStep(fases: seq<Pricing.Fase>, i: nat)
    requires i < |fases|
    ensures ConVentas(fases[..i + 1]) == ConVentas(fases[..i]) + (if fases[i].vendidos != 0 then [fases[i]] else [])
  {
    assert fases[..i + 1][..i] == fases[..i];
  }

  /** Deleting the phases without sales leaves the project's sold count
      as it was. */
  lemma {:induction false} VendidosConVentas(fases: seq<Pricing.Fase>)
    ensures Pricing.ProyectoVendidos(ConVentas(fases)) == Pricing.ProyectoVendidos(fases)
  {
    if fases != [] {
      var init := fases[..|fases| - 1];
      var last := fases[|fases| - 1];
      VendidosConVentas(init);
      VendidosLast(fases);
      ConVentasLast(fases);
      if last.vendidos != 0 {
        VendidosAppend(ConVentas(init), last);
      }
    }
  }

  /** Unfolding ConVentas at the last phase. */
  lemma ConVentasLast(fases: seq<Pricing.Fase>)
    requires fases != []
    ensures fases[|fases| - 1].vendidos != 0 ==>
              ConVentas(fases) == ConVentas(fases[..|fases| - 1]) + [fases[|fases| - 1]]
    ensures fases[|fases| - 1].vendidos == 0 ==> ConVentas(fases) == ConVentas(fases[..|fases| - 1])
  {
    var c := ConVentas(fases[..|fases| - 1]);
    assert c + [] == c;
  }

  /** Splitting off the last phase, for the induction above. */
  lemma VendidosLast(fases: seq<Pricing.Fase>)
    requires fases != []
    ensures Pricing.ProyectoVendidos(fases)
            == Pricing.ProyectoVendidos(fases[..|fases| - 1]) + fases[|fases| - 1].vendidos
  {
    assert fases == fases[..|fases| - 1] + [fases[|fases| - 1]];
    VendidosAppend(fases[..|fases| - 1], fases[|fases| - 1]);
  }

  lemma {:induction false} VendidosAppend(fases: seq<Pricing.Fase>, f: Pricing.Fase)
    ensures Pricing.ProyectoVendidos(fases + [f]) == Pricing.ProyectoVendidos(fases) + f.vendidos
  {
    if fases == [] {
      assert fases + [f] == [f];
      assert [f][1..] == [];
    } else {
      assert (fases + [f])[1..] == fases[1..] + [f];
      VendidosAppend(fases[1..], f);
    }
  }

  // -------------------------------------------------------- user search

  const PageSize: nat := 20

  datatype SearchPage = SearchPage(start: nat, end: nat, hasMore: bool)

  /** The paging of ajax_search_users: page p covers [(p-1)*20, p*20); a page
      below 1 makes the queryset slice negative, which Django refuses. */
  function SearchUsersPage(page: int, total: nat): (r: Option<SearchPage>)
    ensures r.None? <==> page < 1
    ensures r.Some? ==> r.value.start == (page - 1) * PageSize && r.value.end == r.value.start + PageSize
    ensures r.Some? ==> (r.value.hasMore <==> total > page * PageSize)
  {
    if page < 1 then None
    else
      var start := (page - 1) * PageSize;
      var end := start + PageSize;
      Some(SearchPage(start, end, end < total))
  }

  /** How many users page `page` shows. */
  function PageCount(page: nat, total: nat): nat
    requires page >= 1
  {
    var start := (page - 1) * PageSize;
    if total <= start then 0 else if total - start < PageSize then total - start else PageSize
  }

  /** has_more is set exactly when the next page shows somebody. */
  lemma HasMoreIffNextPageNonEmpty(page: nat, total: nat)
    requires page >= 1
    ensures SearchUsersPage(page, total).value.hasMore <==> PageCount(page + 1, total) > 0
  {
  }

  function PagesTotal(pages: nat, total: nat): nat
  {
    if pages == 0 then 0 else PagesTotal(pages - 1, total) + PageCount(pages, total)
  }

  /** The first k pages show the first min(total, 20k) users, each once. */
  lemma {:induction false} PagesCoverUsers(k: nat, total: nat)
    ensures PagesTotal(k, total) == if total < k * PageSize then total else k * PageSize
  {
    if k > 0 {
      PagesCoverUsers(k - 1, total);
    }
  }

  /** The text of one search result: the full name with the username in
      parentheses, or the username alone when the full name is blank. */
  function SearchResultText(firstName: string, lastName: string, username: string): (text: string)
    ensures exists k :: OccursAt(text, username, k)
    ensures Strip(firstName + " " + lastName) == [] ==> text == username
    ensures Strip(firstName + " " + lastName) != [] ==>
              |text| > |username| && text[|text| - 1] == ')'
    ensures Strip(firstName + " " + lastName) != [] ==>
              text == Strip(firstName + " " + lastName) + " (" + username + ")"
  {
    var full := Strip(firstName + " " + lastName);
    if full == [] then
      assert OccursAt(username, username, 0);
      username
    else
      var t := full + " (" + username + ")";
      assert t[|full| + 2..|full| + 2 + |username|] == username;
      assert OccursAt(t, username, |full| + 2);
      t
  }
}

=== FILE: registration.dfy ===
/** The public self-registration endpoint of a sales unit
    (public_register_submit): the generated username and the validation of
    every submitted field, collected into a map from field name to error.
    The form's text fields are taken after the view's strip(); the database
    lookups and validate_email are given as facts in a Contexto. */
module PublicRegistration {
  import opened Common

  // ---------------------------------------------------------------------
  // Words
  // ---------------------------------------------------------------------

  /** The leading run of non-whitespace characters. */
  function TakeWord(s: string): (w: string)
    ensures |w| <= |s| && w == s[..|w|]
    ensures forall i :: 0 <= i < |w| ==> !IsSpace(w[i])
    ensures s != [] && !IsSpace(s[0]) ==> w != []
    ensures |w| == |s| || IsSpace(s[|w|])
  {
    if s != [] && !IsSpace(s[0]) then [s[0]] + TakeWord(s[1..]) else []
  }

  /** s.split()[0], or None where Python raises IndexError. */
  function PrimeraPalabra(s: string): (w: Option<string>)
    ensures w.None? <==> AllSpace(s)
    ensures w.Some? ==> w.value != [] && Contains(s, w.value)
    ensures w.Some? ==> forall i :: 0 <= i < |w.value| ==> !IsSpace(w.value[i])
  {
    var t := StripLeft(s);
    if t == [] then None
    else
      var w := TakeWord(t);
      assert s[|s| - |t|] == t[0];
      assert OccursAt(s, w, |s| - |t|) by {
        assert s[|s| - |t|..][..|w|] == w;
      }
      Some(w)
  }

  /** The word found is the first one: only whitespace comes before it, and
      whitespace or the end of the text right after it. */
  lemma PrimeraPalabraEsPrimera(s: string)
    requires PrimeraPalabra(s).Some?
    ensures var w := PrimeraPalabra(s).value;
            exists k :: 0 <= k <= |s| - |w| && AllSpace(s[..k]) && s[k..k + |w|] == w
                        && (k + |w| == |s| || IsSpace(s[k + |w|]))
  {
    var t := StripLeft(s);
    var w := TakeWord(t);
    var k := |s| - |t|;
    assert PrimeraPalabra(s).value == w;
    PalabraEnPosicion(s, k, w);
    assert AllSpace(s[..k]) by {
      forall i | 0 <= i < k ensures IsSpace(s[..k][i]) {
        assert s[..k][i] == s[i];
      }
    }
    if |w| < |t| {
      assert s[k + |w|] == t[|w|];
    }
    assert k + |w| == |s| || IsSpace(s[k + |w|]);
  }

  /** A prefix of the suffix s[k..] sits in s at position k. */
  lemma PalabraEnPosicion(s: string, k: nat, w: string)
    requires k <= |s| && |w| <= |s| - k && w == s[k..][..|w|]
    ensures s[k..k + |w|] == w
  {
  }

  // ---------------------------------------------------------------------
  // Username
  // ---------------------------------------------------------------------

  /** Text not starting with whitespace, as every stripped text. */
  predicate SinEspacioInicial(s: string)
  {
    s == [] || !IsSpace(s[0])
  }

  /** generate_username's base: the lowercased initial of the first name
      followed by the lowercased first word of the surname, each part empty
      when its field is. */
  function UsernameBase(firstName: string, lastName: string): (b: string)
    requires SinEspacioInicial(firstName) && SinEspacioInicial(lastName)
    ensures b == [] <==> firstName == [] && lastName == []
    ensures firstName != [] ==> b[0] == LowerChar(firstName[0])
    ensures lastName != [] ==> PrimeraPalabra(lastName).Some? && EndsWith(b, Lower(PrimeraPalabra(lastName).value))
    ensures firstName == [] && lastName != [] ==> b == Lower(PrimeraPalabra(lastName).value)
    ensures |b| == (if firstName != [] then 1 else 0)
                   + (if lastName != [] then |PrimeraPalabra(lastName).value| else 0)
  {
    var inicial := if firstName != [] then [LowerChar(firstName[0])] else [];
    if lastName != [] then
      assert !AllSpace(lastName);
      var apellido := Lower(PrimeraPalabra(lastName).value);
      assert (inicial + apellido)[|inicial|..] == apellido;
      inicial + apellido
    else inicial
  }

  /** The k-th name tried: the base itself, then base1, base2, ... */
  function Candidato(base: string, k: nat): string
  {
    if k == 0 then base else base + NatToString(k)
  }

  lemma NatToStringInjective(a: nat, b: nat)
    requires NatToString(a) == NatToString(b)
    ensures a == b
  {
    DigitsValueOfNat(a);
    DigitsValueOfNat(b);
  }

  /** Different counters give different names. */
  lemma CandidatosDistintos(base: string, a: nat, b: nat)
    requires a != b
    ensures Candidato(base, a) != Candidato(base, b)
  {
    if a != 0 && b != 0 && Candidato(base, a) == Candidato(base, b) {
      assert NatToString(a) == Candidato(base, a)[|base|..];
      assert NatToString(b) == Candidato(base, b)[|base|..];
      NatToStringInjective(a, b);
    }
  }

  /** The uniqueness loop of generate_username: the base, or the base with
      the smallest counter 1, 2, ... whose name is not taken. */
  method GenerarUsername(base: string, existentes: set<string>) returns (username: string)
    ensures username !in existentes
    ensures exists n: nat :: (username == Candidato(base, n)
      && forall j: nat :: j < n ==> Candidato(base, j) in existentes)
  {
    username := base;
    var counter: nat := 1;
    ghost var probados: set<string> := {};
    while username in existentes
      invariant counter >= 1 && username == Candidato(base, counter - 1)
      invariant probados == set j: nat | j < counter - 1 :: Candidato(base, j)
      invariant probados <= existentes
      decreases |existentes - probados|
    {
      SiguienteProbado(base, counter - 1, probados);
      assert existentes - (probados + {username}) < existentes - probados;
      probados := probados + {username};
      username := base + NatToString(counter);
      counter := counter + 1;
    }
    assert forall j: nat :: j < counter - 1 ==> Candidato(base, j) in probados;
  }

  /** The names tried before the n-th, plus the n-th, are the names tried
      before the next; the n-th is new. */
  lemma SiguienteProbado(base: string, n: nat, probados: set<string>)
    requires probados == set j: nat | j < n :: Candidato(base, j)
    ensures Candidato(base, n) !in probados
    ensures probados + {Candidato(base, n)} == set j: nat | j < n + 1 :: Candidato(base, j)
  {
    forall j: nat | j < n ensures Candidato(base, j) != Candidato(base, n) {
      CandidatosDistintos(base, j, n);
    }
    var siguiente := set j: nat | j < n + 1 :: Candidato(base, j);
    forall s | s in siguiente ensures s in probados + {Candidato(base, n)} {
      var j: nat :| j < n + 1 && s == Candidato(base, j);
    }
  }

  // ---------------------------------------------------------------------
  // Password
  // ---------------------------------------------------------------------

  /** str.isupper / str.islower for one character, on the ASCII and
      Latin-1 ranges: islower also holds for the feminine and masculine
      ordinal indicators and the micro sign. */
  predicate IsUpper(c: char)
  {
    'A' <= c <= 'Z' || ('\U{C0}' <= c <= '\U{DE}' && c != '\U{D7}')
  }

  predicate IsLower(c: char)
  {
    'a' <= c <= 'z' || c == '\U{AA}' || c == '\U{B5}' || c == '\U{BA}'
    || ('\U{DF}' <= c <= '\U{FF}' && c != '\U{F7}')
  }

  /** Membership in string.punctuation: the 32 ASCII symbols. */
  predicate IsPunctuation(c: char)
  {
    '!' <= c <= '/' || ':' <= c <= '@' || '[' <= c <= '`' || '{' <= c <= '~'
  }

  /** The parts of the password message, in the order they are listed. */
  datatype Regla = MinimoOcho | Mayuscula | Minuscula | Simbolo | SinNombre

  predicate HayMayuscula(pw: string) { exists i :: 0 <= i < |pw| && IsUpper(pw[i]) }
  predicate HayMinuscula(pw: string) { exists i :: 0 <= i < |pw| && IsLower(pw[i]) }
  predicate HaySimbolo(pw: string) { exists i :: 0 <= i < |pw| && IsPunctuation(pw[i]) }

  /** The lowercased password contains the lowercased first name, or the
      lowercased first word of the surname. An empty first name and a
      surname without words name nothing. */
  predicate ContieneNombre(pw: string, firstName: string, lastName: string)
  {
    (firstName != [] && Contains(Lower(pw), Lower(firstName)))
    || (PrimeraPalabra(lastName).Some? && Contains(Lower(pw), Lower(PrimeraPalabra(lastName).value)))
  }

  /** A password the view accepts: long enough, with an upper-case and a
      lower-case letter and a symbol, and naming neither name. */
  function PasswordFuerte(pw: string, firstName: string, lastName: string): (b: bool)
    ensures |pw| < 8 ==> !b
    ensures !HayMayuscula(pw) || !HayMinuscula(pw) || !HaySimbolo(pw) ==> !b
    ensures ContieneNombre(pw, firstName, lastName) ==> !b
    ensures (|pw| >= 8 && HayMayuscula(pw) && HayMinuscula(pw) && HaySimbolo(pw)
             && !ContieneNombre(pw, firstName, lastName)) ==> b
  {
    |pw| >= 8 && HayMayuscula(pw) && HayMinuscula(pw) && HaySimbolo(pw) && !ContieneNombre(pw, firstName, lastName)
  }

  /** The failed rules of a non-empty password, with the name rule guarded
      against an empty first name and a surname without words. */
  function Reglas(pw: string, firstName: string, lastName: string): (r: seq<Regla>)
    ensures MinimoOcho in r <==> |pw| < 8
    ensures Mayuscula in r <==> !HayMayuscula(pw)
    ensures Minuscula in r <==> !HayMinuscula(pw)
    ensures Simbolo in r <==> !HaySimbolo(pw)
    ensures SinNombre in r <==> ContieneNombre(pw, firstName, lastName)
    ensures r == [] <==> PasswordFuerte(pw, firstName, lastName)
  {
    ReglasDesde(pw, ContieneNombre(pw, firstName, lastName))
  }

  function ReglasDesde(pw: string, nombre: bool): (r: seq<Regla>)
    ensures MinimoOcho in r <==> |pw| < 8
    ensures Mayuscula in r <==> !HayMayuscula(pw)
    ensures Minuscula in r <==> !HayMinuscula(pw)
    ensures Simbolo in r <==> !HaySimbolo(pw)
    ensures SinNombre in r <==> nombre
    ensures r == [] <==> |pw| >= 8 && HayMayuscula(pw) && HayMinuscula(pw) && HaySimbolo(pw) && !nombre
  {
    (if |pw| < 8 then [MinimoOcho] else [])
    + (if !HayMayuscula(pw) then [Mayuscula] else [])
    + (if !HayMinuscula(pw) then [Minuscula] else [])
    + (if !HaySimbolo(pw) then [Simbolo] else [])
    + (if nombre then [SinNombre] else [])
  }

  /** The rules as the view writes them: `first_name.lower() in pw` is true
      for an empty first name, and `last_name.split()[0]` raises IndexError
      (None here) when the first test is false and the surname has no
      words. */
  function ReglasTalCual(pw: string, firstName: string, lastName: string): (r: Option<seq<Regla>>)
    ensures r.None? <==> !Contains(Lower(pw), Lower(firstName)) && AllSpace(lastName)
    ensures r.Some? ==> (SinNombre in r.value <==>
      Contains(Lower(pw), Lower(firstName))
      || Contains(Lower(pw), Lower(PrimeraPalabra(lastName).value)))
  {
    if Contains(Lower(pw), Lower(firstName)) then Some(ReglasDesde(pw, true))
    else match PrimeraPalabra(lastName)
      case None => None
      case Some(w) => Some(ReglasDesde(pw, Contains(Lower(pw), Lower(w))))
  }

  // ---------------------------------------------------------------------
  // Phone, birth date, coordinates, photo
  // ---------------------------------------------------------------------

  /** re.match(r'^[67]\d{7}$', telefono) on stripped text: eight digits,
      the first a 6 or a 7. */
  function TelefonoValido(t: string): (b: bool)
    ensures b ==> |t| == 8 && AllDigits(t)
    ensures b ==> t[0] == '6' || t[0] == '7'
    ensures |t| == 8 && AllDigits(t) && (t[0] == '6' || t[0] == '7') ==> b
  {
    |t| == 8 && (t[0] == '6' || t[0] == '7') && AllDigits(t)
  }

  /** The fecha_nacimiento field: empty, not a '%Y-%m-%d' date, or a date. */
  datatype FechaEntrada = FechaVacia | FechaMalFormada | FechaDada(fecha: Date)

  datatype ErrorFecha = FechaRequerida | FechaFutura | FechaMuyAntigua | MenorDeEdad(edad: int) | FormatoInvalido

  /** The birth-date checks in their order: required, a parseable date,
      not in the future, at most 120 calendar years back, and 18 or older. */
  function ErrorNacimiento(entrada: FechaEntrada, hoy: Date): (e: Option<ErrorFecha>)
    ensures e.None? <==> (entrada.FechaDada? && !DateBefore(hoy, entrada.fecha)
      && hoy.year - entrada.fecha.year <= 120
      && !DateBefore(hoy, Date(entrada.fecha.year + 18, entrada.fecha.month, entrada.fecha.day)))
    ensures e.Some? && e.value.MenorDeEdad? ==> 0 <= e.value.edad < 18
    ensures entrada.FechaVacia? ==> e == Some(FechaRequerida)
    ensures entrada.FechaMalFormada? ==> e == Some(FormatoInvalido)
    ensures entrada.FechaDada? && DateBefore(hoy, entrada.fecha) ==> e == Some(FechaFutura)
    ensures entrada.FechaDada? && !DateBefore(hoy, entrada.fecha) && hoy.year - entrada.fecha.year > 120 ==>
              e == Some(FechaMuyAntigua)
    ensures entrada.FechaDada? && !DateBefore(hoy, entrada.fecha) && hoy.year - entrada.fecha.year <= 120
            && DateBefore(hoy, Date(entrada.fecha.year + 18, entrada.fecha.month, entrada.fecha.day)) ==>
              e == Some(MenorDeEdad(AgeOn(hoy, entrada.fecha)))
  {
    match entrada
    case FechaVacia => Some(FechaRequerida)
    case FechaMalFormada => Some(FormatoInvalido)
    case FechaDada(f) =>
      AgeBirthday(hoy, f, 18);
      if DateBefore(hoy, f) then Some(FechaFutura)
      else if hoy.year - f.year > 120 then Some(FechaMuyAntigua)
      else
        var edad := AgeOn(hoy, f);
        if edad < 18 then Some(MenorDeEdad(edad)) else None
  }

  /** Both coordinates are read only when both fields are non-empty; a
      failed float() on either reports 'coordenadas' alone, otherwise each
      value outside its range reports its own field (NaN and the
      infinities are outside every range). */
  datatype ErrorCoord = LatitudFuera | LongitudFuera | CoordenadasInvalidas

  function ErroresCoordenadas(latitud: string, longitud: string): (r: set<ErrorCoord>)
    ensures latitud == [] || longitud == [] ==> r == {}
    ensures CoordenadasInvalidas in r <==> (latitud != [] && longitud != []
      && (ParseFloat(latitud).None? || ParseFloat(longitud).None?))
    ensures CoordenadasInvalidas in r ==> r == {CoordenadasInvalidas}
    ensures LatitudFuera in r <==> (latitud != [] && longitud != [] && ParseFloat(latitud).Some?
      && ParseFloat(longitud).Some? && !Between(ParseFloat(latitud).value, -90.0, 90.0))
    ensures LongitudFuera in r <==> (latitud != [] && longitud != [] && ParseFloat(latitud).Some?
      && ParseFloat(longitud).Some? && !Between(ParseFloat(longitud).value, -180.0, 180.0))
  {
    if latitud != [] && longitud != [] then
      match (ParseFloat(latitud), ParseFloat(longitud))
      case (Some(lat), Some(lng)) =>
        (if Between(lat, -90.0, 90.0) then {} else {LatitudFuera})
        + (if Between(lng, -180.0, 180.0) then {} else {LongitudFuera})
      case _ => {CoordenadasInvalidas}
    else {}
  }

  datatype Foto = Foto(size: nat, contentType: string)

  const MaxFoto: nat := 5 * 1024 * 1024
  const TiposFoto: set<string> := {"image/jpeg", "image/jpg", "image/png", "image/gif"}

  datatype ErrorFoto = FotoGrande | FotoTipo

  /** A size over 5 MB is reported, unless the type is not an image type,
      whose message replaces it. */
  function ErrorDeFoto(foto: Option<Foto>): (e: Option<ErrorFoto>)
    ensures e.None? <==> foto.None? || (foto.value.size <= MaxFoto && foto.value.contentType in TiposFoto)
    ensures e == Some(FotoGrande) ==> foto.value.contentType in TiposFoto
  {
    if foto.None? then None
    else if foto.value.contentType !in TiposFoto then Some(FotoTipo)
    else if foto.value.size > MaxFoto then Some(FotoGrande)
    else None
  }

  // ---------------------------------------------------------------------
  // The errors dict
  // ---------------------------------------------------------------------

  /** The submitted fields, after strip(). */
  datatype Formulario = Formulario(
    firstName: string, lastName: string, email: string, password: string,
    cedula: string, telefono: string, nacimiento: FechaEntrada, domicilio: string,
    latitud: string, longitud: string, foto: Option<Foto>)

  /** What the database and validate_email answer for this submission. */
  datatype Contexto = Contexto(emailValido: bool, emailExiste: bool, cedulaExiste: bool, hoy: Date)

  datatype Aviso =
    | Requerido
    | EmailInvalido
    | EmailDuplicado
    | PasswordDebil(faltas: seq<Regla>)
    | CedulaDuplicada
    | TelefonoFormato
    | Nacimiento(e: ErrorFecha)
    | Coordenada(c: ErrorCoord)
    | FotoInvalida(f: ErrorFoto)

  /** The answers of the field validators the errors dict is built from. */
  datatype Chequeo = Chequeo(
    reglas: seq<Regla>, telefonoValido: bool, nacimiento: Option<ErrorFecha>,
    coords: set<ErrorCoord>, foto: Option<ErrorFoto>)

  function ChequeoDe(f: Formulario, ctx: Contexto, reglas: seq<Regla>): Chequeo
  {
    Chequeo(reglas, TelefonoValido(f.telefono), ErrorNacimiento(f.nacimiento, ctx.hoy),
            ErroresCoordenadas(f.latitud, f.longitud), ErrorDeFoto(f.foto))
  }

  /** What the view stores under one key of the errors dict, if anything,
      given the validators' answers. A later check of the same field
      replaces an earlier message: a taken email wins over a malformed one,
      a wrong photo type over a large size. */
  function AvisoDe(f: Formulario, ctx: Contexto, ch: Chequeo, campo: Campo): (a: Option<Aviso>)
  {
    match campo
    case FirstName => if f.firstName == [] then Some(Requerido) else None
    case LastName => if f.lastName == [] then Some(Requerido) else None
    case Email =>
      if f.email == [] then Some(Requerido)
      else if ctx.emailExiste then Some(EmailDuplicado)
      else if !ctx.emailValido then Some(EmailInvalido)
      else None
    case Password =>
      if f.password == [] then Some(Requerido)
      else if ch.reglas != [] then Some(PasswordDebil(ch.reglas))
      else None
    case Cedula =>
      if f.cedula == [] then Some(Requerido)
      else if ctx.cedulaExiste then Some(CedulaDuplicada)
      else None
    case Telefono =>
      if f.telefono == [] then Some(Requerido)
      else if !ch.telefonoValido then Some(TelefonoFormato)
      else None
    case FechaNacimiento => if ch.nacimiento.Some? then Some(Nacimiento(ch.nacimiento.value)) else None
    case Domicilio => if f.domicilio == [] then Some(Requerido) else None
    case Latitud => if LatitudFuera in ch.coords then Some(Coordenada(LatitudFuera)) else None
    case Longitud => if LongitudFuera in ch.coords then Some(Coordenada(LongitudFuera)) else None
    case Coordenadas => if CoordenadasInvalidas in ch.coords then Some(Coordenada(CoordenadasInvalidas)) else None
    case FotoPerfil => if ch.foto.Some? then Some(FotoInvalida(ch.foto.value)) else None
  }

  /** The errors dict: every field whose check fails, with its message. */
  function ErroresCon(f: Formulario, ctx: Contexto, ch: Chequeo): (r: map<Campo, Aviso>)
    ensures forall k :: k in r <==> AvisoDe(f, ctx, ch, k).Some?
    ensures forall k :: k in r ==> r[k] == AvisoDe(f, ctx, ch, k).value
  {
    map k: Campo | AvisoDe(f, ctx, ch, k).Some? :: AvisoDe(f, ctx, ch, k).value
  }

  /** The dict stays empty exactly when every field passes. */
  lemma ErroresVaciosIff(f: Formulario, ctx: Contexto, ch: Chequeo)
    ensures ErroresCon(f, ctx, ch) == map[] <==> Aceptable(f, ctx, ch)
  {
    var r := ErroresCon(f, ctx, ch);
    if Aceptable(f, ctx, ch) {
      SinAvisos(f, ctx, ch);
      assert r.Keys == {};
    } else if r == map[] {
      forall k ensures AvisoDe(f, ctx, ch, k).None? {
        assert k !in r;
      }
      Acepta(f, ctx, ch);
    }
  }

  lemma SinAvisos(f: Formulario, ctx: Contexto, ch: Chequeo)
    requires Aceptable(f, ctx, ch)
    ensures forall k :: AvisoDe(f, ctx, ch, k).None?
  {
    forall k ensures AvisoDe(f, ctx, ch, k).None? {
      match k
      case FirstName =>
      case LastName =>
      case Email =>
      case Password =>
      case Cedula =>
      case Telefono =>
      case FechaNacimiento =>
      case Domicilio =>
      case Latitud =>
      case Longitud =>
      case Coordenadas =>
      case FotoPerfil =>
    }
  }

  lemma CoordsVacias(s: set<ErrorCoord>)
    requires LatitudFuera !in s && LongitudFuera !in s && CoordenadasInvalidas !in s
    ensures s == {}
  {
    forall c | c in s ensures c.LatitudFuera? || c.LongitudFuera? || c.CoordenadasInvalidas? {
    }
    assert forall c :: c !in s;
  }

  lemma Acepta(f: Formulario, ctx: Contexto, ch: Chequeo)
    requires forall k :: AvisoDe(f, ctx, ch, k).None?
    ensures Aceptable(f, ctx, ch)
  {
    assert AvisoDe(f, ctx, ch, FirstName).None? && AvisoDe(f, ctx, ch, LastName).None?;
    assert AvisoDe(f, ctx, ch, Email).None? && AvisoDe(f, ctx, ch, Password).None?;
    assert AvisoDe(f, ctx, ch, Cedula).None? && AvisoDe(f, ctx, ch, Telefono).None?;
    assert AvisoDe(f, ctx, ch, FechaNacimiento).None? && AvisoDe(f, ctx, ch, Domicilio).None?;
    assert AvisoDe(f, ctx, ch, Latitud).None? && AvisoDe(f, ctx, ch, Longitud).None?;
    assert AvisoDe(f, ctx, ch, Coordenadas).None? && AvisoDe(f, ctx, ch, FotoPerfil).None?;
    CoordsVacias(ch.coords);
  }

  /** Every field passes, by the validators' answers. */
  predicate Aceptable(f: Formulario, ctx: Contexto, ch: Chequeo)
  {
    && f.firstName != [] && f.lastName != []
    && f.email != [] && ctx.emailValido && !ctx.emailExiste
    && f.password != [] && ch.reglas == []
    && f.cedula != [] && !ctx.cedulaExiste
    && f.telefono != [] && ch.telefonoValido && ch.nacimiento.None?
    && f.domicilio != []
    && ch.coords == {} && ch.foto.None?
  }

  /** The keys of the errors dict. */
  datatype Campo =
    | FirstName | LastName | Email | Password | Cedula | Telefono
    | FechaNacimiento | Domicilio | Latitud | Longitud | Coordenadas | FotoPerfil

  /** The key as the JSON response spells it. */
  function Clave(c: Campo): (k: string)
    ensures k != []
  {
    match c
    case FirstName => "first_name"
    case LastName => "last_name"
    case Email => "email"
    case Password => "password"
    case Cedula => "cedula"
    case Telefono => "telefono"
    case FechaNacimiento => "fecha_nacimiento"
    case Domicilio => "domicilio"
    case Latitud => "latitud"
    case Longitud => "longitud"
    case Coordenadas => "coordenadas"
    case FotoPerfil => "foto_perfil"
  }

  /** Every field as the view accepts it. */
  predicate RegistroValido(f: Formulario, ctx: Contexto)
  {
    && f.firstName != [] && f.lastName != []
    && f.email != [] && ctx.emailValido && !ctx.emailExiste
    && f.password != [] && PasswordFuerte(f.password, f.firstName, f.lastName)
    && f.cedula != [] && !ctx.cedulaExiste
    && TelefonoValido(f.telefono)
    && ErrorNacimiento(f.nacimiento, ctx.hoy).None?
    && f.domicilio != []
    && ErroresCoordenadas(f.latitud, f.longitud) == {}
    && ErrorDeFoto(f.foto).None?
  }

  /** The validation of public_register_submit, with the password rules
      guarded: the user is created exactly when the dict stays empty, that
      is, when every field is valid. */
  function Errores(f: Formulario, ctx: Contexto): (r: map<Campo, Aviso>)
    ensures r == map[] <==> RegistroValido(f, ctx)
    ensures Password in r <==> f.password == [] || !PasswordFuerte(f.password, f.firstName, f.lastName)
    ensures LastName in r <==> f.lastName == []
  {
    ErroresVacios(f, ctx);
    ErroresClaves(f, ctx);
    ErroresCon(f, ctx, ChequeoDe(f, ctx, Reglas(f.password, f.firstName, f.lastName)))
  }

  lemma ErroresVacios(f: Formulario, ctx: Contexto)
    ensures ErroresCon(f, ctx, ChequeoDe(f, ctx, Reglas(f.password, f.firstName, f.lastName))) == map[]
      <==> RegistroValido(f, ctx)
  {
    ErroresVaciosIff(f, ctx, ChequeoDe(f, ctx, Reglas(f.password, f.firstName, f.lastName)));
    AceptableIffValido(f, ctx);
  }

  lemma ErroresClaves(f: Formulario, ctx: Contexto)
    ensures var r := ErroresCon(f, ctx, ChequeoDe(f, ctx, Reglas(f.password, f.firstName, f.lastName)));
      && (Password in r <==> f.password == [] || !PasswordFuerte(f.password, f.firstName, f.lastName))
      && (LastName in r <==> f.lastName == [])
  {
    ClavesDe(f, ctx, ChequeoDe(f, ctx, Reglas(f.password, f.firstName, f.lastName)));
  }

  /** The password and surname keys, by the validators' answers. */
  lemma ClavesDe(f: Formulario, ctx: Contexto, ch: Chequeo)
    ensures var r := ErroresCon(f, ctx, ch);
      && (Password in r <==> f.password == [] || ch.reglas != [])
      && (LastName in r <==> f.lastName == [])
  {
    assert AvisoDe(f, ctx, ch, Password).Some? <==> f.password == [] || ch.reglas != [];
    assert AvisoDe(f, ctx, ch, LastName).Some? <==> f.lastName == [];
  }

  /** The validators' answers all pass exactly when every field is valid. */
  lemma AceptableIffValido(f: Formulario, ctx: Contexto)
    ensures Aceptable(f, ctx, ChequeoDe(f, ctx, Reglas(f.password, f.firstName, f.lastName)))
      <==> RegistroValido(f, ctx)
  {
    if TelefonoValido(f.telefono) {
      assert f.telefono != [];
    }
  }

  /** What the outer `except Exception` turns an IndexError into. */
  datatype Excepcion = IndiceFueraDeRango

  /** The validation as written: the password check can raise, and the
      raised error replaces the whole dict with one generic message. */
  function ErroresTalCual(f: Formulario, ctx: Contexto): (r: Result<map<Campo, Aviso>, Excepcion>)
    ensures r.Err? <==> f.password != [] && ReglasTalCual(f.password, f.firstName, f.lastName).None?
  {
    if f.password == [] then Ok(ErroresCon(f, ctx, ChequeoDe(f, ctx, [])))
    else match ReglasTalCual(f.password, f.firstName, f.lastName)
      case None => Err(IndiceFueraDeRango)
      case Some(reglas) => Ok(ErroresCon(f, ctx, ChequeoDe(f, ctx, reglas)))
  }

  lemma NoJuan()
    ensures !Contains(Lower("Segura#2024"), Lower("Juan"))
  {
    var pw := "Segura#2024";
    assert LowerChar('J') == 'j';
    assert Lower("Juan")[0] == 'j';
    assert forall i :: 0 <= i < |pw| ==> pw[i] != 'j' && pw[i] != 'J';
    SinJota(pw);
    Misses(Lower(pw), Lower("Juan"));
  }

  lemma SinJota(s: string)
    requires forall i :: 0 <= i < |s| ==> s[i] != 'j' && s[i] != 'J'
    ensures 'j' !in Lower(s)
  {
    forall i | 0 <= i < |s| ensures Lower(s)[i] != 'j' {
      assert Lower(s)[i] == LowerChar(s[i]);
    }
  }

  /** A submission without a surname but with a password not containing
      the first name gets no field errors back, only the generic failure,
      though the surname is required; the guarded validation reports the
      missing surname. NoJuan gives such a submission. */
  lemma ApellidoVacioOcultaErrores(f: Formulario, ctx: Contexto)
    requires f.lastName == [] && f.password != []
    requires !Contains(Lower(f.password), Lower(f.firstName))
    ensures ErroresTalCual(f, ctx).Err?
    ensures LastName in Errores(f, ctx) && Errores(f, ctx)[LastName] == Requerido
  {
  }

  /** With an empty first name, `'' in password` always holds: any
      password is rejected for containing the name. The guarded rules do
      not report it. */
  lemma NombreVacioSiempreContenido(pw: string, lastName: string)
    requires |pw| >= 8 && HayMayuscula(pw) && HayMinuscula(pw) && HaySimbolo(pw)
    requires !ContieneNombre(pw, "", lastName)
    ensures ReglasTalCual(pw, "", lastName) == Some([SinNombre])
    ensures Reglas(pw, "", lastName) == []
  {
    assert Lower("") == [];
    assert OccursAt(Lower(pw), Lower(""), 0);
    assert ReglasDesde(pw, true) == [SinNombre];
  }
}

=== FILE: sales_team.dfy ===
/** The sales-team records: the name rules of a team (trimmed, non-empty,
    unique ignoring case), the check that a team has nothing left that
    would stop its deletion, and the percentage total of a team's sales
    commission. */
module SalesTeam {
  import opened Common

  // ---------------------------------------------------------------------
  // Team names
  // ---------------------------------------------------------------------

  datatype NombreError = NombreVacio | NombreDuplicado

  /** Two names collide under the `iexact` lookup. */
  predicate MismoNombre(a: string, b: string)
  {
    Lower(a) == Lower(b)
  }

  /** The names of every stored team except the one with key pk; an unsaved
      team (no key) is compared with all of them. */
  function OtrosNombres(equipos: map<nat, string>, pk: Option<nat>): set<string>
  {
    set k | k in equipos && Some(k) != pk :: equipos[k]
  }

  /** EquipoVenta.clean once the name has been trimmed: empty is refused,
      then a name equal to another team's ignoring case. */
  function ValidarNombre(nombre: string, otros: set<string>): (e: Option<NombreError>)
    ensures e == Some(NombreVacio) <==> nombre == []
    ensures e == Some(NombreDuplicado) <==> nombre != [] && exists o :: o in otros && MismoNombre(o, nombre)
    ensures e.None? <==> nombre != [] && forall o :: o in otros ==> !MismoNombre(o, nombre)
  {
    if nombre == [] then Some(NombreVacio)
    else if exists o :: o in otros && MismoNombre(o, nombre) then Some(NombreDuplicado)
    else None
  }

  /** Trimming twice trims nothing more. */
  lemma StripIdempotent(s: string)
    ensures Strip(Strip(s)) == Strip(s)
  {
    var r := Strip(s);
    if r != [] {
      assert StripLeft(r) == r;
      assert StripRight(r) == r;
    }
  }

  /** Stored names never collide ignoring case. */
  predicate NombresUnicos(equipos: map<nat, string>)
  {
    forall a, b :: a in equipos && b in equipos && a != b ==> !MismoNombre(equipos[a], equipos[b])
  }

  /** A name accepted for the team with key pk keeps the stored names
      unique once it is written under that key. */
  lemma GuardarConservaUnicos(equipos: map<nat, string>, pk: nat, nombre: string)
    requires NombresUnicos(equipos)
    requires ValidarNombre(nombre, OtrosNombres(equipos, Some(pk))).None?
    ensures NombresUnicos(equipos[pk := nombre])
  {
    var nuevos := equipos[pk := nombre];
    forall a, b | a in nuevos && b in nuevos && a != b
      ensures !MismoNombre(nuevos[a], nuevos[b])
    {
      if a == pk {
        assert equipos[b] in OtrosNombres(equipos, Some(pk));
      } else if b == pk {
        assert equipos[a] in OtrosNombres(equipos, Some(pk));
      }
    }
  }

  /** A stored team may keep its own name in another case: only the other
      teams are compared. */
  lemma MismoEquipoOtroCaso(equipos: map<nat, string>, pk: nat, nombre: string)
    requires NombresUnicos(equipos) && pk in equipos
    requires nombre != [] && MismoNombre(nombre, equipos[pk])
    ensures ValidarNombre(nombre, OtrosNombres(equipos, Some(pk))).None?
  {
    forall o | o in OtrosNombres(equipos, Some(pk)) ensures !MismoNombre(o, nombre) {
      var k :| k in equipos && Some(k) != Some(pk) && equipos[k] == o;
      assert !MismoNombre(equipos[k], equipos[pk]);
    }
  }

  class EquipoVenta {
    /** The primary key; None while the team is not saved. */
    const pk: Option<nat>
    var nombre: string

    constructor (pk: Option<nat>, nombre: string)
      ensures this.pk == pk && this.nombre == nombre
    {
      this.pk := pk;
      this.nombre := nombre;
    }

    /** clean: trims the name in place, then validates it against the
        other stored teams. */
    method Clean(equipos: map<nat, string>) returns (e: Option<NombreError>)
      modifies this
      ensures nombre == Strip(old(nombre))
      ensures e == ValidarNombre(nombre, OtrosNombres(equipos, pk))
    {
      if nombre != [] {
        nombre := Strip(nombre);
      }
      e := ValidarNombre(nombre, OtrosNombres(equipos, pk));
    }

    /** save: trims the name and runs clean; the team is written only when
        clean accepts it, and then its name is trimmed and unique. */
    method Save(equipos: map<nat, string>) returns (e: Option<NombreError>)
      modifies this
      ensures nombre == Strip(old(nombre))
      ensures e == ValidarNombre(nombre, OtrosNombres(equipos, pk))
      ensures e.None? ==> nombre != [] && !IsSpace(nombre[0]) && !IsSpace(nombre[|nombre| - 1])
    {
      if nombre != [] {
        nombre := Strip(nombre);
      }
      StripIdempotent(old(nombre));
      e := Clean(equipos);
    }
  }

  // ---------------------------------------------------------------------
  // Deletion blockers
  // ---------------------------------------------------------------------

  datatype Vendedor = Vendedor(activo: bool)
  datatype TeamLeader = TeamLeader(activo: bool, vendedores: seq<Vendedor>)
  datatype JefeVenta = JefeVenta(activo: bool, teamLeaders: seq<TeamLeader>)
  datatype GerenteEquipo = GerenteEquipo(activo: bool, jefes: seq<JefeVenta>)

  /** A team's projects (only whether any exist matters) and its whole
      hierarchy, active and inactive records alike. */
  datatype Equipo = Equipo(tieneProyectos: bool, gerentes: seq<GerenteEquipo>)

  /** The number of active records in the hierarchy, at every level and
      under active and inactive parents alike. */
  function ActivosTL(t: TeamLeader): nat
  {
    (if t.activo then 1 else 0) + CuentaVendedores(t.vendedores)
  }

  function CuentaVendedores(vs: seq<Vendedor>): nat
  {
    if vs == [] then 0 else (if vs[0].activo then 1 else 0) + CuentaVendedores(vs[1..])
  }

  function CuentaTLs(ts: seq<TeamLeader>): nat
  {
    if ts == [] then 0 else ActivosTL(ts[0]) + CuentaTLs(ts[1..])
  }

  function ActivosJefe(j: JefeVenta): nat
  {
    (if j.activo then 1 else 0) + CuentaTLs(j.teamLeaders)
  }

  function CuentaJefes(js: seq<JefeVenta>): nat
  {
    if js == [] then 0 else ActivosJefe(js[0]) + CuentaJefes(js[1..])
  }

  function ActivosGerente(g: GerenteEquipo): nat
  {
    (if g.activo then 1 else 0) + CuentaJefes(g.jefes)
  }

  function CuentaGerentes(gs: seq<GerenteEquipo>): nat
  {
    if gs == [] then 0 else ActivosGerente(gs[0]) + CuentaGerentes(gs[1..])
  }

  /** Neither the record nor anything below it is active. */
  predicate TLLibre(t: TeamLeader)
  {
    !t.activo && forall v :: v in t.vendedores ==> !v.activo
  }

  predicate JefeLibre(j: JefeVenta)
  {
    !j.activo && forall t :: t in j.teamLeaders ==> TLLibre(t)
  }

  predicate GerenteLibre(g: GerenteEquipo)
  {
    !g.activo && forall j :: j in g.jefes ==> JefeLibre(j)
  }

  /** No active record below the team, at any level. */
  predicate SinActivos(e: Equipo)
  {
    forall g :: g in e.gerentes ==> GerenteLibre(g)
  }

  /** can_be_deleted's verdict: no projects and no active record. */
  predicate PuedeEliminarse(e: Equipo)
  {
    !e.tieneProyectos && SinActivos(e)
  }

  /** The four-level emptiness is the same as an active count of zero. */
  lemma {:induction false} SinActivosIffCero(e: Equipo)
    ensures SinActivos(e) <==> CuentaGerentes(e.gerentes) == 0
  {
    GerentesCero(e.gerentes);
  }

  lemma {:induction false} VendedoresCero(vs: seq<Vendedor>)
    ensures CuentaVendedores(vs) == 0 <==> forall v :: v in vs ==> !v.activo
  {
    if vs != [] {
      VendedoresCero(vs[1..]);
      assert forall v :: v in vs ==> v == vs[0] || v in vs[1..];
    }
  }

  lemma {:induction false} TLsCero(ts: seq<TeamLeader>)
    ensures CuentaTLs(ts) == 0 <==> forall t :: t in ts ==> TLLibre(t)
  {
    if ts != [] {
      TLsCero(ts[1..]);
      VendedoresCero(ts[0].vendedores);
      assert TLLibre(ts[0]) <==> ActivosTL(ts[0]) == 0;
      assert forall t :: t in ts ==> t == ts[0] || t in ts[1..];
    }
  }

  lemma {:induction false} JefesCero(js: seq<JefeVenta>)
    ensures CuentaJefes(js) == 0 <==> forall j :: j in js ==> JefeLibre(j)
  {
    if js != [] {
      JefesCero(js[1..]);
      TLsCero(js[0].teamLeaders);
      assert JefeLibre(js[0]) <==> ActivosJefe(js[0]) == 0;
      assert forall j :: j in js ==> j == js[0] || j in js[1..];
    }
  }

  lemma {:induction false} GerentesCero(gs: seq<GerenteEquipo>)
    ensures CuentaGerentes(gs) == 0 <==> SinActivos(Equipo(false, gs))
  {
    if gs != [] {
      GerentesCero(gs[1..]);
      JefesCero(gs[0].jefes);
      assert GerenteLibre(gs[0]) <==> ActivosGerente(gs[0]) == 0;
      assert SinActivos(Equipo(false, gs)) <==> GerenteLibre(gs[0]) && SinActivos(Equipo(false, gs[1..])) by {
        assert forall g :: g in gs ==> g == gs[0] || g in gs[1..];
      }
    }
  }

  /** The innermost loop: does this team leader have an active seller? */
  method TieneVendedorActivo(t: TeamLeader) returns (b: bool)
    ensures b <==> exists v :: v in t.vendedores && v.activo
  {
    var i := 0;
    while i < |t.vendedores|
      invariant 0 <= i <= |t.vendedores|
      invariant forall k :: 0 <= k < i ==> !t.vendedores[k].activo
    {
      if t.vendedores[i].activo {
        return true;
      }
      i := i + 1;
    }
    return false;
  }

  /** The loop over a head of sales' team leaders: an active team leader,
      or an active seller under any of them, blocks. */
  method JefeBloquea(j: JefeVenta) returns (b: bool)
    ensures !b <==> forall t :: t in j.teamLeaders ==> TLLibre(t)
  {
    if exists t :: t in j.teamLeaders && t.activo {
      var t :| t in j.teamLeaders && t.activo;
      assert !TLLibre(t);
      return true;
    }
    var i := 0;
    while i < |j.teamLeaders|
      invariant 0 <= i <= |j.teamLeaders|
      invariant forall k :: 0 <= k < i ==> TLLibre(j.teamLeaders[k])
    {
      var activo := TieneVendedorActivo(j.teamLeaders[i]);
      if activo {
        assert !TLLibre(j.teamLeaders[i]);
        return true;
      }
      assert !j.teamLeaders[i].activo;
      i := i + 1;
    }
    return false;
  }

  /** The loop over a manager's heads of sales. */
  method GerenteBloquea(g: GerenteEquipo) returns (b: bool)
    ensures !b <==> forall j :: j in g.jefes ==> JefeLibre(j)
  {
    if exists j :: j in g.jefes && j.activo {
      var j :| j in g.jefes && j.activo;
      assert !JefeLibre(j);
      return true;
    }
    var i := 0;
    while i < |g.jefes|
      invariant 0 <= i <= |g.jefes|
      invariant forall k :: 0 <= k < i ==> JefeLibre(g.jefes[k])
    {
      var bloquea := JefeBloquea(g.jefes[i]);
      if bloquea {
        assert !JefeLibre(g.jefes[i]);
        return true;
      }
      assert !g.jefes[i].activo;
      i := i + 1;
    }
    return false;
  }

  /** can_be_deleted: a team with projects, with an active manager, or
      with an active record anywhere below its managers cannot be deleted;
      equivalently, a team can be deleted exactly when it has no projects
      and no active record at all. */
  method CanBeDeleted(e: Equipo) returns (b: bool)
    ensures b <==> PuedeEliminarse(e)
    ensures b <==> !e.tieneProyectos && CuentaGerentes(e.gerentes) == 0
  {
    SinActivosIffCero(e);
    if e.tieneProyectos {
      return false;
    }
    if exists g :: g in e.gerentes && g.activo {
      var g :| g in e.gerentes && g.activo;
      assert !GerenteLibre(g);
      return false;
    }
    var i := 0;
    while i < |e.gerentes|
      invariant 0 <= i <= |e.gerentes|
      invariant forall k :: 0 <= k < i ==> GerenteLibre(e.gerentes[k])
    {
      var bloquea := GerenteBloquea(e.gerentes[i]);
      if bloquea {
        assert !GerenteLibre(e.gerentes[i]);
        return false;
      }
      assert !e.gerentes[i].activo;
      i := i + 1;
    }
    return true;
  }

  // ---------------------------------------------------------------------
  // Sales commission
  // ---------------------------------------------------------------------

  datatype ComisionVenta = ComisionVenta(gerenteEquipo: real, jefeVenta: real, teamLeader: real, vendedor: real)

  /** ComisionVenta.total_porcentaje: the four shares of any sale add up
      to this percentage of it. */
  function TotalPorcentaje(c: ComisionVenta): (t: real)
    ensures forall monto {:trigger Reparto(c, monto)} ::
              (var r := Reparto(c, monto); r[0] + r[1] + r[2] + r[3]) == monto * t / 100.0
  {
    c.gerenteEquipo + c.jefeVenta + c.teamLeader + c.vendedor
  }

  /** ComisionVenta.clean: a total above 100 is refused. */
  function ComisionValida(c: ComisionVenta): (ok: bool)
    ensures ok <==> c.gerenteEquipo + c.jefeVenta + c.teamLeader + c.vendedor <= 100.0
  {
    TotalPorcentaje(c) <= 100.0
  }

  /** What each of the four roles takes of a sale. */
  function Reparto(c: ComisionVenta, monto: real): seq<real>
  {
    [monto * c.gerenteEquipo / 100.0, monto * c.jefeVenta / 100.0,
     monto * c.teamLeader / 100.0, monto * c.vendedor / 100.0]
  }

  /** With the percentages within their field bounds and the total
      accepted, the four shares of a sale never add up to more than the
      sale itself. */
  lemma RepartoNoExcede(c: ComisionVenta, monto: real)
    requires c.gerenteEquipo >= 0.0 && c.jefeVenta >= 0.0 && c.teamLeader >= 0.0 && c.vendedor >= 0.0
    requires monto >= 0.0 && ComisionValida(c)
    ensures var r := Reparto(c, monto); 0.0 <= r[0] + r[1] + r[2] + r[3] <= monto
  {
    var r := Reparto(c, monto);
    assert r[0] + r[1] + r[2] + r[3] == monto * TotalPorcentaje(c) / 100.0;
    assert monto * TotalPorcentaje(c) <= monto * 100.0;
  }
}

=== FILE: security.dfy ===
/** The two brute-force login guards. EffectiveBruteForceMiddleware counts
    failed logins per client IP and blocks the IP for LOCKOUT_TIME once the
    count reaches MAX_ATTEMPTS; BruteForceProtectionMiddleware keeps the
    times of the failures within a sliding window instead. The shared cache
    is held as maps from IP to value and expiry time; the clock is a
    parameter. */
module Security {
  import opened Common

  const LoginPath: string := "/accounts/login/"

  /** What the login view answered: its status code and page text. */
  datatype Respuesta = Respuesta(status: int, content: string)

  /** What the middleware returns: the 429 page with the seconds left, or
      the view's own answer. */
  datatype Resultado = Bloqueada(remaining: int) | Atendida(status: int)

  /** int(x) truncates toward zero; max(0, int(x)) is then the whole
      seconds left, never negative. */
  function RemainingSeconds(x: real): (s: int)
    ensures s >= 0
    ensures x >= 0.0 ==> s as real <= x < s as real + 1.0
    ensures x < 1.0 ==> s == 0
  {
    if x >= 0.0 then x.Floor else 0
  }

  /** get_client_ip of EffectiveBruteForceMiddleware: the first entry of
      X-Forwarded-For, stripped, else REMOTE_ADDR, else 'unknown'. */
  function ClientIp(forwardedFor: Option<string>, remoteAddr: Option<string>): (ip: string)
    ensures forwardedFor.Some? && forwardedFor.value != [] ==>
      ip == Strip(Split(forwardedFor.value, ',')[0]) && ',' !in ip
    ensures (forwardedFor.None? || forwardedFor.value == []) ==>
      ip == if remoteAddr.Some? then remoteAddr.value else "unknown"
  {
    if forwardedFor.Some? && forwardedFor.value != [] then
      var first := Split(forwardedFor.value, ',')[0];
      var ip := Strip(first);
      assert forall i :: 0 <= i < |ip| ==> ip[i] in first by {
        var k :| OccursAt(first, ip, k);
        forall i | 0 <= i < |ip| ensures ip[i] in first {
          assert ip[i] == first[k + i];
        }
      }
      ip
    else if remoteAddr.Some? then remoteAddr.value
    else "unknown"
  }

  /** get_client_ip of BruteForceProtectionMiddleware: the first entry,
      unstripped, else REMOTE_ADDR, which may be missing. */
  function ClientIpSinStrip(forwardedFor: Option<string>, remoteAddr: Option<string>): (ip: Option<string>)
    ensures forwardedFor.Some? && forwardedFor.value != [] ==>
      && ip.Some? && ',' !in ip.value && |ip.value| <= |forwardedFor.value|
      && forwardedFor.value[..|ip.value|] == ip.value
      && (|ip.value| == |forwardedFor.value| || forwardedFor.value[|ip.value|] == ',')
    ensures (forwardedFor.None? || forwardedFor.value == []) ==> ip == remoteAddr
  {
    if forwardedFor.Some? && forwardedFor.value != [] then
      var parts := Split(forwardedFor.value, ',');
      JoinSplit(forwardedFor.value, ',');
      JoinHead(parts, ',');
      Some(parts[0])
    else remoteAddr
  }

  /** The first piece of a join is a prefix of it, ending the join or
      followed by the separator. */
  lemma JoinHead(parts: seq<string>, c: char)
    requires |parts| >= 1
    ensures |parts[0]| <= |Join(parts, c)| && Join(parts, c)[..|parts[0]|] == parts[0]
    ensures |parts[0]| == |Join(parts, c)| || Join(parts, c)[|parts[0]|] == c
  {
    if |parts| > 1 {
      assert Join(parts, c) == parts[0] + [c] + Join(parts[1..], c);
    }
  }

  /** The IP as it appears in the cache keys of BruteForceProtectionMiddleware:
      a missing REMOTE_ADDR is formatted as "None". */
  function IpKey(ip: Option<string>): (key: string)
    ensures ip.Some? ==> key == ip.value
    ensures ip.None? ==> key == "None"
  {
    if ip.Some? then ip.value else "None"
  }

  const FixedIndicators: seq<string> := [
    "usuario o contraseña incorrectos", "credenciales incorrectas", "error", "invalid", "incorrect", "wrong"
  ]

  const WindowIndicators: seq<string> := ["error", "invalid", "incorrect", "wrong", "fail"]

  /** is_failed_login_response: an error word anywhere in the lowercased
      page; with no indicators nothing is a failure. */
  function IsFailedLoginResponse(r: Respuesta, indicators: seq<string>): (b: bool)
    ensures b <==> exists i :: 0 <= i < |indicators| && Contains(Lower(r.content), indicators[i])
    ensures indicators == [] ==> !b
  {
    ContainsAny(Lower(r.content), indicators)
  }

  /** A text holding a phrase holds every piece of the phrase. */
  lemma ContainsPiece(s: string, phrase: string, piece: string, m: int)
    requires Contains(s, phrase) && OccursAt(phrase, piece, m)
    ensures Contains(s, piece)
  {
    var j :| OccursAt(s, phrase, j);
    assert phrase == s[j..j + |phrase|];
    forall i | 0 <= i < |piece| ensures s[j + m + i] == piece[i] {
      assert piece[i] == phrase[m + i] == s[j + m + i];
    }
    assert s[j + m..j + m + |piece|] == piece;
    assert OccursAt(s, piece, j + m);
  }

  /** Both Spanish phrases of the fixed counter contain 'incorrect'. */
  lemma FrasesIncorrect()
    ensures OccursAt(FixedIndicators[0], "incorrect", 21)
    ensures OccursAt(FixedIndicators[1], "incorrect", 13)
  {
    assert FixedIndicators[0][21..30] == "incorrect";
    assert FixedIndicators[1][13..22] == "incorrect";
  }

  /** Every page the fixed counter counts as a failure the sliding window
      counts too; and a page the window counts without the word 'fail' the
      fixed counter counts. */
  lemma IndicadoresComunes(r: Respuesta)
    ensures IsFailedLoginResponse(r, FixedIndicators) ==> IsFailedLoginResponse(r, WindowIndicators)
    ensures IsFailedLoginResponse(r, WindowIndicators) && !Contains(Lower(r.content), "fail") ==>
              IsFailedLoginResponse(r, FixedIndicators)
  {
    var s := Lower(r.content);
    if IsFailedLoginResponse(r, FixedIndicators) {
      var k :| k in FixedIndicators && Contains(s, k);
      FrasesIncorrect();
      if k == FixedIndicators[0] {
        ContainsPiece(s, k, "incorrect", 21);
      } else if k == FixedIndicators[1] {
        ContainsPiece(s, k, "incorrect", 13);
      }
      assert "incorrect" in WindowIndicators;
    }
    if IsFailedLoginResponse(r, WindowIndicators) && !Contains(s, "fail") {
      var k :| k in WindowIndicators && Contains(s, k);
      assert k in FixedIndicators;
    }
  }

  function Setting<T>(configured: Option<T>, default: T): T
  {
    if configured.Some? then configured.value else default
  }

  // ---------------------------------------------------------------------
  // Fixed counter
  // ---------------------------------------------------------------------

  class EffectiveBruteForce {
    const maxAttempts: nat
    const lockoutTime: real
    /** login_attempts:{ip} -> (count, expiry of the cache entry) */
    var attempts: map<string, (nat, real)>
    /** blocked_ip:{ip} -> blocked_until */
    var blocked: map<string, real>

    /** No IP is left holding MAX_ATTEMPTS or more failures: reaching the
        limit blocks the IP and deletes its counter. */
    predicate Valid()
      reads this
    {
      forall ip :: ip in attempts ==> attempts[ip].0 < maxAttempts
    }

    /** MAX_ATTEMPTS defaults to 5 and LOCKOUT_TIME to 900 seconds. */
    constructor (maxSetting: Option<nat>, lockoutSetting: Option<real>)
      ensures maxAttempts == Setting(maxSetting, 5) && lockoutTime == Setting(lockoutSetting, 900.0)
      ensures attempts == map[] && blocked == map[]
      ensures Valid()
    {
      maxAttempts := Setting(maxSetting, 5);
      lockoutTime := Setting(lockoutSetting, 900.0);
      attempts := map[];
      blocked := map[];
    }

    /** cache.get('login_attempts:{ip}', 0) at time now. */
    function Attempts(ip: string, now: real): nat
      reads this
    {
      if ip in attempts && now < attempts[ip].1 then attempts[ip].0 else 0
    }

    /** is_blocked: a stored blocked_until still in the future; a missing
        or zero (falsy) entry never blocks. */
    function IsBlocked(ip: string, now: real): (b: bool)
      reads this
      ensures ip !in blocked || blocked[ip] == 0.0 ==> !b
      ensures ip in blocked && now >= blocked[ip] ==> !b
      ensures ip in blocked && blocked[ip] != 0.0 && now < blocked[ip] ==> b
    {
      ip in blocked && blocked[ip] != 0.0 && now < blocked[ip]
    }

    /** get_remaining_time */
    function RemainingTime(ip: string, now: real): (s: int)
      reads this
      ensures s >= 0
      ensures !IsBlocked(ip, now) ==> s == 0
      ensures IsBlocked(ip, now) ==> s as real <= blocked[ip] - now < s as real + 1.0
    {
      if ip in blocked && blocked[ip] != 0.0 then RemainingSeconds(blocked[ip] - now) else 0
    }

    /** register_attempt: one more failure, kept for 15 minutes. */
    method RegisterAttempt(ip: string, now: real) returns (n: nat)
      modifies this
      ensures n == old(Attempts(ip, now)) + 1
      ensures attempts == old(attempts)[ip := (n, now + 900.0)]
      ensures blocked == old(blocked)
    {
      n := Attempts(ip, now) + 1;
      attempts := attempts[ip := (n, now + 900.0)];
    }

    /** block_ip: blocked for LOCKOUT_TIME from now, counter deleted. */
    method BlockIp(ip: string, now: real)
      modifies this
      ensures blocked == old(blocked)[ip := now + lockoutTime]
      ensures attempts == old(attempts) - {ip}
      ensures now + lockoutTime != 0.0 ==> forall t :: IsBlocked(ip, t) <==> t < now + lockoutTime
    {
      blocked := blocked[ip := now + lockoutTime];
      attempts := attempts - {ip};
    }

    /** clear_attempts: both the counter and the block go. */
    method ClearAttempts(ip: string)
      modifies this
      ensures attempts == old(attempts) - {ip} && blocked == old(blocked) - {ip}
      ensures forall t :: !IsBlocked(ip, t)
    {
      attempts := attempts - {ip};
      blocked := blocked - {ip};
    }

    /** __call__ for one request: a blocked IP posting to the login page
        gets the 429 page; otherwise the view answers, a redirect clears
        the IP, and a failure page counts one more attempt and blocks the IP
        when the count reaches MAX_ATTEMPTS. */
    method Call(path: string, httpMethod: string, forwardedFor: Option<string>, remoteAddr: Option<string>,
                now: real, response: Respuesta) returns (r: Resultado)
      requires Valid()
      modifies this
      ensures Valid()
      ensures var ip := ClientIp(forwardedFor, remoteAddr);
        var login := path == LoginPath && httpMethod == "POST";
        var answered := login && !old(IsBlocked(ip, now));
        var redirect := response.status in {301, 302};
        var failure := response.status == 200 && IsFailedLoginResponse(response, FixedIndicators);
        && (login && old(IsBlocked(ip, now)) ==> r == Bloqueada(old(RemainingTime(ip, now))))
        && (!(login && old(IsBlocked(ip, now))) ==> r == Atendida(response.status))
        && (!answered || (!redirect && !failure) ==> attempts == old(attempts) && blocked == old(blocked))
        && (answered && redirect ==> attempts == old(attempts) - {ip} && blocked == old(blocked) - {ip})
        && (answered && failure ==>
              (if old(Attempts(ip, now)) + 1 >= maxAttempts
               then attempts == old(attempts) - {ip} && blocked == old(blocked)[ip := now + lockoutTime]
               else attempts == old(attempts)[ip := (old(Attempts(ip, now)) + 1, now + 900.0)]
                    && blocked == old(blocked)))
    {
      var login := path == LoginPath && httpMethod == "POST";
      var ip := ClientIp(forwardedFor, remoteAddr);
      if login && IsBlocked(ip, now) {
        return Bloqueada(RemainingTime(ip, now));
      }
      r := Atendida(response.status);
      if login {
        if response.status in {302, 301} {
          ClearAttempts(ip);
        } else if response.status == 200 && IsFailedLoginResponse(response, FixedIndicators) {
          RecordFailure(ip, now);
        }
      }
    }

    /** A failed login: register_attempt, then block_ip when should_block
        finds the count at MAX_ATTEMPTS. */
    method RecordFailure(ip: string, now: real)
      requires Valid()
      modifies this
      ensures Valid()
      ensures old(Attempts(ip, now)) + 1 >= maxAttempts ==>
        attempts == old(attempts) - {ip} && blocked == old(blocked)[ip := now + lockoutTime]
      ensures old(Attempts(ip, now)) + 1 < maxAttempts ==>
        attempts == old(attempts)[ip := (old(Attempts(ip, now)) + 1, now + 900.0)] && blocked == old(blocked)
    {
      ghost var before := attempts;
      var n := RegisterAttempt(ip, now);
      if Attempts(ip, now) >= maxAttempts {
        BlockIp(ip, now);
        assert attempts == before - {ip};
      }
    }
  }

  // ---------------------------------------------------------------------
  // Sliding window
  // ---------------------------------------------------------------------

  /** [t for t in attempts if now - t < window] */
  function Recent(ts: seq<real>, now: real, window: real): (r: seq<real>)
    ensures |r| <= |ts|
    ensures forall t :: t in r <==> t in ts && now - t < window
  {
    if ts == [] then []
    else
      var rest := Recent(ts[..|ts| - 1], now, window);
      assert forall t :: t in ts <==> t in ts[..|ts| - 1] || t == ts[|ts| - 1];
      if now - ts[|ts| - 1] < window then rest + [ts[|ts| - 1]] else rest
  }

  class BruteForceProtection {
    const maxAttempts: nat
    const lockoutTime: real
    const attemptWindow: real
    /** failed_attempts:{ip} -> (times of the failures, expiry of the entry) */
    var failed: map<string, (seq<real>, real)>
    /** blocked_ip:{ip} -> blocked_until */
    var blocked: map<string, real>

    /** MAX_ATTEMPTS defaults to 5, LOCKOUT_TIME and ATTEMPT_WINDOW to 300
        seconds. */
    constructor (maxSetting: Option<nat>, lockoutSetting: Option<real>, windowSetting: Option<real>)
      ensures maxAttempts == Setting(maxSetting, 5) && lockoutTime == Setting(lockoutSetting, 300.0)
      ensures attemptWindow == Setting(windowSetting, 300.0)
      ensures failed == map[] && blocked == map[]
    {
      maxAttempts := Setting(maxSetting, 5);
      lockoutTime := Setting(lockoutSetting, 300.0);
      attemptWindow := Setting(windowSetting, 300.0);
      failed := map[];
      blocked := map[];
    }

    /** cache.get('failed_attempts:{ip}', []) at time now. */
    function Failures(ip: string, now: real): seq<real>
      reads this
    {
      if ip in failed && now < failed[ip].1 then failed[ip].0 else []
    }

    /** is_blocked: blocked_until exists and is still in the future; a
        missing or zero (falsy) entry never blocks. */
    function IsBlocked(ip: string, now: real): (b: bool)
      reads this
      ensures ip !in blocked || blocked[ip] == 0.0 ==> !b
      ensures ip in blocked && now >= blocked[ip] ==> !b
      ensures ip in blocked && blocked[ip] != 0.0 && now < blocked[ip] ==> b
    {
      ip in blocked && blocked[ip] != 0.0 && now < blocked[ip]
    }

    /** register_failed_attempt: failures older than the window are
        dropped, this one appended, the list stored for one window, and the
        IP blocked once the list holds MAX_ATTEMPTS failures. */
    method RegisterFailedAttempt(ip: string, now: real)
      modifies this
      ensures failed == old(failed)[ip := (Recent(old(Failures(ip, now)), now, attemptWindow) + [now], now + attemptWindow)]
      ensures blocked == if |Recent(old(Failures(ip, now)), now, attemptWindow)| + 1 >= maxAttempts
                         then old(blocked)[ip := now + lockoutTime] else old(blocked)
      ensures |Recent(old(Failures(ip, now)), now, attemptWindow)| + 1 >= maxAttempts && now + lockoutTime != 0.0 ==>
                forall t :: IsBlocked(ip, t) <==> t < now + lockoutTime
    {
      var previous := Failures(ip, now);
      var kept: seq<real> := [];
      var i := 0;
      while i < |previous|
        invariant 0 <= i <= |previous|
        invariant kept == Recent(previous[..i], now, attemptWindow)
      {
        assert previous[..i + 1][..i] == previous[..i];
        if now - previous[i] < attemptWindow {
          kept := kept + [previous[i]];
        }
        i := i + 1;
      }
      assert previous[..i] == previous;
      kept := kept + [now];
      failed := failed[ip := (kept, now + attemptWindow)];
      if |kept| >= maxAttempts {
        blocked := blocked[ip := now + lockoutTime];
      }
    }

    /** clear_failed_attempts: the list goes, an existing block stays. */
    method ClearFailedAttempts(ip: string)
      modifies this
      ensures failed == old(failed) - {ip} && blocked == old(blocked)
      ensures forall t :: IsBlocked(ip, t) == old(IsBlocked(ip, t))
    {
      failed := failed - {ip};
    }

    /** get_remaining_lockout_time */
    function RemainingTime(ip: string, now: real): (s: int)
      reads this
      ensures s >= 0
      ensures !IsBlocked(ip, now) ==> s == 0
      ensures IsBlocked(ip, now) ==> s as real <= blocked[ip] - now < s as real + 1.0
    {
      if ip in blocked && blocked[ip] != 0.0 then RemainingSeconds(blocked[ip] - now) else 0
    }

    /** __call__ for one request: a blocked IP posting to the login page
        gets the 429 page; otherwise the view answers, a failure page
        registers a failure and a redirect clears the failure list. */
    method Call(path: string, httpMethod: string, forwardedFor: Option<string>, remoteAddr: Option<string>,
                now: real, response: Respuesta)
      returns (r: Resultado)
      modifies this
      ensures var ip := IpKey(ClientIpSinStrip(forwardedFor, remoteAddr));
        var login := path == LoginPath && httpMethod == "POST";
        var answered := login && !old(IsBlocked(ip, now));
        var failure := response.status == 200 && IsFailedLoginResponse(response, WindowIndicators);
        var redirect := response.status in {301, 302};
        && (login && old(IsBlocked(ip, now)) ==> r == Bloqueada(old(RemainingTime(ip, now))))
        && (!(login && old(IsBlocked(ip, now))) ==> r == Atendida(response.status))
        && (!answered || (!failure && !redirect) ==> failed == old(failed) && blocked == old(blocked))
        && (answered && !failure && redirect ==> failed == old(failed) - {ip} && blocked == old(blocked))
        && (answered && failure ==>
              failed == old(failed)[ip := (Recent(old(Failures(ip, now)), now, attemptWindow) + [now], now + attemptWindow)]
              && blocked == if |Recent(old(Failures(ip, now)), now, attemptWindow)| + 1 >= maxAttempts
                            then old(blocked)[ip := now + lockoutTime] else old(blocked))
    {
      var login := path == LoginPath && httpMethod == "POST";
      var ip := IpKey(ClientIpSinStrip(forwardedFor, remoteAddr));
      if login && IsBlocked(ip, now) {
        return Bloqueada(RemainingTime(ip, now));
      }
      r := Atendida(response.status);
      if login {
        if response.status == 200 && IsFailedLoginResponse(response, WindowIndicators) {
          RegisterFailedAttempt(ip, now);
        } else if response.status in {302, 301} {
          ClearFailedAttempts(ip);
        }
      }
    }
  }

  /** Recent keeps the failures in the window in their order: it is the
      filter of each piece of the list, one failure at a time. */
  lemma {:induction false} RecentAppend(a: seq<real>, b: seq<real>, now: real, window: real)
    ensures Recent(a + b, now, window) == Recent(a, now, window) + Recent(b, now, window)
    decreases |b|
  {
    if b == [] {
      assert a + b == a;
    } else {
      var init := b[..|b| - 1];
      RecentAppend(a, init, now, window);
      assert (a + b)[..|a + b| - 1] == a + init;
    }
  }

  /** A single failure is kept exactly when it is inside the window. */
  lemma RecentSingle(t: real, now: real, window: real)
    ensures Recent([t], now, window) == if now - t < window then [t] else []
  {
    assert [t][..0] == [];
  }

  /** Dropping old failures twice is dropping them once at the later time:
      the window only ever forgets. */
  lemma {:induction false} RecentLater(ts: seq<real>, now: real, later: real, window: real)
    requires now <= later
    ensures Recent(Recent(ts, now, window), later, window) == Recent(ts, later, window)
  {
    if ts != [] {
      var init := ts[..|ts| - 1];
      RecentLater(init, now, later, window);
    }
  }
}

=== FILE: structure_form.dfy ===
/** The project form: how the dynamic structure of a new project (phases,
    towers with their floors, sectors with their blocks, and weighting
    factors) is read out of the submitted form fields, and the clean rules
    of the phase, weighting-factor and simple weighting-factor forms. */
module StructureForm {
  import opened Common
  import ProjectStructure

  // ------------------------------------------------------------ form data

  /** The submitted form as its (key, value) items in submission order. */
  type FormData = seq<(string, string)>

  /** self.data.get(key, default): the value submitted last under key (a
      QueryDict answers with the last of a key's values), or the default
      when the key is absent. */
  function Lookup(data: FormData, key: string, default: string): (v: string)
    ensures (forall i :: 0 <= i < |data| ==> data[i].0 != key) ==> v == default
    ensures (exists i :: 0 <= i < |data| && data[i].0 == key) ==>
              exists i :: 0 <= i < |data| && data[i] == (key, v) && forall j :: i < j < |data| ==> data[j].0 != key
  {
    if data == [] then default
    else if data[|data| - 1].0 == key then data[|data| - 1].1
    else
      var init := data[..|data| - 1];
      var v := Lookup(init, key, default);
      assert (exists i :: 0 <= i < |data| && data[i].0 == key) ==>
               exists i :: 0 <= i < |data| && data[i] == (key, v) && forall j :: i < j < |data| ==> data[j].0 != key
      by {
        if exists i :: 0 <= i < |data| && data[i].0 == key {
          var k :| 0 <= k < |data| && data[k].0 == key;
          assert init[k] == data[k];
          var i :| 0 <= i < |init| && init[i] == (key, v) && forall j :: i < j < |init| ==> init[j].0 != key;
          assert data[i] == (key, v);
          assert forall j :: i < j < |data| ==> data[j].0 != key by {
            forall j | i < j < |data| ensures data[j].0 != key {
              if j < |init| { assert data[j] == init[j]; }
            }
          }
        }
      }
      v
  }

  // ------------------------------------------------------ dictionaries

  /** A Python dict with integer keys, as its items in insertion order. */
  function Find<V>(d: seq<(int, V)>, k: int): Option<V>
  {
    if d == [] then None else if d[0].0 == k then Some(d[0].1) else Find(d[1..], k)
  }

  /** d[k] = v: an existing key keeps its place, a new key goes last. */
  function Put<V>(d: seq<(int, V)>, k: int, v: V): seq<(int, V)>
  {
    if d == [] then [(k, v)]
    else if d[0].0 == k then [(k, v)] + d[1..]
    else [d[0]] + Put(d[1..], k, v)
  }

  /** After d[k] = v, k holds v, every other key holds what it held, the
      keys already present keep their order, and a new key is appended. */
  lemma {:induction false} PutFacts<V>(d: seq<(int, V)>, k: int, v: V)
    ensures Find(Put(d, k, v), k) == Some(v)
    ensures forall j :: j != k ==> Find(Put(d, k, v), j) == Find(d, j)
    ensures Find(d, k).Some? ==> |Put(d, k, v)| == |d|
    ensures Find(d, k).None? ==> Put(d, k, v) == d + [(k, v)]
    ensures forall i :: 0 <= i < |d| ==> Put(d, k, v)[i].0 == d[i].0
  {
    if d != [] && d[0].0 != k {
      PutFacts(d[1..], k, v);
      var r := Put(d, k, v);
      assert r[1..] == Put(d[1..], k, v);
      forall j | j != k ensures Find(r, j) == Find(d, j) {
        if d[0].0 != j {
          assert Find(r, j) == Find(r[1..], j);
        }
      }
      if Find(d, k).None? {
        assert d == [d[0]] + d[1..];
      }
    }
  }

  /** min(d.keys()) */
  function MinKey<V>(d: seq<(int, V)>): (m: int)
    requires d != []
    ensures forall i :: 0 <= i < |d| ==> m <= d[i].0
    ensures exists i :: 0 <= i < |d| && d[i].0 == m
  {
    if |d| == 1 then d[0].0
    else
      var r := MinKey(d[1..]);
      assert forall i :: 1 <= i < |d| ==> d[i] == d[1..][i - 1];
      if d[0].0 <= r then d[0].0 else r
  }

  /** max(d.keys()) */
  function MaxKey<V>(d: seq<(int, V)>): (m: int)
    requires d != []
    ensures forall i :: 0 <= i < |d| ==> d[i].0 <= m
    ensures exists i :: 0 <= i < |d| && d[i].0 == m
  {
    if |d| == 1 then d[0].0
    else
      var r := MaxKey(d[1..]);
      assert forall i :: 1 <= i < |d| ==> d[i] == d[1..][i - 1];
      if d[0].0 >= r then d[0].0 else r
  }

  // ------------------------------------------------------------ key parts

  /** A key that starts with `word_` splits into word and the pieces of the
      rest. */
  lemma SplitAfterPrefix(key: string, word: string)
    requires '_' !in word && StartsWith(key, word + "_")
    ensures |Split(key, '_')| >= 2
    ensures Split(key, '_') == [word] + Split(key[|word| + 1..], '_')
  {
    assert key == word + "_" + key[|word| + 1..];
    SplitCons(word, key[|word| + 1..], '_');
  }

  /** key.split('_'), with the length a key of the given prefix always has. */
  function KeyParts(key: string, word: string): (parts: seq<string>)
    requires '_' !in word && StartsWith(key, word + "_")
    ensures parts == Split(key, '_') && |parts| >= 2
  {
    SplitAfterPrefix(key, word);
    Split(key, '_')
  }

  /** Decimal text of an integer never contains '_'. */
  lemma NoUnderscoreInNumber(n: int)
    ensures '_' !in IntToString(n)
  {
    var s := IntToString(n);
    if n < 0 {
      var d := NatToString(-n);
      assert s == "-" + d;
      assert forall i :: 0 <= i < |d| ==> IsDigit(d[i]);
    } else {
      assert forall i :: 0 <= i < |s| ==> IsDigit(s[i]);
    }
  }

  // ------------------------------------------------- weighting-factor values

  /** `float(porcentaje) if porcentaje else 0` and `float(monto_fijo) if
      monto_fijo else None`, both inside one try whose ValueError handler
      falls back to (0, None); float() may give NaN or an infinity. */
  function ValoresPonderador(porcentaje: string, montoFijo: string): (r: (PyFloat, Option<PyFloat>))
    ensures porcentaje != [] && ParseFloat(porcentaje).None? ==> r == (Finite(0.0), None)
    ensures montoFijo != [] && ParseFloat(montoFijo).None? ==> r == (Finite(0.0), None)
    ensures porcentaje == [] && (montoFijo == [] || ParseFloat(montoFijo).Some?) ==> r.0 == Finite(0.0)
    ensures porcentaje != [] && ParseFloat(porcentaje).Some? && (montoFijo == [] || ParseFloat(montoFijo).Some?) ==>
              r.0 == ParseFloat(porcentaje).value
    ensures montoFijo == [] ==> r.1 == None
    ensures montoFijo != [] && ParseFloat(montoFijo).Some? && (porcentaje == [] || ParseFloat(porcentaje).Some?) ==>
              r.1 == Some(ParseFloat(montoFijo).value)
  {
    var p := if porcentaje != [] then ParseFloat(porcentaje) else Some(Finite(0.0));
    var m := if montoFijo != [] then (if ParseFloat(montoFijo).Some? then Some(ParseFloat(montoFijo)) else None) else Some(None);
    if p.None? || m.None? then (Finite(0.0), None) else (p.value, m.value)
  }

  /** A weighting factor for the whole project, from a `ponderador_N_nombre`
      field. */
  datatype PonderadorNuevo = PonderadorNuevo(
    nombre: string, tipo: string, porcentaje: PyFloat, montoFijo: Option<PyFloat>,
    descripcion: string, nivel: string)

  /** An existing weighting factor edited in the form, from an
      `existing_ponderador_N_id` field. */
  datatype PonderadorExistente = PonderadorExistente(
    id: int, nombre: string, tipo: string, porcentaje: PyFloat, montoFijo: Option<PyFloat>,
    descripcion: string, activo: bool)

  /** A weighting factor of one phase, from a `fase_X_ponderador_Y_nombre`
      field. */
  datatype PonderadorFase = PonderadorFase(
    fase: int, nombre: string, tipo: string, porcentaje: PyFloat, montoFijo: Option<PyFloat>,
    descripcion: string)

  /** The number piece of a `ponderador_N_...` key: key.split('_')[1]. */
  function PonderadorNum(key: string): string
    requires StartsWith(key, "ponderador_")
  {
    KeyParts(key, "ponderador")[1]
  }

  /** The number written into a `ponderador_N_nombre` field name is the one
      read back. */
  lemma PonderadorNumOf(n: string)
    requires '_' !in n
    ensures StartsWith("ponderador_" + n + "_nombre", "ponderador_")
    ensures PonderadorNum("ponderador_" + n + "_nombre") == n
  {
    var key := "ponderador_" + n + "_nombre";
    assert key[..11] == "ponderador_";
    assert key[11..] == n + "_" + "nombre";
    SplitAfterPrefix(key, "ponderador");
    SplitCons(n, "nombre", '_');
  }

  /** One item of the first loop: a project weighting factor when the key is
      `ponderador_..._nombre` and the stripped name is not blank. */
  function NuevoPonderador(data: FormData, key: string, value: string): (r: Option<PonderadorNuevo>)
    ensures r.Some? <==> StartsWith(key, "ponderador_") && EndsWith(key, "_nombre") && Strip(value) != []
    ensures r.Some? ==> r.value.nombre == Strip(value)
  {
    if StartsWith(key, "ponderador_") && EndsWith(key, "_nombre") && Strip(value) != [] then
      var base := "ponderador_" + PonderadorNum(key);
      var valores := ValoresPonderador(Lookup(data, base + "_porcentaje", "0"), Lookup(data, base + "_monto_fijo", ""));
      Some(PonderadorNuevo(Strip(value), Lookup(data, base + "_tipo", "valorizacion"), valores.0, valores.1,
                           Lookup(data, base + "_descripcion", ""), Lookup(data, base + "_nivel", "proyecto")))
    else None
  }

  /** One item of the second loop: an existing weighting factor when the key
      is `existing_ponderador_..._id` and its stripped value is not blank;
      int() of that value raises when it is not a number. */
  function ExistenteDe(data: FormData, key: string, value: string): (r: Result<Option<PonderadorExistente>, string>)
    ensures !(StartsWith(key, "existing_ponderador_") && EndsWith(key, "_id")) ==> r == Ok(None)
    ensures r.Ok? && r.value.Some? ==> ParseInt(value) == Some(r.value.value.id)
    ensures r.Err? <==> StartsWith(key, "existing_ponderador_") && EndsWith(key, "_id")
                        && Strip(value) != [] && ParseInt(value).None?
  {
    if StartsWith(key, "existing_ponderador_") && EndsWith(key, "_id") && Strip(value) != [] then
      var pid := Strip(value);
      var base := "existing_ponderador_" + pid;
      var valores := ValoresPonderador(Lookup(data, base + "_porcentaje", "0"), Lookup(data, base + "_monto_fijo", ""));
      StripIdempotent(value);
      match ParseInt(pid)
      case None => Err("ValueError")
      case Some(id) =>
        Ok(Some(PonderadorExistente(id, Strip(Lookup(data, base + "_nombre", "")), Lookup(data, base + "_tipo", "valorizacion"),
                                    valores.0, valores.1, Lookup(data, base + "_descripcion", ""),
                                    Lookup(data, base + "_activo", "") == "on")))
    else Ok(None)
  }

  /** One item of the third loop: a phase weighting factor when the key is
      `fase_X..._ponderador_..._nombre` with at least four pieces; pieces 1
      and 3 go through int() (which may raise) before the name is looked at. */
  function PonderadorFaseDe(data: FormData, key: string, value: string): (r: Result<Option<PonderadorFase>, string>)
    ensures r.Ok? && r.value.Some? ==> r.value.value.nombre == Strip(value) && Strip(value) != []
    ensures r.Ok? && r.value.Some? ==> |Split(key, '_')| >= 4 && ParseInt(Split(key, '_')[1]) == Some(r.value.value.fase)
  {
    if StartsWith(key, "fase_") && Contains(key, "_ponderador_") && EndsWith(key, "_nombre") then
      var parts := Split(key, '_');
      if |parts| >= 4 then
        match (ParseInt(parts[1]), ParseInt(parts[3]))
        case (Some(f), Some(n)) =>
          if Strip(value) == [] then Ok(None)
          else
            var base := "fase_" + IntToString(f) + "_ponderador_" + IntToString(n);
            var valores := ValoresPonderador(Lookup(data, base + "_porcentaje", "0"), Lookup(data, base + "_monto_fijo", ""));
            Ok(Some(PonderadorFase(f, Strip(value), Lookup(data, base + "_tipo", "valorizacion"), valores.0, valores.1,
                                   Lookup(data, base + "_descripcion", ""))))
        case _ => Err("ValueError")
      else Ok(None)
    else Ok(None)
  }

  lemma StripIdempotent(s: string)
    requires Strip(s) != []
    ensures Strip(Strip(s)) == Strip(s)
  {
    var t := Strip(s);
    assert !IsSpace(t[0]) && !IsSpace(t[|t| - 1]);
    assert StripLeft(t) == t;
  }

  // ----------------------------------------------------- phases and units

  /** A phase as the form parse builds it: its flag and, in insertion
      order, its towers (tower number to floors, each floor number to its
      apartments) and its sectors (sector number to blocks, each block
      number to its lots). */
  datatype FaseDatos = FaseDatos(
    comercializable: bool,
    torres: seq<(int, seq<(int, int)>)>,
    sectores: seq<(int, seq<(int, int)>)>)

  type Fases = seq<(int, FaseDatos)>

  /** A phase not yet seen starts non-commercialisable and empty. */
  function FaseOrNew(fases: Fases, f: int): FaseDatos
  {
    if Find(fases, f).Some? then Find(fases, f).value else FaseDatos(false, [], [])
  }

  function Inner(d: seq<(int, seq<(int, int)>)>, k: int): seq<(int, int)>
  {
    if Find(d, k).Some? then Find(d, k).value else []
  }

  /** One item of the phase loop: `fase_X_..._comercializable` sets phase X's
      flag to (value == 'on'), creating the phase when it is new. */
  function ComercializableStep(fases: Fases, key: string, value: string): (r: Result<Fases, string>)
  {
    if StartsWith(key, "fase_") && EndsWith(key, "_comercializable") then
      match ParseInt(KeyParts(key, "fase")[1])
      case None => Err("ValueError")
      case Some(f) =>
        var fd := FaseOrNew(fases, f);
        Ok(Put(fases, f, fd.(comercializable := value == "on")))
    else Ok(fases)
  }

  /** Pieces 1, 3 and 5 of a key with at least six pieces, through int(). */
  function UnitKey(key: string): Result<Option<(int, int, int)>, string>
  {
    var parts := Split(key, '_');
    if |parts| >= 6 then
      match (ParseInt(parts[1]), ParseInt(parts[3]), ParseInt(parts[5]))
      case (Some(a), Some(b), Some(c)) => Ok(Some((a, b, c)))
      case _ => Err("ValueError")
    else Ok(None)
  }

  /** `int(value) if value else 0` */
  function CountValue(value: string): Option<int>
  {
    if value == [] then Some(0) else ParseInt(value)
  }

  /** structure_data['fases'][f]['torres'][t]['pisos'][p] = n, creating
      the phase and the tower when they are new. */
  function SetPiso(fases: Fases, f: int, t: int, p: int, n: int): Fases
  {
    var fd := FaseOrNew(fases, f);
    Put(fases, f, fd.(torres := Put(fd.torres, t, Put(Inner(fd.torres, t), p, n))))
  }

  /** structure_data['fases'][f]['sectores'][s]['manzanas'][m] = n. */
  function SetManzana(fases: Fases, f: int, s: int, m: int, n: int): Fases
  {
    var fd := FaseOrNew(fases, f);
    Put(fases, f, fd.(sectores := Put(fd.sectores, s, Put(Inner(fd.sectores, s), m, n))))
  }

  /** One item of the apartments loop: a `fase_X_torre_Y_piso_Z_departamentos`
      key (at least six pieces) sets floor Z of tower Y of phase X. */
  function DepartamentosStep(fases: Fases, key: string, value: string): Result<Fases, string>
  {
    if StartsWith(key, "fase_") && Contains(key, "departamentos") then
      match UnitKey(key)
      case Err(e) => Err(e)
      case Ok(None) => Ok(fases)
      case Ok(Some(k)) =>
        match CountValue(value)
        case None => Err("ValueError")
        case Some(n) => Ok(SetPiso(fases, k.0, k.1, k.2, n))
    else Ok(fases)
  }

  /** One item of the lots loop: a `fase_X_sector_Y_manzana_Z_terrenos` key
      sets block Z of sector Y of phase X. */
  function TerrenosStep(fases: Fases, key: string, value: string): Result<Fases, string>
  {
    if StartsWith(key, "fase_") && Contains(key, "terrenos") then
      match UnitKey(key)
      case Err(e) => Err(e)
      case Ok(None) => Ok(fases)
      case Ok(Some(k)) =>
        match CountValue(value)
        case None => Err("ValueError")
        case Some(n) => Ok(SetManzana(fases, k.0, k.1, k.2, n))
    else Ok(fases)
  }

  /** The field name the project form gives floor p of tower t of phase f:
      f"fase_{f}_torre_{t}_piso_{p}_departamentos". */
  function DepartamentosKey(f: int, t: int, p: int): string
  {
    "fase" + "_" + IntToString(f) + "_" + "torre" + "_" + IntToString(t) + "_" + "piso" + "_" + IntToString(p)
    + "_" + "departamentos"
  }

  lemma PrefixOfConcat(x: string, y: string, n: nat)
    requires n <= |x|
    ensures (x + y)[..n] == x[..n]
  {
  }

  lemma EndContains(x: string, w: string)
    ensures Contains(x + w, w)
  {
    assert (x + w)[|x|..|x| + |w|] == w;
    assert OccursAt(x + w, w, |x|);
  }

  /** Seven pieces without '_' joined by '_' split back into themselves. */
  lemma SevenPieces(w0: string, w1: string, w2: string, w3: string, w4: string, w5: string, w6: string)
    requires '_' !in w0 && '_' !in w1 && '_' !in w2 && '_' !in w3 && '_' !in w4 && '_' !in w5 && '_' !in w6
    ensures Split(w0 + "_" + w1 + "_" + w2 + "_" + w3 + "_" + w4 + "_" + w5 + "_" + w6, '_')
            == [w0, w1, w2, w3, w4, w5, w6]
  {
    var k1 := w0 + "_" + w1;
    var k2 := k1 + "_" + w2;
    var k3 := k2 + "_" + w3;
    var k4 := k3 + "_" + w4;
    var k5 := k4 + "_" + w5;
    SplitNoSeparator(w0, '_');
    SplitSnoc(w0, w1, '_');
    assert Split(k1, '_') == [w0, w1];
    SplitSnoc(k1, w2, '_');
    assert Split(k2, '_') == [w0, w1, w2];
    SplitSnoc(k2, w3, '_');
    assert Split(k3, '_') == [w0, w1, w2, w3];
    SplitSnoc(k3, w4, '_');
    assert Split(k4, '_') == [w0, w1, w2, w3, w4];
    SplitSnoc(k4, w5, '_');
    assert Split(k5, '_') == [w0, w1, w2, w3, w4, w5];
    SplitSnoc(k5, w6, '_');
  }

  /** A key whose pieces 1, 3 and 5 are the decimal texts of three numbers
      yields those numbers. */
  lemma UnitKeyOfPieces(key: string, f: int, t: int, p: int)
    requires |Split(key, '_')| == 7
    requires Split(key, '_')[1] == IntToString(f) && Split(key, '_')[3] == IntToString(t) && Split(key, '_')[5] == IntToString(p)
    ensures UnitKey(key) == Ok(Some((f, t, p)))
  {
    ParseIntToString(f);
    ParseIntToString(t);
    ParseIntToString(p);
  }

  /** A key built on "fase" + "_" starts with "fase_", whatever follows. */
  lemma StartsWithFase(w1: string, w2: string, w3: string, w4: string, w5: string, w6: string)
    ensures StartsWith("fase" + "_" + w1 + "_" + w2 + "_" + w3 + "_" + w4 + "_" + w5 + "_" + w6, "fase_")
  {
    var k0 := "fase" + "_";
    assert k0[..5] == "fase_";
    var k1 := k0 + w1 + "_";
    PrefixOfConcat(k0, w1, 5);
    PrefixOfConcat(k0 + w1, "_", 5);
    var k2 := k1 + w2 + "_";
    PrefixOfConcat(k1, w2, 5);
    PrefixOfConcat(k1 + w2, "_", 5);
    var k3 := k2 + w3 + "_";
    PrefixOfConcat(k2, w3, 5);
    PrefixOfConcat(k2 + w3, "_", 5);
    var k4 := k3 + w4 + "_";
    PrefixOfConcat(k3, w4, 5);
    PrefixOfConcat(k3 + w4, "_", 5);
    var k5 := k4 + w5 + "_";
    PrefixOfConcat(k4, w5, 5);
    PrefixOfConcat(k4 + w5, "_", 5);
    PrefixOfConcat(k5, w6, 5);
  }

  /** Pieces 1, 3 and 5 of that field name give back f, t and p. */
  lemma DepartamentosKeyParsed(f: int, t: int, p: int)
    ensures StartsWith(DepartamentosKey(f, t, p), "fase_")
    ensures Contains(DepartamentosKey(f, t, p), "departamentos")
    ensures UnitKey(DepartamentosKey(f, t, p)) == Ok(Some((f, t, p)))
  {
    var a, b, c := IntToString(f), IntToString(t), IntToString(p);
    NoUnderscoreInNumber(f);
    NoUnderscoreInNumber(t);
    NoUnderscoreInNumber(p);
    var key := DepartamentosKey(f, t, p);
    assert key == "fase" + "_" + a + "_" + "torre" + "_" + b + "_" + "piso" + "_" + c + "_" + "departamentos";
    SevenPieces("fase", a, "torre", b, "piso", c, "departamentos");
    UnitKeyOfPieces(key, f, t, p);
    StartsWithFase(a, "torre", b, "piso", c, "departamentos");
    var front := "fase" + "_" + a + "_" + "torre" + "_" + b + "_" + "piso" + "_" + c + "_";
    assert key == front + "departamentos";
    EndContains(front, "departamentos");
  }

  /** Setting floor p of tower t of phase f: that floor holds n, the other
      floors of the tower, the other towers and the other phases are as
      before, and the phase keeps its flag and its sectors. */
  lemma SetPisoFacts(fases: Fases, f: int, t: int, p: int, n: int)
    ensures var r := SetPiso(fases, f, t, p, n);
            && Find(r, f).Some?
            && Find(r, f).value.comercializable == FaseOrNew(fases, f).comercializable
            && Find(r, f).value.sectores == FaseOrNew(fases, f).sectores
            && Find(Inner(Find(r, f).value.torres, t), p) == Some(n)
            && (forall q :: q != p ==> Find(Inner(Find(r, f).value.torres, t), q) == Find(Inner(FaseOrNew(fases, f).torres, t), q))
            && (forall u :: u != t ==> Find(Find(r, f).value.torres, u) == Find(FaseOrNew(fases, f).torres, u))
            && (forall g :: g != f ==> Find(r, g) == Find(fases, g))
  {
    var fd := FaseOrNew(fases, f);
    var pisos := Inner(fd.torres, t);
    var nuevas := Put(pisos, p, n);
    PutFacts(pisos, p, n);
    PutFacts(fd.torres, t, nuevas);
    var fd2 := fd.(torres := Put(fd.torres, t, nuevas));
    PutFacts(fases, f, fd2);
    assert Inner(fd2.torres, t) == nuevas;
  }

  /** A floor field submitted with a number sets exactly that floor. */
  lemma DepartamentoRecorded(fases: Fases, f: int, t: int, p: int, n: int)
    ensures DepartamentosStep(fases, DepartamentosKey(f, t, p), IntToString(n)) == Ok(SetPiso(fases, f, t, p, n))
  {
    DepartamentosKeyParsed(f, t, p);
    ParseIntToString(n);
    var s := IntToString(n);
    assert s != [];
    assert CountValue(s) == Some(n);
  }

  // ------------------------------------------------- structure invariant

  /** Every tower has a floor and every sector a block: the parse only
      creates a tower or a sector together with its first entry. */
  predicate Poblada(fases: Fases)
  {
    forall i :: 0 <= i < |fases| ==>
      (forall j :: 0 <= j < |fases[i].1.torres| ==> fases[i].1.torres[j].1 != [])
      && (forall j :: 0 <= j < |fases[i].1.sectores| ==> fases[i].1.sectores[j].1 != [])
  }

  lemma {:induction false} FindIn<V>(d: seq<(int, V)>, k: int)
    requires Find(d, k).Some?
    ensures exists i :: 0 <= i < |d| && d[i] == (k, Find(d, k).value)
  {
    if d[0].0 != k {
      FindIn(d[1..], k);
      var i :| 0 <= i < |d[1..]| && d[1..][i] == (k, Find(d, k).value);
      assert d[i + 1] == d[1..][i];
    }
  }

  /** Every entry of Put(d, k, v) is v at k or an entry of d. */
  lemma {:induction false} PutEntries<V>(d: seq<(int, V)>, k: int, v: V)
    ensures forall i :: 0 <= i < |Put(d, k, v)| ==> Put(d, k, v)[i] == (k, v) || Put(d, k, v)[i] in d
  {
    if d != [] && d[0].0 != k {
      PutEntries(d[1..], k, v);
      var r := Put(d, k, v);
      forall i | 0 <= i < |r| ensures r[i] == (k, v) || r[i] in d {
        if i > 0 {
          assert r[i] == Put(d[1..], k, v)[i - 1];
        }
      }
    }
  }

  predicate AllFilled(d: seq<(int, seq<(int, int)>)>)
  {
    forall j :: 0 <= j < |d| ==> d[j].1 != []
  }

  lemma PutKeepsFilled(d: seq<(int, seq<(int, int)>)>, k: int, v: seq<(int, int)>)
    requires AllFilled(d) && v != []
    ensures AllFilled(Put(d, k, v))
  {
    PutEntries(d, k, v);
  }

  lemma PoblatedFase(fases: Fases, f: int)
    requires Poblada(fases)
    ensures AllFilled(FaseOrNew(fases, f).torres) && AllFilled(FaseOrNew(fases, f).sectores)
  {
    if Find(fases, f).Some? {
      FindIn(fases, f);
    }
  }

  lemma PutKeepsPoblada(fases: Fases, f: int, fd: FaseDatos)
    requires Poblada(fases) && AllFilled(fd.torres) && AllFilled(fd.sectores)
    ensures Poblada(Put(fases, f, fd))
  {
    PutEntries(fases, f, fd);
    var r := Put(fases, f, fd);
    forall i | 0 <= i < |r| ensures AllFilled(r[i].1.torres) && AllFilled(r[i].1.sectores) {
      if r[i] != (f, fd) {
        var j :| 0 <= j < |fases| && fases[j] == r[i];
      }
    }
  }

  lemma SetPisoKeepsPoblada(fases: Fases, f: int, t: int, p: int, n: int)
    requires Poblada(fases)
    ensures Poblada(SetPiso(fases, f, t, p, n))
  {
    PoblatedFase(fases, f);
    var fd := FaseOrNew(fases, f);
    PutKeepsFilled(fd.torres, t, Put(Inner(fd.torres, t), p, n));
    PutKeepsPoblada(fases, f, fd.(torres := Put(fd.torres, t, Put(Inner(fd.torres, t), p, n))));
  }

  lemma SetManzanaKeepsPoblada(fases: Fases, f: int, s: int, m: int, n: int)
    requires Poblada(fases)
    ensures Poblada(SetManzana(fases, f, s, m, n))
  {
    PoblatedFase(fases, f);
    var fd := FaseOrNew(fases, f);
    PutKeepsFilled(fd.sectores, s, Put(Inner(fd.sectores, s), m, n));
    PutKeepsPoblada(fases, f, fd.(sectores := Put(fd.sectores, s, Put(Inner(fd.sectores, s), m, n))));
  }

  /** Each of the three phase loops keeps every tower and sector filled. */
  lemma ComercializableKeepsPoblada(fases: Fases, key: string, value: string)
    requires Poblada(fases)
    ensures ComercializableStep(fases, key, value).Ok? ==> Poblada(ComercializableStep(fases, key, value).value)
  {
    if StartsWith(key, "fase_") && EndsWith(key, "_comercializable") {
      var o := ParseInt(KeyParts(key, "fase")[1]);
      if o.Some? {
        PoblatedFase(fases, o.value);
        var fd := FaseOrNew(fases, o.value);
        PutKeepsPoblada(fases, o.value, fd.(comercializable := value == "on"));
      }
    }
  }

  lemma DepartamentosKeepsPoblada(fases: Fases, key: string, value: string)
    requires Poblada(fases)
    ensures DepartamentosStep(fases, key, value).Ok? ==> Poblada(DepartamentosStep(fases, key, value).value)
  {
    var u, c := UnitKey(key), CountValue(value);
    if u.Ok? && u.value.Some? && c.Some? {
      var k := u.value.value;
      SetPisoKeepsPoblada(fases, k.0, k.1, k.2, c.value);
    }
  }

  lemma TerrenosKeepsPoblada(fases: Fases, key: string, value: string)
    requires Poblada(fases)
    ensures TerrenosStep(fases, key, value).Ok? ==> Poblada(TerrenosStep(fases, key, value).value)
  {
    var u, c := UnitKey(key), CountValue(value);
    if u.Ok? && u.value.Some? && c.Some? {
      var k := u.value.value;
      SetManzanaKeepsPoblada(fases, k.0, k.1, k.2, c.value);
    }
  }

  // ------------------------------------------------------------- the loops

  /** A loop over the form items that stops at the first exception. */
  function Fold<S>(items: FormData, s: S, step: (S, string, string) -> Result<S, string>): Result<S, string>
    decreases |items|
  {
    if items == [] then Ok(s)
    else match Fold(items[..|items| - 1], s, step)
      case Err(e) => Err(e)
      case Ok(t) => step(t, items[|items| - 1].0, items[|items| - 1].1)
  }

  /** Once an item raised, the loop's outcome is that exception. */
  lemma {:induction false} FoldStops<S>(items: FormData, k: nat, s: S, step: (S, string, string) -> Result<S, string>)
    requires k <= |items| && Fold(items[..k], s, step).Err?
    ensures Fold(items, s, step) == Fold(items[..k], s, step)
    decreases |items| - k
  {
    if k < |items| {
      assert items[..k + 1][..k] == items[..k];
      FoldStops(items, k + 1, s, step);
    } else {
      assert items[..k] == items;
    }
  }

  /** A property every step keeps holds of the loop's result. */
  lemma {:induction false} FoldKeeps<S>(items: FormData, s: S, step: (S, string, string) -> Result<S, string>, inv: S -> bool)
    requires inv(s)
    requires forall t, k, v :: inv(t) && step(t, k, v).Ok? ==> inv(step(t, k, v).value)
    ensures Fold(items, s, step).Ok? ==> inv(Fold(items, s, step).value)
    decreases |items|
  {
    if items != [] {
      var init := items[..|items| - 1];
      FoldKeeps(init, s, step, inv);
      var r := Fold(init, s, step);
      if r.Ok? {
        var last := items[|items| - 1];
        assert Fold(items, s, step) == step(r.value, last.0, last.1);
        StepKeeps(step, inv, r.value, last.0, last.1);
      }
    }
  }

  lemma StepKeeps<S>(step: (S, string, string) -> Result<S, string>, inv: S -> bool, t: S, k: string, v: string)
    requires forall t, k, v :: inv(t) && step(t, k, v).Ok? ==> inv(step(t, k, v).value)
    ensures inv(t) && step(t, k, v).Ok? ==> inv(step(t, k, v).value)
  {
  }

  /** `for key, value in self.data.items(): ...`, stopping at the first
      exception. */
  method ForEachItem<S>(items: FormData, s0: S, step: (S, string, string) -> Result<S, string>)
    returns (r: Result<S, string>)
    ensures r == Fold(items, s0, step)
  {
    var s := s0;
    var i := 0;
    while i < |items|
      invariant 0 <= i <= |items|
      invariant Fold(items[..i], s0, step) == Ok(s)
    {
      assert items[..i + 1][..i] == items[..i];
      var next := step(s, items[i].0, items[i].1);
      if next.Err? {
        assert Fold(items[..i + 1], s0, step) == next;
        FoldStops(items, i + 1, s0, step);
        return next;
      }
      s := next.value;
      i := i + 1;
    }
    assert items[..i] == items;
    r := Ok(s);
  }

  function NuevoStep(data: FormData): (seq<PonderadorNuevo>, string, string) -> Result<seq<PonderadorNuevo>, string>
  {
    (acc: seq<PonderadorNuevo>, k: string, v: string) =>
      Ok(if NuevoPonderador(data, k, v).Some? then acc + [NuevoPonderador(data, k, v).value] else acc)
  }

  function ExistenteStep(data: FormData): (seq<PonderadorExistente>, string, string) -> Result<seq<PonderadorExistente>, string>
  {
    (acc: seq<PonderadorExistente>, k: string, v: string) =>
      match ExistenteDe(data, k, v)
      case Err(e) => Err(e)
      case Ok(o) => Ok(if o.Some? then acc + [o.value] else acc)
  }

  function FaseStep(data: FormData): (seq<PonderadorFase>, string, string) -> Result<seq<PonderadorFase>, string>
  {
    (acc: seq<PonderadorFase>, k: string, v: string) =>
      match PonderadorFaseDe(data, k, v)
      case Err(e) => Err(e)
      case Ok(o) => Ok(if o.Some? then acc + [o.value] else acc)
  }

  // ------------------------------------------------------------ conversion

  /** The summary keys the conversion adds to a tower: pisos_inicio and
      pisos_fin are the smallest and largest floor numbers, deptos_piso the
      apartments of the first floor entered. */
  function TorreInfoDe(numero: int, pisos: seq<(int, int)>): (t: ProjectStructure.TorreInfo)
    ensures t.numero == numero && t.pisos == pisos
    ensures pisos == [] ==> t.pisosInicio.None? && t.pisosFin.None? && t.deptosPiso.None?
    ensures pisos != [] ==>
              t.pisosInicio.Some? && t.pisosFin.Some? && t.deptosPiso == Some(pisos[0].1)
              && (forall i :: 0 <= i < |pisos| ==> t.pisosInicio.value <= pisos[i].0 <= t.pisosFin.value)
              && (exists i :: 0 <= i < |pisos| && pisos[i].0 == t.pisosInicio.value)
              && (exists i :: 0 <= i < |pisos| && pisos[i].0 == t.pisosFin.value)
  {
    if pisos == [] then ProjectStructure.TorreInfo(numero, pisos, None, None, None)
    else ProjectStructure.TorreInfo(numero, pisos, Some(MinKey(pisos)), Some(MaxKey(pisos)), Some(pisos[0].1))
  }

  /** The same for a sector: manzanas_inicio, manzanas_fin and
      terrenos_manzana; a sector read from the form is never
      commercialisable by itself. */
  function SectorInfoDe(numero: int, manzanas: seq<(int, int)>): (s: ProjectStructure.SectorInfo)
    ensures s.numero == numero && !s.comercializable
    ensures manzanas != [] ==>
              s.manzanasInicio.Some? && s.manzanasFin.Some? && s.terrenosManzana == Some(manzanas[0].1)
              && (forall i :: 0 <= i < |manzanas| ==> s.manzanasInicio.value <= manzanas[i].0 <= s.manzanasFin.value)
  {
    if manzanas == [] then ProjectStructure.SectorInfo(numero, None, None, None, false)
    else ProjectStructure.SectorInfo(numero, Some(MinKey(manzanas)), Some(MaxKey(manzanas)), Some(manzanas[0].1), false)
  }

  function TorresDe(torres: seq<(int, seq<(int, int)>)>): (r: seq<ProjectStructure.TorreInfo>)
    ensures |r| == |torres|
    ensures forall j :: 0 <= j < |torres| ==> r[j] == TorreInfoDe(torres[j].0, torres[j].1)
  {
    if torres == [] then [] else [TorreInfoDe(torres[0].0, torres[0].1)] + TorresDe(torres[1..])
  }

  function SectoresDe(sectores: seq<(int, seq<(int, int)>)>): (r: seq<ProjectStructure.SectorInfo>)
    ensures |r| == |sectores|
    ensures forall j :: 0 <= j < |sectores| ==> r[j] == SectorInfoDe(sectores[j].0, sectores[j].1)
  {
    if sectores == [] then [] else [SectorInfoDe(sectores[0].0, sectores[0].1)] + SectoresDe(sectores[1..])
  }

  function FaseInfoDe(fd: FaseDatos): ProjectStructure.FaseInfo
  {
    ProjectStructure.FaseInfo(TorresDe(fd.torres), SectoresDe(fd.sectores), fd.comercializable)
  }

  function Convertidas(fases: Fases): (r: seq<ProjectStructure.FaseInfo>)
    ensures |r| == |fases|
    ensures forall i :: 0 <= i < |fases| ==> r[i] == FaseInfoDe(fases[i].1)
  {
    if fases == [] then [] else Convertidas(fases[..|fases| - 1]) + [FaseInfoDe(fases[|fases| - 1].1)]
  }

  /** Every tower of the phase carries all three summary keys with
      pisos_inicio <= pisos_fin, and every sector all three of its own. */
  predicate Resumida(fi: ProjectStructure.FaseInfo)
  {
    (forall j :: 0 <= j < |fi.torres| ==>
       fi.torres[j].pisosInicio.Some? && fi.torres[j].pisosFin.Some? && fi.torres[j].deptosPiso.Some?
       && fi.torres[j].pisosInicio.value <= fi.torres[j].pisosFin.value)
    && (forall j :: 0 <= j < |fi.sectores| ==>
       fi.sectores[j].manzanasInicio.Some? && fi.sectores[j].manzanasFin.Some? && fi.sectores[j].terrenosManzana.Some?
       && fi.sectores[j].manzanasInicio.value <= fi.sectores[j].manzanasFin.value)
  }

  lemma FaseResumida(fd: FaseDatos)
    requires AllFilled(fd.torres) && AllFilled(fd.sectores)
    ensures Resumida(FaseInfoDe(fd))
  {
    var fi := FaseInfoDe(fd);
    forall j | 0 <= j < |fi.torres|
      ensures fi.torres[j].pisosInicio.Some? && fi.torres[j].pisosFin.Some? && fi.torres[j].deptosPiso.Some?
              && fi.torres[j].pisosInicio.value <= fi.torres[j].pisosFin.value
    {
      assert fi.torres[j] == TorreInfoDe(fd.torres[j].0, fd.torres[j].1);
      assert fd.torres[j].1 != [];
    }
    forall j | 0 <= j < |fi.sectores|
      ensures fi.sectores[j].manzanasInicio.Some? && fi.sectores[j].manzanasFin.Some? && fi.sectores[j].terrenosManzana.Some?
              && fi.sectores[j].manzanasInicio.value <= fi.sectores[j].manzanasFin.value
    {
      assert fi.sectores[j] == SectorInfoDe(fd.sectores[j].0, fd.sectores[j].1);
      assert fd.sectores[j].1 != [];
    }
  }

  /** In a structure read from the form, every converted phase has all its
      summary keys. */
  lemma ConvertidasSummaries(fases: Fases)
    requires Poblada(fases)
    ensures forall i :: 0 <= i < |fases| ==> Resumida(Convertidas(fases)[i])
  {
    forall i | 0 <= i < |fases| ensures Resumida(Convertidas(fases)[i]) {
      FaseResumida(fases[i].1);
    }
  }

  /** The conversion loops: each phase's towers and sectors get their
      summary keys, phase by phase. */
  method ConvertirFases(fases: Fases) returns (infos: seq<ProjectStructure.FaseInfo>)
    ensures infos == Convertidas(fases)
  {
    infos := [];
    var i := 0;
    while i < |fases|
      invariant 0 <= i <= |fases|
      invariant infos == Convertidas(fases[..i])
    {
      assert fases[..i + 1][..i] == fases[..i];
      infos := infos + [FaseInfoDe(fases[i].1)];
      i := i + 1;
    }
    assert fases[..i] == fases;
  }

  // ------------------------------------------------------------- the parse

  /** What _parse_dynamic_structure returns: the phases in the order they
      were first mentioned (with their numbers), and the three lists of
      weighting factors. */
  datatype Estructura = Estructura(
    numeros: seq<int>,
    fases: seq<ProjectStructure.FaseInfo>,
    ponderadores: seq<PonderadorNuevo>,
    existentes: seq<PonderadorExistente>,
    ponderadoresFase: seq<PonderadorFase>)

  function Numeros(fases: Fases): (r: seq<int>)
    ensures |r| == |fases| && forall i :: 0 <= i < |fases| ==> r[i] == fases[i].0
  {
    if fases == [] then [] else [fases[0].0] + Numeros(fases[1..])
  }

  /** The three phase loops, one after the other. */
  function ParseFases(data: FormData): Result<Fases, string>
  {
    match Fold(data, [], ComercializableStep)
    case Err(e) => Err(e)
    case Ok(f1) =>
      match Fold(data, f1, DepartamentosStep)
      case Err(e) => Err(e)
      case Ok(f2) => Fold(data, f2, TerrenosStep)
  }

  /** The new-factor loop never raises. */
  lemma {:induction false} NuevosNeverFail(data: FormData, items: FormData)
    ensures Fold(items, [], NuevoStep(data)).Ok?
    decreases |items|
  {
    if items != [] {
      NuevosNeverFail(data, items[..|items| - 1]);
    }
  }

  /** The whole parse, loop after loop; the first int() that raises ends
      it. */
  function ParseStructure(data: FormData): Result<Estructura, string>
  {
    NuevosNeverFail(data, data);
    var nuevos := Fold(data, [], NuevoStep(data)).value;
    var existentes := Fold(data, [], ExistenteStep(data));
    var deFase := Fold(data, [], FaseStep(data));
    var fases := ParseFases(data);
    if existentes.Err? then Err(existentes.error)
    else if deFase.Err? then Err(deFase.error)
    else if fases.Err? then Err(fases.error)
    else Ok(Estructura(Numeros(fases.value), Convertidas(fases.value), nuevos, existentes.value, deFase.value))
  }

  /** The three phase loops of _parse_dynamic_structure. */
  method ParseFaseLoops(data: FormData) returns (r: Result<Fases, string>)
    ensures r == ParseFases(data)
  {
    var f1 := ForEachItem(data, [], ComercializableStep);
    if f1.Err? {
      return Err(f1.error);
    }
    var f2 := ForEachItem(data, f1.value, DepartamentosStep);
    if f2.Err? {
      return Err(f2.error);
    }
    r := ForEachItem(data, f2.value, TerrenosStep);
  }

  /** _parse_dynamic_structure */
  method ParseDynamicStructure(data: FormData) returns (r: Result<Estructura, string>)
    ensures r == ParseStructure(data)
  {
    var nuevos := ForEachItem(data, [], NuevoStep(data));
    NuevosNeverFail(data, data);
    var existentes := ForEachItem(data, [], ExistenteStep(data));
    if existentes.Err? {
      return Err(existentes.error);
    }
    var deFase := ForEachItem(data, [], FaseStep(data));
    if deFase.Err? {
      return Err(deFase.error);
    }
    var fases := ParseFaseLoops(data);
    if fases.Err? {
      return Err(fases.error);
    }
    var infos := ConvertirFases(fases.value);
    r := Ok(Estructura(Numeros(fases.value), infos, nuevos.value, existentes.value, deFase.value));
  }

  /** The phases the three loops build have every tower and sector filled. */
  lemma ParseFasesPoblada(data: FormData)
    requires ParseFases(data).Ok?
    ensures Poblada(ParseFases(data).value)
  {
    var inv := (fs: Fases) => Poblada(fs);
    forall t: Fases, k: string, v: string | inv(t) && ComercializableStep(t, k, v).Ok?
      ensures inv(ComercializableStep(t, k, v).value)
    {
      ComercializableKeepsPoblada(t, k, v);
    }
    forall t: Fases, k: string, v: string | inv(t) && DepartamentosStep(t, k, v).Ok?
      ensures inv(DepartamentosStep(t, k, v).value)
    {
      DepartamentosKeepsPoblada(t, k, v);
    }
    forall t: Fases, k: string, v: string | inv(t) && TerrenosStep(t, k, v).Ok?
      ensures inv(TerrenosStep(t, k, v).value)
    {
      TerrenosKeepsPoblada(t, k, v);
    }
    assert Poblada([]);
    FoldKeeps(data, [], ComercializableStep, inv);
    var f1 := Fold(data, [], ComercializableStep).value;
    FoldKeeps(data, f1, DepartamentosStep, inv);
    var f2 := Fold(data, f1, DepartamentosStep).value;
    FoldKeeps(data, f2, TerrenosStep, inv);
  }

  /** Every tower and every sector of a successful parse carries its three
      summary keys, with the first no larger than the last, so the
      structure builders never fall back to their defaults for them. */
  lemma ParsedSummaries(data: FormData)
    requires ParseStructure(data).Ok?
    ensures forall i :: 0 <= i < |ParseStructure(data).value.fases| ==> Resumida(ParseStructure(data).value.fases[i])
  {
    var fases := ParseFases(data);
    assert fases.Ok?;
    ParseFasesPoblada(data);
    ConvertidasSummaries(fases.value);
  }

  predicate NombreLimpio(nombre: string)
  {
    nombre != [] && !IsSpace(nombre[0]) && !IsSpace(nombre[|nombre| - 1])
  }

  lemma {:induction false} NuevosNamed(data: FormData, items: FormData)
    ensures Fold(items, [], NuevoStep(data)).Ok?
    ensures forall p :: p in Fold(items, [], NuevoStep(data)).value ==> NombreLimpio(p.nombre)
    decreases |items|
  {
    NuevosNeverFail(data, items);
    if items != [] {
      var init := items[..|items| - 1];
      NuevosNamed(data, init);
      var last := items[|items| - 1];
      var acc := Fold(init, [], NuevoStep(data)).value;
      assert Fold(items, [], NuevoStep(data)) == NuevoStep(data)(acc, last.0, last.1);
      var o := NuevoPonderador(data, last.0, last.1);
      if o.Some? {
        assert Fold(items, [], NuevoStep(data)).value == acc + [o.value];
      }
    }
  }

  lemma {:induction false} FaseNamed(data: FormData, items: FormData)
    requires Fold(items, [], FaseStep(data)).Ok?
    ensures forall p :: p in Fold(items, [], FaseStep(data)).value ==> NombreLimpio(p.nombre)
    decreases |items|
  {
    if items != [] {
      var init := items[..|items| - 1];
      var last := items[|items| - 1];
      var prev := Fold(init, [], FaseStep(data));
      assert prev.Ok?;
      FaseNamed(data, init);
      var o := PonderadorFaseDe(data, last.0, last.1);
      assert Fold(items, [], FaseStep(data)) == FaseStep(data)(prev.value, last.0, last.1);
      if o.Ok? && o.value.Some? {
        assert Fold(items, [], FaseStep(data)).value == prev.value + [o.value.value];
      }
    }
  }

  /** Every factor the parse collects has a non-blank name without
      surrounding whitespace. */
  lemma ParsedNamesStripped(data: FormData)
    requires ParseStructure(data).Ok?
    ensures forall p :: p in ParseStructure(data).value.ponderadores ==> NombreLimpio(p.nombre)
    ensures forall p :: p in ParseStructure(data).value.ponderadoresFase ==> NombreLimpio(p.nombre)
  {
    NuevosNamed(data, data);
    assert Fold(data, [], FaseStep(data)).Ok?;
    FaseNamed(data, data);
  }

  // ----------------------------------------------------------- form cleans

  /** FaseForm.clean: a start date after the delivery date is rejected
      (dates as day numbers; an absent date is None). */
  function CleanFase(inicio: Option<int>, entrega: Option<int>): (ok: bool)
    ensures !ok <==> inicio.Some? && entrega.Some? && inicio.value > entrega.value
  {
    !(inicio.Some? && entrega.Some? && inicio.value > entrega.value)
  }

  /** The fields PonderadorForm.clean reads and rewrites. */
  datatype PonderadorCampos = PonderadorCampos(
    tipoValor: string,
    porcentaje: Option<real>,
    montoFijo: Option<real>,
    nivel: string,
    fase: Option<int>)

  /** PonderadorForm.clean: a percentage factor needs a (non-zero)
      percentage and loses its fixed amount, a fixed-amount factor the other
      way round; a phase-level factor needs a phase, any other level loses
      it. */
  method CleanPonderador(c: PonderadorCampos) returns (r: Result<PonderadorCampos, string>)
    ensures r.Err? <==> (c.tipoValor == "porcentaje" && !Truthy(c.porcentaje))
                        || (c.tipoValor == "monto_fijo" && !Truthy(c.montoFijo))
                        || (c.nivel == "fase" && c.fase.None?)
    ensures r.Ok? ==> r.value.tipoValor == c.tipoValor && r.value.nivel == c.nivel
    ensures r.Ok? && c.tipoValor == "porcentaje" ==> r.value.porcentaje == c.porcentaje && r.value.montoFijo.None?
    ensures r.Ok? && c.tipoValor == "monto_fijo" ==> r.value.montoFijo == c.montoFijo && r.value.porcentaje.None?
    ensures r.Ok? && c.tipoValor != "porcentaje" && c.tipoValor != "monto_fijo" ==>
              r.value.porcentaje == c.porcentaje && r.value.montoFijo == c.montoFijo
    ensures r.Ok? ==> r.value.fase == (if c.nivel == "fase" then c.fase else None)
  {
    var cleaned := c;
    if c.tipoValor == "porcentaje" {
      if !Truthy(c.porcentaje) {
        return Err("Debe especificar un porcentaje");
      }
      cleaned := cleaned.(montoFijo := None);
    } else if c.tipoValor == "monto_fijo" {
      if !Truthy(c.montoFijo) {
        return Err("Debe especificar un monto fijo");
      }
      cleaned := cleaned.(porcentaje := None);
    }
    if c.nivel == "fase" && c.fase.None? {
      return Err("Debe seleccionar una fase");
    } else if c.nivel != "fase" {
      cleaned := cleaned.(fase := None);
    }
    r := Ok(cleaned);
  }

  /** The percentage PonderadorSimpleForm derives from an extra amount and
      the base price per square metre: monto / precio_base * 100, or 0 when
      either is missing or zero. */
  function PorcentajeSimple(montoExtra: Option<real>, precioBase: real): (p: real)
    ensures !Truthy(montoExtra) || precioBase == 0.0 ==> p == 0.0
  {
    if Truthy(montoExtra) && precioBase != 0.0 then montoExtra.value / precioBase * 100.0 else 0.0
  }

  /** The derived percentage applied to the base price gives the extra
      amount back. */
  lemma PorcentajeSimpleInverse(monto: real, precioBase: real)
    requires monto != 0.0 && precioBase != 0.0
    ensures precioBase * PorcentajeSimple(Some(monto), precioBase) / 100.0 == monto
  {
    var p := PorcentajeSimple(Some(monto), precioBase);
    assert p == monto / precioBase * 100.0;
    assert precioBase * (monto / precioBase) == monto;
  }
}

=== FILE: widget.dfy ===
/** The user-search widget of the browser front end: the search box and its
    selection state, the create-user modal's username suggestion and error
    box, and the manual coordinate entry shown when the map library is
    missing. Network replies are given as arguments; timers, the DOM and
    the map are not modelled. */
module UserSearchWidget {
  import opened Common

  // ---------------------------------------------------------------------
  // The search widget
  // ---------------------------------------------------------------------

  /** A user as the search endpoint returns it; an absent full name is "". */
  datatype User = User(id: int, fullName: string, username: string, email: string)

  /** `user.full_name || user.username` */
  function DisplayName(u: User): (s: string)
    ensures u.fullName != [] ==> s == u.fullName
    ensures u.fullName == [] ==> s == u.username
  {
    if u.fullName != [] then u.fullName else u.username
  }

  /** What the dropdown's list shows. */
  datatype Listado = SinCargar | SinResultados | Usuarios(users: seq<User>) | MensajeError(message: string)

  /** displayUsers: the "no results" notice for an empty list, otherwise
      one entry per user, in order. */
  function Mostrar(users: seq<User>): (l: Listado)
    ensures l == SinResultados <==> users == []
    ensures l != SinResultados ==> l == Usuarios(users) && users != []
  {
    if users == [] then SinResultados else Usuarios(users)
  }

  /** A reply of the search endpoint: `success` with users, `success`
      false with a message ("" when absent), or a failed request. */
  datatype SearchResponse = Exito(users: seq<User>) | Fallo(message: string) | SinConexion

  const ErrorBusqueda: string := "Error al buscar usuarios"
  const ErrorConexionBusqueda: string := "Error de conexión al buscar usuarios"

  /** The hidden input's value for a selection: the id as text, or "". */
  function ValorOculto(sel: Option<User>): (v: string)
    ensures v == [] <==> sel.None?
  {
    match sel
    case None => ""
    case Some(u) => IntToString(u.id)
  }

  class Widget {
    const minChars: nat
    var selectedUser: Option<User>
    var users: seq<User>
    var isOpen: bool
    var searchText: string
    var hiddenValue: string
    var listado: Listado
    /** The query the debounce timer will search for, if one is pending. */
    var pendingQuery: Option<string>

    /** The hidden form value always names the selected user. */
    predicate Valid()
      reads this
    {
      hiddenValue == ValorOculto(selectedUser)
    }

    /** getValue: the selected user's id, or null. */
    function GetValue(): (r: Option<int>)
      reads this
      ensures r.None? <==> selectedUser.None?
      ensures Valid() ==> (r.None? <==> hiddenValue == [])
      ensures Valid() && r.Some? ==> hiddenValue == IntToString(r.value)
    {
      match selectedUser
      case None => None
      case Some(u) => Some(u.id)
    }

    constructor (minChars: nat)
      ensures this.minChars == minChars
      ensures selectedUser.None? && users == [] && !isOpen && searchText == [] && hiddenValue == []
      ensures listado == SinCargar && pendingQuery.None?
      ensures Valid()
    {
      this.minChars := minChars;
      selectedUser := None;
      users := [];
      isOpen := false;
      searchText := "";
      hiddenValue := "";
      listado := SinCargar;
      pendingQuery := None;
    }

    /** handleSearch: any pending search is cancelled; a query shorter
        than minChars shows the cached users again and schedules nothing;
        a longer one schedules a search for itself. */
    method HandleSearch(query: string)
      modifies this
      ensures |query| < minChars ==> pendingQuery.None? && listado == Mostrar(users)
      ensures |query| >= minChars ==> pendingQuery == Some(query) && listado == old(listado)
      ensures selectedUser == old(selectedUser) && users == old(users) && isOpen == old(isOpen)
      ensures searchText == old(searchText) && hiddenValue == old(hiddenValue)
    {
      pendingQuery := None;
      if |query| < minChars {
        listado := Mostrar(users);
        return;
      }
      pendingQuery := Some(query);
    }

    /** searchUsers, once the timer has fired and the reply is in: the
        found users are shown (the cache is not replaced); a refusal shows
        its message or a default one; a failed request shows the
        connection error. */
    method SearchUsers(resp: SearchResponse)
      modifies this
      ensures pendingQuery.None?
      ensures resp.Exito? ==> listado == Mostrar(resp.users)
      ensures resp.Fallo? ==> listado == MensajeError(if resp.message != [] then resp.message else ErrorBusqueda)
      ensures resp.SinConexion? ==> listado == MensajeError(ErrorConexionBusqueda)
      ensures selectedUser == old(selectedUser) && users == old(users) && isOpen == old(isOpen)
      ensures searchText == old(searchText) && hiddenValue == old(hiddenValue)
    {
      pendingQuery := None;
      match resp
      case Exito(found) =>
        listado := Mostrar(found);
      case Fallo(message) =>
        listado := MensajeError(if message != [] then message else ErrorBusqueda);
      case SinConexion =>
        listado := MensajeError(ErrorConexionBusqueda);
    }

    /** loadInitialUsers: a successful reply becomes the cache and is
        shown; anything else changes nothing. */
    method LoadInitialUsers(resp: SearchResponse)
      modifies this
      ensures resp.Exito? ==> users == resp.users && listado == Mostrar(resp.users)
      ensures !resp.Exito? ==> users == old(users) && listado == old(listado)
      ensures selectedUser == old(selectedUser) && isOpen == old(isOpen) && pendingQuery == old(pendingQuery)
      ensures searchText == old(searchText) && hiddenValue == old(hiddenValue)
    {
      if resp.Exito? {
        users := resp.users;
        listado := Mostrar(users);
      }
    }

    /** selectUser: the user becomes the selection, its name fills the box,
        its id the hidden input, and the dropdown closes. */
    method SelectUser(u: User)
      modifies this
      ensures selectedUser == Some(u) && searchText == DisplayName(u) && hiddenValue == IntToString(u.id)
      ensures !isOpen
      ensures users == old(users) && listado == old(listado) && pendingQuery == old(pendingQuery)
      ensures Valid() && GetValue() == Some(u.id)
    {
      selectedUser := Some(u);
      searchText := DisplayName(u);
      hiddenValue := IntToString(u.id);
      isOpen := false;
    }

    /** setValue: the selection becomes a user known only by id and name. */
    method SetValue(userId: int, userName: string)
      modifies this
      ensures hiddenValue == IntToString(userId) && searchText == userName
      ensures selectedUser == Some(User(userId, userName, "", ""))
      ensures users == old(users) && listado == old(listado) && isOpen == old(isOpen)
      ensures pendingQuery == old(pendingQuery)
      ensures Valid() && GetValue() == Some(userId)
    {
      hiddenValue := IntToString(userId);
      searchText := userName;
      selectedUser := Some(User(userId, userName, "", ""));
    }

    /** clear: no selection, empty box and hidden input, dropdown closed. */
    method Clear()
      modifies this
      ensures selectedUser.None? && searchText == [] && hiddenValue == [] && !isOpen
      ensures users == old(users) && listado == old(listado) && pendingQuery == old(pendingQuery)
      ensures Valid() && GetValue().None?
    {
      selectedUser := None;
      searchText := "";
      hiddenValue := "";
      isOpen := false;
    }

    method ShowDropdown()
      modifies this
      ensures isOpen
      ensures selectedUser == old(selectedUser) && users == old(users) && listado == old(listado)
      ensures searchText == old(searchText) && hiddenValue == old(hiddenValue) && pendingQuery == old(pendingQuery)
    {
      isOpen := true;
    }

    /** The modal's onUserCreated: the new user goes to the front of the
        cache, becomes the selection, and the cache is shown. */
    method OnUserCreated(u: User)
      modifies this
      ensures users == [u] + old(users)
      ensures selectedUser == Some(u) && searchText == DisplayName(u) && !isOpen
      ensures listado == Usuarios(users)
      ensures Valid() && GetValue() == Some(u.id)
      ensures pendingQuery == old(pendingQuery)
    {
      users := [u] + users;
      SelectUser(u);
      listado := Mostrar(users);
    }
  }

  // ---------------------------------------------------------------------
  // Username suggestion (create-user modal)
  // ---------------------------------------------------------------------

  /** The characters `/[^a-z0-9._]/g` leaves in place. */
  predicate UsernameChar(c: char)
  {
    'a' <= c <= 'z' || '0' <= c <= '9' || c == '.' || c == '_'
  }

  /** One character through the filter. */
  function KeepChar(c: char): (r: string)
    ensures UsernameChar(c) ==> r == [c]
    ensures !UsernameChar(c) ==> r == []
  {
    if UsernameChar(c) then [c] else []
  }

  /** `.replace(/[^a-z0-9._]/g, '')` */
  function KeepUsernameChars(s: string): (r: string)
    ensures forall i :: 0 <= i < |r| ==> UsernameChar(r[i])
    ensures |r| <= |s|
    ensures (forall i :: 0 <= i < |s| ==> UsernameChar(s[i])) ==> r == s
  {
    if s == [] then [] else KeepChar(s[0]) + KeepUsernameChars(s[1..])
  }

  lemma {:induction false} KeepConcat(a: string, b: string)
    ensures KeepUsernameChars(a + b) == KeepUsernameChars(a) + KeepUsernameChars(b)
  {
    if a == [] {
      assert a + b == b;
    } else {
      var t := a[1..] + b;
      assert (a + b)[0] == a[0] && (a + b)[1..] == t;
      KeepConcat(a[1..], b);
      calc {
        KeepUsernameChars(a + b);
        KeepChar(a[0]) + KeepUsernameChars(t);
        KeepChar(a[0]) + (KeepUsernameChars(a[1..]) + KeepUsernameChars(b));
        (KeepChar(a[0]) + KeepUsernameChars(a[1..])) + KeepUsernameChars(b);
      }
    }
  }

  lemma KeepOne(c: char)
    requires UsernameChar(c)
    ensures KeepUsernameChars([c]) == [c]
  {
    assert [c][1..] == [];
  }

  /** The dot between the names is kept. */
  lemma KeepAroundDot(f: string, l: string)
    ensures KeepUsernameChars(f + "." + l) == KeepUsernameChars(f) + "." + KeepUsernameChars(l)
  {
    KeepConcat(f + ".", l);
    KeepConcat(f, ".");
    KeepOne('.');
  }

  /** Filtering twice removes nothing more. */
  lemma KeepIdempotent(s: string)
    ensures KeepUsernameChars(KeepUsernameChars(s)) == KeepUsernameChars(s)
  {
  }

  /** The suggestion for a first and a last name: both trimmed and
      lowercased, joined by a dot, everything but [a-z0-9._] removed; no
      suggestion unless both are non-empty. The dot always survives and
      splits the two filtered names. */
  function DerivedUsername(firstName: string, lastName: string): (r: Option<string>)
    ensures r.Some? <==> Strip(firstName) != [] && Strip(lastName) != []
    ensures r.Some? ==> forall i :: 0 <= i < |r.value| ==> UsernameChar(r.value[i])
    ensures r.Some? ==> (r.value == KeepUsernameChars(Lower(Strip(firstName))) + "."
      + KeepUsernameChars(Lower(Strip(lastName))))
  {
    var f := Lower(Strip(firstName));
    var l := Lower(Strip(lastName));
    if f != [] && l != [] then
      KeepAroundDot(f, l);
      Some(KeepUsernameChars(f + "." + l))
    else None
  }

  /** An accented letter is dropped rather than transliterated: "Juan"
      and "Pérez" suggest "juan.prez". */
  lemma AcentoEliminado(firstName: string, lastName: string)
    requires firstName == "Juan" && lastName == "Pérez"
    ensures DerivedUsername(firstName, lastName) == Some("juan.prez")
  {
    StripWord(firstName);
    StripWord(lastName);
    LowerJuan();
    LowerPerez();
    KeepJuan();
    KeepPerez();
    JuanPrez();
  }

  lemma JuanPrez()
    ensures "juan" + "." + "prez" == "juan.prez"
  {
  }

  lemma LowerJuan()
    ensures Lower("Juan") == "juan"
  {
    var r := Lower("Juan");
    assert r[0] == LowerChar('J') == 'j';
  }

  lemma LowerPerez()
    ensures Lower("Pérez") == "pérez"
  {
    var r := Lower("Pérez");
    assert r[0] == LowerChar('P') == 'p';
  }

  lemma KeepJuan()
    ensures KeepUsernameChars("juan") == "juan"
  {
  }

  lemma KeepPerez()
    ensures KeepUsernameChars("pérez") == "prez"
  {
    assert !UsernameChar('é');
    assert "pérez"[1..] == "érez";
    assert "érez"[1..] == "rez";
    KeepUsernameCharsAll("rez");
  }

  lemma KeepUsernameCharsAll(s: string)
    requires forall i :: 0 <= i < |s| ==> UsernameChar(s[i])
    ensures KeepUsernameChars(s) == s
  {
  }

  /** The username input and its data-auto-generated flag. */
  class UsernameField {
    var value: string
    var autoGenerated: bool

    constructor ()
      ensures value == [] && !autoGenerated
    {
      value := "";
      autoGenerated := false;
    }

    /** The input handler of the name fields: while the username is empty
        or still the suggestion, a new suggestion replaces it and marks it
        as one; a username typed by hand is never overwritten. */
    method OnNameInput(firstName: string, lastName: string)
      modifies this
      ensures old(value) != [] && !old(autoGenerated) ==> value == old(value) && !autoGenerated
      ensures (old(value) == [] || old(autoGenerated)) && DerivedUsername(firstName, lastName).Some? ==>
        value == DerivedUsername(firstName, lastName).value && autoGenerated
      ensures DerivedUsername(firstName, lastName).None? ==> value == old(value) && autoGenerated == old(autoGenerated)
    {
      if value == [] || autoGenerated {
        var d := DerivedUsername(firstName, lastName);
        if d.Some? {
          value := d.value;
          autoGenerated := true;
        }
      }
    }

    /** The username's own input handler: the typed text stays and is no
        longer a suggestion. */
    method OnUsernameInput(typed: string)
      modifies this
      ensures value == typed && !autoGenerated
    {
      value := typed;
      autoGenerated := false;
    }
  }

  // ---------------------------------------------------------------------
  // The create-user error box
  // ---------------------------------------------------------------------

  /** A value of the `errors` object: a message or a list of them. */
  datatype ErrorValue = Texto(text: string) | Lista(items: seq<string>)

  /** What showError receives. */
  datatype ErrorPayload = Mensaje(text: string) | Campos(values: seq<ErrorValue>)

  /** `Object.values(errors).flat()` */
  function Flat(values: seq<ErrorValue>): (r: seq<string>)
    ensures forall m :: m in r <==> exists v :: v in values && ((v.Texto? && v.text == m) || (v.Lista? && m in v.items))
  {
    if values == [] then []
    else
      var head := match values[0] case Texto(t) => [t] case Lista(items) => items;
      assert forall v :: v in values <==> v == values[0] || v in values[1..];
      head + Flat(values[1..])
  }

  /** Flattening keeps the order of the values: it distributes over
      concatenation, ... */
  lemma {:induction false} FlatAppend(a: seq<ErrorValue>, b: seq<ErrorValue>)
    ensures Flat(a + b) == Flat(a) + Flat(b)
  {
    if a != [] {
      assert (a + b)[0] == a[0];
      assert (a + b)[1..] == a[1..] + b;
      FlatAppend(a[1..], b);
    } else {
      assert a + b == b;
    }
  }

  /** ... and one value flattens to its message or its list of messages. */
  lemma FlatSingle(v: ErrorValue)
    ensures v.Texto? ==> Flat([v]) == [v.text]
    ensures v.Lista? ==> Flat([v]) == v.items
  {
    assert [v][1..] == [];
  }

  const Br: string := "<br>"

  /** `.join('<br>')` */
  function JoinBr(xs: seq<string>): string
  {
    if xs == [] then "" else if |xs| == 1 then xs[0] else xs[0] + Br + JoinBr(xs[1..])
  }

  lemma OccursShift(pre: string, rest: string, sub: string, k: int)
    requires OccursAt(rest, sub, k)
    ensures OccursAt(pre + rest, sub, |pre| + k)
  {
    assert (pre + rest)[|pre| + k..|pre| + k + |sub|] == rest[k..k + |sub|];
  }

  lemma OccursFront(x: string, post: string)
    ensures OccursAt(x + post, x, 0)
  {
    assert (x + post)[0..|x|] == x;
  }

  /** The message m appears somewhere in the text shown. */
  ghost predicate Shown(html: string, m: string)
  {
    exists k :: OccursAt(html, m, k)
  }

  /** Every message appears in the joined text. */
  lemma JoinBrContains(xs: seq<string>)
    ensures forall i :: 0 <= i < |xs| ==> Shown(JoinBr(xs), xs[i])
  {
    forall i | 0 <= i < |xs| ensures Shown(JoinBr(xs), xs[i]) {
      var k := JoinBrPosition(xs, i);
      assert OccursAt(JoinBr(xs), xs[i], k);
    }
  }

  /** Where the i-th message sits in the joined text. */
  lemma {:induction false} JoinBrPosition(xs: seq<string>, i: nat) returns (k: int)
    requires i < |xs|
    ensures OccursAt(JoinBr(xs), xs[i], k)
  {
    if |xs| == 1 {
      assert JoinBr(xs) == xs[0];
      k := 0;
      assert JoinBr(xs)[0..|xs[0]|] == xs[0];
    } else {
      var rest := JoinBr(xs[1..]);
      assert JoinBr(xs) == xs[0] + Br + rest;
      if i == 0 {
        OccursFront(xs[0], Br + rest);
        assert xs[0] + (Br + rest) == JoinBr(xs);
        k := 0;
      } else {
        var j := JoinBrPosition(xs[1..], i - 1);
        assert xs[1..][i - 1] == xs[i];
        OccursShift(xs[0] + Br, rest, xs[i], j);
        k := |xs[0] + Br| + j;
      }
    }
  }

  /** The joined text is as long as the messages plus one separator
      between each two. */
  lemma {:induction false} JoinBrLength(xs: seq<string>)
    ensures |JoinBr(xs)| == LongitudTotal(xs) + (if xs == [] then 0 else |Br| * (|xs| - 1))
  {
    if |xs| > 1 {
      JoinBrLength(xs[1..]);
    }
  }

  function LongitudTotal(xs: seq<string>): nat
  {
    if xs == [] then 0 else |xs[0]| + LongitudTotal(xs[1..])
  }

  /** showError: a string is shown as it is, an error object as its
      messages, flattened and separated by <br>; every message of the
      object is in the text shown. */
  function ErrorHtml(p: ErrorPayload): (html: string)
    ensures p.Mensaje? ==> html == p.text
    ensures p.Campos? ==> forall m :: m in Flat(p.values) ==> Shown(html, m)
    ensures p.Campos? ==> html == JoinBr(Flat(p.values))
  {
    match p
    case Mensaje(t) => t
    case Campos(values) =>
      var flat := Flat(values);
      JoinBrContains(flat);
      JoinBr(flat)
  }

  /** In particular each message of each list value, and each single
      message, is in the text shown. */
  lemma ErrorHtmlShowsAll(values: seq<ErrorValue>)
    ensures forall v, m :: v in values && v.Lista? && m in v.items ==>
      Shown(ErrorHtml(Campos(values)), m)
    ensures forall v :: v in values && v.Texto? ==> Shown(ErrorHtml(Campos(values)), v.text)
  {
    var h := ErrorHtml(Campos(values));
    assert forall m :: m in Flat(values) ==> Shown(h, m);
    forall v, m | v in values && v.Lista? && m in v.items
      ensures Shown(h, m)
    {
      assert m in Flat(values);
    }
    forall v | v in values && v.Texto?
      ensures Shown(h, v.text)
    {
      assert v.text in Flat(values);
    }
  }

  const ErrorCreacion: string := "Error al crear el usuario"

  /** The argument createUser passes to showError on a refusal:
      `data.errors || data.message || default`; an errors object, even an
      empty one, wins. */
  function ErrorDeCreacion(errors: Option<seq<ErrorValue>>, message: string): (p: ErrorPayload)
    ensures errors.Some? ==> p == Campos(errors.value)
    ensures errors.None? && message != [] ==> p == Mensaje(message)
    ensures errors.None? && message == [] ==> p == Mensaje(ErrorCreacion)
  {
    if errors.Some? then Campos(errors.value)
    else if message != [] then Mensaje(message)
    else Mensaje(ErrorCreacion)
  }

  // ---------------------------------------------------------------------
  // Manual coordinates when the map is unavailable
  // ---------------------------------------------------------------------

  /** The longest run of digits at the front of s. */
  function LeadingDigits(s: string): (d: string)
    ensures AllDigits(d) && |d| <= |s| && d == s[..|d|]
    ensures |d| < |s| ==> !IsDigit(s[|d|])
  {
    if s != [] && IsDigit(s[0]) then [s[0]] + LeadingDigits(s[1..]) else []
  }

  lemma {:induction false} LeadingDigitsConcat(a: string, b: string)
    requires AllDigits(a)
    requires b == [] || !IsDigit(b[0])
    ensures LeadingDigits(a + b) == a
  {
    if a != [] {
      LeadingDigitsConcat(a[1..], b);
      assert (a + b)[1..] == a[1..] + b;
    } else {
      assert a + b == b;
    }
  }

  /** An unsigned decimal at the front of u: digits, then optionally a
      point and more digits, with at least one digit in all; the rest of u
      is ignored. */
  function UnsignedPrefix(u: string): Option<real>
  {
    var i := LeadingDigits(u);
    var f := FractionDigits(u[|i|..]);
    if i == [] && f == [] then None else Some(DecimalValue(i, f))
  }

  /** The digits after a point at the front of rest; none without one. */
  function FractionDigits(rest: string): (f: string)
    ensures AllDigits(f)
  {
    if rest != [] && rest[0] == '.' then LeadingDigits(rest[1..]) else []
  }

  /** The value of the integer digits i and the fraction digits f. */
  function DecimalValue(i: string, f: string): real
    requires AllDigits(i) && AllDigits(f)
  {
    DigitsValue(i) as real + (DigitsValue(f) as real) / (Pow10(|f|) as real)
  }

  /** JavaScript's parseFloat on decimal text: leading whitespace and a
      sign are skipped, the longest decimal prefix is read, and the rest is
      ignored; no number at the front gives NaN, here None. */
  function ParseFloatPrefix(s: string): (r: Option<real>)
  {
    SignedPrefix(StripLeft(s))
  }

  /** A sign, if any, then an unsigned decimal prefix. */
  function SignedPrefix(t: string): Option<real>
  {
    if t != [] && (t[0] == '-' || t[0] == '+') then WithSign(t[0], UnsignedPrefix(t[1..]))
    else UnsignedPrefix(t)
  }

  function WithSign(sign: char, v: Option<real>): Option<real>
  {
    match v
    case Some(x) => Some(if sign == '-' then -x else x)
    case None => None
  }


  /** Nothing at the front of tail continues a number. */
  predicate EndsNumber(tail: string)
  {
    tail == [] || (!IsDigit(tail[0]) && tail[0] != '.')
  }

  /** Digits followed by something that is not a digit or a point. */
  lemma PrefixInteger(d: string, tail: string)
    requires d != [] && AllDigits(d)
    requires EndsNumber(tail)
    ensures UnsignedPrefix(d + tail) == Some(DecimalValue(d, []))
  {
    var u := d + tail;
    assert LeadingDigits(u) == d by {
      LeadingDigitsConcat(d, tail);
    }
    assert u[|d|..] == tail;
    assert FractionDigits(tail) == [];
  }

  lemma DecimalWithoutFraction(d: string)
    requires AllDigits(d)
    ensures DecimalValue(d, []) == DigitsValue(d) as real
  {
    assert DigitsValue([]) == 0 && Pow10(0) == 1;
  }

  /** Digits, a point and digits, followed by whitespace or nothing. */
  lemma PrefixFraction(p0: string, p1: string, tail: string)
    requires AllDigits(p0) && AllDigits(p1) && (p0 != [] || p1 != [])
    requires EndsNumber(tail)
    ensures UnsignedPrefix(p0 + "." + p1 + tail) == Some(DecimalValue(p0, p1))
  {
    var u := p0 + "." + p1 + tail;
    var after := "." + p1 + tail;
    assert u == p0 + after;
    LeadingDigitsConcat(p0, after);
    assert u[|p0|..] == after;
    assert after[1..] == p1 + tail;
    LeadingDigitsConcat(p1, tail);
    assert FractionDigits(after) == p1;
  }

  lemma UnsignedAgrees(core: string, tail: string)
    requires ParseUnsignedDecimal(core).Some?
    requires EndsNumber(tail)
    ensures UnsignedPrefix(core + tail) == ParseUnsignedDecimal(core)
  {
    var parts := Split(core, '.');
    JoinSplit(core, '.');
    if |parts| == 1 {
      PrefixInteger(core, tail);
      DecimalWithoutFraction(core);
    } else {
      assert |parts| == 2;
      assert Join(parts[1..], '.') == parts[1];
      assert core == parts[0] + "." + parts[1];
      PrefixFraction(parts[0], parts[1], tail);
      assert ParseUnsignedDecimal(core) == Some(DecimalValue(parts[0], parts[1]));
    }
  }

  /** A signed decimal literal followed by something that does not continue
      it is read by the prefix parser as the whole-text parser reads it. */
  lemma SignedAgrees(core: string, tail: string)
    requires SignedDecimal(core).Some?
    requires EndsNumber(tail)
    ensures SignedPrefix(core + tail) == SignedDecimal(core)
  {
    var t := core + tail;
    assert t[0] == core[0];
    if core[0] == '-' || core[0] == '+' {
      assert t[1..] == core[1..] + tail;
      UnsignedAgrees(core[1..], tail);
    } else {
      UnsignedAgrees(core, tail);
    }
  }

  /** Leading whitespace removed, the text is its stripped form followed by
      whitespace or nothing. */
  lemma StripLeftSplit(s: string) returns (tail: string)
    requires Strip(s) != []
    ensures StripLeft(s) == Strip(s) + tail && EndsNumber(tail)
  {
    tail := RightSplit(StripLeft(s));
    SpaceEndsNumber(tail);
  }

  /** A text is its right-stripped form followed by whitespace or nothing. */
  lemma RightSplit(t: string) returns (tail: string)
    ensures t == StripRight(t) + tail && (tail == [] || IsSpace(tail[0]))
  {
    var core := StripRight(t);
    tail := t[|core|..];
    assert core == t[..|core|];
    if tail != [] {
      assert IsSpace(t[|core|]);
    }
  }

  /** On a plain decimal literal with surrounding whitespace, parseFloat
      reads the number Python's float() reads: the prefix reading agrees
      with the whole-text one. */
  lemma ParseFloatPrefixAgrees(s: string)
    requires SignedDecimal(Strip(s)).Some?
    ensures ParseFloatPrefix(s) == SignedDecimal(Strip(s))
    ensures ParseFloat(s) == Some(Finite(ParseFloatPrefix(s).value))
  {
    var tail := StripLeftSplit(s);
    SignedAgrees(Strip(s), tail);
    PlainDecimalIsFloat(Strip(s));
  }

  lemma SpaceEndsNumber(tail: string)
    requires tail == [] || IsSpace(tail[0])
    ensures EndsNumber(tail)
  {
  }


  /** The coordinates the two manual fields give: a pair when both read
      as numbers, none otherwise. */
  function ManualPair(latText: string, lngText: string): (r: Option<(real, real)>)
    ensures r.Some? <==> ParseFloatPrefix(latText).Some? && ParseFloatPrefix(lngText).Some?
    ensures r.Some? ==> r.value == (ParseFloatPrefix(latText).value, ParseFloatPrefix(lngText).value)
  {
    match (ParseFloatPrefix(latText), ParseFloatPrefix(lngText))
    case (Some(lat), Some(lng)) => Some((lat, lng))
    case _ => None
  }

  /** The location modal's state. */
  class LocationSelector {
    var selected: Option<(real, real)>
    var confirmEnabled: bool
    var infoVisible: bool

    /** The confirm button is enabled exactly while coordinates are held,
        and the coordinates box is shown with them. */
    predicate Valid()
      reads this
    {
      confirmEnabled == selected.Some? && infoVisible == selected.Some?
    }

    constructor ()
      ensures selected.None? && !confirmEnabled && !infoVisible && Valid()
    {
      selected := None;
      confirmEnabled := false;
      infoVisible := false;
    }

    /** The input handler of the manual fields: both must parse to hold
        coordinates and enable confirm; otherwise they are dropped. */
    method OnManualInput(latText: string, lngText: string)
      modifies this
      ensures selected == ManualPair(latText, lngText)
      ensures confirmEnabled == selected.Some?
      ensures Valid()
    {
      var sel := ManualPair(latText, lngText);
      Hold(sel);
    }

    /** Shows the given coordinates, or hides the box and disables confirm
        when there are none. */
    method Hold(sel: Option<(real, real)>)
      modifies this
      ensures selected == sel && confirmEnabled == sel.Some? && Valid()
    {
      selected, infoVisible, confirmEnabled := sel, sel.Some?, sel.Some?;
    }

    /** setLocation: a click on the map holds its coordinates. */
    method SetLocation(lat: real, lng: real)
      modifies this
      ensures selected == Some((lat, lng)) && confirmEnabled && Valid()
    {
      Hold(Some((lat, lng)));
    }

    /** The confirm handler: the held coordinates go to the caller, and
        nothing does when none are held. */
    method Confirm() returns (chosen: Option<(real, real)>)
      requires Valid()
      ensures chosen == selected
      ensures chosen.Some? <==> confirmEnabled
    {
      chosen := selected;
    }
  }
}
